=== FILE: README.md ===
# GameAISimulator core in Dafny

A Dafny model of the simulation core of GameAISimulator, a Unity project in
which agents move over a tiled level and decide what to do with behaviour
trees. The model covers three parts.

- **Hierarchical grid pathfinding.** The level is a grid of cells with
  terrain, elevation and slopes (`cells.dfy`, `cell_grid.dfy`). Its compass
  directions are in `directions.dfy`. Each cell carries a node, and
  neighbouring nodes are joined by typed edges (`edges.dfy`, `node_graph.dfy`).
  The grid is segmented into rectangular regions of one terrain each
  (`segmentation.dfy`, `regions.dfy`). Portals join neighbouring regions
  where runs of frontier cells touch (`runs.dfy`, `region_portals.dfy`,
  `all_portals.dfy`). An A* search runs over nodes, or over regions and
  portals (`astar.dfy`, `pathfinder.dfy`). It uses a binary min-heap and a
  priority queue (`binary_min_heap.dfy`, `priority_queue.dfy`). The path
  found is smoothed and pruned (`paths.dfy`). The road distance between
  every two regions is stored under a paired key (`region_distances.dfy`).
- **The behaviour-tree engine.** Leaves, Selector, Sequence, Invert and
  Repeat are ticked by `behavior_tree.dfy`. `behavior_tree_builder.dfy` holds
  the fluent builder that assembles trees. The repository's NUnit scenarios
  are restated as lemmas about built trees in `behavior_tree_tests.dfy`.
- **Utilities.** `object_pool.dfy` is the last-in-first-out object pool.
  `carousel.dfy` is the wrap-around option carousel of the menu.

`common.dfy` holds the shared `Option` and `Result` types and the point type.

The model has no mutable objects. Every component is an immutable value.
An operation that mutates objects in the source returns the updated values
instead. Object references, such as a node's parent or a region's portals,
are indices into sequences. Unity floats are modelled as Dafny `real`.
`Mathf.Infinity` is the `Inf` case of the cost type.
`Vector3.Distance`, `Mathf.Approximately` and `Random.Range` are parameters.

## Model

| member | source | states |
|---|---|---|
| Directions.Ordinal | Assets/GameAISim/Enums.cs:7-10 | the nine directions have the enum values 0..8 in declaration order: None 0, N 1, NE 2, E 3, SE 4, S 5, SW 6, W 7, NW 8 |
| Directions.FromOrdinal | Assets/GameAISim/Enums.cs:7-10 | a number names a direction exactly when it is in 0..8, and then names the direction with that value |
| Directions.OrdinalRoundTrip | Assets/GameAISim/Enums.cs:7-10 | converting a direction to its enum value and back gives the same direction |
| Directions.OrdinalInjective | Assets/GameAISim/Enums.cs:7-10 | distinct directions have distinct enum values |
| Directions.OppositeAsWritten | Assets/GameAISim/Enums.cs:14-21 | Opposite as written adds 4 to values below 4 and subtracts 4 from the rest |
| Directions.Opposite | Assets/GameAISim/Enums.cs:14-21 | the geometric reverse the enum evidently intends: it negates the grid step of every direction and keeps None, and only None, at None |
| Directions.OppositeAsWrittenTable | Assets/GameAISim/Enums.cs:14-21 | as written, SE maps to None and None to SE; every other direction maps to its geometric reverse |
| Directions.OppositeAsWrittenNotInvolution | Assets/GameAISim/Enums.cs:14-21 | as written, applying Opposite twice gives back every direction except NW, which ends at None |
| Directions.OppositeReversesOffset | Assets/GameAISim/Enums.cs:7-21 | the corrected Opposite reverses the grid step of every direction |
| Directions.OppositeInvolution | Assets/GameAISim/Enums.cs:14-21 | the corrected Opposite undoes itself |
| Directions.OppositeAgreesWithAsWritten | Assets/GameAISim/Enums.cs:14-21 | the corrected and as-written Opposite agree exactly on the directions other than SE and None |
| Directions.TopTypeFromOrdinal | Assets/GameAISim/Enums.cs:30-35 | a byte names a top type exactly when it is 0..2, and then names the one with that value |
| Cells.NewCell | Assets/LevelEditor/Scripts_LevelEditor/Cell.cs:15-27 | a new cell has region -1, the Dirt0/Grass0 textures, a flat top facing no direction, elevation 0 and no neighbours |
| Cells.SetSlot | Assets/LevelEditor/Scripts_LevelEditor/Cell.cs:112-113 | writing one neighbour slot of the eight changes that slot and nothing else in the cell |
| Cells.GetNeighbor | Assets/LevelEditor/Scripts_LevelEditor/Cell.cs:104-107 | reads the slot of the direction's enum value: for every direction but NW the neighbour recorded in that direction, and for None the north-west neighbour, which the reverse of an SE link puts in slot 0 |
| Cells.SetNeighbor | Assets/LevelEditor/Scripts_LevelEditor/Cell.cs:109-114 | cell i records j in the slot of d, and j records i in the slot of the source's Opposite(d), so the reverse of an SE link lands in slot 0 (None); every other slot of every cell and every other field stays as it was |
| Cells.SetNeighborRecords | Assets/LevelEditor/Scripts_LevelEditor/Cell.cs:109-114 | read back by direction, a link makes j the neighbour of i towards d and i the neighbour of j towards the geometric opposite of d, and leaves every other recorded neighbour of every cell alone |
| Cells.Save | Assets/LevelEditor/Scripts_LevelEditor/Cell.cs:157-164 | a cell saves as exactly five bytes |
| Cells.Load | Assets/LevelEditor/Scripts_LevelEditor/Cell.cs:166-173 | loading succeeds exactly when five bytes are there and the last two name a top type and a direction; it consumes five bytes, reads elevation, base texture, top texture, top type and direction from bytes 0 to 4 in that order, and changes only those five fields |
| Cells.SaveLoadRoundTrip | Assets/LevelEditor/Scripts_LevelEditor/Cell.cs:157-173 | loading what a cell saved restores its five saved fields when they fit in a byte, and leaves the rest of the stream |
| Cells.LoadSaveRoundTrip | Assets/LevelEditor/Scripts_LevelEditor/Cell.cs:157-173 | saving a cell that loaded gives back the five bytes it was loaded from |
| Cells.SaveTruncatesElevation | Assets/LevelEditor/Scripts_LevelEditor/Cell.cs:159 | an elevation outside 0..255 comes back modulo 256 |
| CellGrid.IdxInjective | Assets/LevelEditor/Scripts_LevelEditor/CellGrid.cs:94-97 | two in-range columns with the same row-major index are the same cell position |
| CellGrid.IdxBounds | Assets/LevelEditor/Scripts_LevelEditor/CellGrid.cs:94-97 | every position on the grid has an index inside the Rows x Columns array |
| CellGrid.IdxOnto | Assets/LevelEditor/Scripts_LevelEditor/CellGrid.cs:32-43 | every array index is the row-major index of exactly one grid position |
| CellGrid.CreateAllCells | Assets/LevelEditor/Scripts_LevelEditor/CellGrid.cs:32-51 | the array holds Rows x Columns new cells, and the one at column + row x Columns has those coordinates |
| CellGrid.GetCell | Assets/LevelEditor/Scripts_LevelEditor/CellGrid.cs:94-97 | returns one of the grid's cells exactly when the row-major index of the coordinates lies in the array, and nothing (the source's IndexOutOfRangeException) otherwise |
| CellGrid.GetCellFindsCoordinates | Assets/LevelEditor/Scripts_LevelEditor/CellGrid.cs:94-97 | looking up a grid position returns the cell with those coordinates |
| CellGrid.Clamp | Assets/LevelEditor/Scripts_LevelEditor/CellGrid.cs:150 | clamping leaves values inside the range alone and sends the others to the nearer bound |
| CellGrid.FromPosition | Assets/LevelEditor/Scripts_LevelEditor/CellGrid.cs:147-156 | on a non-empty grid the coordinates always lie on the grid, and coordinates already on it are kept |
| CellGrid.FromPositionIdempotent | Assets/LevelEditor/Scripts_LevelEditor/CellGrid.cs:147-156 | converting coordinates twice gives the same as converting once |
| CellGrid.GetCellAtPositionInRange | Assets/LevelEditor/Scripts_LevelEditor/CellGrid.cs:86-92 | the index looked up for any position is inside the cell array |
| CellGrid.SetNeighbors | Assets/LevelEditor/Scripts_LevelEditor/CellGrid.cs:63-84 | the W, S, SW and SE links of one cell, each made only when the neighbour is on the grid, at the indices the source computes |
| CellGrid.SetWestNeighbor | Assets/LevelEditor/Scripts_LevelEditor/CellGrid.cs:65-68 | the west link is made exactly when the column is above 0, to index - 1 |
| CellGrid.SetSouthernNeighbors | Assets/LevelEditor/Scripts_LevelEditor/CellGrid.cs:70-83 | the S, SW and SE links are made under the row and column guards, to index - Columns, index - (Columns + 1) and index - (Columns - 1) |
| CellGrid.LinkStep | Assets/LevelEditor/Scripts_LevelEditor/CellGrid.cs:53-84 | each link extends the set of finished neighbour readings by exactly the two it writes: the direction at the cell, and the geometric opposite at the neighbour |
| CellGrid.SetAllNeighbors | Assets/LevelEditor/Scripts_LevelEditor/CellGrid.cs:53-62 | after the pass every cell's recorded neighbour in every direction is the adjacent cell on the grid, or none off it; through GetNeighbor each direction but NW gives that neighbour and None gives the north-west one; nothing else about the cells changes |
| CellGrid.ExpectedSymmetric | Assets/LevelEditor/Scripts_LevelEditor/CellGrid.cs:53-84 | the neighbours the pass records are symmetric: a cell's neighbour in a direction has the cell as its neighbour in the geometric opposite direction |
| CellGrid.ScanAsWritten | Assets/LevelEditor/Scripts_LevelEditor/CellGrid.cs:105-118 | the search loop as written: a cell it returns has the wanted elevation |
| CellGrid.GetRandomCellAsWritten | Assets/LevelEditor/Scripts_LevelEditor/CellGrid.cs:99-121 | GetRandomCell as written: a cell it returns has the wanted elevation |
| CellGrid.ScanFromZeroNeverEnds | Assets/LevelEditor/Scripts_LevelEditor/CellGrid.cs:105-118 | started at index 0 with no matching cell, the loop as written never stops, whatever the step bound |
| CellGrid.GetRandomCellFromZeroNeverEnds | Assets/LevelEditor/Scripts_LevelEditor/CellGrid.cs:99-121 | GetRandomCell as written does not return when the random start is 0 and no cell matches |
| CellGrid.ScanGivesUp | Assets/LevelEditor/Scripts_LevelEditor/CellGrid.cs:105-118 | from a start other than 0, the loop as written gives up after going once round the array |
| CellGrid.ForwardDistance | Assets/LevelEditor/Scripts_LevelEditor/CellGrid.cs:105-118 | every index is reached from the start by stepping forwards round the array fewer times than its length |
| CellGrid.GetRandomCell | Assets/LevelEditor/Scripts_LevelEditor/CellGrid.cs:99-121 | the corrected search returns the first cell with the wanted elevation going round from the start, and nothing exactly when no cell has that elevation |
| Edges.AreElevationsVaried | Assets/Pathfinding/Edge.cs:432-445 | the scan reports variation exactly when two of the elevations differ |
| Edges.VariedIffNotConstant | Assets/Pathfinding/Edge.cs:432-445 | differing from the first elevation is the same as two elevations differing |
| Edges.DetermineCost | Assets/Pathfinding/Edge.cs:455-470 | the cost is 1 for every direction except SE, which costs 1.41, and SW, which costs 1.4 |
| Edges.CostApproximatesStep | Assets/Pathfinding/Edge.cs:455-470 | the cost squared is within 0.04 of the squared length of the direction's grid step exactly for the directions other than NE, NW and None, so every direction an edge runs in costs about its step length |
| Edges.OtherNode | Assets/Pathfinding/Edge.cs:31-46 | given one endpoint, it returns the other; given a node that is not an endpoint, nothing |
| Edges.OtherNodeInvolution | Assets/Pathfinding/Edge.cs:31-46 | taking the other endpoint twice returns to the node it started from |
| Edges.Classify | Assets/Pathfinding/Edge.cs:48-430 | the edge type from the source's branches with the source's Opposite, which pairs SE with None; it is None only when the edge already had None |
| Edges.ClassifyWith | Assets/Pathfinding/Edge.cs:48-430 | the same branches for any reading of Opposite; no branch produces None |
| Edges.ClassifyIdempotent | Assets/Pathfinding/Edge.cs:48-430 | recomputing an edge's type a second time changes nothing |
| Edges.ClassifyPrevOnlyKept | Assets/Pathfinding/Edge.cs:48-430 | the type the edge had matters only in the combinations where it is kept unchanged |
| Edges.FlatFlatCardinal | Assets/Pathfinding/Edge.cs:182-196 | two flat tops joined W or S are Elevated exactly when their elevations differ, otherwise Flat |
| Edges.FlatFlatDiagonalFlatFlanks | Assets/Pathfinding/Edge.cs:57-91 | a flat diagonal with flat flanks is Flat exactly when all four elevations agree, otherwise Elevated |
| Edges.FlatFlatDiagonalSlopeFlank | Assets/Pathfinding/Edge.cs:93-179 | a flat diagonal with a sloped flank is Inaccessible |
| Edges.SameFacingCollinear | Assets/Pathfinding/Edge.cs:200-222 | slopes facing the same way, along the edge direction or the source's Opposite of it, are a Slope edge exactly when their elevations differ by one, otherwise Elevated |
| Edges.OppositeFacing | Assets/Pathfinding/Edge.cs:251-284 | slopes whose facings are opposite by the source's Opposite (so None and SE count as opposite) are Inaccessible side by side; otherwise they are a SlopeConnection exactly at equal elevation, and Elevated otherwise |
| Edges.Unchanged | Assets/Pathfinding/Edge.cs:421-430 | combinations with no branch (a flat top beside a slope on a diagonal, a corner top, slopes whose facings are neither equal nor opposite by the source's Opposite) keep the previous type |
| Edges.ClassifyNeverNone | Assets/Pathfinding/Edge.cs:48-430 | no branch of the classification assigns None |
| Edges.CardinalFacingsAgree | Assets/Pathfinding/Edge.cs:200-400 | where every slope faces N, E, S or W and the edge runs W, S, SW or SE, the source's classification is the one the geometric Opposite gives |
| Edges.NoneFacingPairsWithSoutheast | Assets/Pathfinding/Edge.cs:251-284 | slopes facing None and SE joined S count as facing opposite ways in the source and the edge is Inaccessible, while with the geometric Opposite they would keep the previous type |
| Edges.NewEdge | Assets/Pathfinding/Edge.cs:20-29 | a new edge joins the given nodes in the given direction, costs what the direction costs, and has the type the classification gives starting from a fresh field's default Flat; where no branch applies the edge is Flat; the type is never None and recomputing leaves it unchanged |
| Edges.Recalculate | Assets/Pathfinding/Edge.cs:48-430 | recalculating changes only the edge type, to the classification starting from the edge's current type; where no branch applies the edge is returned unchanged; the new type is a fixed point of the classification |
| NodeGraph.ResetSearchData | Assets/Pathfinding/Node.cs:70-77 | after a reset the node is unvisited with no parent and infinite g, h and f; its cell, position, edges and edge of parent are kept |
| NodeGraph.ResetForgetsSearch | Assets/Pathfinding/Node.cs:70-77 | a reset forgets every search field (nodes differing only in them reset alike) and resetting twice is resetting once |
| NodeGraph.NewNode | Assets/Pathfinding/Node.cs:62-68 | a new node sits at its cell's position, has no edges and starts reset |
| NodeGraph.CreateAllNodes | Assets/Pathfinding/NodeGraph.cs:20-32 | one node per cell, in cell order, each reset with no edges at its cell's position |
| NodeGraph.ResetAllSearchData | Assets/Pathfinding/NodeGraph.cs:73-79 | every node is reset and nothing but its search fields changes |
| NodeGraph.CellLinks | Assets/Pathfinding/NodeGraph.cs:44-65 | the edges one cell creates are W, S, SW, SE in that order, each to a neighbour on the grid |
| NodeGraph.CellLinksComplete | Assets/Pathfinding/NodeGraph.cs:44-65 | every W, S, SW or SE step that stays on the grid is among the cell's edges |
| NodeGraph.GridLinksOrdered | Assets/Pathfinding/NodeGraph.cs:34-43 | the row-by-row, cell-by-cell creation order never lists the same step twice |
| NodeGraph.PlanDistinct | Assets/Pathfinding/NodeGraph.cs:34-65 | no edge is planned twice |
| NodeGraph.PlanComplete | Assets/Pathfinding/NodeGraph.cs:34-65 | every downward step between grid cells is planned |
| NodeGraph.OneLinkPerPair | Assets/Pathfinding/NodeGraph.cs:44-65 | of a step and its reverse, exactly one is a downward step that creates an edge |
| NodeGraph.PlanCount | Assets/Pathfinding/NodeGraph.cs:34-65 | the graph has R(C-1) + (R-1)C + 2(R-1)(C-1) edges |
| NodeGraph.EdgeFor | Assets/Pathfinding/NodeGraph.cs:66-71 | the edge for a step joins the cell and its neighbour, two distinct nodes, in that direction at that direction's cost |
| NodeGraph.IncidentMeaning | Assets/Pathfinding/NodeGraph.cs:66-71 | a node's edge list holds exactly the indices of the edges touching it, in creation order |
| NodeGraph.CreateEdge | Assets/Pathfinding/NodeGraph.cs:66-71 | the edge is appended to the edge array and its index to both endpoints' lists; no other node changes |
| NodeGraph.CreateNodeEdges | Assets/Pathfinding/NodeGraph.cs:44-65 | one cell's guarded edges are created in order, extending the matched plan by that cell's steps |
| NodeGraph.CreateRowEdges | Assets/Pathfinding/NodeGraph.cs:38-41 | one row's cells create their edges in column order |
| NodeGraph.CreateAllNodeEdges | Assets/Pathfinding/NodeGraph.cs:34-43 | the edges created are exactly the planned ones in order, and every node lists the edges touching it |
| NodeGraph.Initialize | Assets/Pathfinding/NodeGraph.cs:13-18 | after initialisation there is one reset node per cell, the edge array follows the plan, and each node lists exactly its incident edges |
| NodeGraph.OneEdgePerPair | Assets/Pathfinding/NodeGraph.cs:13-65 | every pair of adjacent cells is joined by exactly one edge |
| NodeGraph.EveryEdgeListed | Assets/Pathfinding/NodeGraph.cs:66-71 | every edge is in the lists of both its endpoints |
| NodeGraph.Refresh | Assets/Pathfinding/Edge.cs:48-430 | refreshing an edge keeps its endpoints, direction and cost and gives it the classification of its current cells starting from its previous type; where no branch applies the edge is unchanged |
| NodeGraph.RecalculateAllEdgeData | Assets/Pathfinding/Node.cs:79-85 | exactly the edges in the node's list are refreshed, the rest stay as they were |
| NodeGraph.RecalculateAllNodeEdges | Assets/Pathfinding/NodeGraph.cs:81-87 | exactly the edges listed by some node are refreshed, the rest stay as they were |
| Paths.AddPoint | Assets/Pathfinding/Path.cs:15-28 | node and curve points are always appended; an edge point is appended exactly when its edge is a SlopeConnection or Elevated, and otherwise the path is unchanged |
| Paths.AddPointAppendOnly | Assets/Pathfinding/Path.cs:15-28 | adding a point never disturbs the points already on the path and grows it by at most one |
| Paths.WeightsSumToOne | Assets/Utilities/PolygonalChainPostProcessing.cs:13-18 | the Catmull-Rom weights at each quarter sum to one, and the weights at 3/4 are those at 1/4 reversed |
| Paths.SmoothedShape | Assets/Pathfinding/Pathfinder.cs:343-403 | a smoothed list of n >= 3 points has 4n - 3 entries: the original points at every fourth place, and between points k and k + 1 the three spline points of that segment |
| Paths.SmoothReversal | Assets/Utilities/PolygonalChainPostProcessing.cs:21-79 | smoothing a reversed list gives the reverse of the smoothed list: the first and last segments' end-point doubling mirror each other |
| Paths.SmoothTranslation | Assets/Utilities/PolygonalChainPostProcessing.cs:21-79 | smoothing commutes with moving every point by the same offset |
| Paths.SegmentStep | Assets/Pathfinding/Pathfinder.cs:373-385 | each loop round appends one original point and its segment's three spline points, in that order |
| Paths.SmoothChain | Assets/Utilities/PolygonalChainPostProcessing.cs:21-79 | the chain smoother returns lists shorter than 3 unchanged and otherwise the reference smoothing, which keeps every original point at every fourth place |
| Paths.AddSegment | Assets/Pathfinding/Pathfinder.cs:375-384 | the four AddPoint calls of one section always append all four points |
| Paths.SmoothPath | Assets/Pathfinding/Pathfinder.cs:343-403 | the path smoother gives the same reference smoothing over path points; every point of the result is an original point or a curve point |
| Paths.SmoothedKeepsPoints | Assets/Pathfinding/Pathfinder.cs:343-403 | a smoothed path keeps its original points in order and adds only curve points |
| Paths.ChainPruned | Assets/Utilities/PolygonalChainPostProcessing.cs:81-122 | the indices collinear-point removal keeps start at the first point, climb strictly to the last, and every kept interior point turns while every dropped one is collinear with the kept point before it and its successor |
| Paths.PrunedUnique | Assets/Utilities/PolygonalChainPostProcessing.cs:81-122 | those conditions determine the kept indices: any list meeting them from the same start is the same list |
| Paths.NothingCollinearKeepsAll | Assets/Utilities/PolygonalChainPostProcessing.cs:100-116 | when no point is collinear with its neighbours, every point is kept |
| Paths.AllCollinearKeepsEnds | Assets/Utilities/PolygonalChainPostProcessing.cs:100-116 | when every candidate is collinear with the first point and its successor, only the two end points remain |
| Paths.ScanSkip | Assets/Utilities/PolygonalChainPostProcessing.cs:106-110 | a collinear candidate is passed over and the anchor stays |
| Paths.ScanKeep | Assets/Utilities/PolygonalChainPostProcessing.cs:111-115 | any other candidate is kept and becomes the anchor |
| Paths.RemoveCollinearChain | Assets/Utilities/PolygonalChainPostProcessing.cs:81-122 | the chain version returns lists shorter than 3 unchanged and otherwise the reference reduction, which always keeps the first and last points |
| Paths.RemoveCollinearPath | Assets/Pathfinding/Pathfinder.cs:406-449 | the path version computes the same reduction over path points |
| Paths.ScanPathStep | Assets/Pathfinding/Pathfinder.cs:427-443 | one round of the path scan keeps or skips the candidate exactly as the reduction does |
| BinaryMinHeap.Swap | Assets/Utilities/BinaryMinHeap.cs:156-163 | swapping exchanges exactly the two slots and keeps the multiset of nodes |
| BinaryMinHeap.SiftUp | Assets/Utilities/BinaryMinHeap.cs:31-34 | moving a node up while its key is below its parent's restores heap order over a heap broken only there, without changing the nodes |
| BinaryMinHeap.SmallerChild | Assets/Utilities/BinaryMinHeap.cs:53-77 | the sift-down picks a child whose key is below the parent's and no larger than its sibling's, and picks none exactly when neither child is smaller |
| BinaryMinHeap.SiftDown | Assets/Utilities/BinaryMinHeap.cs:50-78 | moving a node down, always to the smaller child, restores heap order over a heap broken only there, without changing the nodes |
| BinaryMinHeap.Insert | Assets/Utilities/BinaryMinHeap.cs:23-35 | inserting into a heap gives a heap with exactly one more node, the one inserted |
| BinaryMinHeap.ExtractRoot | Assets/Utilities/BinaryMinHeap.cs:38-81 | extracting from a non-empty heap returns a node of least key and leaves a heap of the other nodes, one fewer |
| BinaryMinHeap.RootIsMinimum | Assets/Utilities/BinaryMinHeap.cs:11 | in a heap the root's key is no larger than any other key |
| BinaryMinHeap.Find | Assets/Utilities/BinaryMinHeap.cs:86-94 | the search finds the first node carrying the payload, or reports that none does |
| BinaryMinHeap.ChangeKey | Assets/Utilities/BinaryMinHeap.cs:84-154 | changing a key keeps a heap of the same size; a payload not in the heap changes nothing; otherwise the first node with the payload gets the new key; an equal key changes nothing |
| BinaryMinHeap.RaisedKeyBelow | Assets/Utilities/BinaryMinHeap.cs:105-108 | raising a key leaves the heap broken only below that node, so sifting down repairs it |
| BinaryMinHeap.LoweredKeyAbove | Assets/Utilities/BinaryMinHeap.cs:140-143 | lowering a key leaves the heap broken only above that node, so sifting up repairs it |
| BinaryMinHeap.Clear | Assets/Utilities/BinaryMinHeap.cs:174-177 | clearing leaves an empty heap |
| BinaryMinHeap.IsEmpty | Assets/Utilities/BinaryMinHeap.cs:165-172 | a heap is empty exactly when it holds no nodes |
| BinaryMinHeap.InsertSixExtractOne | Assets/Utilities/BinaryMinHeapTests.cs:11-30 | inserting keys 6, 3, 5, 1, 7, 8 and extracting gives the node with key 1, leaving a heap of the other five |
| PriorityQueue.Empty | Assets/Utilities/PriorityQueue.cs:7 | a new queue holds no jobs |
| PriorityQueue.Enqueue | Assets/Utilities/PriorityQueue.cs:9-12 | enqueueing adds exactly one job with the given priority |
| PriorityQueue.Dequeue | Assets/Utilities/PriorityQueue.cs:14-17 | dequeueing a non-empty queue removes and returns a job whose priority is the least |
| PriorityQueue.Clear | Assets/Utilities/PriorityQueue.cs:24-27 | clearing leaves an empty queue |
| PriorityQueue.IsEmpty | Assets/Utilities/PriorityQueue.cs:19-22 | a queue is empty exactly when it holds no jobs |
| PriorityQueue.IsEmptyMeansNoJobs | Assets/Utilities/PriorityQueue.cs:19-22 | a queue reports empty exactly when it holds no jobs |
| PriorityQueue.EnqueueThenDequeue | Assets/Utilities/PriorityQueue.cs:9-17 | a job enqueued on an empty queue is the one dequeued, leaving it empty |
| AStar.Penalty | Assets/Pathfinding/Pathfinder.cs:103-134 | with penalising on and a parent edge, an arc in another direction costs half its cost extra and one in the same direction nothing; otherwise there is no penalty |
| AStar.VisitAsWritten | Assets/Pathfinding/Pathfinder.cs:136-188 | one arc of the inner loop as written: a vertex outside the filter or already closed is skipped; an unseen one is discovered unless the arc is Elevated and the search does not jump; an open one is improved, through any arc, exactly when the new f cost is lower |
| AStar.VisitAsWrittenUsesElevated | Assets/Pathfinding/Pathfinder.cs:144-184 | as written, without jumping, an Elevated edge still improves a neighbour on the open list and becomes its parent edge |
| AStar.Visit | Assets/Pathfinding/Pathfinder.cs:136-188 | one arc of the corrected inner loop: an unusable arc (filtered out, or Elevated without jumping) is skipped; an unseen neighbour is opened with this vertex as parent and finite costs; an open neighbour is improved only when its f drops, keeping its h; a closed one is skipped |
| AStar.VisitCorrectionOnlyOnElevated | Assets/Pathfinding/Pathfinder.cs:144-184 | the corrected and as-written loops differ only on an Elevated arc, without jumping, to an open vertex |
| AStar.Step | Assets/Pathfinding/Pathfinder.cs:124-188 | one arc keeps the search invariants and the open list's correspondence with the open vertices; afterwards a usable arc's far end has been seen |
| AStar.Expand | Assets/Pathfinding/Pathfinder.cs:122-189 | expanding a vertex looks along all its arcs, after which every usable arc out of it leads to a seen vertex, and no seen vertex loses its status |
| AStar.CloseKeepsInv | Assets/Pathfinding/Pathfinder.cs:190-191 | closing the expanded vertex keeps the invariants |
| AStar.TakeBest | Assets/Pathfinding/Pathfinder.cs:82 | the dequeued vertex is an open one, and the open list shrinks |
| AStar.Round | Assets/Pathfinding/Pathfinder.cs:80-193 | one turn of the loop either stops at the goal with a simple trail back to the start along recorded parents, or expands and closes a vertex, making progress |
| AStar.Reconstruct | Assets/Pathfinding/Pathfinder.cs:83-97 | following parents from the goal reaches the start along usable arcs without repeating a vertex, each step the recorded parent and parent edge |
| AStar.NoRoute | Assets/Pathfinding/Pathfinder.cs:80-196 | when the open list runs dry no walk from the start along usable arcs reaches the goal |
| AStar.Start | Assets/Pathfinding/Pathfinder.cs:67-78 | the start is opened with g = 0 and h = f = its unweighted distance to the goal |
| AStar.Search | Assets/Pathfinding/Pathfinder.cs:65-197 | the search returns a simple route from start to goal along usable arcs recorded in the parents, or nothing exactly when no such route exists; vertices the filter excludes are never seen and nothing is marked OnPath |
| Pathfinder.AdjustHeuristicWeight | Assets/Pathfinding/Pathfinder.cs:329-332 | the weight is clamped into [0, 2]: inside it is kept, below it becomes 0, above it 2; the selected entry does not change |
| Pathfinder.NextHeuristicWeight | Assets/Pathfinding/Pathfinder.cs:298-310 | the next entry of the weights 0, 1, 2 is selected, the first after the last, and the weight becomes that entry's |
| Pathfinder.PreviousHeuristicWeight | Assets/Pathfinding/Pathfinder.cs:311-320 | the previous entry is selected, the last before the first, and the weight becomes that entry's |
| Pathfinder.SelectHeuristicWeight | Assets/Pathfinding/Pathfinder.cs:322-327 | selecting entry 0, 1 or 2 sets the weight to 0%, 100% or 200% |
| Pathfinder.HeuristicCycle | Assets/Pathfinding/Pathfinder.cs:298-320 | next and previous undo each other, and three steps either way come back to the same setting |
| Pathfinder.NodeArcs | Assets/Pathfinding/Pathfinder.cs:122-126 | the node search looks along each edge on the node's list to that edge's other node, a different node |
| Pathfinder.NodeCtx | Assets/Pathfinding/Pathfinder.cs:65-197 | the node search is a well-formed instance of the search, with one arc list per node built from that node's edges |
| Pathfinder.TrailToPath | Assets/Pathfinding/Pathfinder.cs:83-97 | the path built from goal to start lists the route's nodes in order and exactly the SlopeConnection and Elevated edges between them, beginning at the goal's node point and ending at the start's |
| Pathfinder.AddLink | Assets/Pathfinding/Pathfinder.cs:87-92 | one turn of the construction adds the node and then the edge to its parent, which AddPoint keeps or drops |
| Pathfinder.LinkStep | Assets/Pathfinding/Pathfinder.cs:87-92 | adding a node point and a kept edge point extends the listed nodes and kept edges by exactly one step of the route |
| Pathfinder.FindPath | Assets/Pathfinding/Pathfinder.cs:65-197 | a returned path follows a simple route of usable edges from start to goal, with the route's parents and parent edges left in its nodes; no path means no walk along usable edges reaches the goal; a hierarchical search never enters a node outside the OnPath regions; nodes change only in their search data |
| Pathfinder.FoundPath | Assets/Pathfinding/Pathfinder.cs:83-97 | the path of a found route runs from the goal's node point to the start's |
| Pathfinder.ParentsWritten | Assets/Pathfinding/Pathfinder.cs:155-159 | after the search every node of the route records the next route node as parent and the route's edge as parent edge |
| Pathfinder.ResetNodes | Assets/Pathfinding/Pathfinder.cs:58-63 | the search starts with every node unvisited, without parent and with infinite costs, its old parent edge kept |
| Pathfinder.WrittenBack | Assets/Pathfinding/Pathfinder.cs:65-197 | the search changes nodes only in their search fields, and a node given a parent edge keeps the parent found with it |
| Pathfinder.RegionArcs | Assets/Pathfinding/Pathfinder.cs:242-244 | the region search looks through each portal on the region's list to that portal's other region, a different region |
| Pathfinder.RegionCtx | Assets/Pathfinding/Pathfinder.cs:199-296 | the region search is a well-formed instance of the search, with one arc list per region built from its portals |
| Pathfinder.ResetAllRegions | Assets/Pathfinding/Pathfinder.cs:201 | every region is reset before the search, keeping everything but its search data |
| Pathfinder.FindRegionPath | Assets/Pathfinding/Pathfinder.cs:199-296 | a result is a simple route of usable portals from start to goal, with parents and portals of parent left in its regions; no result means no walk through usable portals reaches the goal; afterwards a region is OnPath exactly when it is on the route |
| Pathfinder.RegionParentsWritten | Assets/Pathfinding/Pathfinder.cs:265-266 | every region of the route records the next route region as parent and the route's portal as portal of parent |
| Pathfinder.PostProcess | Assets/Pathfinding/Pathfinder.cs:36-47 | smoothing and then collinear-point removal, each when asked; the path's two ends do not move |
| Pathfinder.StaysOnRegionRoute | Assets/Pathfinding/Pathfinder.cs:29-34 | in a hierarchical search every node the route leaves from lies in a region of the region route |
| Pathfinder.GetPath | Assets/Pathfinding/Pathfinder.cs:27-50 | a region search only when hierarchical, then the node search and the post-processing; the result is found exactly when the node search finds a route, runs from the goal's node point to the start's, and in a hierarchical search stays inside the region route; without one the regions are untouched |
| Pathfinder.RegionStage | Assets/Pathfinding/Pathfinder.cs:29-32 | only a hierarchical search runs the region search, after which a region is OnPath exactly when it is on the region route |
| Pathfinder.NodeStage | Assets/Pathfinding/Pathfinder.cs:34-49 | the node search and the post-processing of its result, which exists exactly when the search found a route |
| Pathfinder.Finish | Assets/Pathfinding/Pathfinder.cs:36-49 | a missing path stays missing; a found one is post-processed and keeps its two ends |
| RegionDistances.UnpairKey | Assets/Perception/InfluenceMapManager.cs:77 | a key low · (upperBound + 1) + high, with high in 0..upperBound, divides back into low and high |
| RegionDistances.KeyInjective | Assets/Perception/InfluenceMapManager.cs:77 | two pairs whose second members are at most upperBound have the same key exactly when they are the same pair |
| RegionDistances.SmallBoundCollides | Assets/Perception/InfluenceMapManager.cs:50-54 | when the upper bound is below a second member, two different pairs can get the same key: (0, 3) and (1, 2) under bound 0 |
| RegionDistances.RoutePoints | Assets/Pathfinding/Pathfinder.cs:224-234 | a region path lists, from the goal back, each region's centre then the position of the portal it was reached through, and last the start's centre |
| RegionDistances.LengthNonNegative | Assets/Perception/InfluenceMapManager.cs:71-74 | under a distance function the summed length is never negative, and zero for fewer than two points |
| RegionDistances.LengthReversed | Assets/Perception/InfluenceMapManager.cs:71-74 | a point list read backwards has the same length under a symmetric distance |
| RegionDistances.LengthFirst | Assets/Perception/InfluenceMapManager.cs:71-74 | the summed length is the first step's distance plus the length of the rest |
| RegionDistances.SumDistances | Assets/Perception/InfluenceMapManager.cs:61-75 | the distance loop computes the sum of the distances between consecutive points |
| RegionDistances.SameSearch | Assets/Perception/InfluenceMapManager.cs:63 | repeating the region search over regions changed only in their search data is the same search |
| RegionDistances.Measure | Assets/Perception/InfluenceMapManager.cs:61-75 | one entry is infinity when no walk without jumping leads from start to goal, and otherwise the length of the region path of a simple route between them |
| RegionDistances.RouteIds | Assets/Pathfinding/Pathfinder.cs:242-266 | every portal a found route uses is a known portal |
| RegionDistances.MeasuredRoute | Assets/Perception/InfluenceMapManager.cs:69-75 | the summed length of a found route's region path is the distance stored for the pair |
| RegionDistances.CalculateRegionDistances | Assets/Perception/InfluenceMapManager.cs:46-81 | the upper bound is the last region's id; when it is at least the last index, every pair of indices s < g is stored under its key with its distance and nothing else is stored; a repeated key is an error; regions change only in their search data |
| RegionDistances.Visit | Assets/Perception/InfluenceMapManager.cs:59-79 | one pass of the inner loop stores the next pair's distance, or fails only when the upper bound is below the last index |
| RegionDistances.Store | Assets/Perception/InfluenceMapManager.cs:77-78 | adding an entry under a new key extends the table by exactly the visited pair |
| RegionDistances.StoreKeyed | Assets/Perception/InfluenceMapManager.cs:77-78 | after an add the keys are exactly those of the pairs visited so far |
| RegionDistances.StoreMeasured | Assets/Perception/InfluenceMapManager.cs:77-78 | after an add every entry still holds its pair's distance |
| RegionDistances.NextRow | Assets/Perception/InfluenceMapManager.cs:56-59 | when a row of goals is done the next start row begins at the next pair |
| RegionDistances.FilledMeasured | Assets/Perception/InfluenceMapManager.cs:56-80 | after both loops every pair s < g has its distance under its key |
| RegionDistances.FilledKeys | Assets/Perception/InfluenceMapManager.cs:56-80 | every key in the table is the key of a pair s < g |
| RegionDistances.GetPathDistance | Assets/Perception/InfluenceMapManager.cs:83-97 | the lookup reads the entry of the lower id paired with the higher |
| RegionDistances.GetPathDistanceSymmetric | Assets/Perception/InfluenceMapManager.cs:83-97 | looking up (a, b) and (b, a) gives the same distance |
| RegionDistances.LookupAfterCalculation | Assets/Perception/InfluenceMapManager.cs:46-97 | after the calculation, looking up two distinct regions in either order finds their measured distance; a region paired with itself has no entry |
| Runs.RunsOf | Assets/Regions/RegionManager.cs:196-247 | the runs of equal neighbouring ids are built left to right; there are none exactly when there are no ids, and the last ends at the end |
| Runs.RunsOfSplits | Assets/Regions/RegionManager.cs:196-247 | the runs tile the frontier in order, each holds a single neighbouring region, and neighbouring runs hold different regions |
| Runs.SplitExtends | Assets/Regions/RegionManager.cs:237-239 | a neighbour in the same region as the one before extends the last run |
| Runs.SplitStarts | Assets/Regions/RegionManager.cs:205-235 | a neighbour in another region starts a new run |
| Runs.ClosedRuns | Assets/Regions/RegionManager.cs:196-203 | a scan that reaches the end closes every run; one that stops early leaves the open last run without a portal |
| Runs.PendingExtends | Assets/Regions/RegionManager.cs:237-239 | a neighbour in the open run's region extends the open run and closes nothing |
| Runs.PendingCloses | Assets/Regions/RegionManager.cs:205-226 | a neighbour in another region closes the open run and opens a new one at this cell |
| Runs.ListingMembers | Assets/Regions/RegionManager.cs:219-221 | an index is listed exactly when it is in range and counted at least once |
| Regions.NewRegion | Assets/Regions/Region.cs:31-38 | a new region has its id and qualifier, and its first cell as its only and bottom-left cell |
| Regions.FinishSettingRegion | Assets/Regions/Region.cs:40-48 | finishing stores the centre and the two frontiers and starts an empty portal list; the identity and cells stay |
| Regions.ResetSearchData | Assets/Regions/Region.cs:115-122 | a reset region has status None, no parent and infinite costs; everything else, the portal of its parent included, is kept |
| Regions.ResetForgetsSearch | Assets/Regions/Region.cs:115-122 | regions that differ only in search data reset alike, and resetting twice is resetting once |
| Regions.IdentityFixed | Assets/Regions/Region.cs:12-38 | id, qualifier and first cell survive finishing and resetting |
| Regions.PortalCost | Assets/Regions/Portal.cs:43-49 | under a distance function the cost is non-negative and is the length of the road from the first region's centre through the portal to the second's |
| Regions.NewPortal | Assets/Regions/Portal.cs:17-24 | a portal has the given position, regions and edge type, and under a distance function a cost that is never negative |
| Regions.PortalCostSymmetric | Assets/Regions/Portal.cs:43-49 | under a symmetric distance the cost is the same whichever region is named first |
| Regions.OtherRegion | Assets/Regions/Portal.cs:26-41 | given one of the portal's regions it returns the other; given any other region, nothing |
| Regions.OtherRegionInvolution | Assets/Regions/Portal.cs:26-41 | crossing a portal twice leads back to the region one started in |
| Regions.TouchingMembers | Assets/Regions/RegionManager.cs:219-221 | the portals a region lists are exactly those it is an end of |
| Regions.TouchingSnoc | Assets/Regions/RegionManager.cs:219-221 | listing one more portal appends its index for each of its ends that is the region |
| Regions.AddPortal | Assets/Regions/RegionManager.cs:219-221 | a new portal goes at the end of the portal list, and its index at the end of the lists of its two regions and no other |
| Regions.ListsFromStep | Assets/Regions/RegionManager.cs:219-245 | after each added portal every region lists the portals it touches from the start point on, in order |
| Regions.ListsFromTrans | Assets/Regions/RegionManager.cs:170-177 | listing the portals of one scan and then those of the next is listing both scans' portals |
| Regions.ListsExactly | Assets/Regions/RegionManager.cs:170-177 | a region that started with no portals lists, afterwards, exactly the portals it is an end of |
| Regions.ListsFromStart | Assets/Regions/Region.cs:47 | before any portal is made every region lists what it listed before |
| RegionPortals.FirstLeading | Assets/Regions/RegionManager.cs:256-262 | the search returns the first position from k on whose edge leads from the given node in the given direction, or nothing exactly when there is none |
| RegionPortals.GetEdgeToNeighbor | Assets/Regions/RegionManager.cs:251-276 | towards the east it finds an edge of the cell's node made by the eastern neighbour towards the west, towards the north one made by the northern neighbour towards the south; nothing exactly in any other direction or when no edge of the node is such an edge |
| RegionPortals.Reach | Assets/Regions/RegionManager.cs:196-203 | the scan gets as far as the first frontier cell without a neighbour, or to the end |
| RegionPortals.TraceOf | Assets/Regions/RegionManager.cs:198-199 | what the scan sees at each visited frontier cell: its neighbour's region and the edge to that neighbour |
| RegionPortals.PendingPortal | Assets/Regions/RegionManager.cs:209-219 | the portal built from the loop's variables sits midway between the open run's first and last edges, or at its only edge, joins the scanning region to the run's region and has the first edge's type |
| RegionPortals.ScanStops | Assets/Regions/RegionManager.cs:196-203 | the scan stops after the same number of cells whether it reaches the end or a cell without a neighbour |
| RegionPortals.ClosedAtEnd | Assets/Regions/RegionManager.cs:228-246 | at the end of the frontier the open run gets its portal; after an early stop it gets none |
| RegionPortals.BuiltBoardHasEdges | Assets/Pathfinding/NodeGraph.cs:44-65 | on a board whose edges NodeGraph made over a linked grid, every frontier cell with a neighbour towards E or N finds the edge that neighbour made back towards W or S, so the edge the portal scan reads is always there |
| RegionPortals.CalculateRegionPortals | Assets/Regions/RegionManager.cs:189-249 | each maximal run of frontier cells whose neighbours lie in one region becomes one portal to that region, listed by both regions, in order; a frontier cell without a neighbour ends the scan and drops the open run |
| RegionPortals.ScanCell | Assets/Regions/RegionManager.cs:198-247 | one frontier cell with a neighbour keeps the loop's account of closed runs and the open run |
| RegionPortals.Observed | Assets/Regions/RegionManager.cs:198-199 | what the loop reads at a frontier cell with a neighbour is what the trace records there |
| RegionPortals.Absorb | Assets/Regions/RegionManager.cs:205-247 | a cell joins the open run or opens a new one |
| RegionPortals.EmitPending | Assets/Regions/RegionManager.cs:207-224 | closing a run appends its portal and has both regions list it |
| RegionPortals.CloseLast | Assets/Regions/RegionManager.cs:228-233 | at the last frontier cell the open run's portal is made |
| RegionPortals.NewNeighbor | Assets/Regions/RegionManager.cs:205-236 | a neighbour in a new region closes the open run, if any, with its portal and opens a new run at this cell with no last edge |
| RegionPortals.SameNeighbor | Assets/Regions/RegionManager.cs:237-247 | a neighbour in the open run's region makes this cell's edge the run's last edge |
| RegionPortals.ClosedRun | Assets/Regions/RegionManager.cs:207-224 | closing the open run at a change of region yields the portals of all runs done so far |
| RegionPortals.EmittedJoins | Assets/Regions/RegionManager.cs:189-249 | every portal of a scan joins the scanning region to a known region, and consecutive portals lead to different regions |
| RegionPortals.ClosedRunsDiffer | Assets/Regions/RegionManager.cs:205 | consecutive closed runs have different neighbour regions |
| AllPortals.Centers | Assets/Regions/Portal.cs:43-49 | the centres the portal costs use are the regions' own centres, by id |
| AllPortals.FrontiersKept | Assets/Regions/RegionManager.cs:170-177 | listing portals leaves every region's frontiers as they were, so later scans read the original frontiers |
| AllPortals.CalculateAllRegionPortals | Assets/Regions/RegionManager.cs:170-177 | the portals are those of every region's east scan followed by its north scan, in region order, and each region lists the portals it is an end of after what it listed before |
| AllPortals.ScanAfter | Assets/Regions/RegionManager.cs:174-175 | one scan appends its portals after those made before and keeps the listing exact |
| AllPortals.RegionScans | Assets/Regions/RegionManager.cs:172-176 | one turn of the loop: the east scan, then the north scan, of the next region |
| AllPortals.PortalsListedBothWays | Assets/Regions/RegionManager.cs:170-177 | after the calculation over regions without portals, each region lists exactly the portals it is an end of, and every portal joins two known regions |
| AllPortals.ScanJoins | Assets/Regions/RegionManager.cs:219-221 | every portal of region k's scan starts at region k |
| Segmentation.Row | Assets/Regions/RegionManager.cs:89-90 | a row of n cell indices holds the row-major indices of n consecutive cells going east |
| Segmentation.Col | Assets/Regions/RegionManager.cs:92-93 | a column of n cell indices holds the row-major indices of n consecutive cells going north |
| Segmentation.RowSnoc | Assets/Regions/RegionManager.cs:144 | appending the cell east of a row's end gives the longer row |
| Segmentation.ColSnoc | Assets/Regions/RegionManager.cs:124 | appending the cell north of a column's top gives the longer column |
| Segmentation.SameTerrainTrans | Assets/Regions/RegionManager.cs:54-168 | changing only region ids twice changes only region ids |
| Segmentation.SetRegion | Assets/Regions/RegionManager.cs:83 | assigning a cell to a region changes that cell's region id and nothing else |
| Segmentation.CanExpandNorth | Assets/Regions/RegionManager.cs:278-298 | the test as the source writes it over the top row's indices: the first cell is below the north border and every cell one row up is free and of the elevation; CanExpandNorthIff gives its meaning on a rectangle |
| Segmentation.CanExpandEast | Assets/Regions/RegionManager.cs:300-320 | the test as the source writes it over the right column's indices: the first cell is west of the east border and every cell one column east is free and of the elevation; CanExpandEastIff gives its meaning on a rectangle |
| Segmentation.CanExpandNorthIff | Assets/Regions/RegionManager.cs:278-298 | on a rectangle's top row, CanExpandNorth reads only cells of the grid and answers yes exactly when the rectangle is below the north border and every cell of the row above is free and of the region's elevation |
| Segmentation.CanExpandEastIff | Assets/Regions/RegionManager.cs:300-320 | on a rectangle's right column, CanExpandEast reads only cells of the grid and answers yes exactly when the rectangle is west of the east border and every cell of the column east of it is free and of the region's elevation |
| Segmentation.LaidKept | Assets/Regions/RegionManager.cs:54-168 | changing only region ids keeps every cell's coordinates and elevation |
| Segmentation.PaintStep | Assets/Regions/RegionManager.cs:113-116 | painting one free cell of the region's elevation adds it to the region's cells and list, and changes no other cell's eligibility |
| Segmentation.TakeNorth | Assets/Regions/RegionManager.cs:111-117 | one pass of the north loop takes the cell above the next top cell |
| Segmentation.ExpandNorth | Assets/Regions/RegionManager.cs:109-125 | growing north takes the whole row above, one cell per top cell, makes it the new top row and extends the right column by the new corner |
| Segmentation.NorthStart | Assets/Regions/RegionManager.cs:109-111 | the north loop starts from the grown rectangle with nothing taken |
| Segmentation.NorthDone | Assets/Regions/RegionManager.cs:119-124 | after the north loop the rectangle is one row higher, the taken cells are its top row and its corner ends the right column |
| Segmentation.TakeEast | Assets/Regions/RegionManager.cs:131-137 | one pass of the east loop takes the cell east of the next right cell |
| Segmentation.ExpandEast | Assets/Regions/RegionManager.cs:129-145 | growing east takes the whole column east of it, makes it the new right column and extends the top row by the new corner |
| Segmentation.EastStart | Assets/Regions/RegionManager.cs:129-131 | the east loop starts from the grown rectangle with nothing taken |
| Segmentation.EastDone | Assets/Regions/RegionManager.cs:139-144 | after the east loop the rectangle is one column wider, the taken cells are its right column and its corner ends the top row |
| Segmentation.CornerEnds | Assets/Regions/RegionManager.cs:123-124 | the last cell of the top row and of the right column is the top-right corner |
| Segmentation.SeedStart | Assets/Regions/RegionManager.cs:82-97 | a free cell seeds a one-cell region of its own elevation whose top row, right column and cell list are that cell |
| Segmentation.ExpansionFlags | Assets/Regions/RegionManager.cs:99-105 | north is tried first, and east only when north is shut |
| Segmentation.NorthPhase | Assets/Regions/RegionManager.cs:109-127 | a north expansion grows the rectangle by one row and then asks whether east is open |
| Segmentation.EastPhase | Assets/Regions/RegionManager.cs:129-145 | an east expansion grows the rectangle by one column |
| Segmentation.GrowStep | Assets/Regions/RegionManager.cs:107-153 | one turn of the growth loop keeps the region a painted rectangle and moves it closer to the north or east border |
| Segmentation.GrowRegion | Assets/Regions/RegionManager.cs:82-153 | growth from a free seed ends with a rectangle from the seed that can grow neither north nor east, its cells painted and listed seed first, the corner recorded when it has more than one cell |
| Segmentation.NewRegionAt | Assets/Regions/RegionManager.cs:82-163 | a new region seeded at a free cell gets the grown rectangle, its frontiers, and a centre midway between its bottom-left and top-right cells, or the single cell's position |
| Segmentation.GrowingOverwrites | Assets/Regions/RegionManager.cs:107-153 | growing a region only turns free cells into cells of the new region and keeps elevations |
| Segmentation.OldRegionKept | Assets/Regions/RegionManager.cs:76-80 | a region made earlier is unaffected by the growth of a later one |
| Segmentation.NewRegionIs | Assets/Regions/RegionManager.cs:82-163 | a newly grown region is a maximal rectangle of its seed's elevation with the fields that describe it |
| Segmentation.NewRegionCells | Assets/Regions/RegionManager.cs:107-153 | exactly the cells of the new rectangle carry the new id, and its cell list holds each of them once, seed first |
| Segmentation.NewRegionGrowth | Assets/Regions/RegionManager.cs:107-153 | every cell of the new rectangle has the seed's elevation, every cell scanned before the seed belongs to an earlier region, and north and east are blocked |
| Segmentation.ScanCell | Assets/Regions/RegionManager.cs:73-166 | a cell that has a region is skipped; a free one seeds the next region; either way every cell scanned so far has a region |
| Segmentation.SegmentGrid | Assets/Regions/RegionManager.cs:54-168 | every cell ends in exactly one region, region k has id k and is a maximal rectangle of one elevation grown north then east from the first free cell, and nothing but region ids changes |
| BehaviorTree.IsTerminated | Assets/BehaviorTreeSystem/Behavior.cs:59-62 | a terminated behaviour is not running, and one that was reset or stopped by Terminate does not count as terminated |
| BehaviorTree.IsRunning | Assets/BehaviorTreeSystem/Behavior.cs:64-67 | a running behaviour is never terminated |
| BehaviorTree.WithStatus | Assets/BehaviorTreeSystem/Behavior.cs:43 | storing a status changes only the status and keeps a tickable behaviour tickable |
| BehaviorTree.Reset | Assets/BehaviorTreeSystem/Behavior.cs:48-51 | Reset makes the status Invalid and changes nothing else |
| BehaviorTree.Terminate | Assets/BehaviorTreeSystem/Behavior.cs:53-57 | Terminate makes the status Terminated and changes nothing else |
| BehaviorTree.Initialize | Assets/BehaviorTreeSystem/Composites/Sequence.cs:20-24 | OnInitialize sends a composite back to its first child and restarts a Repeat's count at -1, keeping every child; leaves and Invert are untouched |
| BehaviorTree.Tick | Assets/BehaviorTreeSystem/Behavior.cs:40-46 | a tick that ends stores the status it returns and leaves a behaviour of the same kind and size; it faults when it reaches an empty composite or a decorator without a child, and a tree with no such node never faults and stays without one |
| BehaviorTree.Update | Assets/BehaviorTreeSystem/Behavior.cs:19-22 | OnUpdate keeps the behaviour's kind and size; it faults on a composite whose current index is off its children or a decorator without a child, and never faults on a tree with no empty composite or childless decorator |
| BehaviorTree.SelectorLoop | Assets/BehaviorTreeSystem/Composites/Selector.cs:26-45 | from the current child on, children are ticked until one does not fail, whose status is returned; Failure exactly when every child from there failed; children outside the ticked stretch are untouched |
| BehaviorTree.SequenceLoop | Assets/BehaviorTreeSystem/Composites/Sequence.cs:26-44 | from the current child on, children are ticked until one does not succeed, whose status is returned; Success exactly when every child from there succeeded; children outside the ticked stretch are untouched |
| BehaviorTree.LookedOn | Assets/BehaviorTreeSystem/Composites/Sequence.cs:35-42 | a child that passes moves the loop on to the next child without losing what the loop has done |
| BehaviorTree.InvertStatus | Assets/BehaviorTreeSystem/Decorators/Invert.cs:11-30 | Failure becomes Success and Success becomes Failure, each resetting the child; Running passes through; anything else is Invalid |
| BehaviorTree.RepeatLoop | Assets/BehaviorTreeSystem/Decorators/Repeat.cs:30-44 | the loop counts every tick; it ends with Invalid exactly when the child runs, Failure exactly when it fails, and Success exactly when it did neither and the count reached the maximum |
| BehaviorTree.SelectorTick | Assets/BehaviorTreeSystem/Composites/Selector.cs:20-45 | a Selector's tick starts at its first child, or its current one when running, and returns the status of the first child that did not fail, Failure exactly when all of them failed |
| BehaviorTree.SequenceTick | Assets/BehaviorTreeSystem/Composites/Sequence.cs:20-44 | a Sequence's tick starts at its first child, or its current one when running, and returns the status of the first child that did not succeed, Success exactly when all of them succeeded |
| BehaviorTree.InvertTick | Assets/BehaviorTreeSystem/Decorators/Invert.cs:11-30 | an Invert ticks its child once and returns the inverted status, the child reset after Success or Failure; it ends exactly when the child's tick ends and faults exactly when it faults |
| BehaviorTree.DoubleInvert | Assets/BehaviorTreeSystem/Decorators/Invert.cs:11-30 | two Inverts over a leaf give back its Success or Failure |
| BehaviorTree.RepeatTick | Assets/BehaviorTreeSystem/Decorators/Repeat.cs:24-44 | a Repeat never returns Running: Invalid exactly when its child runs, Failure exactly when it fails, Success only with the count at the maximum; ticked afresh the count is at least 0, and a maximum of -1 never succeeds |
| BehaviorTree.RepeatOverLeaf | Assets/BehaviorTreeSystem/Decorators/Repeat.cs:17-44 | over a leaf, Running ends the loop with Invalid and Failure with Failure after one tick; any other answer counts up to the maximum and succeeds there, and never ends when the maximum is behind the count, as with -1 |
| BehaviorTree.TickTree | Assets/BehaviorTreeSystem/BehaviorTree.cs:18-26 | a tree without a root answers Invalid and stays as it is; otherwise the root is ticked and keeps the status returned |
| BehaviorTreeBuilder.NewBuilder | Assets/BehaviorTreeSystem/BehaviorTreeBuilder.cs:14-21 | the root is placed at depth 0 and is the build node, so every node on the way to the build node sits at its nesting depth |
| BehaviorTreeBuilder.AddChild | Assets/BehaviorTreeSystem/Composites/Composite.cs:14-17 | a composite appends the child after its existing children, keeping its index; a decorator's single child becomes the new one; a leaf ignores the call; kind and status are kept |
| BehaviorTreeBuilder.AddChildHas | Assets/BehaviorTreeSystem/Decorators/Decorator.cs:19-22 | after adding to a branch, the new child is found at the next child position |
| BehaviorTreeBuilder.Climb | Assets/BehaviorTreeSystem/BehaviorTreeBuilder.cs:81-90 | climbing from the build node stops at a strict ancestor that is not a decorator, and every node passed over on the way is a decorator |
| BehaviorTreeBuilder.End | Assets/BehaviorTreeSystem/BehaviorTreeBuilder.cs:81-90 | End leaves the tree unchanged and moves the build node up to the nearest ancestor that is not a decorator, skipping only decorators, and the depths on the way stay consistent |
| BehaviorTreeBuilder.Attach | Assets/BehaviorTreeSystem/BehaviorTreeBuilder.cs:23-27 | the child is added to the build node at depth one more than the build node's, in place in the tree; the path to the build node and the kinds along it are unchanged |
| BehaviorTreeBuilder.AddLeaf | Assets/BehaviorTreeSystem/BehaviorTreeBuilder.cs:23-49 | Condition and Action: the leaf is added under the build node one level deeper; under a composite the build node stays, under a decorator the build node climbs past every decorator to a non-decorator ancestor |
| BehaviorTreeBuilder.AddBranch | Assets/BehaviorTreeSystem/BehaviorTreeBuilder.cs:51-78 | a decorator or composite is added under the build node one level deeper and becomes the new build node, one step further down the same path |
| BehaviorTreeBuilder.AddSequence | Assets/BehaviorTreeSystem/BehaviorTreeBuilder.cs:60-68 | the new build node is an empty Sequence at depth one below the old build node, a child of it |
| BehaviorTreeBuilder.AddSelector | Assets/BehaviorTreeSystem/BehaviorTreeBuilder.cs:70-78 | the new build node is an empty Selector at depth one below the old build node, a child of it |
| BehaviorTreeBuilder.Build | Assets/BehaviorTreeSystem/BehaviorTreeBuilder.cs:92-95 | the built tree has the builder's root as its root |
| BehaviorTreeScenarios.OneLeaf | Assets/BehaviorTreeSystem/BehaviorTreeTests.cs:11-43 | a built Selector over one mock leaf returns the leaf's answer on the first tick, for every answer |
| BehaviorTreeScenarios.DecoratedLeafBuilt | Assets/BehaviorTreeSystem/BehaviorTreeTests.cs:45-52 | building a decorator and then a leaf puts the leaf under the decorator under the root and returns the build node to the root |
| BehaviorTreeScenarios.InvertedLeaf | Assets/BehaviorTreeSystem/BehaviorTreeTests.cs:45-62 | an Invert over a Success leaf ticks Failure, over a Failure leaf Success |
| BehaviorTreeScenarios.RepeatedSuccess | Assets/BehaviorTreeSystem/BehaviorTreeTests.cs:64-75 | a Repeat(10) over a succeeding leaf returns Success with its repetition count at 10 |
| BehaviorTreeScenarios.RepeatedFailure | Assets/BehaviorTreeSystem/BehaviorTreeTests.cs:76-87 | a Repeat(10) over a failing leaf returns Failure with its repetition count at 0 |
| BehaviorTreeScenarios.RepeatForever | Assets/BehaviorTreeSystem/Decorators/Repeat.cs:24-44 | a Repeat(-1) over a succeeding leaf never finishes a tick, whatever the step bound |
| BehaviorTreeScenarios.TwoLeavesBuilt | Assets/BehaviorTreeSystem/BehaviorTreeTests.cs:89-96 | two leaves added to a fresh composite root become its two children in order, at depth 1 |
| BehaviorTreeScenarios.SelectorOfTwo | Assets/BehaviorTreeSystem/BehaviorTreeTests.cs:89-123 | a Selector over two leaves returns the first answer that is not Failure, covering all four Success/Failure combinations |
| BehaviorTreeScenarios.SequenceOfTwo | Assets/BehaviorTreeSystem/BehaviorTreeTests.cs:140-174 | a Sequence over two leaves returns the first answer that is not Success, covering all four Success/Failure combinations |
| BehaviorTreeScenarios.RunningFirst | Assets/BehaviorTreeSystem/BehaviorTreeTests.cs:125-134 | a composite over a running leaf and a succeeding one returns Running on the first tick and stays on its first child |
| BehaviorTreeScenarios.SelectorResumes | Assets/BehaviorTreeSystem/BehaviorTreeTests.cs:125-138 | the Selector first returns Running; once the first leaf answers Failure, the next tick resumes there and returns Success |
| BehaviorTreeScenarios.SequenceResumes | Assets/BehaviorTreeSystem/BehaviorTreeTests.cs:176-189 | the Sequence first returns Running; once the first leaf answers Failure, the next tick returns Failure |
| BehaviorTreeScenarios.TreeABuilder | Assets/BehaviorTreeSystem/BehaviorTreeTests.cs:198-208 | the builder chain of the two-sequence tree ends at the root, with the Invert, leaves and sequences at their depths |
| BehaviorTreeScenarios.TreeA | Assets/BehaviorTreeSystem/BehaviorTreeTests.cs:191-223 | with the mocks changed between ticks as the scenario does, five ticks return Running, Success, Running, Success, Failure |
| BehaviorTreeScenarios.EmptySequenceBehindLeaf | Assets/BehaviorTreeSystem/Composites/Selector.cs:20-45 | a Selector over a leaf and an empty Sequence returns the leaf's answer when it is not Failure, never reaching the Sequence; after a Failure it starts the empty Sequence, whose OnInitialize indexes past its children and faults |
| ObjectPool.Get | Assets/Utilities/ObjectPool.cs:18-33 | from a non-empty pool, the last object added, after its removal hook, leaving the rest in order; from an empty pool, the factory's object and the pool unchanged |
| ObjectPool.Add | Assets/Utilities/ObjectPool.cs:35-39 | the pool grows by one: the old objects stay in place and the reset object is on top |
| ObjectPool.AddEach | Assets/Utilities/ObjectPool.cs:40-47 | the pool grows by the number of objects, keeping the old ones, with each object reset and in its given order on top |
| ObjectPool.AddRange | Assets/Utilities/ObjectPool.cs:40-47 | resetting the array in place and appending it gives the same pool as returning the objects one at a time |
| ObjectPool.Drain | Assets/Utilities/ObjectPool.cs:18-33 | taking until empty hands out every pooled object once, from the top down, each after its removal hook |
| ObjectPool.GetAfterAdd | Assets/Utilities/ObjectPool.cs:18-39 | a take right after a return gives back the returned object, reset and then removed, and leaves the pool as it was |
| ObjectPool.LastInFirstOut | Assets/Utilities/ObjectPool.cs:18-47 | objects returned into an empty pool are handed out in the reverse order |
| Carousel.Init | Assets/UI/Carousel.cs:14-19 | a new carousel keeps its options with a valid index on the first one, which Start shows, or shows nothing when there are none |
| Carousel.Shown | Assets/UI/Carousel.cs:16-31 | the option at the index, exactly when the index is on the list; otherwise the access fails |
| Carousel.Increment | Assets/UI/Carousel.cs:47-59 | a step forwards moves the index one on, modulo the number of options; with no options nothing changes |
| Carousel.Decrement | Assets/UI/Carousel.cs:33-45 | a step backwards moves the index one back, modulo the number of options; with no options nothing changes |
| Carousel.Next | Assets/UI/Carousel.cs:21-25 | the Next button steps forwards and shows the next option round the list, or nothing when there are no options |
| Carousel.Previous | Assets/UI/Carousel.cs:27-31 | the Previous button steps backwards and shows the previous option round the list, or nothing when there are no options |
| Carousel.StepsKeepValid | Assets/UI/Carousel.cs:14-59 | the starting index is valid, and both steps keep the index on the list |
| Carousel.StepsUndo | Assets/UI/Carousel.cs:33-59 | a step forwards and a step backwards undo each other |
| Carousel.ForwardsWrap | Assets/UI/Carousel.cs:47-59 | k steps forwards land k options further on modulo the number of options, and as many steps as there are options come back to the start |

## Left out

- Rendering, input, colliders, UI widgets, scene objects and the editor tools: everything in the repository outside the pathfinding, behaviour-tree and pool/carousel code. None of it decides a result of the modelled operations.
- Floating point: costs and positions are reals. NaN, rounding and the order of float additions are not modelled.
- `Vector3.Distance` and `Mathf.Approximately` are function parameters. A few lemmas assume only the distance facts they name, such as symmetry and being non-negative.
- `Random.Range` is the start index given to `CellGrid.GetRandomCell`. `Debug.LogError` is not modelled; its `return null` is `None`.
- Cells.GetNeighbor: requires a direction other than NW. A cell has eight slots indexed by enum value, and NW (value 8) has none, so the source's array access throws IndexOutOfRangeException. No modelled caller asks for NW.
- Cells.SetNeighbor: requires a direction other than NW, for the same reason. CellGrid links only W, S, SW and SE, whose as-written opposites E, N, NE and None all have slots.
- RegionPortals.NeighborAt, RegionPortals.Reach, RegionPortals.EdgesPresent: require a direction other than NW, since they read through GetNeighbor. The source scans only towards E and N.
- Cells.Load: refuses a top-type byte above 2 or a direction byte above 8. The source casts such bytes to unnamed enum values and accepts them, and the model's TopType and Direction have no such values. On a stream shorter than five bytes the source has already assigned the fields read before the failing read; the model returns None and leaves the cell as it was.
- Cells.LoadSaveRoundTrip: holds for the byte strings Load accepts. The source also round-trips five bytes that name no top type or direction.
- CellGrid.FromPosition: takes the column and row already rounded. The `Mathf.RoundToInt(position / (radius * 2))` of CellGrid.cs lines 149 and 152 is float arithmetic and is not modelled.
- CellGrid's Save/Load loops over a binary stream are I/O and are not modelled.
- GetRandomCell_ObstacleFree is not modelled. It depends on collider queries of the physics engine.
- `GenerateColliders` and the region visualisation in RegionManager are not modelled. Both are scene-object work.
- Edge world positions are a parameter of the terrain, not computed from cell geometry.
- Pathfinder.FindPath, Pathfinder.FindRegionPath, Pathfinder.GetPath: they require a well-formed graph (GraphOk, PortalsOk, RegionsKnown). Every edge index a node lists must exist, and every node must have a region. In the source a violation is a null dereference or an index exception, not a handled outcome.
- AStar.Search: relaxes with the corrected inner loop (AStar.Visit), which skips an Elevated arc entirely when the search does not jump. As written, Pathfinder.cs lines 172-184 still improve a vertex on the open list through such an arc; AStar.VisitAsWritten models that and the third row of the Findings table shows it. The route properties are stated of the corrected search only.
- Pathfinder.FindPath: runs the corrected node search of AStar.Search, so its route properties hold of the corrected relaxation and not of the as-written one.
- Pathfinder.FindRegionPath: runs the corrected search over regions and portals; the source's region loop (Pathfinder.cs lines 242-288) has the same open-list relaxation through Elevated portals, which the model does not follow.
- Pathfinder.GetPath: combines the corrected region and node searches, so its properties are those of the corrected relaxation.
- RegionDistances.Measure: measures the road with the corrected region search, not the as-written relaxation.
- RegionDistances.CalculateRegionDistances: stores distances measured with the corrected region search, not the as-written relaxation.
- Pathfinder.SelectHeuristicWeight: requires the index to be 0, 1 or 2. Any other index throws IndexOutOfRangeException in the source.
- BinaryMinHeap.ExtractRoot: requires a non-empty heap. On an empty heap the source reads past the end of its list.
- BinaryMinHeap.ChangeKey is modelled, but the A* search never calls it. As in the source, an open node whose f cost drops keeps its old priority in the queue.
- RegionPortals.CalculateRegionPortals: requires an edge for every scanned frontier cell (EdgesPresent). The source null-checks the first and last edge of a run (RegionManager.cs lines 207 and 210) and dereferences a missing edge only at the last frontier cell (lines 230 and 243). Elsewhere a missing first edge drops that run's portal, and a missing last edge places the portal at the first edge. Those outcomes are not modelled. `RegionPortals.BuiltBoardHasEdges` proves that EdgesPresent holds on every board NodeGraph builds, so they arise only on boards the program never makes.
- RegionDistances.CalculateRegionDistances: requires at least one region, because the source reads the last region's id to form the key bound. The source comment gives the key formula as `low * upperBound + high`, while the code multiplies by `upperBound + 1`. The model follows the code.
- RegionDistances: the key is computed in 32-bit `int` in the source. Overflow for very large region counts is not modelled.
- The smoothed chain of n >= 3 path points has 4n-3 points, as the code builds it: every path point, with three curve points between each consecutive pair.
- Pathfinder.GetPath: discards the region path that FindRegionPath returns, as Pathfinder.cs lines 29-32 do. The hierarchical node search reads only each region's `OnPath` status. The region path's points, region centres alternating with portal positions (Pathfinder.cs lines 226-232), are used only by `RegionDistances.CalculateRegionDistances` and are modelled as `RegionDistances.RoutePoints`.
- BehaviorTree.Tick: a `fuel` bound caps the iterations of each Repeat loop. `OutOfFuel` stands for a tick that did not end within it. A Repeat whose maximum is behind its count loops forever in the source, and `BehaviorTreeScenarios.RepeatForever` shows that no fuel suffices.
- BehaviorTree.Tick: the exceptions the source throws when a tick reaches an empty composite (the `children[0]` of OnInitialize) or a decorator without a child (a null dereference) are one `Fault` outcome. The partial state the source leaves behind at that point is not modelled.
- OnTerminate is a no-op in every modelled behaviour, so Tick does not model the call.
- The plain `Decorator` and `Composite` base classes are not instantiated by the builder or the tests. Only Invert, Repeat, Selector and Sequence are modelled as nodes. Their `AddChild` is `BehaviorTreeBuilder.AddChild`.
- BehaviorTreeBuilder.End: requires a non-decorator ancestor to climb to (CanEnd). At the root the source dereferences a null parent.
- BehaviorTreeBuilder.AddLeaf: under a decorator, requires CanEnd, because the source calls End there.
- BehaviorTreeBuilder.AddBranch: requires the build node not to be a leaf. The source's leaf ignores AddChild, yet the builder would still descend into the new branch, which is then outside the tree. Builders over a leaf root are not modelled.
- The names passed to Sequence(name) and Selector(name) are unused in the source and are not modelled.
- ObjectPool.Get: the `ResetForPool` and `OnPoolRemoval` hooks and the factory delegate are parameters. A factory that was never set, which throws in the source, is not modelled.
- ObjectPool.AddRange: the source resets the caller's array in place and the pool shares those objects. The model has values, so no aliasing is modelled.
- Carousel.Shown: the TextMeshPro text field is replaced by the string returned. Start on an empty option list throws in the source; here it is `None`.

## Findings

| source | as written | input that shows it | evidently intended | confidence | as-written member | corrected member |
|---|---|---|---|---|---|---|
| Assets/GameAISim/Enums.cs:14-21 | Opposite adds 4 below value 4 and subtracts 4 otherwise, over the nine values None, N, …, NW | SE (value 4) maps to None, so Opposite(Opposite(NW)) is None | Opposite swaps SE and NW, so that it undoes itself | not executed | Directions.OppositeAsWrittenNotInvolution | Directions.OppositeInvolution |
| Assets/LevelEditor/Scripts_LevelEditor/CellGrid.cs:99-121 | the give-up test compares the incremented index with the start before wrapping it to 0 | start index 0 and no cell of the wanted elevation: the index reaches the length, wraps to 0, and is 1 again at the next test, so the loop never ends | return null after one full round from any start | not executed | CellGrid.GetRandomCellFromZeroNeverEnds | CellGrid.GetRandomCell |
| Assets/Pathfinding/Pathfinder.cs:144-184 | without jumping, an Elevated edge only stops discovery; a neighbour already on the open list is still relaxed through it | vertex 1 is on the open list with g = 5 and f = 100, and vertex 0 (g = 0) has an Elevated edge of cost 1 to it: with jumping off, that edge lowers f to 1 and becomes vertex 1's parent edge | Elevated edges are skipped entirely when jumping is off | not executed | AStar.VisitAsWrittenUsesElevated | AStar.Visit |

=== FILE: all_portals.dfy ===
/** CalculateAllRegionPortals (Assets/Regions/RegionManager.cs): every region,
    in id order, scans its right column towards the east and then its top row
    towards the north. Portals are objects shared by the two regions that list
    them; here they are kept in one list, in creation order, and the regions
    list their indices. */
module AllPortals {
  import opened Common
  import opened Directions
  import opened Regions
  import opened RegionPortals

  /** The regions' centres, by id. Portal calculation never moves them. */
  function Centers(regions: seq<Region>): (cs: seq<Vec3>)
    ensures |cs| == |regions|
    ensures forall k :: 0 <= k < |regions| ==> cs[k] == regions[k].center
  {
    seq(|regions|, k requires 0 <= k < |regions| => regions[k].center)
  }

  /** The scan of region `k`'s right column towards the east. */
  function EastScan(b: Board, dist: (Vec3, Vec3) -> real, regions: seq<Region>, k: nat): Scan
    requires k < |regions|
  {
    Scan(b, dist, Centers(regions), k, regions[k].right, E)
  }

  /** The scan of region `k`'s top row towards the north. */
  function NorthScan(b: Board, dist: (Vec3, Vec3) -> real, regions: seq<Region>, k: nat): Scan
    requires k < |regions|
  {
    Scan(b, dist, Centers(regions), k, regions[k].top, N)
  }

  /** Both scans of region `k` are over a consistent board. */
  ghost predicate RegionScannable(b: Board, dist: (Vec3, Vec3) -> real, regions: seq<Region>, k: nat)
    requires k < |regions|
  {
    ScanOk(EastScan(b, dist, regions, k)) && ScanOk(NorthScan(b, dist, regions, k))
  }

  /** Every scan the calculation makes is over a consistent board. */
  ghost predicate Scannable(b: Board, dist: (Vec3, Vec3) -> real, regions: seq<Region>) {
    forall k :: 0 <= k < |regions| ==> RegionScannable(b, dist, regions, k)
  }

  /** The portals the scans of the first `n` regions make, in order. */
  ghost function AllEmitted(b: Board, dist: (Vec3, Vec3) -> real, regions: seq<Region>, n: nat): seq<Portal>
    requires n <= |regions| && Scannable(b, dist, regions)
  {
    if n == 0 then []
    else
      assert RegionScannable(b, dist, regions, n - 1);
      AllEmitted(b, dist, regions, n - 1)
      + Emitted(EastScan(b, dist, regions, n - 1)) + Emitted(NorthScan(b, dist, regions, n - 1))
  }

  /** Listing portals changes nothing but the regions' portal lists. */
  lemma FrontiersKept(regions: seq<Region>, regions': seq<Region>, portals: seq<Portal>, from: nat, k: nat)
    requires ListsFrom(regions, regions', portals, from) && k < |regions|
    ensures k < |regions'| && regions'[k].right == regions[k].right && regions'[k].top == regions[k].top
  {
  }

  /** After the scans of the first `k` regions: their portals have been made,
      in order, and listed by both their regions. */
  ghost predicate Built(b: Board, dist: (Vec3, Vec3) -> real, regions: seq<Region>, k: nat,
                        regions': seq<Region>, portals: seq<Portal>)
  {
    && Scannable(b, dist, regions) && k <= |regions|
    && portals == AllEmitted(b, dist, regions, k)
    && ListsFrom(regions, regions', portals, 0)
    && JoinsBelow(portals, k, |regions|)
  }

  lemma BuiltStart(b: Board, dist: (Vec3, Vec3) -> real, regions: seq<Region>)
    requires Scannable(b, dist, regions)
    ensures Built(b, dist, regions, 0, regions, [])
  {
    ListsFromStart(regions);
  }

  /** CalculateAllRegionPortals: the portals are those of every region's east
      scan followed by its north scan, in region order, and each region lists
      after its old list the portals it is an end of. */
  method CalculateAllRegionPortals(b: Board, dist: (Vec3, Vec3) -> real, regions: seq<Region>)
    returns (regions': seq<Region>, portals: seq<Portal>)
    requires Scannable(b, dist, regions)
    ensures portals == AllEmitted(b, dist, regions, |regions|)
    ensures ListsFrom(regions, regions', portals, 0)
    ensures Built(b, dist, regions, |regions|, regions', portals)
  {
    var centers := Centers(regions);
    regions', portals := regions, [];
    BuiltStart(b, dist, regions);
    var k := 0;
    while k < |regions|
      invariant Built(b, dist, regions, k, regions', portals)
    {
      regions', portals := RegionScans(b, dist, regions, centers, k, regions', portals);
      k := k + 1;
    }
  }

  /** One scan, listed after the portals made before it. */
  method ScanAfter(s: Scan, regions: seq<Region>, regions': seq<Region>, portals: seq<Portal>)
    returns (regions2: seq<Region>, portals2: seq<Portal>)
    requires ScanOk(s) && |s.centers| == |regions|
    requires ListsFrom(regions, regions', portals, 0) && JoinsBelow(portals, s.k + 1, |regions|)
    ensures portals2 == portals + Emitted(s)
    ensures ListsFrom(regions, regions2, portals2, 0) && JoinsBelow(portals2, s.k + 1, |regions|)
  {
    regions2, portals2 := CalculateRegionPortals(s, regions', portals);
    ListsFromTrans(regions, regions', regions2, portals, portals2, 0);
    ScanJoins(s, |regions|);
    JoinsConcat(portals, Emitted(s), s.k + 1, |regions|);
  }

  /** The two scans of region `k`, reading its frontiers from the current
      region list as the source does. */
  method RegionScans(b: Board, dist: (Vec3, Vec3) -> real, regions: seq<Region>, centers: seq<Vec3>, k: nat,
                     regions': seq<Region>, portals: seq<Portal>)
    returns (regions2: seq<Region>, portals2: seq<Portal>)
    requires k < |regions| && centers == Centers(regions)
    requires Built(b, dist, regions, k, regions', portals)
    ensures Built(b, dist, regions, k + 1, regions2, portals2)
  {
    assert RegionScannable(b, dist, regions, k);
    JoinsWiden(portals, k, k + 1, |regions|);
    FrontiersKept(regions, regions', portals, 0, k);
    var r1, p1 := ScanAfter(Scan(b, dist, centers, k, regions'[k].right, E), regions, regions', portals);
    FrontiersKept(regions, r1, p1, 0, k);
    regions2, portals2 := ScanAfter(Scan(b, dist, centers, k, r1[k].top, N), regions, r1, p1);
    assert AllEmitted(b, dist, regions, k + 1)
        == portals + Emitted(EastScan(b, dist, regions, k)) + Emitted(NorthScan(b, dist, regions, k));
  }

  /** After the calculation over regions that had no portals, each region lists
      exactly the portals it is an end of, and every portal starts at the
      region that made it and leads to a region. */
  lemma PortalsListedBothWays(b: Board, dist: (Vec3, Vec3) -> real, regions: seq<Region>,
                              regions': seq<Region>, portals: seq<Portal>, x: nat, i: nat)
    requires Built(b, dist, regions, |regions|, regions', portals)
    requires x < |regions| && regions[x].portals == []
    ensures i in regions'[x].portals <==> i < |portals| && (portals[i].one == x || portals[i].two == x)
    ensures i < |portals| ==> portals[i].one < |regions| && portals[i].two < |regions|
  {
    ListsExactly(regions, regions', portals, x, i);
  }

  /** Every portal in `ps` starts at a region below `n` and leads to a region
      below `count`. */
  predicate JoinsBelow(ps: seq<Portal>, n: nat, count: nat) {
    forall i :: 0 <= i < |ps| ==> ps[i].one < n && ps[i].two < count
  }

  lemma JoinsConcat(ps: seq<Portal>, qs: seq<Portal>, n: nat, count: nat)
    requires JoinsBelow(ps, n, count) && JoinsBelow(qs, n, count)
    ensures JoinsBelow(ps + qs, n, count)
  {
    forall i | 0 <= i < |ps + qs| ensures (ps + qs)[i].one < n && (ps + qs)[i].two < count {
      if i >= |ps| {
        assert (ps + qs)[i] == qs[i - |ps|];
      }
    }
  }

  lemma JoinsWiden(ps: seq<Portal>, n: nat, m: nat, count: nat)
    requires JoinsBelow(ps, n, count) && n <= m
    ensures JoinsBelow(ps, m, count)
  {
  }

  /** A scan of region `k` makes portals that start at `k`. */
  lemma ScanJoins(s: Scan, count: nat)
    requires ScanOk(s) && |s.centers| == count
    ensures JoinsBelow(Emitted(s), s.k + 1, count)
  {
    EmittedJoins(s);
  }
}

=== FILE: astar.dfy ===
/** The A* search both levels of the pathfinder run (Assets/Pathfinding/Pathfinder.cs,
    FindPath over nodes and FindRegionPath over regions). The two differ only in
    what an arc is (an edge or a portal), whether deviations from a straight
    line are penalised, and whether a vertex may be entered at all (the
    hierarchical filter), so the search is written once over vertices
    0 .. N-1, each with a list of outgoing arcs. */
module AStar {
  import opened Common
  import opened Directions
  import opened BinaryMinHeap
  import opened PriorityQueue

  /** One way out of a vertex: the edge or portal `id`, leading to `to`. */
  datatype Arc = Arc(id: nat, to: nat, cost: real, elevated: bool, dir: Direction)

  /** Everything a search reads but does not change. `allowed` is the
      hierarchical filter (true everywhere for a plain search); `dist` stands
      for Vector3.Distance. */
  datatype Ctx = Ctx(
    arcs: seq<seq<Arc>>,
    pos: seq<Vec3>,
    dist: (Vec3, Vec3) -> real,
    weight: real,
    allowed: seq<bool>,
    jumping: bool,
    penalize: bool,
    start: nat,
    goal: nat)

  /** The search bookkeeping of one vertex. `via` is the edge (or portal) of
      the parent; a reset does not clear it. */
  datatype Mark = Mark(status: SearchStatus, g: Ext, h: Ext, f: Ext, parent: Option<nat>, via: Option<Arc>)

  ghost predicate WellFormed(ctx: Ctx) {
    && |ctx.pos| == |ctx.arcs| && |ctx.allowed| == |ctx.arcs|
    && ctx.start < |ctx.arcs| && ctx.goal < |ctx.arcs|
    && forall v, a :: 0 <= v < |ctx.arcs| && a in ctx.arcs[v] ==> a.to < |ctx.arcs| && a.to != v
  }

  /** An arc the search may follow: its far end passes the filter and, unless
      jumping, it is not Elevated. */
  predicate Usable(ctx: Ctx, a: Arc)
    requires a.to < |ctx.allowed|
  {
    ctx.allowed[a.to] && (ctx.jumping || !a.elevated)
  }

  function RealAbs(x: real): (r: real)
    ensures r >= 0.0 && (r == x || r == -x)
  {
    if x < 0.0 then -x else x
  }

  /** Half the arc's cost when it turns away from the direction of the
      vertex's own parent edge; nothing when not penalising or without one. */
  function Penalty(ctx: Ctx, prev: Option<Arc>, a: Arc): (p: real)
    ensures !ctx.penalize || prev.None? ==> p == 0.0
    ensures ctx.penalize && prev.Some? && prev.value.dir != a.dir ==> p == a.cost * 0.5
  {
    if ctx.penalize && prev.Some? then
      if prev.value.dir == a.dir then 0.0 else a.cost * 0.5
    else 0.0
  }

  /** Discovered vertices carry finite costs. */
  ghost predicate FiniteCosts(m: seq<Mark>) {
    forall w :: 0 <= w < |m| && m[w].status != Unvisited ==> m[w].g.Fin? && m[w].h.Fin? && m[w].f.Fin?
  }

  /** What looking along one arc does. */
  datatype Outcome = Discover(w: nat, mark: Mark) | Improve(w: nat, mark: Mark) | Skip

  /** One pass of the inner loop of the search from vertex `v` along arc `a`,
      as the source writes it: an Elevated arc is refused to an unseen vertex
      when not jumping, but still used to improve a vertex on the open list. */
  function VisitAsWritten(ctx: Ctx, m: seq<Mark>, v: nat, a: Arc): (r: Outcome)
    requires WellFormed(ctx) && |m| == |ctx.arcs| && v < |m| && a in ctx.arcs[v]
    requires m[v].g.Fin? && FiniteCosts(m)
    ensures !ctx.allowed[a.to] ==> r.Skip?
    ensures ctx.allowed[a.to] && m[a.to].status == Unvisited ==> (r.Discover? <==> !(a.elevated && !ctx.jumping))
    ensures m[a.to].status != Unvisited && m[a.to].status != OpenList ==> r.Skip?
    ensures r.Discover? ==> && r.w == a.to && m[a.to].status == Unvisited
                            && r.mark.status == OpenList && r.mark.parent == Some(v) && r.mark.via == Some(a)
                            && r.mark.g.Fin? && r.mark.h.Fin? && r.mark.f.Fin?
    ensures r.Improve? ==> && r.w == a.to && m[a.to].status == OpenList && ctx.allowed[a.to]
                           && r.mark.status == OpenList && r.mark.parent == Some(v) && r.mark.via == Some(a)
                           && r.mark.g.Fin? && r.mark.h == m[a.to].h && r.mark.f.Fin?
                           && r.mark.f.Less(m[a.to].f)
  {
    var w := a.to;
    var pen := Penalty(ctx, m[v].via, a);
    if !ctx.allowed[w] then Skip
    else if m[w].status == Unvisited then
      if a.elevated && !ctx.jumping then Skip
      else
        var g := m[v].g.v + a.cost;
        var h := RealAbs(ctx.dist(ctx.pos[w], ctx.pos[ctx.goal])) * ctx.weight;
        Discover(w, Mark(OpenList, Fin(g), Fin(h), Fin(g + h + pen), Some(v), Some(a)))
    else if m[w].status == OpenList then
      var g := m[v].g.v + a.cost;
      var f := g + m[w].h.v + pen;
      if f < m[w].f.v then Improve(w, m[w].(g := Fin(g), f := Fin(f), parent := Some(v), via := Some(a)))
      else Skip
    else Skip
  }

  /** The as-written inner loop lets an Elevated edge become a vertex's parent
      edge without jumping: vertex 1 is on the open list with f = 100, and
      the Elevated arc 0 -> 1 of cost 1 offers f = 1. */
  lemma VisitAsWrittenUsesElevated()
    ensures var a := Arc(0, 1, 1.0, true, W);
            var ctx := Ctx([[a], []], [Vec3(0.0, 0.0, 0.0), Vec3(1.0, 0.0, 0.0)], (p, q) => 0.0,
                           1.0, [true, true], false, false, 0, 1);
            var m := [Mark(OpenList, Fin(0.0), Fin(0.0), Fin(0.0), Option.None, Option.None),
                      Mark(OpenList, Fin(5.0), Fin(0.0), Fin(100.0), Option.None, Option.None)];
            && WellFormed(ctx) && FiniteCosts(m)
            && !Usable(ctx, a)
            && VisitAsWritten(ctx, m, 0, a) == Improve(1, m[1].(g := Fin(1.0), f := Fin(1.0), parent := Some(0), via := Some(a)))
  {
    var a := Arc(0, 1, 1.0, true, W);
    var ctx := Ctx([[a], []], [Vec3(0.0, 0.0, 0.0), Vec3(1.0, 0.0, 0.0)], (p, q) => 0.0,
                   1.0, [true, true], false, false, 0, 1);
    assert forall v, b :: 0 <= v < |ctx.arcs| && b in ctx.arcs[v] ==> v == 0 && b == a;
  }

  /** The inner loop with Elevated arcs refused entirely when not jumping, as
      the comment at the refusal says is intended. The search below uses this one. */
  function Visit(ctx: Ctx, m: seq<Mark>, v: nat, a: Arc): (r: Outcome)
    requires WellFormed(ctx) && |m| == |ctx.arcs| && v < |m| && a in ctx.arcs[v]
    requires m[v].g.Fin? && FiniteCosts(m)
    ensures !Usable(ctx, a) ==> r.Skip?
    ensures Usable(ctx, a) && m[a.to].status == Unvisited ==> r.Discover?
    ensures m[a.to].status != Unvisited && m[a.to].status != OpenList ==> r.Skip?
    ensures r.Discover? ==> && r.w == a.to && m[a.to].status == Unvisited
                            && r.mark.status == OpenList && r.mark.parent == Some(v) && r.mark.via == Some(a)
                            && r.mark.g.Fin? && r.mark.h.Fin? && r.mark.f.Fin?
    ensures r.Improve? ==> && r.w == a.to && m[a.to].status == OpenList && Usable(ctx, a)
                           && r.mark.status == OpenList && r.mark.parent == Some(v) && r.mark.via == Some(a)
                           && r.mark.g.Fin? && r.mark.h == m[a.to].h && r.mark.f.Fin?
                           && r.mark.f.Less(m[a.to].f)
  {
    if !Usable(ctx, a) then Skip else VisitAsWritten(ctx, m, v, a)
  }

  /** Where the two differ: only on unusable arcs to open vertices. */
  lemma VisitCorrectionOnlyOnElevated(ctx: Ctx, m: seq<Mark>, v: nat, a: Arc)
    requires WellFormed(ctx) && |m| == |ctx.arcs| && v < |m| && a in ctx.arcs[v]
    requires m[v].g.Fin? && FiniteCosts(m)
    ensures Visit(ctx, m, v, a) != VisitAsWritten(ctx, m, v, a) ==>
              ctx.allowed[a.to] && a.elevated && !ctx.jumping && m[a.to].status == OpenList
  {
  }

  function Apply(m: seq<Mark>, r: Outcome): seq<Mark>
    requires r.Skip? || r.w < |m|
  {
    if r.Skip? then m else m[r.w := r.mark]
  }

  // ---------------------------------------------------------------------------
  // Counting unseen vertices, for termination.

  /** The number of unseen vertices below `n`. */
  function Unseen(m: seq<Mark>, n: nat): nat
    requires n <= |m|
  {
    if n == 0 then 0 else Unseen(m, n - 1) + (if m[n - 1].status == Unvisited then 1 else 0)
  }

  lemma {:induction false} UnseenUpdate(m: seq<Mark>, n: nat, w: nat, x: Mark)
    requires n <= |m| && w < |m|
    ensures Unseen(m[w := x], n) ==
              if w >= n then Unseen(m, n)
              else Unseen(m, n) - (if m[w].status == Unvisited then 1 else 0) + (if x.status == Unvisited then 1 else 0)
    decreases n
  {
    if n > 0 {
      UnseenUpdate(m, n - 1, w, x);
    }
  }

  lemma {:induction false} UnseenPositive(m: seq<Mark>, n: nat, w: nat)
    requires n <= |m| && w < n && m[w].status == Unvisited
    ensures Unseen(m, n) > 0
    decreases n
  {
    if w < n - 1 {
      UnseenPositive(m, n - 1, w);
    }
  }

  // ---------------------------------------------------------------------------
  // Search invariants.

  /** Vertex `w` was reached along a usable arc from its parent, which is
      closed or is `cur`, the vertex under expansion; a closed vertex was
      closed after its parent. */
  ghost predicate ParentOk(ctx: Ctx, m: seq<Mark>, order: seq<nat>, cur: Option<nat>, w: nat)
    requires WellFormed(ctx) && |m| == |ctx.arcs| && |order| == |m| && w < |m|
  {
    && m[w].parent.Some? && m[w].via.Some?
    && var p := m[w].parent.value;
       var a := m[w].via.value;
       && p < |m| && a in ctx.arcs[p] && a.to == w && Usable(ctx, a)
       && (m[p].status == ClosedList || cur == Some(p))
       && (m[w].status == ClosedList ==> m[p].status == ClosedList && order[p] < order[w])
  }

  /** Every usable arc out of `u` leads to a vertex already seen. */
  ghost predicate Exhausted(ctx: Ctx, m: seq<Mark>, u: nat)
    requires WellFormed(ctx) && |m| == |ctx.arcs| && u < |m|
  {
    forall a :: a in ctx.arcs[u] && Usable(ctx, a) ==> m[a.to].status != Unvisited
  }

  ghost predicate Shape(ctx: Ctx, m: seq<Mark>, keys: seq<real>, order: seq<nat>) {
    WellFormed(ctx) && |m| == |ctx.arcs| && |keys| == |m| && |order| == |m|
  }

  /** The start is seen, the goal is never closed, seen vertices have finite
      costs, and a vertex the filter excludes is never seen. */
  ghost predicate Statuses(ctx: Ctx, m: seq<Mark>)
    requires WellFormed(ctx) && |m| == |ctx.arcs|
  {
    && FiniteCosts(m)
    && m[ctx.start].status != Unvisited
    && m[ctx.goal].status != ClosedList
    && (forall w :: 0 <= w < |m| ==> m[w].status in {Unvisited, OpenList, ClosedList})
    && (forall w :: 0 <= w < |m| && w != ctx.start && !ctx.allowed[w] ==> m[w].status == Unvisited)
  }

  ghost predicate ParentsOk(ctx: Ctx, m: seq<Mark>, order: seq<nat>, cur: Option<nat>)
    requires WellFormed(ctx) && |m| == |ctx.arcs| && |order| == |m|
  {
    forall w :: 0 <= w < |m| && w != ctx.start && m[w].status != Unvisited ==> ParentOk(ctx, m, order, cur, w)
  }

  /** Closed vertices were closed before time `t` and have all their usable
      arcs looked at. */
  ghost predicate ClosedOk(ctx: Ctx, m: seq<Mark>, order: seq<nat>, t: nat)
    requires WellFormed(ctx) && |m| == |ctx.arcs| && |order| == |m|
  {
    forall u :: 0 <= u < |m| && m[u].status == ClosedList ==> order[u] < t && Exhausted(ctx, m, u)
  }

  ghost predicate Inv(ctx: Ctx, m: seq<Mark>, keys: seq<real>, order: seq<nat>, t: nat, cur: Option<nat>) {
    && Shape(ctx, m, keys, order)
    && Statuses(ctx, m)
    && ParentsOk(ctx, m, order, cur)
    && ClosedOk(ctx, m, order, t)
  }

  /** The open list holds exactly one entry for each open vertex, under the
      key it was enqueued with, except for the vertex `cur` under expansion,
      whose entry has already been taken. */
  ghost predicate QueueHolds(q: Queue<nat>, m: seq<Mark>, keys: seq<real>, cur: Option<nat>)
    requires |m| == |keys|
  {
    && Valid(q)
    && (forall e :: e in Contents(q) ==>
          e.data < |m| && m[e.data].status == OpenList && keys[e.data] == e.key
          && cur != Some(e.data) && Contents(q)[e] == 1)
    && (forall w :: 0 <= w < |m| && m[w].status == OpenList && cur != Some(w) ==> HeapNode(keys[w], w) in Contents(q))
  }

  /** The outcome of one arc applied to the state: a discovered vertex joins
      the open list under its f cost. */
  method Step(ctx: Ctx, m: seq<Mark>, q: Queue<nat>, keys: seq<real>, ghost order: seq<nat>, ghost t: nat,
              v: nat, a: Arc)
    returns (m': seq<Mark>, q': Queue<nat>, keys': seq<real>)
    requires Inv(ctx, m, keys, order, t, Some(v)) && QueueHolds(q, m, keys, Some(v))
    requires v < |m| && m[v].status == OpenList && a in ctx.arcs[v]
    ensures Inv(ctx, m', keys', order, t, Some(v)) && QueueHolds(q', m', keys', Some(v))
    ensures Usable(ctx, a) ==> m'[a.to].status != Unvisited
    ensures Grown(m, m')
    ensures Unseen(m', |m|) <= Unseen(m, |m|)
    ensures Unseen(m', |m|) == Unseen(m, |m|) ==> q' == q
  {
    var r := Visit(ctx, m, v, a);
    m', q', keys' := m, q, keys;
    if r.Discover? {
      var f := r.mark.f.v;
      q' := Enqueue(q, r.w, f);
      keys' := keys[r.w := f];
      m' := m[r.w := r.mark];
      DiscoverKeepsQueue(q, q', m, keys, v, r.w, r.mark, f);
      UnseenUpdate(m, |m|, r.w, r.mark);
      StepKeepsInv(ctx, m, keys, order, t, v, a, r.mark, keys');
      OpeningKeepsSeen(m, r.w, r.mark);
    } else if r.Improve? {
      m' := m[r.w := r.mark];
      ImproveKeepsQueue(q, m, keys, v, r.w, r.mark);
      UnseenUpdate(m, |m|, r.w, r.mark);
      StepKeepsInv(ctx, m, keys, order, t, v, a, r.mark, keys');
      OpeningKeepsSeen(m, r.w, r.mark);
    }
  }

  lemma ImproveKeepsQueue(q: Queue<nat>, m: seq<Mark>, keys: seq<real>, v: nat, w: nat, x: Mark)
    requires |m| == |keys| && QueueHolds(q, m, keys, Some(v))
    requires w < |m| && m[w].status == OpenList && x.status == OpenList
    ensures QueueHolds(q, m[w := x], keys, Some(v))
  {
  }

  lemma OpeningKeepsSeen(m: seq<Mark>, w: nat, x: Mark)
    requires w < |m| && m[w].status in {Unvisited, OpenList} && x.status == OpenList
    ensures Grown(m, m[w := x])
  {
  }

  lemma DiscoverKeepsQueue(q: Queue<nat>, q': Queue<nat>, m: seq<Mark>, keys: seq<real>, v: nat, w: nat, x: Mark, f: real)
    requires |m| == |keys| && QueueHolds(q, m, keys, Some(v))
    requires w < |m| && w != v && m[w].status == Unvisited && x.status == OpenList
    requires Valid(q') && Contents(q') == Contents(q) + multiset{HeapNode(f, w)}
    ensures QueueHolds(q', m[w := x], keys[w := f], Some(v))
  {
    assert HeapNode(f, w) !in Contents(q);
  }

  /** Marking `w` open with parent `v` along the usable arc `a`. */
  ghost predicate Opens(ctx: Ctx, m: seq<Mark>, v: nat, a: Arc, x: Mark)
    requires WellFormed(ctx) && |m| == |ctx.arcs| && v < |m|
  {
    && a in ctx.arcs[v] && Usable(ctx, a)
    && m[a.to].status in {Unvisited, OpenList}
    && x.status == OpenList && x.parent == Some(v) && x.via == Some(a)
    && x.g.Fin? && x.h.Fin? && x.f.Fin?
  }

  lemma StepKeepsInv(ctx: Ctx, m: seq<Mark>, keys: seq<real>, order: seq<nat>, t: nat, v: nat, a: Arc, x: Mark,
                     keys': seq<real>)
    requires Inv(ctx, m, keys, order, t, Some(v))
    requires v < |m| && m[v].status == OpenList && Opens(ctx, m, v, a, x) && |keys'| == |m|
    ensures Inv(ctx, m[a.to := x], keys', order, t, Some(v))
  {
    StepKeepsStatuses(ctx, m, v, a, x);
    StepKeepsParents(ctx, m, order, v, a, x);
    StepKeepsClosed(ctx, m, order, t, v, a, x);
  }

  lemma StepKeepsStatuses(ctx: Ctx, m: seq<Mark>, v: nat, a: Arc, x: Mark)
    requires WellFormed(ctx) && |m| == |ctx.arcs| && v < |m| && Statuses(ctx, m) && Opens(ctx, m, v, a, x)
    ensures Statuses(ctx, m[a.to := x])
  {
  }

  lemma StepKeepsParents(ctx: Ctx, m: seq<Mark>, order: seq<nat>, v: nat, a: Arc, x: Mark)
    requires WellFormed(ctx) && |m| == |ctx.arcs| && |order| == |m| && v < |m|
    requires m[v].status == OpenList && ParentsOk(ctx, m, order, Some(v)) && Opens(ctx, m, v, a, x)
    ensures ParentsOk(ctx, m[a.to := x], order, Some(v))
  {
    var m' := m[a.to := x];
    forall y | 0 <= y < |m'| && y != ctx.start && m'[y].status != Unvisited
      ensures ParentOk(ctx, m', order, Some(v), y)
    {
      if y != a.to {
        assert ParentOk(ctx, m, order, Some(v), y);
      }
    }
  }

  lemma StepKeepsClosed(ctx: Ctx, m: seq<Mark>, order: seq<nat>, t: nat, v: nat, a: Arc, x: Mark)
    requires WellFormed(ctx) && |m| == |ctx.arcs| && |order| == |m| && v < |m|
    requires ClosedOk(ctx, m, order, t) && Opens(ctx, m, v, a, x)
    ensures ClosedOk(ctx, m[a.to := x], order, t)
  {
    var m' := m[a.to := x];
    forall u | 0 <= u < |m'| && m'[u].status == ClosedList
      ensures order[u] < t && Exhausted(ctx, m', u)
    {
      assert m[u] == m'[u];
      forall b | b in ctx.arcs[u] && Usable(ctx, b)
        ensures m'[b.to].status != Unvisited
      {
        assert m[b.to].status != Unvisited;
      }
    }
  }

  /** Expanding `v` looks along each of its arcs in order; afterwards every
      usable arc out of `v` leads to a seen vertex, and nothing closed changed. */
  method Expand(ctx: Ctx, m0: seq<Mark>, q0: Queue<nat>, keys0: seq<real>, ghost order: seq<nat>, ghost t: nat, v: nat)
    returns (m: seq<Mark>, q: Queue<nat>, keys: seq<real>)
    requires Inv(ctx, m0, keys0, order, t, Some(v)) && QueueHolds(q0, m0, keys0, Some(v))
    requires v < |m0| && m0[v].status == OpenList
    ensures Inv(ctx, m, keys, order, t, Some(v)) && QueueHolds(q, m, keys, Some(v))
    ensures Exhausted(ctx, m, v)
    ensures Grown(m0, m)
    ensures Unseen(m, |m|) <= Unseen(m0, |m0|)
    ensures Unseen(m, |m|) == Unseen(m0, |m0|) ==> q == q0
  {
    m, q, keys := m0, q0, keys0;
    var arcs := ctx.arcs[v];
    for i := 0 to |arcs|
      invariant Inv(ctx, m, keys, order, t, Some(v)) && QueueHolds(q, m, keys, Some(v))
      invariant m[v].status == OpenList
      invariant Reached(ctx, m, v, i)
      invariant Grown(m0, m)
      invariant Unseen(m, |m|) <= Unseen(m0, |m0|)
      invariant Unseen(m, |m|) == Unseen(m0, |m0|) ==> q == q0
    {
      ghost var before := m;
      m, q, keys := Step(ctx, m, q, keys, order, t, v, arcs[i]);
      ReachedStep(ctx, before, m, v, i);
      GrownTrans(m0, before, m);
    }
    ReachedAll(ctx, m, v);
  }

  lemma ReachedAll(ctx: Ctx, m: seq<Mark>, v: nat)
    requires WellFormed(ctx) && |m| == |ctx.arcs| && v < |m| && Reached(ctx, m, v, |ctx.arcs[v]|)
    ensures Exhausted(ctx, m, v)
  {
    assert ctx.arcs[v][..|ctx.arcs[v]|] == ctx.arcs[v];
  }

  /** Every vertex seen in `m` keeps its status in `m'`. */
  ghost predicate Grown(m: seq<Mark>, m': seq<Mark>) {
    |m'| == |m| && forall w :: 0 <= w < |m| && m[w].status != Unvisited ==> m'[w].status == m[w].status
  }

  lemma GrownTrans(m: seq<Mark>, m': seq<Mark>, m'': seq<Mark>)
    requires Grown(m, m') && Grown(m', m'')
    ensures Grown(m, m'')
  {
  }

  /** The usable arcs among the first `i` of `v` lead to seen vertices. */
  ghost predicate Reached(ctx: Ctx, m: seq<Mark>, v: nat, i: nat)
    requires WellFormed(ctx) && |m| == |ctx.arcs| && v < |m| && i <= |ctx.arcs[v]|
  {
    forall a :: a in ctx.arcs[v][..i] && Usable(ctx, a) ==> m[a.to].status != Unvisited
  }

  lemma ReachedStep(ctx: Ctx, m: seq<Mark>, m': seq<Mark>, v: nat, i: nat)
    requires WellFormed(ctx) && |m| == |ctx.arcs| && |m'| == |m| && v < |m| && i < |ctx.arcs[v]|
    requires Reached(ctx, m, v, i)
    requires Grown(m, m')
    requires Usable(ctx, ctx.arcs[v][i]) ==> m'[ctx.arcs[v][i].to].status != Unvisited
    ensures Reached(ctx, m', v, i + 1)
  {
    var arcs := ctx.arcs[v];
    forall a | a in arcs[..i + 1] && Usable(ctx, a)
      ensures m'[a.to].status != Unvisited
    {
      if a != arcs[i] {
        assert a in arcs[..i] by {
          var j :| 0 <= j < i + 1 && arcs[..i + 1][j] == a;
        }
      }
    }
  }

  lemma InvWiden(ctx: Ctx, m: seq<Mark>, keys: seq<real>, order: seq<nat>, t: nat, v: nat)
    requires Inv(ctx, m, keys, order, t, Option.None)
    ensures Inv(ctx, m, keys, order, t, Some(v))
  {
    forall x | 0 <= x < |m| && x != ctx.start && m[x].status != Unvisited
      ensures ParentOk(ctx, m, order, Some(v), x)
    {
      assert ParentOk(ctx, m, order, Option.None, x);
    }
  }

  lemma CloseKeepsQueue(q: Queue<nat>, m: seq<Mark>, keys: seq<real>, v: nat)
    requires |m| == |keys| && v < |m| && QueueHolds(q, m, keys, Some(v))
    ensures QueueHolds(q, m[v := m[v].(status := ClosedList)], keys, Option.None)
  {
  }

  /** Closing `v` after its expansion keeps the invariants with no vertex in progress. */
  lemma CloseKeepsInv(ctx: Ctx, m: seq<Mark>, keys: seq<real>, order: seq<nat>, t: nat, v: nat)
    requires Inv(ctx, m, keys, order, t, Some(v))
    requires v < |m| && v != ctx.goal && m[v].status == OpenList && Exhausted(ctx, m, v)
    ensures Inv(ctx, m[v := m[v].(status := ClosedList)], keys, order[v := t], t + 1, Option.None)
  {
    CloseKeepsStatuses(ctx, m, v);
    CloseKeepsParents(ctx, m, order, t, v);
    CloseKeepsClosed(ctx, m, order, t, v);
  }

  lemma CloseKeepsStatuses(ctx: Ctx, m: seq<Mark>, v: nat)
    requires WellFormed(ctx) && |m| == |ctx.arcs| && v < |m| && Statuses(ctx, m)
    requires v != ctx.goal && m[v].status == OpenList
    ensures Statuses(ctx, m[v := m[v].(status := ClosedList)])
  {
  }

  lemma CloseKeepsParents(ctx: Ctx, m: seq<Mark>, order: seq<nat>, t: nat, v: nat)
    requires WellFormed(ctx) && |m| == |ctx.arcs| && |order| == |m| && v < |m|
    requires ParentsOk(ctx, m, order, Some(v)) && ClosedOk(ctx, m, order, t) && m[v].status == OpenList
    ensures ParentsOk(ctx, m[v := m[v].(status := ClosedList)], order[v := t], Option.None)
  {
    var m' := m[v := m[v].(status := ClosedList)];
    var order' := order[v := t];
    forall x | 0 <= x < |m'| && x != ctx.start && m'[x].status != Unvisited
      ensures ParentOk(ctx, m', order', Option.None, x)
    {
      assert ParentOk(ctx, m, order, Some(v), x);
      var p := m[x].parent.value;
      assert p != x;
      if x != v && m[x].status == ClosedList {
        assert p != v;
      }
    }
  }

  lemma CloseKeepsClosed(ctx: Ctx, m: seq<Mark>, order: seq<nat>, t: nat, v: nat)
    requires WellFormed(ctx) && |m| == |ctx.arcs| && |order| == |m| && v < |m|
    requires ClosedOk(ctx, m, order, t) && m[v].status == OpenList && Exhausted(ctx, m, v)
    ensures ClosedOk(ctx, m[v := m[v].(status := ClosedList)], order[v := t], t + 1)
  {
    var m' := m[v := m[v].(status := ClosedList)];
    forall u | 0 <= u < |m'| && m'[u].status == ClosedList
      ensures order[v := t][u] < t + 1 && Exhausted(ctx, m', u)
    {
      assert Exhausted(ctx, m, u);
      forall b | b in ctx.arcs[u] && Usable(ctx, b)
        ensures m'[b.to].status != Unvisited
      {
        assert m[b.to].status != Unvisited;
      }
    }
  }

  // ---------------------------------------------------------------------------
  // Results.

  /** A found route, goal first: `links[i]` is the arc from `nodes[i + 1]`
      into `nodes[i]`. */
  datatype Trail = Trail(nodes: seq<nat>, links: seq<Arc>)

  ghost predicate IsTrail(ctx: Ctx, tr: Trail)
    requires WellFormed(ctx)
  {
    && |tr.nodes| >= 1 && |tr.links| == |tr.nodes| - 1
    && tr.nodes[0] == ctx.goal && tr.nodes[|tr.nodes| - 1] == ctx.start
    && (forall i :: 0 <= i < |tr.nodes| ==> tr.nodes[i] < |ctx.arcs|)
    && (forall i :: 0 <= i < |tr.links| ==>
          tr.links[i] in ctx.arcs[tr.nodes[i + 1]] && tr.links[i].to == tr.nodes[i] && Usable(ctx, tr.links[i]))
  }

  /** No vertex appears twice on the trail. */
  ghost predicate Simple(tr: Trail) {
    forall i, j :: 0 <= i < j < |tr.nodes| ==> tr.nodes[i] != tr.nodes[j]
  }

  /** A sequence of vertices from the start, each step along a usable arc. */
  ghost predicate IsWalk(ctx: Ctx, walk: seq<nat>)
    requires WellFormed(ctx)
  {
    && |walk| >= 1 && walk[0] == ctx.start
    && (forall i :: 0 <= i < |walk| ==> walk[i] < |ctx.arcs|)
    && (forall i :: 0 <= i < |walk| - 1 ==> exists a :: a in ctx.arcs[walk[i]] && a.to == walk[i + 1] && Usable(ctx, a))
  }

  /** The closing rank: closed vertices by closing order, others above all of them. */
  ghost function Rank(m: seq<Mark>, order: seq<nat>, t: nat, u: nat): nat
    requires |m| == |order| && u < |m|
  {
    if m[u].status == ClosedList then order[u] else t
  }

  /** Every seen vertex but the start has a parent that is seen, lower in
      rank, and joined to it by a usable arc. */
  ghost predicate Chained(ctx: Ctx, m: seq<Mark>, order: seq<nat>, t: nat)
    requires WellFormed(ctx) && |m| == |ctx.arcs| && |order| == |m|
  {
    forall cur :: 0 <= cur < |m| && cur != ctx.start && m[cur].status != Unvisited ==> ParentStep(ctx, m, order, t, cur)
  }

  ghost predicate ParentStep(ctx: Ctx, m: seq<Mark>, order: seq<nat>, t: nat, cur: nat)
    requires WellFormed(ctx) && |m| == |ctx.arcs| && |order| == |m| && cur < |m|
  {
    && m[cur].parent.Some? && m[cur].via.Some?
    && var p := m[cur].parent.value;
       var a := m[cur].via.value;
       && p < |m| && m[p].status != Unvisited
       && a in ctx.arcs[p] && a.to == cur && Usable(ctx, a)
       && Rank(m, order, t, p) < Rank(m, order, t, cur)
  }

  lemma InvChained(ctx: Ctx, m: seq<Mark>, keys: seq<real>, order: seq<nat>, t: nat)
    requires Inv(ctx, m, keys, order, t, Option.None)
    ensures Chained(ctx, m, order, t)
  {
    forall cur | 0 <= cur < |m| && cur != ctx.start && m[cur].status != Unvisited
      ensures ParentStep(ctx, m, order, t, cur)
    {
      assert ParentOk(ctx, m, order, Option.None, cur);
    }
  }

  /** Following parents from the goal back to the start, as the path
      construction does; each step goes to a vertex closed earlier. */
  method Reconstruct(ctx: Ctx, m: seq<Mark>, ghost order: seq<nat>, ghost t: nat)
    returns (tr: Trail)
    requires WellFormed(ctx) && |m| == |ctx.arcs| && |order| == |m|
    requires Chained(ctx, m, order, t) && m[ctx.goal].status != Unvisited
    ensures IsTrail(ctx, tr) && Simple(tr)
    ensures forall i :: 0 <= i < |tr.links| ==>
              m[tr.nodes[i]].parent == Some(tr.nodes[i + 1]) && m[tr.nodes[i]].via == Some(tr.links[i])
  {
    var cur: nat := ctx.goal;
    var nodes: seq<nat>, links: seq<Arc> := [cur], [];
    while cur != ctx.start
      invariant cur < |m| && m[cur].status != Unvisited
      invariant Linked(ctx, m, nodes, links) && nodes[0] == ctx.goal && nodes[|nodes| - 1] == cur
      invariant Descending(m, order, t, nodes)
      decreases Rank(m, order, t, cur)
    {
      assert ParentStep(ctx, m, order, t, cur);
      var p := m[cur].parent.value;
      var a := m[cur].via.value;
      Extend(ctx, m, order, t, nodes, links);
      nodes, links := nodes + [p], links + [a];
      cur := p;
    }
    tr := Trail(nodes, links);
    DescendingSimple(m, order, t, nodes);
  }

  /** Consecutive trail entries are joined by the recorded parent arcs. */
  ghost predicate Linked(ctx: Ctx, m: seq<Mark>, nodes: seq<nat>, links: seq<Arc>)
    requires WellFormed(ctx) && |m| == |ctx.arcs|
  {
    && |nodes| >= 1 && |links| == |nodes| - 1
    && (forall i :: 0 <= i < |nodes| ==> nodes[i] < |m|)
    && (forall i :: 0 <= i < |links| ==>
          && links[i] in ctx.arcs[nodes[i + 1]] && links[i].to == nodes[i] && Usable(ctx, links[i])
          && m[nodes[i]].parent == Some(nodes[i + 1]) && m[nodes[i]].via == Some(links[i]))
  }

  ghost predicate Descending(m: seq<Mark>, order: seq<nat>, t: nat, nodes: seq<nat>)
    requires |order| == |m|
  {
    forall i, j :: 0 <= i < j < |nodes| && nodes[i] < |m| && nodes[j] < |m| ==>
      Rank(m, order, t, nodes[i]) > Rank(m, order, t, nodes[j])
  }

  lemma Extend(ctx: Ctx, m: seq<Mark>, order: seq<nat>, t: nat, nodes: seq<nat>, links: seq<Arc>)
    requires WellFormed(ctx) && |m| == |ctx.arcs| && |order| == |m|
    requires Linked(ctx, m, nodes, links) && Descending(m, order, t, nodes)
    requires ParentStep(ctx, m, order, t, nodes[|nodes| - 1])
    ensures Linked(ctx, m, nodes + [m[nodes[|nodes| - 1]].parent.value], links + [m[nodes[|nodes| - 1]].via.value])
    ensures Descending(m, order, t, nodes + [m[nodes[|nodes| - 1]].parent.value])
  {
    var cur := nodes[|nodes| - 1];
    var nodes' := nodes + [m[cur].parent.value];
    var links' := links + [m[cur].via.value];
    forall i | 0 <= i < |links'|
      ensures && links'[i] in ctx.arcs[nodes'[i + 1]] && links'[i].to == nodes'[i] && Usable(ctx, links'[i])
              && m[nodes'[i]].parent == Some(nodes'[i + 1]) && m[nodes'[i]].via == Some(links'[i])
    {
      if i < |links| {
        assert nodes'[i] == nodes[i] && nodes'[i + 1] == nodes[i + 1] && links'[i] == links[i];
      }
    }
    forall i, j | 0 <= i < j < |nodes'| && nodes'[i] < |m| && nodes'[j] < |m|
      ensures Rank(m, order, t, nodes'[i]) > Rank(m, order, t, nodes'[j])
    {
      if j == |nodes| && i < |nodes| - 1 {
        assert Rank(m, order, t, nodes[i]) > Rank(m, order, t, cur);
      }
    }
  }

  lemma DescendingSimple(m: seq<Mark>, order: seq<nat>, t: nat, nodes: seq<nat>)
    requires |order| == |m| && Descending(m, order, t, nodes)
    requires forall i :: 0 <= i < |nodes| ==> nodes[i] < |m|
    ensures Simple(Trail(nodes, []))
  {
  }


  /** With no open vertex left, every walk from the start stays on closed
      vertices. */
  /** Every vertex is either unseen or closed. */
  ghost predicate Settled(m: seq<Mark>) {
    forall w :: 0 <= w < |m| ==> m[w].status in {Unvisited, ClosedList}
  }

  lemma {:induction false} WalkStaysClosed(ctx: Ctx, m: seq<Mark>, order: seq<nat>, t: nat, walk: seq<nat>, k: nat)
    requires WellFormed(ctx) && |m| == |ctx.arcs| && |order| == |m| && IsWalk(ctx, walk)
    requires ClosedOk(ctx, m, order, t) && Settled(m) && m[ctx.start].status == ClosedList
    requires k < |walk|
    ensures m[walk[k]].status == ClosedList
    decreases k
  {
    if k > 0 {
      WalkStaysClosed(ctx, m, order, t, walk, k - 1);
      var a :| a in ctx.arcs[walk[k - 1]] && a.to == walk[k] && Usable(ctx, a);
      assert Exhausted(ctx, m, walk[k - 1]);
    }
  }


  /** With the open list empty, no walk along usable arcs reaches the goal. */
  lemma NoRoute(ctx: Ctx, m: seq<Mark>, keys: seq<real>, order: seq<nat>, t: nat, q: Queue<nat>)
    requires Inv(ctx, m, keys, order, t, Option.None) && QueueHolds(q, m, keys, Option.None)
    requires PriorityQueue.IsEmpty(q)
    ensures forall walk :: IsWalk(ctx, walk) ==> walk[|walk| - 1] != ctx.goal
  {
    IsEmptyMeansNoJobs(q);
    assert Settled(m);
    forall walk | IsWalk(ctx, walk)
      ensures walk[|walk| - 1] != ctx.goal
    {
      WalkStaysClosed(ctx, m, order, t, walk, |walk| - 1);
    }
  }


  /** One turn of the search loop: take the open vertex of least key; stop
      with the route if it is the goal, otherwise expand and close it. */
  method Round(ctx: Ctx, m: seq<Mark>, q: Queue<nat>, keys: seq<real>, ghost order: seq<nat>, ghost t: nat)
    returns (found: Option<Trail>, m': seq<Mark>, q': Queue<nat>, keys': seq<real>, ghost order': seq<nat>, ghost t': nat)
    requires Inv(ctx, m, keys, order, t, Option.None) && QueueHolds(q, m, keys, Option.None)
    requires !PriorityQueue.IsEmpty(q)
    ensures found.Some? ==> m' == m && IsTrail(ctx, found.value) && Simple(found.value)
    ensures found.Some? ==> forall i :: 0 <= i < |found.value.links| ==>
              m[found.value.nodes[i]].parent == Some(found.value.nodes[i + 1]) && m[found.value.nodes[i]].via == Some(found.value.links[i])
    ensures found.None? ==> Inv(ctx, m', keys', order', t', Option.None) && QueueHolds(q', m', keys', Option.None)
    ensures found.None? ==> Unseen(m', |m'|) < Unseen(m, |m|) || (Unseen(m', |m'|) == Unseen(m, |m|) && |q'.jobs| < |q.jobs|)
  {
    var v;
    v, q' := TakeBest(m, q, keys);
    if v == ctx.goal {
      InvChained(ctx, m, keys, order, t);
      var tr := Reconstruct(ctx, m, order, t);
      return Some(tr), m, q', keys, order, t;
    }
    InvWiden(ctx, m, keys, order, t, v);
    m', q', keys', order', t' := ExpandAndClose(ctx, m, q', keys, order, t, v);
    found := Option.None;
  }

  /** Dequeue hands back an open vertex, and the open list loses its entry. */
  method TakeBest(m: seq<Mark>, q: Queue<nat>, keys: seq<real>) returns (v: nat, q': Queue<nat>)
    requires |keys| == |m| && QueueHolds(q, m, keys, Option.None) && !PriorityQueue.IsEmpty(q)
    ensures v < |m| && m[v].status == OpenList
    ensures QueueHolds(q', m, keys, Some(v)) && |q'.jobs| < |q.jobs|
  {
    v, q' := Dequeue(q);
    ghost var p :| HeapNode(p, v) in Contents(q) && Contents(q') == Contents(q) - multiset{HeapNode(p, v)};
    assert |multiset(q'.jobs)| == |multiset(q.jobs)| - 1;
    forall e | e in Contents(q')
      ensures e.data != v
    {
      assert e in Contents(q);
    }
  }

  method ExpandAndClose(ctx: Ctx, m: seq<Mark>, q: Queue<nat>, keys: seq<real>, ghost order: seq<nat>, ghost t: nat, v: nat)
    returns (m': seq<Mark>, q': Queue<nat>, keys': seq<real>, ghost order': seq<nat>, ghost t': nat)
    requires Inv(ctx, m, keys, order, t, Some(v)) && QueueHolds(q, m, keys, Some(v))
    requires v < |m| && v != ctx.goal && m[v].status == OpenList
    ensures Inv(ctx, m', keys', order', t', Option.None) && QueueHolds(q', m', keys', Option.None)
    ensures Unseen(m', |m'|) < Unseen(m, |m|) || (Unseen(m', |m'|) == Unseen(m, |m|) && q' == q)
  {
    var n := |m|;
    m', q', keys' := Expand(ctx, m, q, keys, order, t, v);
    CloseKeepsInv(ctx, m', keys', order, t, v);
    var closed := m'[v].(status := ClosedList);
    CloseKeepsQueue(q', m', keys', v);
    UnseenUpdate(m', n, v, closed);
    m' := m'[v := closed];
    order' := order[v := t];
    t' := t + 1;
  }

  /** The search loop of FindPath and FindRegionPath on freshly reset marks.
      A result is a simple trail from the goal back to the start along usable
      arcs, recorded in the marks' parents; no result means no walk along
      usable arcs reaches the goal. Vertices the filter excludes are never
      entered. */
  method Search(ctx: Ctx, m0: seq<Mark>) returns (r: Option<Trail>, m: seq<Mark>)
    requires WellFormed(ctx) && |m0| == |ctx.arcs|
    requires forall w :: 0 <= w < |m0| ==> m0[w].status == Unvisited
    ensures |m| == |m0|
    ensures r.Some? ==> IsTrail(ctx, r.value) && Simple(r.value)
    ensures r.Some? ==> forall i :: 0 <= i < |r.value.links| ==>
              m[r.value.nodes[i]].parent == Some(r.value.nodes[i + 1]) && m[r.value.nodes[i]].via == Some(r.value.links[i])
    ensures r.None? ==> forall walk :: IsWalk(ctx, walk) ==> walk[|walk| - 1] != ctx.goal
    ensures forall w :: 0 <= w < |m| && w != ctx.start && !ctx.allowed[w] ==> m[w].status == Unvisited
    ensures forall w :: 0 <= w < |m| ==> m[w].status != OnPath
  {
    var keys, q;
    m, q, keys := Start(ctx, m0);
    ghost var order: seq<nat> := seq(|m0|, _ => 0);
    ghost var t: nat := 0;
    while !PriorityQueue.IsEmpty(q)
      invariant Inv(ctx, m, keys, order, t, Option.None) && QueueHolds(q, m, keys, Option.None)
      decreases Unseen(m, |m|), |q.jobs|
    {
      var found;
      found, m, q, keys, order, t := Round(ctx, m, q, keys, order, t);
      if found.Some? {
        return found, m;
      }
    }
    NoRoute(ctx, m, keys, order, t, q);
    r := Option.None;
  }

  /** The start enters the open list with g = 0 and its unweighted distance
      to the goal as h and f. */
  method Start(ctx: Ctx, m0: seq<Mark>) returns (m: seq<Mark>, q: Queue<nat>, keys: seq<real>)
    requires WellFormed(ctx) && |m0| == |ctx.arcs|
    requires forall w :: 0 <= w < |m0| ==> m0[w].status == Unvisited
    ensures Inv(ctx, m, keys, seq(|m0|, _ => 0), 0, Option.None) && QueueHolds(q, m, keys, Option.None)
    ensures m[ctx.start].g == Fin(0.0) && m[ctx.start].f == m[ctx.start].h
    ensures m[ctx.start].h == Fin(RealAbs(ctx.dist(ctx.pos[ctx.start], ctx.pos[ctx.goal])))
  {
    var n := |m0|;
    var h0 := RealAbs(ctx.dist(ctx.pos[ctx.start], ctx.pos[ctx.goal]));
    m := m0[ctx.start := m0[ctx.start].(status := OpenList, g := Fin(0.0), h := Fin(h0), f := Fin(h0))];
    keys := seq(n, _ => 0.0)[ctx.start := h0];
    q := Enqueue(Empty(), ctx.start, h0);
  }
}

=== FILE: behavior_tree.dfy ===
/** The behaviour-tree engine (Assets/BehaviorTreeSystem): behaviours with a
    status and the Tick lifecycle, the Selector and Sequence composites, the
    Invert and Repeat decorators, and leaves that answer a fixed status, as
    MockAction and MockCondition do. A tree is a value; ticking a behaviour
    yields its status and the behaviour with its new state. */
module BehaviorTree {
  import opened Common

  /** BehaviorStatus, in declaration order. */
  datatype Status = Failure | Invalid | Running | Success | Terminated

  /** A behaviour: its status, its depthInTree, and its kind with the kind's
      own state. A leaf answers `answer` from OnUpdate (a plain Action or
      Condition answers Running, the Behavior default); a composite keeps its
      children and the index of its current child; a decorator keeps its
      child, which is null until one is added; Repeat also keeps its maximum
      and its repetitionCount. */
  datatype Node =
    | Leaf(status: Status, depth: int, answer: Status)
    | Selector(status: Status, depth: int, children: seq<Node>, index: int)
    | Sequence(status: Status, depth: int, children: seq<Node>, index: int)
    | Invert(status: Status, depth: int, child: Option<Node>)
    | Repeat(status: Status, depth: int, child: Option<Node>, max: int, count: int)
  {
    predicate IsComposite() { Selector? || Sequence? }
    predicate IsDecorator() { Invert? || Repeat? }
  }

  /** The number of behaviours in a tree; ticking never changes it. */
  function Size(b: Node): nat
    decreases b
  {
    match b
    case Leaf(_, _, _) => 1
    case Selector(_, _, cs, _) => 1 + SizeAll(cs)
    case Sequence(_, _, cs, _) => 1 + SizeAll(cs)
    case Invert(_, _, c) => 1 + (if c.Some? then Size(c.value) else 0)
    case Repeat(_, _, c, _, _) => 1 + (if c.Some? then Size(c.value) else 0)
  }

  function SizeAll(cs: seq<Node>): nat
    decreases cs
  {
    if cs == [] then 0 else SizeAll(cs[..|cs| - 1]) + Size(cs[|cs| - 1])
  }

  lemma {:induction false} SizeAllBound(cs: seq<Node>, i: nat)
    requires i < |cs|
    ensures Size(cs[i]) <= SizeAll(cs)
    decreases |cs|
  {
    if i < |cs| - 1 {
      SizeAllBound(cs[..|cs| - 1], i);
    }
  }

  lemma {:induction false} SizeAllUpdate(cs: seq<Node>, i: nat, c: Node)
    requires i < |cs| && Size(c) == Size(cs[i])
    ensures SizeAll(cs[i := c]) == SizeAll(cs)
    decreases |cs|
  {
    if i < |cs| - 1 {
      SizeAllUpdate(cs[..|cs| - 1], i, c);
      assert cs[i := c][..|cs| - 1] == cs[..|cs| - 1][i := c];
    } else {
      assert cs[i := c][..|cs| - 1] == cs[..|cs| - 1];
    }
  }

  /** A behaviour that can be ticked without a null dereference or an index
      out of range: every composite has a child, every decorator has one,
      and a running composite's current child is one of its children. */
  predicate Runnable(b: Node)
    decreases b
  {
    match b
    case Leaf(_, _, _) => true
    case Selector(st, _, cs, i) =>
      |cs| > 0 && (st == Running ==> 0 <= i < |cs|) && forall k :: 0 <= k < |cs| ==> Runnable(cs[k])
    case Sequence(st, _, cs, i) =>
      |cs| > 0 && (st == Running ==> 0 <= i < |cs|) && forall k :: 0 <= k < |cs| ==> Runnable(cs[k])
    case Invert(_, _, c) => c.Some? && Runnable(c.value)
    case Repeat(_, _, c, _, _) => c.Some? && Runnable(c.value)
  }

  /** `b'` is `b` in another state: the same kind at the same depth, with the
      same maximum when it is a Repeat. */
  predicate SameKind(b: Node, b': Node) {
    && b'.depth == b.depth
    && (b.Leaf? <==> b'.Leaf?) && (b.Selector? <==> b'.Selector?) && (b.Sequence? <==> b'.Sequence?)
    && (b.Invert? <==> b'.Invert?) && (b.Repeat? <==> b'.Repeat?)
    && (b.Leaf? ==> b'.answer == b.answer)
    && (b.Repeat? ==> b'.max == b.max)
  }

  /** `b` with its status set to `st` and nothing else changed. */
  function WithStatus(b: Node, st: Status): (r: Node)
    ensures r.status == st && SameKind(b, r) && Size(r) == Size(b)
    ensures Runnable(b) && (b.IsComposite() && st == Running ==> 0 <= b.index < |b.children|) ==> Runnable(r)
  {
    b.(status := st)
  }

  /** Behavior.Reset: the status becomes Invalid and nothing else changes. */
  function Reset(b: Node): (r: Node)
    ensures r.status == Invalid && SameKind(b, r) && Size(r) == Size(b) && (Runnable(b) ==> Runnable(r))
  {
    WithStatus(b, Invalid)
  }

  /** Behavior.Terminate: the status becomes Terminated (OnTerminate does
      nothing in any behaviour modelled here). */
  function Terminate(b: Node): (r: Node)
    ensures r.status == Terminated && SameKind(b, r) && Size(r) == Size(b) && (Runnable(b) ==> Runnable(r))
  {
    WithStatus(b, Terminated)
  }

  /** Behavior.IsTerminated: the last tick ended in Success or Failure. A
      behaviour stopped by Terminate is not terminated in this sense. */
  predicate IsTerminated(b: Node)
    ensures IsTerminated(b) ==> b.status != Running
    ensures b.status == Terminated || b.status == Invalid ==> !IsTerminated(b)
  {
    b.status == Success || b.status == Failure
  }

  /** Behavior.IsRunning: never at the same time as IsTerminated. */
  predicate IsRunning(b: Node)
    ensures IsRunning(b) ==> !IsTerminated(b)
  {
    b.status == Running
  }

  /** OnInitialize: composites start over at their first child, Repeat
      restarts its count at -1; leaves and Invert have nothing to set up. */
  function Initialize(b: Node): (r: Node)
    ensures SameKind(b, r) && r.status == b.status && Size(r) == Size(b)
    ensures r.IsComposite() ==> r.children == b.children && r.index == 0
    ensures r.Repeat? ==> r.child == b.child && r.count == -1
    ensures !r.IsComposite() && !r.Repeat? ==> r == b
  {
    match b
    case Selector(st, d, cs, _) => Selector(st, d, cs, 0)
    case Sequence(st, d, cs, _) => Sequence(st, d, cs, 0)
    case Repeat(st, d, c, max, _) => Repeat(st, d, c, max, -1)
    case _ => b
  }

  /** The outcome of ticking a behaviour: the status Tick returns and the
      behaviour afterwards. */
  datatype Ticked = Ticked(status: Status, node: Node)

  /** The outcome of a composite's loop: the status it returns, its children
      afterwards and its final child index. */
  datatype Scanned = Scanned(status: Status, children: seq<Node>, index: int)

  /** The outcome of Repeat's loop: the status, the child afterwards and the
      final repetition count. */
  datatype Looped = Looped(status: Status, child: Node, count: int)

  /** How a tick ends: with a result; with a Repeat loop still going when
      the fuel ran out; or with the exception the source throws, an index
      out of range when a composite without children starts (children[0]
      in OnInitialize) or a null dereference when a decorator without a
      child updates. */
  datatype Outcome<+T> = Done(value: T) | OutOfFuel | Fault

  /** Behavior.Tick: OnInitialize when the last status was not Running, then
      OnUpdate, whose status is stored and returned (OnTerminate does nothing
      in any behaviour modelled here). `fuel` bounds the iterations of each
      Repeat loop. Any tree may be ticked: a composite without children or
      a decorator without a child faults only when the tick reaches it, and
      a runnable tree never faults and stays runnable. */
  function Tick(b: Node, fuel: nat): (r: Outcome<Ticked>)
    ensures r.Done? ==> && r.value.node.status == r.value.status
                        && Size(r.value.node) == Size(b) && SameKind(b, r.value.node)
    ensures b.IsComposite() && b.children == [] ==> r.Fault?
    ensures b.IsDecorator() && b.child.None? ==> r.Fault?
    ensures Runnable(b) ==> !r.Fault? && (r.Done? ==> Runnable(r.value.node))
    decreases Size(b), 2, 0
  {
    var b1 := if b.status != Running then Initialize(b) else b;
    match Update(b1, fuel)
    case Done(t) => Done(Ticked(t.status, WithStatus(t.node, t.status)))
    case OutOfFuel => OutOfFuel
    case Fault => Fault
  }

  /** OnUpdate of each kind; the status in the returned node is still the
      old one, Tick stores the new one. A composite whose current child is
      not one of its children, or a decorator without a child, faults. */
  function Update(b: Node, fuel: nat): (r: Outcome<Ticked>)
    ensures r.Done? ==> Size(r.value.node) == Size(b) && SameKind(b, r.value.node)
    ensures b.IsComposite() && !(0 <= b.index < |b.children|) ==> r.Fault?
    ensures b.IsDecorator() && b.child.None? ==> r.Fault?
    ensures Runnable(b) && (b.IsComposite() ==> 0 <= b.index < |b.children|) ==>
              !r.Fault? && (r.Done? ==> Runnable(WithStatus(r.value.node, r.value.status)))
    decreases Size(b), 1, 0
  {
    match b
    case Leaf(_, _, answer) => Done(Ticked(answer, b))
    case Selector(st, d, cs, i) =>
      if !(0 <= i < |cs|) then Fault
      else (match SelectorLoop(cs, i, fuel)
       case Done(s) => Done(Ticked(s.status, Selector(st, d, s.children, s.index)))
       case OutOfFuel => OutOfFuel
       case Fault => Fault)
    case Sequence(st, d, cs, i) =>
      if !(0 <= i < |cs|) then Fault
      else (match SequenceLoop(cs, i, fuel)
       case Done(s) => Done(Ticked(s.status, Sequence(st, d, s.children, s.index)))
       case OutOfFuel => OutOfFuel
       case Fault => Fault)
    case Invert(st0, d, c) =>
      if c.None? then Fault
      else (match Tick(c.value, fuel)
       case Done(t) =>
         var (st, c') := InvertStatus(t.status, t.node);
         Done(Ticked(st, Invert(st0, d, Some(c'))))
       case OutOfFuel => OutOfFuel
       case Fault => Fault)
    case Repeat(st, d, c, max, count) =>
      if c.None? then Fault
      else match RepeatLoop(c.value, max, count, fuel, fuel)
      case Done(l) => Done(Ticked(l.status, Repeat(st, d, Some(l.child), max, l.count)))
      case OutOfFuel => OutOfFuel
      case Fault => Fault
  }

  /** Selector.OnUpdate from child `i` on: the first status that is not
      Failure, or Failure once every child has failed. */
  function SelectorLoop(cs: seq<Node>, i: nat, fuel: nat): (r: Outcome<Scanned>)
    requires i < |cs|
    ensures r.Done? ==> Looked(cs, i, r.value, Failure)
    ensures (forall k :: 0 <= k < |cs| ==> Runnable(cs[k])) ==>
              !r.Fault? && (r.Done? ==> forall k :: 0 <= k < |cs| ==> Runnable(r.value.children[k]))
    decreases SizeAll(cs) + 1, 0, |cs| - i
  {
    SizeAllBound(cs, i);
    match Tick(cs[i], fuel)
    case OutOfFuel => OutOfFuel
    case Fault => Fault
    case Done(t) =>
      var cs' := cs[i := t.node];
      SizeAllUpdate(cs, i, t.node);
      RunnableUpdate(cs, cs', i, t.node);
      if t.status != Failure then Done(Scanned(t.status, cs', i))
      else if i + 1 == |cs| then Done(Scanned(Failure, cs', i + 1))
      else match SelectorLoop(cs', i + 1, fuel)
        case Done(s) => LookedOn(cs, cs', i, s, Failure); Done(s)
        case OutOfFuel => OutOfFuel
        case Fault => Fault
  }

  /** Sequence.OnUpdate from child `i` on: the first status that is not
      Success, or Success once every child has succeeded. */
  function SequenceLoop(cs: seq<Node>, i: nat, fuel: nat): (r: Outcome<Scanned>)
    requires i < |cs|
    ensures r.Done? ==> Looked(cs, i, r.value, Success)
    ensures (forall k :: 0 <= k < |cs| ==> Runnable(cs[k])) ==>
              !r.Fault? && (r.Done? ==> forall k :: 0 <= k < |cs| ==> Runnable(r.value.children[k]))
    decreases SizeAll(cs) + 1, 0, |cs| - i
  {
    SizeAllBound(cs, i);
    match Tick(cs[i], fuel)
    case OutOfFuel => OutOfFuel
    case Fault => Fault
    case Done(t) =>
      var cs' := cs[i := t.node];
      SizeAllUpdate(cs, i, t.node);
      RunnableUpdate(cs, cs', i, t.node);
      if t.status != Success then Done(Scanned(t.status, cs', i))
      else if i + 1 == |cs| then Done(Scanned(Success, cs', i + 1))
      else match SequenceLoop(cs', i + 1, fuel)
        case Done(s) => LookedOn(cs, cs', i, s, Success); Done(s)
        case OutOfFuel => OutOfFuel
        case Fault => Fault
  }

  /** What a composite loop from child `i` that passes over children ending
      in `pass` leaves behind: the children before `i` and after the final
      index untouched, the children ticked in between ended in `pass`, and
      either every child from `i` on passed (the result is `pass`, the index
      one past the end) or the child at the final index ended in the returned
      status, which is not `pass`. */
  ghost predicate Looked(cs: seq<Node>, i: nat, s: Scanned, pass: Status) {
    && |s.children| == |cs| && i <= s.index <= |cs|
    && (forall k :: 0 <= k < |cs| && (k < i || s.index < k) ==> s.children[k] == cs[k])
    && (forall k :: i <= k < s.index && k < |cs| ==> s.children[k].status == pass)
    && (forall k :: 0 <= k < |cs| ==>
          Size(s.children[k]) == Size(cs[k]) && SameKind(cs[k], s.children[k]))
    && SizeAll(s.children) == SizeAll(cs)
    && (s.status == pass <==> s.index == |cs|)
    && (s.status != pass ==> s.children[s.index].status == s.status)
  }

  /** Replacing one runnable child by a runnable node keeps every child runnable. */
  lemma RunnableUpdate(cs: seq<Node>, cs': seq<Node>, i: nat, n: Node)
    requires i < |cs| && cs' == cs[i := n]
    ensures (forall k :: 0 <= k < |cs| ==> Runnable(cs[k])) && Runnable(n) ==>
              forall k :: 0 <= k < |cs'| ==> Runnable(cs'[k])
  {
  }

  lemma LookedOn(cs: seq<Node>, cs': seq<Node>, i: nat, s: Scanned, pass: Status)
    requires i + 1 < |cs| && |cs'| == |cs| && cs'[i].status == pass
    requires forall k :: 0 <= k < |cs| && k != i ==> cs'[k] == cs[k]
    requires Size(cs'[i]) == Size(cs[i]) && SameKind(cs[i], cs'[i])
    requires SizeAll(cs') == SizeAll(cs)
    requires Looked(cs', i + 1, s, pass)
    ensures Looked(cs, i, s, pass)
  {
  }

  /** Invert.OnUpdate on the child's status: Failure and Success swap and
      reset the child, Running passes through, anything else is Invalid. */
  function InvertStatus(st: Status, c: Node): (r: (Status, Node))
    ensures st == Failure ==> r == (Success, Reset(c))
    ensures st == Success ==> r == (Failure, Reset(c))
    ensures st == Running ==> r == (Running, c)
    ensures st != Failure && st != Success && st != Running ==> r == (Invalid, c)
  {
    match st
    case Failure => (Success, Reset(c))
    case Success => (Failure, Reset(c))
    case Running => (Running, c)
    case _ => (Invalid, c)
  }

  /** Repeat.OnUpdate: tick the child and count; stop with Invalid when it
      runs, with Failure when it fails, with Success when the count reaches
      the maximum, and otherwise reset the child and go again. `left` is the
      number of iterations still allowed. */
  function RepeatLoop(c: Node, max: int, count: int, fuel: nat, left: nat): (r: Outcome<Looped>)
    ensures r.Done? ==> && r.value.count > count
                        && Size(r.value.child) == Size(c) && SameKind(c, r.value.child)
                        && (r.value.status == Invalid <==> r.value.child.status == Running)
                        && (r.value.status == Failure <==> r.value.child.status == Failure)
                        && (r.value.status == Success <==>
                              r.value.child.status != Running && r.value.child.status != Failure && r.value.count == max)
                        && (r.value.status == Invalid || r.value.status == Failure || r.value.status == Success)
    ensures Runnable(c) ==> !r.Fault? && (r.Done? ==> Runnable(r.value.child))
    decreases Size(c) + 1, 0, left
  {
    if left == 0 then OutOfFuel
    else
      match Tick(c, fuel)
      case OutOfFuel => OutOfFuel
      case Fault => Fault
      case Done(t) =>
        var count' := count + 1;
        if t.node.status == Running then Done(Looped(Invalid, t.node, count'))
        else if t.node.status == Failure then Done(Looped(Failure, t.node, count'))
        else if count' == max then Done(Looped(Success, t.node, count'))
        else RepeatLoop(Reset(t.node), max, count', fuel, left - 1)
  }

  /** The child a composite's tick starts from: its current child when it
      was running, its first child otherwise. */
  function StartIndex(b: Node): int
    requires b.IsComposite()
  {
    if b.status == Running then b.index else 0
  }

  /** Ticking a Selector: children before the start are not ticked again,
      children after the one that decided are not ticked at all; the result
      is the status of the first child from the start that did not fail, and
      Failure exactly when every child from the start failed. */
  lemma SelectorTick(b: Node, fuel: nat)
    requires b.Selector? && 0 <= StartIndex(b) < |b.children|
    ensures var r := Tick(b, fuel);
            r.Done? ==> && r.value.node.Selector?
                        && Looked(b.children, StartIndex(b), Scanned(r.value.status, r.value.node.children, r.value.node.index), Failure)
                        && (r.value.status == Failure <==>
                              forall k :: StartIndex(b) <= k < |b.children| ==> r.value.node.children[k].status == Failure)
  {
    var b1 := if b.status != Running then Initialize(b) else b;
    assert b1.children == b.children && b1.index == StartIndex(b);
    var l := SelectorLoop(b.children, StartIndex(b), fuel);
    var u := Update(b1, fuel);
    assert u.Done? ==> u == Done(Ticked(l.value.status, Selector(b1.status, b1.depth, l.value.children, l.value.index)));
    var r := Tick(b, fuel);
    assert r.Done? ==> u.Done? && r == Done(Ticked(u.value.status, WithStatus(u.value.node, u.value.status)));
    assert r.Done? ==> l.Done? && r.value.status == l.value.status
                       && r.value.node.children == l.value.children && r.value.node.index == l.value.index;
  }

  /** Ticking a Sequence: the dual of SelectorTick, with Success passing. */
  lemma SequenceTick(b: Node, fuel: nat)
    requires b.Sequence? && 0 <= StartIndex(b) < |b.children|
    ensures var r := Tick(b, fuel);
            r.Done? ==> && r.value.node.Sequence?
                        && Looked(b.children, StartIndex(b), Scanned(r.value.status, r.value.node.children, r.value.node.index), Success)
                        && (r.value.status == Success <==>
                              forall k :: StartIndex(b) <= k < |b.children| ==> r.value.node.children[k].status == Success)
  {
    var b1 := if b.status != Running then Initialize(b) else b;
    assert b1.children == b.children && b1.index == StartIndex(b);
    var l := SequenceLoop(b.children, StartIndex(b), fuel);
    var u := Update(b1, fuel);
    assert u.Done? ==> u == Done(Ticked(l.value.status, Sequence(b1.status, b1.depth, l.value.children, l.value.index)));
    var r := Tick(b, fuel);
    assert r.Done? ==> u.Done? && r == Done(Ticked(u.value.status, WithStatus(u.value.node, u.value.status)));
    assert r.Done? ==> l.Done? && r.value.status == l.value.status
                       && r.value.node.children == l.value.children && r.value.node.index == l.value.index;
  }

  /** Ticking an Invert ticks its child once: Failure and Success come back
      swapped with the child reset, Running comes back as it is, and any
      other status becomes Invalid. */
  lemma InvertTick(b: Node, fuel: nat)
    requires b.Invert? && b.child.Some?
    ensures var r := Tick(b, fuel);
            var c := Tick(b.child.value, fuel);
            && (r.Done? <==> c.Done?) && (r.Fault? <==> c.Fault?)
            && (r.Done? ==> && r.value.node.Invert? && r.value.node.child.Some?
                            && r.value.status == InvertStatus(c.value.status, c.value.node).0
                            && r.value.node.child.value == InvertStatus(c.value.status, c.value.node).1)
  {
  }

  /** Inverting twice gives a leaf's own Success or Failure back. */
  lemma DoubleInvert(answer: Status, fuel: nat)
    requires answer == Success || answer == Failure
    ensures var b := Invert(Invalid, 0, Some(Invert(Invalid, 1, Some(Leaf(Invalid, 2, answer)))));
            var r := Tick(b, fuel);
            r.Done? && r.value.status == answer
  {
    var leaf := Leaf(Invalid, 2, answer);
    var inner := Invert(Invalid, 1, Some(leaf));
    var b := Invert(Invalid, 0, Some(inner));
    InvertTick(inner, fuel);
    InvertTick(b, fuel);
  }

  /** Ticking a Repeat: it never returns Running; it returns Invalid exactly
      when its child runs and Failure exactly when its child fails; it
      returns Success only with the count at its maximum. Starting afresh the
      count restarts at -1, so the count is at least 0 afterwards, and a
      Repeat whose maximum is -1 never takes the Success exit. */
  lemma RepeatTick(b: Node, fuel: nat)
    requires b.Repeat? && b.child.Some?
    ensures var r := Tick(b, fuel);
            r.Done? ==> && r.value.node.Repeat? && r.value.node.max == b.max && r.value.node.child.Some?
                        && r.value.status != Running
                        && (r.value.status == Invalid <==> r.value.node.child.value.status == Running)
                        && (r.value.status == Failure <==> r.value.node.child.value.status == Failure)
                        && (r.value.status == Success ==> r.value.node.count == b.max)
                        && (b.status != Running ==> r.value.node.count >= 0 && (b.max == -1 ==> r.value.status != Success))
  {
  }

  /** Repeat's loop over a leaf: a running leaf ends it with Invalid and a
      failing leaf with Failure after one tick; any other answer lets it
      count up to the maximum and succeed there, within enough iterations,
      and never ends it when the maximum is already behind the count (as
      with a maximum of -1). */
  lemma {:induction false} RepeatOverLeaf(c: Node, max: int, count: int, fuel: nat, left: nat)
    requires c.Leaf?
    ensures var r := RepeatLoop(c, max, count, fuel, left);
            var l := Leaf(c.answer, c.depth, c.answer);
            && (c.answer == Running ==> r == if left == 0 then OutOfFuel else Done(Looped(Invalid, l, count + 1)))
            && (c.answer == Failure ==> r == if left == 0 then OutOfFuel else Done(Looped(Failure, l, count + 1)))
            && (c.answer != Running && c.answer != Failure ==>
                  r == if count < max && max - count <= left then Done(Looped(Success, l, max)) else OutOfFuel)
    decreases left
  {
    var l := Leaf(c.answer, c.depth, c.answer);
    assert Tick(c, fuel) == Done(Ticked(c.answer, l));
    if left > 0 && c.answer != Running && c.answer != Failure && count + 1 != max {
      assert Reset(l) == Leaf(Invalid, c.depth, c.answer);
      assert RepeatLoop(c, max, count, fuel, left) == RepeatLoop(Reset(l), max, count + 1, fuel, left - 1);
      RepeatOverLeaf(Reset(l), max, count + 1, fuel, left - 1);
    }
  }

  /** BehaviorTree: a root that may be missing. */
  datatype Tree = Tree(root: Option<Node>)

  /** BehaviorTree.Tick: tick the root, or Invalid without one. */
  function TickTree(t: Tree, fuel: nat): (r: Outcome<(Status, Tree)>)
    ensures t.root.None? ==> r == Done((Invalid, t))
    ensures r.Done? && t.root.Some? ==> r.value.1.root.Some? && r.value.1.root.value.status == r.value.0
    ensures t.root.Some? && Runnable(t.root.value) ==> !r.Fault?
  {
    if t.root.None? then Done((Invalid, t))
    else match Tick(t.root.value, fuel)
      case Done(x) => Done((x.status, Tree(Some(x.node))))
      case OutOfFuel => OutOfFuel
      case Fault => Fault
  }
}

=== FILE: behavior_tree_builder.dfy ===
/** BehaviorTreeBuilder (Assets/BehaviorTreeSystem/BehaviorTreeBuilder.cs):
    a fluent builder that keeps the tree under construction and a build node
    to which the next behaviour is added. The tree is a value here, and the
    build node is named by its path of child positions from the root; its
    parent is the node one step up the path. */
module BehaviorTreeBuilder {
  import opened Common
  import opened BehaviorTree

  // ---------------------------------------------------------------------------
  // Children and paths.

  /** `b` has a child at position `i`: one of a composite's children, or a
      decorator's child (position 0) once it has one. */
  predicate HasKid(b: Node, i: nat) {
    (b.IsComposite() && i < |b.children|) || (b.IsDecorator() && i == 0 && b.child.Some?)
  }

  function Kid(b: Node, i: nat): Node
    requires HasKid(b, i)
  {
    if b.IsComposite() then b.children[i] else b.child.value
  }

  /** `b` with its child at position `i` replaced by `x`. */
  function SetKid(b: Node, i: nat, x: Node): (r: Node)
    requires HasKid(b, i)
    ensures SameKind(b, r) && r.status == b.status && HasKid(r, i) && Kid(r, i) == x
    ensures forall j :: HasKid(r, j) <==> HasKid(b, j)
  {
    match b
    case Selector(st, d, cs, k) => Selector(st, d, cs[i := x], k)
    case Sequence(st, d, cs, k) => Sequence(st, d, cs[i := x], k)
    case Invert(st, d, _) => Invert(st, d, Some(x))
    case Repeat(st, d, _, max, count) => Repeat(st, d, Some(x), max, count)
  }

  /** `path` leads from `b` through existing children. */
  predicate ValidPath(b: Node, path: seq<nat>)
    decreases |path|
  {
    path == [] || (HasKid(b, path[0]) && ValidPath(Kid(b, path[0]), path[1..]))
  }

  /** The node at the end of `path`. */
  function At(b: Node, path: seq<nat>): Node
    requires ValidPath(b, path)
    decreases |path|
  {
    if path == [] then b else At(Kid(b, path[0]), path[1..])
  }

  /** `b` with the node at the end of `path` replaced by `x`. */
  function Put(b: Node, path: seq<nat>, x: Node): (r: Node)
    requires ValidPath(b, path)
    decreases |path|
  {
    if path == [] then x else SetKid(b, path[0], Put(Kid(b, path[0]), path[1..], x))
  }

  /** Below a prefix of the path, replacing the end replaces it in the
      subtree at the prefix; above the end every node keeps its kind. */
  lemma {:induction false} PutPrefix(b: Node, path: seq<nat>, x: Node, k: nat)
    requires ValidPath(b, path) && k <= |path|
    ensures ValidPath(b, path[..k]) && ValidPath(At(b, path[..k]), path[k..])
    ensures ValidPath(Put(b, path, x), path[..k])
    ensures At(Put(b, path, x), path[..k]) == Put(At(b, path[..k]), path[k..], x)
    decreases |path|
  {
    if k > 0 {
      var i := path[0];
      assert path[..k][0] == i && path[..k][1..] == path[1..][..k - 1];
      assert path[k..] == path[1..][k - 1..];
      PutPrefix(Kid(b, i), path[1..], x, k - 1);
    }
  }

  /** Replacing a node deeper than the top keeps the top's kind, status and
      positions. */
  lemma PutTop(b: Node, path: seq<nat>, x: Node)
    requires ValidPath(b, path) && |path| > 0
    ensures var r := Put(b, path, x);
            SameKind(b, r) && r.status == b.status && forall j :: HasKid(r, j) <==> HasKid(b, j)
  {
  }

  /** A path extended by one more existing child. */
  lemma {:induction false} AtExtend(b: Node, path: seq<nat>, i: nat)
    requires ValidPath(b, path) && HasKid(At(b, path), i)
    ensures ValidPath(b, path + [i]) && At(b, path + [i]) == Kid(At(b, path), i)
    decreases |path|
  {
    if path == [] {
      assert ValidPath(Kid(b, i), []);
      assert [i][1..] == [];
    } else {
      assert (path + [i])[0] == path[0] && (path + [i])[1..] == path[1..] + [i];
      AtExtend(Kid(b, path[0]), path[1..], i);
    }
  }

  // ---------------------------------------------------------------------------
  // The builder.

  /** The builder's state: the tree and the path to the build node. */
  datatype Builder = Builder(root: Node, at: seq<nat>)

  /** Every node on the way to the build node sits at its nesting depth. */
  ghost predicate Ok(bl: Builder) {
    && ValidPath(bl.root, bl.at)
    && forall k :: 0 <= k <= |bl.at| ==> ValidPath(bl.root, bl.at[..k]) && At(bl.root, bl.at[..k]).depth == k
  }

  /** The build node. */
  function BuildNode(bl: Builder): Node
    requires ValidPath(bl.root, bl.at)
  {
    At(bl.root, bl.at)
  }

  function WithDepth(b: Node, d: int): (r: Node)
    ensures r.depth == d && r.status == b.status && forall j :: HasKid(r, j) <==> HasKid(b, j)
    ensures (b.Leaf? <==> r.Leaf?) && (b.IsComposite() <==> r.IsComposite()) && (b.IsDecorator() <==> r.IsDecorator())
  {
    b.(depth := d)
  }

  /** The constructor: the root gets no parent and depth 0 and is the build node. */
  function NewBuilder(root: Node): (bl: Builder)
    ensures Ok(bl) && bl.at == [] && bl.root.depth == 0
  {
    Builder(WithDepth(root, 0), [])
  }

  /** Behavior.AddChild: composites append, decorators take the child in
      place of any they had, and a leaf ignores it. */
  function AddChild(p: Node, c: Node): (r: Node)
    ensures SameKind(p, r) && r.status == p.status
    ensures p.IsComposite() ==> r.children == p.children + [c] && r.index == p.index
    ensures p.IsDecorator() ==> r.child == Some(c)
    ensures p.Leaf? ==> r == p
  {
    match p
    case Leaf(_, _, _) => p
    case Selector(st, d, cs, k) => Selector(st, d, cs + [c], k)
    case Sequence(st, d, cs, k) => Sequence(st, d, cs + [c], k)
    case Invert(st, d, _) => Invert(st, d, Some(c))
    case Repeat(st, d, _, max, count) => Repeat(st, d, Some(c), max, count)
  }

  /** The position at which AddChild puts a new child. */
  function NewKidPosition(p: Node): nat {
    if p.IsComposite() then |p.children| else 0
  }

  lemma AddChildHas(p: Node, c: Node)
    requires !p.Leaf?
    ensures HasKid(AddChild(p, c), NewKidPosition(p)) && Kid(AddChild(p, c), NewKidPosition(p)) == c
  {
  }

  /** The climb End makes from the build node is possible: somewhere above it
      there is a node that is not a decorator. */
  predicate CanEnd(b: Node, path: seq<nat>)
    requires ValidPath(b, path)
    decreases |path|
  {
    |path| > 0 && (PrefixValid(b, path, |path| - 1);
                   At(b, path[..|path| - 1]).IsDecorator() ==> CanEnd(b, path[..|path| - 1]))
  }

  lemma {:induction false} PrefixValid(b: Node, path: seq<nat>, k: nat)
    requires ValidPath(b, path) && k <= |path|
    ensures ValidPath(b, path[..k])
  {
    PutPrefix(b, path, b, k);
  }

  /** End's climb: up one step, and on while the node reached is a decorator. */
  function Climb(b: Node, path: seq<nat>): (up: seq<nat>)
    requires ValidPath(b, path) && CanEnd(b, path)
    ensures |up| < |path| && up == path[..|up|] && ValidPath(b, up) && !At(b, up).IsDecorator()
    ensures forall k :: |up| < k < |path| ==> ValidPath(b, path[..k]) && At(b, path[..k]).IsDecorator()
    decreases |path|
  {
    PrefixValid(b, path, |path| - 1);
    var parent := path[..|path| - 1];
    if At(b, parent).IsDecorator() then
      var up := Climb(b, parent);
      assert forall k :: |up| < k < |parent| ==> parent[..k] == path[..k];
      assert parent[..|up|] == path[..|up|];
      up
    else parent
  }

  /** End: the build node becomes the nearest ancestor that is not a
      decorator. */
  function End(bl: Builder): (bl': Builder)
    requires Ok(bl) && CanEnd(bl.root, bl.at)
    ensures Ok(bl') && bl'.root == bl.root
    ensures |bl'.at| < |bl.at| && bl'.at == bl.at[..|bl'.at|] && !BuildNode(bl').IsDecorator()
    ensures forall k :: |bl'.at| < k < |bl.at| ==> ValidPath(bl.root, bl.at[..k]) && At(bl.root, bl.at[..k]).IsDecorator()
  {
    var up := Climb(bl.root, bl.at);
    var bl' := Builder(bl.root, up);
    assert forall k :: 0 <= k <= |up| ==> up[..k] == bl.at[..k];
    bl'
  }

  /** Adding `c` as a child of the build node at depth one below it. */
  function Attach(bl: Builder, c: Node): (bl': Builder)
    requires Ok(bl)
    ensures bl'.at == bl.at && ValidPath(bl'.root, bl.at)
    ensures BuildNode(bl') == AddChild(BuildNode(bl), WithDepth(c, |bl.at| + 1))
    ensures bl'.root == Put(bl.root, bl.at, BuildNode(bl'))
    ensures Ok(bl')
    ensures forall k :: 0 <= k <= |bl.at| ==>
              && ValidPath(bl.root, bl.at[..k]) && ValidPath(bl'.root, bl.at[..k])
              && SameKind(At(bl.root, bl.at[..k]), At(bl'.root, bl.at[..k]))
  {
    var p := BuildNode(bl);
    var root' := Put(bl.root, bl.at, AddChild(p, WithDepth(c, |bl.at| + 1)));
    AttachOk(bl, AddChild(p, WithDepth(c, |bl.at| + 1)));
    assert bl.at[..|bl.at|] == bl.at;
    Builder(root', bl.at)
  }

  lemma AttachOk(bl: Builder, x: Node)
    requires Ok(bl) && x.depth == BuildNode(bl).depth
    ensures var root' := Put(bl.root, bl.at, x);
            && ValidPath(root', bl.at) && At(root', bl.at) == x
            && Ok(Builder(root', bl.at))
            && forall k :: 0 <= k <= |bl.at| ==>
                 && ValidPath(bl.root, bl.at[..k]) && ValidPath(root', bl.at[..k])
                 && (k < |bl.at| ==> SameKind(At(bl.root, bl.at[..k]), At(root', bl.at[..k])))
  {
    var root' := Put(bl.root, bl.at, x);
    PutPrefix(bl.root, bl.at, x, |bl.at|);
    assert bl.at[..|bl.at|] == bl.at && bl.at[|bl.at|..] == [];
    forall k | 0 <= k <= |bl.at|
      ensures ValidPath(root', bl.at[..k]) && At(root', bl.at[..k]).depth == k
      ensures ValidPath(bl.root, bl.at[..k]) && (k < |bl.at| ==> SameKind(At(bl.root, bl.at[..k]), At(root', bl.at[..k])))
    {
      PutPrefix(bl.root, bl.at, x, k);
      if k < |bl.at| {
        PutTop(At(bl.root, bl.at[..k]), bl.at[k..], x);
      }
    }
  }

  /** Condition and Action: the leaf becomes the build node's child at one
      level deeper, and under a decorator the decorator is closed with End. */
  function AddLeaf(bl: Builder, leaf: Node): (bl': Builder)
    requires Ok(bl) && leaf.Leaf?
    requires BuildNode(bl).IsDecorator() ==> CanEnd(bl.root, bl.at)
    ensures Ok(bl')
    ensures ValidPath(bl'.root, bl.at) && At(bl'.root, bl.at) == AddChild(BuildNode(bl), WithDepth(leaf, |bl.at| + 1))
    ensures bl'.root == Put(bl.root, bl.at, At(bl'.root, bl.at))
    ensures !BuildNode(bl).IsDecorator() ==> bl'.at == bl.at
    ensures BuildNode(bl).IsDecorator() ==> |bl'.at| < |bl.at| && bl'.at == bl.at[..|bl'.at|] && !BuildNode(bl').IsDecorator()
    ensures BuildNode(bl).IsDecorator() ==>
              forall k :: |bl'.at| < k <= |bl.at| ==> ValidPath(bl'.root, bl.at[..k]) && At(bl'.root, bl.at[..k]).IsDecorator()
  {
    var bl1 := Attach(bl, leaf);
    if BuildNode(bl).IsDecorator() then
      CanEndKept(bl.root, bl1.root, bl.at);
      assert bl.at[..|bl.at|] == bl.at;
      End(bl1)
    else bl1
  }

  /** End's climb depends only on the kinds of the nodes on the path. */
  lemma {:induction false} CanEndKept(b: Node, b': Node, path: seq<nat>)
    requires ValidPath(b, path) && ValidPath(b', path) && CanEnd(b, path)
    requires forall k :: 0 <= k <= |path| ==>
               ValidPath(b, path[..k]) && ValidPath(b', path[..k]) && SameKind(At(b, path[..k]), At(b', path[..k]))
    ensures CanEnd(b', path)
    decreases |path|
  {
    var parent := path[..|path| - 1];
    PrefixValid(b, path, |path| - 1);
    PrefixValid(b', path, |path| - 1);
    assert parent[..|parent|] == parent;
    if At(b, parent).IsDecorator() {
      assert forall k :: 0 <= k <= |parent| ==> parent[..k] == path[..k];
      CanEndKept(b, b', parent);
    }
  }

  /** Decorator, Sequence and Selector: the new behaviour becomes the build
      node's child at one level deeper and then the build node itself. */
  function AddBranch(bl: Builder, branch: Node): (bl': Builder)
    requires Ok(bl) && !branch.Leaf? && !BuildNode(bl).Leaf?
    ensures Ok(bl')
    ensures |bl'.at| == |bl.at| + 1 && bl'.at[..|bl.at|] == bl.at
    ensures ValidPath(bl'.root, bl.at) && At(bl'.root, bl.at) == AddChild(BuildNode(bl), WithDepth(branch, |bl.at| + 1))
    ensures bl'.root == Put(bl.root, bl.at, At(bl'.root, bl.at))
    ensures BuildNode(bl') == WithDepth(branch, |bl.at| + 1)
  {
    var p := BuildNode(bl);
    var c := WithDepth(branch, |bl.at| + 1);
    var bl1 := Attach(bl, branch);
    var i := NewKidPosition(p);
    AddChildHas(p, c);
    AtExtend(bl1.root, bl.at, i);
    var bl' := Builder(bl1.root, bl.at + [i]);
    assert bl'.at[..|bl.at|] == bl.at;
    assert forall k :: 0 <= k <= |bl.at| ==> bl'.at[..k] == bl.at[..k];
    assert bl'.at[..|bl.at| + 1] == bl'.at;
    bl'
  }

  /** A new Sequence or Selector: no children yet, child index 0 and the
      status a fresh C# object has, the enum's first value (Failure). */
  function NewSequence(): Node {
    Sequence(Failure, 0, [], 0)
  }

  function NewSelector(): Node {
    Selector(Failure, 0, [], 0)
  }

  /** A new Invert, and a new Repeat with its maximum: no child yet, and a
      repetition count of 0 until the first tick sets it to -1. */
  function NewInvert(): Node {
    Invert(Failure, 0, None)
  }

  function NewRepeat(max: int): Node {
    Repeat(Failure, 0, None, max, 0)
  }

  /** BehaviorTreeBuilder.Sequence. */
  function AddSequence(bl: Builder): (bl': Builder)
    requires Ok(bl) && !BuildNode(bl).Leaf?
    ensures Ok(bl') && BuildNode(bl') == Sequence(Failure, |bl.at| + 1, [], 0)
    ensures |bl'.at| == |bl.at| + 1 && bl'.at[..|bl.at|] == bl.at
  {
    AddBranch(bl, NewSequence())
  }

  /** BehaviorTreeBuilder.Selector. */
  function AddSelector(bl: Builder): (bl': Builder)
    requires Ok(bl) && !BuildNode(bl).Leaf?
    ensures Ok(bl') && BuildNode(bl') == Selector(Failure, |bl.at| + 1, [], 0)
    ensures |bl'.at| == |bl.at| + 1 && bl'.at[..|bl.at|] == bl.at
  {
    AddBranch(bl, NewSelector())
  }

  /** Build: the tree with the builder's root, which keeps the kind it was
      given at depth 0. */
  function Build(bl: Builder): (t: Tree)
    ensures t.root == Some(bl.root)
  {
    Tree(Some(bl.root))
  }
}

=== FILE: behavior_tree_tests.dfy ===
/** The scenarios of Assets/BehaviorTreeSystem/BehaviorTreeTests.cs, built
    with the builder and ticked: each lemma states the statuses the scenario
    asserts, and where a leaf's answer is left open, for every answer. */
module BehaviorTreeScenarios {
  import opened Common
  import opened BehaviorTree
  import opened BehaviorTreeBuilder

  /** A MockAction or MockCondition answering `answer`, as constructed: its
      status is the enum's first value, Failure. */
  function Mock(answer: Status): Node {
    Leaf(Failure, 0, answer)
  }

  /** Setting a mock's status field between ticks: the leaf at `path`
      answers `answer` from then on. */
  function SetAnswer(t: Tree, path: seq<nat>, answer: Status): (t': Tree)
    ensures t.root.Some? && ValidPath(t.root.value, path) && At(t.root.value, path).Leaf? ==>
              && t'.root.Some? && ValidPath(t'.root.value, path)
              && var l := At(t.root.value, path); At(t'.root.value, path) == Leaf(l.status, l.depth, answer)
  {
    if t.root.Some? && ValidPath(t.root.value, path) && At(t.root.value, path).Leaf? then
      var l := At(t.root.value, path);
      PutPrefix(t.root.value, path, Leaf(l.status, l.depth, answer), |path|);
      assert path[..|path|] == path && path[|path|..] == [];
      Tree(Some(Put(t.root.value, path, Leaf(l.status, l.depth, answer))))
    else t
  }

  /** The status a tree's tick returns, or how the tick failed to end. */
  function Status(t: Tree, fuel: nat): Outcome<Status> {
    match TickTree(t, fuel)
    case Done(x) => Done(x.0)
    case OutOfFuel => OutOfFuel
    case Fault => Fault
  }

  /** The tree after a tick, unchanged when the tick did not end. */
  function After(t: Tree, fuel: nat): Tree {
    match TickTree(t, fuel)
    case Done(x) => x.1
    case _ => t
  }

  /** A leaf's tick answers its answer and stores it. */
  lemma LeafTick(b: Node, fuel: nat)
    requires b.Leaf?
    ensures Tick(b, fuel) == Done(Ticked(b.answer, Leaf(b.answer, b.depth, b.answer)))
  {
  }

  /** Ticking a tree is ticking its root. */
  lemma TreeTick(b: Node, fuel: nat, t: Ticked)
    requires Tick(b, fuel) == Done(t)
    ensures Status(Tree(Some(b)), fuel) == Done(t.status) && After(Tree(Some(b)), fuel) == Tree(Some(t.node))
  {
  }

  /** Ticking a Selector over two children whose ticks are known: it starts
      at its current child when running and at the first otherwise, stops at
      the first child that does not fail, and returns Failure at index 2 when
      both fail. */
  lemma SelectorPair(b: Node, fuel: nat, t1: Ticked, t2: Ticked)
    requires b.Selector? && |b.children| == 2 && 0 <= StartIndex(b) < 2
    requires StartIndex(b) == 0 ==> Tick(b.children[0], fuel) == Done(t1)
    requires StartIndex(b) == 1 || t1.status == Failure ==> Tick(b.children[1], fuel) == Done(t2)
    ensures Tick(b, fuel) ==
              if StartIndex(b) == 0 && t1.status != Failure
              then Done(Ticked(t1.status, Selector(t1.status, b.depth, [t1.node, b.children[1]], 0)))
              else
                var c1 := if StartIndex(b) == 0 then t1.node else b.children[0];
                Done(Ticked(t2.status, Selector(t2.status, b.depth, [c1, t2.node], if t2.status != Failure then 1 else 2)))
  {
    var cs := b.children;
    var i := StartIndex(b);
    var b1 := if b.status != Running then Initialize(b) else b;
    assert b1 == Selector(b.status, b.depth, cs, i);
    var c1 := if i == 0 then t1.node else cs[0];
    if i == 0 {
      assert cs[0 := t1.node] == [t1.node, cs[1]];
      if t1.status == Failure {
        assert [t1.node, cs[1]][1] == cs[1] && [t1.node, cs[1]][1 := t2.node] == [c1, t2.node];
        assert SelectorLoop(cs, 0, fuel) == SelectorLoop([t1.node, cs[1]], 1, fuel);
      }
    } else {
      assert cs[1 := t2.node] == [c1, t2.node];
    }
    var l := SelectorLoop(cs, i, fuel);
    assert l.Done?;
    var u := Update(b1, fuel);
    assert u == Done(Ticked(l.value.status, Selector(b1.status, b1.depth, l.value.children, l.value.index)));
    assert Tick(b, fuel) == Done(Ticked(u.value.status, WithStatus(u.value.node, u.value.status)));
  }

  /** The dual of SelectorPair: a Sequence stops at the first child that
      does not succeed. */
  lemma SequencePair(b: Node, fuel: nat, t1: Ticked, t2: Ticked)
    requires b.Sequence? && |b.children| == 2 && 0 <= StartIndex(b) < 2
    requires StartIndex(b) == 0 ==> Tick(b.children[0], fuel) == Done(t1)
    requires StartIndex(b) == 1 || t1.status == Success ==> Tick(b.children[1], fuel) == Done(t2)
    ensures Tick(b, fuel) ==
              if StartIndex(b) == 0 && t1.status != Success
              then Done(Ticked(t1.status, Sequence(t1.status, b.depth, [t1.node, b.children[1]], 0)))
              else
                var c1 := if StartIndex(b) == 0 then t1.node else b.children[0];
                Done(Ticked(t2.status, Sequence(t2.status, b.depth, [c1, t2.node], if t2.status != Success then 1 else 2)))
  {
    var cs := b.children;
    var i := StartIndex(b);
    var b1 := if b.status != Running then Initialize(b) else b;
    assert b1 == Sequence(b.status, b.depth, cs, i);
    var c1 := if i == 0 then t1.node else cs[0];
    if i == 0 {
      assert cs[0 := t1.node] == [t1.node, cs[1]];
      if t1.status == Success {
        assert [t1.node, cs[1]][1] == cs[1] && [t1.node, cs[1]][1 := t2.node] == [c1, t2.node];
        assert SequenceLoop(cs, 0, fuel) == SequenceLoop([t1.node, cs[1]], 1, fuel);
      }
    } else {
      assert cs[1 := t2.node] == [c1, t2.node];
    }
    var l := SequenceLoop(cs, i, fuel);
    assert l.Done?;
    var u := Update(b1, fuel);
    assert u == Done(Ticked(l.value.status, Sequence(b1.status, b1.depth, l.value.children, l.value.index)));
    assert Tick(b, fuel) == Done(Ticked(u.value.status, WithStatus(u.value.node, u.value.status)));
  }

  /** Ticking a Selector over one child returns the child's status. */
  lemma SelectorOne(b: Node, fuel: nat, t: Ticked)
    requires b.Selector? && |b.children| == 1 && StartIndex(b) == 0 && Tick(b.children[0], fuel) == Done(t)
    ensures Tick(b, fuel) == Done(Ticked(t.status, Selector(t.status, b.depth, [t.node], if t.status != Failure then 0 else 1)))
  {
    var b1 := if b.status != Running then Initialize(b) else b;
    assert b1 == Selector(b.status, b.depth, b.children, 0);
    assert b.children[0 := t.node] == [t.node];
    var l := SelectorLoop(b.children, 0, fuel);
    assert l.Done?;
    var u := Update(b1, fuel);
    assert u == Done(Ticked(l.value.status, Selector(b1.status, b1.depth, l.value.children, l.value.index)));
    assert Tick(b, fuel) == Done(Ticked(u.value.status, WithStatus(u.value.node, u.value.status)));
  }

  /** Action_Success, Action_Failure, Condition_Success, Condition_Failure:
      a Selector over one leaf returns the leaf's answer, whatever it is. */
  lemma OneLeaf(answer: Status, fuel: nat)
    ensures Status(Build(AddLeaf(NewBuilder(NewSelector()), Mock(answer))), fuel) == Done(answer)
  {
    var bl := AddLeaf(NewBuilder(NewSelector()), Mock(answer));
    var leaf := Leaf(Failure, 1, answer);
    var b := Selector(Failure, 0, [leaf], 0);
    assert bl.root == b;
    LeafTick(leaf, fuel);
    SelectorOne(b, fuel, Tick(leaf, fuel).value);
    TreeTick(b, fuel, Tick(b, fuel).value);
  }

  /** The builder's tree for a decorator over a leaf under a fresh
      Selector: the leaf's End climbs back to the root. */
  lemma DecoratedLeafBuilt(dec: Node, a: Status)
    requires dec.IsDecorator() && dec.child.None?
    ensures var bl := AddLeaf(AddBranch(NewBuilder(NewSelector()), dec), Mock(a));
            bl.at == [] && bl.root == Selector(Failure, 0, [AddChild(WithDepth(dec, 1), Leaf(Failure, 2, a))], 0)
  {
    var bl0 := NewBuilder(NewSelector());
    var bl1 := AddBranch(bl0, dec);
    assert bl1.root == Selector(Failure, 0, [WithDepth(dec, 1)], 0);
    assert bl1.at == [0];
    var x := AddChild(WithDepth(dec, 1), Leaf(Failure, 2, a));
    var bl2 := AddLeaf(bl1, Mock(a));
    assert At(bl2.root, [0]) == x;
    assert Put(bl1.root, [0], x) == SetKid(bl1.root, 0, Put(WithDepth(dec, 1), [], x));
    assert bl2.root == Selector(Failure, 0, [WithDepth(dec, 1)][0 := x], 0);
    assert [WithDepth(dec, 1)][0 := x] == [x];
  }

  /** Decorator_Invert_ChildSuccess and Decorator_Invert_ChildFailure: an
      Invert over a leaf swaps its Success and Failure. */
  lemma InvertedLeaf(answer: Status, fuel: nat)
    requires answer == Success || answer == Failure
    ensures Status(Build(AddLeaf(AddBranch(NewBuilder(NewSelector()), NewInvert()), Mock(answer))), fuel)
            == Done(if answer == Success then Failure else Success)
  {
    DecoratedLeafBuilt(NewInvert(), answer);
    var leaf := Leaf(Failure, 2, answer);
    var inv := Invert(Failure, 1, Some(leaf));
    var b := Selector(Failure, 0, [inv], 0);
    LeafTick(leaf, fuel);
    InvertTick(inv, fuel);
    SelectorOne(b, fuel, Tick(inv, fuel).value);
    TreeTick(b, fuel, Tick(b, fuel).value);
  }

  /** A fresh Repeat over a leaf ticks its loop from a count of -1. */
  lemma RepeatLeafTick(max: int, a: Status, fuel: nat)
    ensures var leaf := Leaf(Failure, 2, a);
            var r := RepeatLoop(leaf, max, -1, fuel, fuel);
            Tick(Repeat(Failure, 1, Some(leaf), max, 0), fuel)
              == if r.OutOfFuel? then OutOfFuel
                 else Done(Ticked(r.value.status, Repeat(r.value.status, 1, Some(r.value.child), max, r.value.count)))
  {
    var leaf := Leaf(Failure, 2, a);
    var b := Repeat(Failure, 1, Some(leaf), max, 0);
    assert Initialize(b) == Repeat(Failure, 1, Some(leaf), max, -1);
  }

  /** Decorator_Repeat_ChildSuccess: a Repeat(10) over a succeeding leaf
      succeeds with its count at 10, after eleven ticks of the leaf. */
  lemma RepeatedSuccess(fuel: nat)
    requires fuel >= 11
    ensures var t := Build(AddLeaf(AddBranch(NewBuilder(NewSelector()), NewRepeat(10)), Mock(Success)));
            && Status(t, fuel) == Done(Success)
            && After(t, fuel) == Tree(Some(Selector(Success, 0, [Repeat(Success, 1, Some(Leaf(Success, 2, Success)), 10, 10)], 0)))
  {
    DecoratedLeafBuilt(NewRepeat(10), Success);
    var leaf := Leaf(Failure, 2, Success);
    var rep := Repeat(Failure, 1, Some(leaf), 10, 0);
    var b := Selector(Failure, 0, [rep], 0);
    RepeatOverLeaf(leaf, 10, -1, fuel, fuel);
    RepeatLeafTick(10, Success, fuel);
    SelectorOne(b, fuel, Tick(rep, fuel).value);
    TreeTick(b, fuel, Tick(b, fuel).value);
  }

  /** Decorator_Repeat_ChildFailure: a Repeat(10) over a failing leaf fails
      at once with its count at 0. */
  lemma RepeatedFailure(fuel: nat)
    requires fuel >= 1
    ensures var t := Build(AddLeaf(AddBranch(NewBuilder(NewSelector()), NewRepeat(10)), Mock(Failure)));
            && Status(t, fuel) == Done(Failure)
            && After(t, fuel) == Tree(Some(Selector(Failure, 0, [Repeat(Failure, 1, Some(Leaf(Failure, 2, Failure)), 10, 0)], 1)))
  {
    DecoratedLeafBuilt(NewRepeat(10), Failure);
    var leaf := Leaf(Failure, 2, Failure);
    var rep := Repeat(Failure, 1, Some(leaf), 10, 0);
    var b := Selector(Failure, 0, [rep], 0);
    RepeatOverLeaf(leaf, 10, -1, fuel, fuel);
    RepeatLeafTick(10, Failure, fuel);
    SelectorOne(b, fuel, Tick(rep, fuel).value);
    TreeTick(b, fuel, Tick(b, fuel).value);
  }

  /** A Repeat(-1) over a leaf that never fails or runs loops forever: no
      amount of fuel lets its tick end. */
  lemma RepeatForever(fuel: nat)
    ensures Status(Build(AddLeaf(AddBranch(NewBuilder(NewSelector()), NewRepeat(-1)), Mock(Success))), fuel) == OutOfFuel
  {
    DecoratedLeafBuilt(NewRepeat(-1), Success);
    var leaf := Leaf(Failure, 2, Success);
    var rep := Repeat(Failure, 1, Some(leaf), -1, 0);
    var b := Selector(Failure, 0, [rep], 0);
    RepeatOverLeaf(leaf, -1, -1, fuel, fuel);
    RepeatLeafTick(-1, Success, fuel);
    assert Tick(b, fuel).OutOfFuel? by {
      var b1 := Initialize(b);
      assert b1 == Selector(Failure, 0, [rep], 0);
      assert SelectorLoop([rep], 0, fuel).OutOfFuel?;
    }
  }

  /** The builder's tree for two leaves under a fresh composite root. */
  lemma TwoLeavesBuilt(root: Node, a1: Status, a2: Status)
    requires root.IsComposite() && root.children == []
    ensures var bl := AddLeaf(AddLeaf(NewBuilder(root), Mock(a1)), Mock(a2));
            bl.root == WithDepth(root, 0).(children := [Leaf(Failure, 1, a1), Leaf(Failure, 1, a2)])
  {
    var bl0 := NewBuilder(root);
    var bl1 := AddLeaf(bl0, Mock(a1));
    assert bl1.at == [] && bl1.root == AddChild(WithDepth(root, 0), Leaf(Failure, 1, a1));
  }

  /** Selector_BothChildrenSuccess, Selector_BothChildrenFailure,
      Selector_FirstChildSuccessAndNextChildFailure and
      Selector_FirstChildFailureAndNextChildSuccess: a Selector over two
      leaves returns the first answer that is not Failure. */
  lemma SelectorOfTwo(a1: Status, a2: Status, fuel: nat)
    ensures Status(Build(AddLeaf(AddLeaf(NewBuilder(NewSelector()), Mock(a1)), Mock(a2))), fuel)
            == Done(if a1 != Failure then a1 else a2)
  {
    TwoLeavesBuilt(NewSelector(), a1, a2);
    var l1, l2 := Leaf(Failure, 1, a1), Leaf(Failure, 1, a2);
    var b := Selector(Failure, 0, [l1, l2], 0);
    LeafTick(l1, fuel);
    LeafTick(l2, fuel);
    SelectorPair(b, fuel, Tick(l1, fuel).value, Tick(l2, fuel).value);
    TreeTick(b, fuel, Tick(b, fuel).value);
  }

  /** Sequence_BothChildrenSuccess, Sequence_BothChildrenFailure,
      Sequence_FirstChildSuccessAndNextChildFailure and
      Sequence_FirstChildFailureAndNextChildSuccess: a Sequence over two
      leaves returns the first answer that is not Success. */
  lemma SequenceOfTwo(a1: Status, a2: Status, fuel: nat)
    ensures Status(Build(AddLeaf(AddLeaf(NewBuilder(NewSequence()), Mock(a1)), Mock(a2))), fuel)
            == Done(if a1 != Success then a1 else a2)
  {
    TwoLeavesBuilt(NewSequence(), a1, a2);
    var l1, l2 := Leaf(Failure, 1, a1), Leaf(Failure, 1, a2);
    var b := Sequence(Failure, 0, [l1, l2], 0);
    LeafTick(l1, fuel);
    LeafTick(l2, fuel);
    SequencePair(b, fuel, Tick(l1, fuel).value, Tick(l2, fuel).value);
    TreeTick(b, fuel, Tick(b, fuel).value);
  }

  /** A composite without children faults only when a tick reaches it: a
      Selector whose first leaf does not fail never starts the empty
      Sequence after it, and returns the leaf's answer; one whose first leaf
      fails moves on to the empty Sequence, whose OnInitialize throws. */
  lemma EmptySequenceBehindLeaf(a: Status, fuel: nat)
    ensures var b := Selector(Failure, 0, [Leaf(Failure, 1, a), Sequence(Failure, 1, [], 0)], 0);
            Status(Tree(Some(b)), fuel) == if a == Failure then Fault else Done(a)
  {
    var l1, empty := Leaf(Failure, 1, a), Sequence(Failure, 1, [], 0);
    var b := Selector(Failure, 0, [l1, empty], 0);
    LeafTick(l1, fuel);
    if a != Failure {
      SelectorPair(b, fuel, Tick(l1, fuel).value, Ticked(Invalid, empty));
      TreeTick(b, fuel, Tick(b, fuel).value);
    } else {
      var l1' := Leaf(Failure, 1, Failure);
      assert Tick(empty, fuel).Fault?;
      assert [l1, empty][0 := l1'] == [l1', empty];
      assert SelectorLoop([l1', empty], 1, fuel).Fault?;
      assert SelectorLoop([l1, empty], 0, fuel).Fault?;
      assert Tick(b, fuel).Fault?;
    }
  }

  /** The first tick of a composite over a running leaf and a succeeding
      one: it returns Running and stays at its first child. */
  lemma RunningFirst(root: Node, fuel: nat)
    requires root.IsComposite() && root.children == [] && root.index == 0
    ensures var t0 := Build(AddLeaf(AddLeaf(NewBuilder(root), Mock(Running)), Mock(Success)));
            var b' := WithStatus(WithDepth(root, 0), Running).(children := [Leaf(Running, 1, Running), Leaf(Failure, 1, Success)]);
            && Status(t0, fuel) == Done(Running) && After(t0, fuel) == Tree(Some(b'))
  {
    TwoLeavesBuilt(root, Running, Success);
    var l1, l2 := Leaf(Failure, 1, Running), Leaf(Failure, 1, Success);
    var b := WithDepth(root, 0).(children := [l1, l2]);
    LeafTick(l1, fuel);
    if root.Selector? {
      SelectorPair(b, fuel, Tick(l1, fuel).value, Tick(l2, fuel).value);
    } else {
      SequencePair(b, fuel, Tick(l1, fuel).value, Tick(l2, fuel).value);
    }
    TreeTick(b, fuel, Tick(b, fuel).value);
  }

  /** The second tick, after the running leaf's answer became Failure: the
      composite resumes at that leaf. */
  lemma ResumedSecond(b': Node, fuel: nat)
    requires b'.IsComposite() && b'.status == Running && b'.index == 0
    requires b'.children == [Leaf(Running, 1, Running), Leaf(Failure, 1, Success)]
    ensures Status(SetAnswer(Tree(Some(b')), [0], Failure), fuel) == Done(if b'.Selector? then Success else Failure)
  {
    var l1', l2 := Leaf(Running, 1, Failure), Leaf(Failure, 1, Success);
    var b'' := b'.(children := [l1', l2]);
    assert Put(b', [0], l1') == b'' by {
      assert b'.children[0 := l1'] == [l1', l2];
    }
    assert SetAnswer(Tree(Some(b')), [0], Failure) == Tree(Some(b''));
    LeafTick(l1', fuel);
    LeafTick(l2, fuel);
    if b'.Selector? {
      SelectorPair(b'', fuel, Tick(l1', fuel).value, Tick(l2, fuel).value);
    } else {
      SequencePair(b'', fuel, Tick(l1', fuel).value, Tick(l2, fuel).value);
    }
    TreeTick(b'', fuel, Tick(b'', fuel).value);
  }

  /** Selector_FirstChildRunningAndNextChildSuccess: a Selector whose first
      leaf runs returns Running; once that leaf answers Failure the next tick
      resumes at it and moves on to the second leaf's Success. */
  lemma SelectorResumes(fuel: nat)
    ensures var t0 := Build(AddLeaf(AddLeaf(NewBuilder(NewSelector()), Mock(Running)), Mock(Success)));
            && Status(t0, fuel) == Done(Running)
            && Status(SetAnswer(After(t0, fuel), [0], Failure), fuel) == Done(Success)
  {
    RunningFirst(NewSelector(), fuel);
    ResumedSecond(Selector(Running, 0, [Leaf(Running, 1, Running), Leaf(Failure, 1, Success)], 0), fuel);
  }

  /** Sequence_FirstChildRunningAndNextChildSuccess: the dual, where the
      resumed leaf's Failure ends the Sequence with Failure. */
  lemma SequenceResumes(fuel: nat)
    ensures var t0 := Build(AddLeaf(AddLeaf(NewBuilder(NewSequence()), Mock(Running)), Mock(Success)));
            && Status(t0, fuel) == Done(Running)
            && Status(SetAnswer(After(t0, fuel), [0], Failure), fuel) == Done(Failure)
  {
    RunningFirst(NewSequence(), fuel);
    ResumedSecond(Sequence(Running, 0, [Leaf(Running, 1, Running), Leaf(Failure, 1, Success)], 0), fuel);
  }

  /** Replacing a node one or two levels down. */
  lemma PutOne(b: Node, i: nat, x: Node)
    requires HasKid(b, i)
    ensures ValidPath(b, [i]) && Put(b, [i], x) == SetKid(b, i, x)
  {
    assert [i][1..] == [];
  }

  lemma PutTwo(b: Node, i: nat, j: nat, x: Node)
    requires HasKid(b, i) && HasKid(Kid(b, i), j)
    ensures ValidPath(b, [i, j]) && Put(b, [i, j], x) == SetKid(b, i, SetKid(Kid(b, i), j, x))
  {
    assert [i, j][1..] == [j];
    PutOne(Kid(b, i), j, x);
  }

  lemma AtOne(b: Node, i: nat)
    requires HasKid(b, i)
    ensures ValidPath(b, [i]) && At(b, [i]) == Kid(b, i)
  {
    assert [i][1..] == [];
  }

  /** TreeA's builder chain up to the Invert: the build node is the
      Invert, inside the "Run" Sequence. */
  function RunStarted(): (bl: Builder)
    ensures Ok(bl) && bl.at == [0, 0]
    ensures bl.root == Selector(Failure, 0, [Sequence(Failure, 1, [Invert(Failure, 2, None)], 0)], 0)
  {
    var inv0 := Invert(Failure, 2, None);
    var bl1 := AddSequence(NewBuilder(NewSelector()));
    assert bl1.root == Selector(Failure, 0, [Sequence(Failure, 1, [], 0)], 0) && bl1.at == [0];
    AtOne(bl1.root, 0);
    var bl2 := AddBranch(bl1, NewInvert());
    assert WithDepth(NewInvert(), 2) == inv0 && [] + [inv0] == [inv0];
    PutOne(bl1.root, 0, Sequence(Failure, 1, [inv0], 0));
    assert [Sequence(Failure, 1, [], 0)][0 := Sequence(Failure, 1, [inv0], 0)] == [Sequence(Failure, 1, [inv0], 0)];
    bl2
  }

  /** Then isSafe under the Invert, whose End returns to "Run", and run. */
  function RunBuilt(): (bl: Builder)
    ensures Ok(bl) && bl.at == [0]
    ensures bl.root == Selector(Failure, 0, [
                         Sequence(Failure, 1, [Invert(Failure, 2, Some(Leaf(Failure, 3, Failure))), Leaf(Failure, 2, Running)], 0)], 0)
  {
    var inv0 := Invert(Failure, 2, None);
    var inv := Invert(Failure, 2, Some(Leaf(Failure, 3, Failure)));
    var run := Sequence(Failure, 1, [inv, Leaf(Failure, 2, Running)], 0);
    var bl2 := RunStarted();
    assert bl2.at[..1] == [0] && bl2.at[..0] == [];
    AtOne(bl2.root, 0);
    AtOne(Sequence(Failure, 1, [inv0], 0), 0);
    assert At(bl2.root, [0, 0]) == inv0 by {
      assert [0, 0][1..] == [0];
    }
    var bl3 := AddLeaf(bl2, Mock(Failure));
    PutTwo(bl2.root, 0, 0, inv);
    assert [inv0][0 := inv] == [inv];
    assert [Sequence(Failure, 1, [inv0], 0)][0 := Sequence(Failure, 1, [inv], 0)] == [Sequence(Failure, 1, [inv], 0)];
    assert bl3.root == Selector(Failure, 0, [Sequence(Failure, 1, [inv], 0)], 0);
    assert bl3.at == [0];
    AtOne(bl3.root, 0);
    var bl4 := AddLeaf(bl3, Mock(Running));
    assert WithDepth(Mock(Running), 2) == Leaf(Failure, 2, Running) && [inv] + [Leaf(Failure, 2, Running)] == [inv, Leaf(Failure, 2, Running)];
    PutOne(bl3.root, 0, run);
    assert [Sequence(Failure, 1, [inv], 0)][0 := run] == [run];
    bl4
  }

  /** Back at the root, the "Eat" Sequence and isFoodNearby under it. */
  function EatStarted(): (bl: Builder)
    ensures Ok(bl) && bl.at == [1]
    ensures bl.root ==
              Selector(Failure, 0, [
                Sequence(Failure, 1, [Invert(Failure, 2, Some(Leaf(Failure, 3, Failure))), Leaf(Failure, 2, Running)], 0),
                Sequence(Failure, 1, [Leaf(Failure, 2, Success)], 0)], 0)
  {
    var run := Sequence(Failure, 1, [Invert(Failure, 2, Some(Leaf(Failure, 3, Failure))), Leaf(Failure, 2, Running)], 0);
    var eat1 := Sequence(Failure, 1, [Leaf(Failure, 2, Success)], 0);
    var bl4 := RunBuilt();
    assert CanEnd(bl4.root, bl4.at) by {
      assert bl4.at[..0] == [];
    }
    var bl5 := End(bl4);
    assert bl5.at == [];
    var bl6 := AddSequence(bl5);
    assert bl6.root == Selector(Failure, 0, [run, Sequence(Failure, 1, [], 0)], 0) && bl6.at == [1];
    AtOne(bl6.root, 1);
    var bl7 := AddLeaf(bl6, Mock(Success));
    assert WithDepth(Mock(Success), 2) == Leaf(Failure, 2, Success) && [] + [Leaf(Failure, 2, Success)] == [Leaf(Failure, 2, Success)];
    PutOne(bl6.root, 1, eat1);
    assert [run, Sequence(Failure, 1, [], 0)][1 := eat1] == [run, eat1];
    bl7
  }

  /** TreeA's builder chain: a Selector over a "Run" Sequence (an Invert
      over isSafe, then run) and an "Eat" Sequence (isFoodNearby, then eat),
      with isSafe failing, isFoodNearby succeeding and both actions running. */
  function TreeABuilder(): (bl: Builder)
    ensures Ok(bl) && bl.at == []
    ensures bl.root ==
              Selector(Failure, 0, [
                Sequence(Failure, 1, [Invert(Failure, 2, Some(Leaf(Failure, 3, Failure))), Leaf(Failure, 2, Running)], 0),
                Sequence(Failure, 1, [Leaf(Failure, 2, Success), Leaf(Failure, 2, Running)], 0)], 0)
  {
    var run := Sequence(Failure, 1, [Invert(Failure, 2, Some(Leaf(Failure, 3, Failure))), Leaf(Failure, 2, Running)], 0);
    var eat1 := Sequence(Failure, 1, [Leaf(Failure, 2, Success)], 0);
    var eat := Sequence(Failure, 1, [Leaf(Failure, 2, Success), Leaf(Failure, 2, Running)], 0);
    var bl7 := EatStarted();
    AtOne(bl7.root, 1);
    var bl8 := AddLeaf(bl7, Mock(Running));
    assert WithDepth(Mock(Running), 2) == Leaf(Failure, 2, Running);
    assert [Leaf(Failure, 2, Success)] + [Leaf(Failure, 2, Running)] == [Leaf(Failure, 2, Success), Leaf(Failure, 2, Running)];
    PutOne(bl7.root, 1, eat);
    assert [run, eat1][1 := eat] == [run, eat];
    assert bl8.root == Selector(Failure, 0, [run, eat], 0);
    assert CanEnd(bl8.root, bl8.at) by {
      assert bl8.at == [1] && bl8.at[..0] == [];
    }
    End(bl8)
  }

  /** An Invert over a leaf ticks the leaf and inverts its answer. */
  lemma InvertLeafTick(st: Status, d: int, leaf: Node, fuel: nat)
    requires leaf.Leaf?
    ensures var r := InvertStatus(leaf.answer, Leaf(leaf.answer, leaf.depth, leaf.answer));
            Tick(Invert(st, d, Some(leaf)), fuel) == Done(Ticked(r.0, Invert(r.0, d, Some(r.1))))
  {
    LeafTick(leaf, fuel);
    InvertTick(Invert(st, d, Some(leaf)), fuel);
  }

  // TreeA's states: RunSeq and EatSeq are its two Sequences; TreeAk is the
  // tree after tick k, and TreeAkSet the tree after the mock change that
  // follows it.

  function RunSeq(st: Status, invSt: Status, safe: Node, run: Node, i: int): Node {
    Sequence(st, 1, [Invert(invSt, 2, Some(safe)), run], i)
  }

  function EatSeq(st: Status, food: Node, eat: Node, i: int): Node {
    Sequence(st, 1, [food, eat], i)
  }

  function TreeA0(): Node {
    Selector(Failure, 0, [RunSeq(Failure, Failure, Leaf(Failure, 3, Failure), Leaf(Failure, 2, Running), 0),
                          EatSeq(Failure, Leaf(Failure, 2, Success), Leaf(Failure, 2, Running), 0)], 0)
  }

  function TreeA1Set(): Node {
    Selector(Running, 0, [RunSeq(Running, Success, Leaf(Invalid, 3, Failure), Leaf(Running, 2, Success), 1),
                          EatSeq(Failure, Leaf(Failure, 2, Success), Leaf(Failure, 2, Running), 0)], 0)
  }

  function TreeA2Set(): Node {
    Selector(Success, 0, [RunSeq(Success, Success, Leaf(Invalid, 3, Success), Leaf(Success, 2, Success), 2),
                          EatSeq(Failure, Leaf(Failure, 2, Success), Leaf(Failure, 2, Running), 0)], 0)
  }

  function TreeA3Set(): Node {
    Selector(Running, 0, [RunSeq(Failure, Failure, Leaf(Invalid, 3, Success), Leaf(Success, 2, Success), 0),
                          EatSeq(Running, Leaf(Success, 2, Success), Leaf(Running, 2, Success), 1)], 1)
  }

  function TreeA4Set(): Node {
    Selector(Success, 0, [RunSeq(Failure, Failure, Leaf(Invalid, 3, Success), Leaf(Success, 2, Success), 0),
                          EatSeq(Success, Leaf(Success, 2, Failure), Leaf(Success, 2, Success), 2)], 1)
  }

  /** A composite over two runnable children is runnable when its index is
      valid or it is not running. */
  lemma PairRunnable(b: Node)
    requires b.IsComposite() && |b.children| == 2 && Runnable(b.children[0]) && Runnable(b.children[1])
    requires b.status == Running ==> 0 <= b.index < 2
    ensures Runnable(b)
  {
  }

  lemma RunSeqRunnable(st: Status, invSt: Status, safe: Node, run: Node, i: int)
    requires safe.Leaf? && run.Leaf? && (st == Running ==> 0 <= i < 2)
    ensures Runnable(RunSeq(st, invSt, safe, run, i))
  {
    assert Runnable(Invert(invSt, 2, Some(safe)));
    PairRunnable(RunSeq(st, invSt, safe, run, i));
  }

  lemma EatSeqRunnable(st: Status, food: Node, eat: Node, i: int)
    requires food.Leaf? && eat.Leaf? && (st == Running ==> 0 <= i < 2)
    ensures Runnable(EatSeq(st, food, eat, i))
  {
    PairRunnable(EatSeq(st, food, eat, i));
  }

  /** The "Run" Sequence's ticks. */
  lemma RunTick1(fuel: nat)
    ensures Tick(RunSeq(Failure, Failure, Leaf(Failure, 3, Failure), Leaf(Failure, 2, Running), 0), fuel)
            == Done(Ticked(Running, RunSeq(Running, Success, Leaf(Invalid, 3, Failure), Leaf(Running, 2, Running), 1)))
  {
    var run := RunSeq(Failure, Failure, Leaf(Failure, 3, Failure), Leaf(Failure, 2, Running), 0);
    RunSeqRunnable(Failure, Failure, Leaf(Failure, 3, Failure), Leaf(Failure, 2, Running), 0);
    InvertLeafTick(Failure, 2, Leaf(Failure, 3, Failure), fuel);
    LeafTick(Leaf(Failure, 2, Running), fuel);
    SequencePair(run, fuel, Tick(run.children[0], fuel).value, Tick(run.children[1], fuel).value);
  }

  lemma RunTick2(fuel: nat)
    ensures Tick(RunSeq(Running, Success, Leaf(Invalid, 3, Failure), Leaf(Running, 2, Success), 1), fuel)
            == Done(Ticked(Success, RunSeq(Success, Success, Leaf(Invalid, 3, Failure), Leaf(Success, 2, Success), 2)))
  {
    var run := RunSeq(Running, Success, Leaf(Invalid, 3, Failure), Leaf(Running, 2, Success), 1);
    RunSeqRunnable(Running, Success, Leaf(Invalid, 3, Failure), Leaf(Running, 2, Success), 1);
    LeafTick(Leaf(Running, 2, Success), fuel);
    SequencePair(run, fuel, Ticked(Invalid, run.children[0]), Tick(run.children[1], fuel).value);
  }

  lemma RunTick3(fuel: nat)
    ensures Tick(RunSeq(Success, Success, Leaf(Invalid, 3, Success), Leaf(Success, 2, Success), 2), fuel)
            == Done(Ticked(Failure, RunSeq(Failure, Failure, Leaf(Invalid, 3, Success), Leaf(Success, 2, Success), 0)))
  {
    var run := RunSeq(Success, Success, Leaf(Invalid, 3, Success), Leaf(Success, 2, Success), 2);
    RunSeqRunnable(Success, Success, Leaf(Invalid, 3, Success), Leaf(Success, 2, Success), 2);
    InvertLeafTick(Success, 2, Leaf(Invalid, 3, Success), fuel);
    SequencePair(run, fuel, Tick(run.children[0], fuel).value, Ticked(Invalid, run.children[1]));
  }

  lemma RunTick5(fuel: nat)
    ensures Tick(RunSeq(Failure, Failure, Leaf(Invalid, 3, Success), Leaf(Success, 2, Success), 0), fuel)
            == Done(Ticked(Failure, RunSeq(Failure, Failure, Leaf(Invalid, 3, Success), Leaf(Success, 2, Success), 0)))
  {
    var run := RunSeq(Failure, Failure, Leaf(Invalid, 3, Success), Leaf(Success, 2, Success), 0);
    RunSeqRunnable(Failure, Failure, Leaf(Invalid, 3, Success), Leaf(Success, 2, Success), 0);
    InvertLeafTick(Failure, 2, Leaf(Invalid, 3, Success), fuel);
    SequencePair(run, fuel, Tick(run.children[0], fuel).value, Ticked(Invalid, run.children[1]));
  }

  /** The "Eat" Sequence's ticks. */
  lemma EatTick3(fuel: nat)
    ensures Tick(EatSeq(Failure, Leaf(Failure, 2, Success), Leaf(Failure, 2, Running), 0), fuel)
            == Done(Ticked(Running, EatSeq(Running, Leaf(Success, 2, Success), Leaf(Running, 2, Running), 1)))
  {
    var eat := EatSeq(Failure, Leaf(Failure, 2, Success), Leaf(Failure, 2, Running), 0);
    EatSeqRunnable(Failure, Leaf(Failure, 2, Success), Leaf(Failure, 2, Running), 0);
    LeafTick(Leaf(Failure, 2, Success), fuel);
    LeafTick(Leaf(Failure, 2, Running), fuel);
    SequencePair(eat, fuel, Tick(eat.children[0], fuel).value, Tick(eat.children[1], fuel).value);
  }

  lemma EatTick4(fuel: nat)
    ensures Tick(EatSeq(Running, Leaf(Success, 2, Success), Leaf(Running, 2, Success), 1), fuel)
            == Done(Ticked(Success, EatSeq(Success, Leaf(Success, 2, Success), Leaf(Success, 2, Success), 2)))
  {
    var eat := EatSeq(Running, Leaf(Success, 2, Success), Leaf(Running, 2, Success), 1);
    EatSeqRunnable(Running, Leaf(Success, 2, Success), Leaf(Running, 2, Success), 1);
    LeafTick(Leaf(Running, 2, Success), fuel);
    SequencePair(eat, fuel, Ticked(Invalid, eat.children[0]), Tick(eat.children[1], fuel).value);
  }

  lemma EatTick5(fuel: nat)
    ensures Tick(EatSeq(Success, Leaf(Success, 2, Failure), Leaf(Success, 2, Success), 2), fuel)
            == Done(Ticked(Failure, EatSeq(Failure, Leaf(Failure, 2, Failure), Leaf(Success, 2, Success), 0)))
  {
    var eat := EatSeq(Success, Leaf(Success, 2, Failure), Leaf(Success, 2, Success), 2);
    EatSeqRunnable(Success, Leaf(Success, 2, Failure), Leaf(Success, 2, Success), 2);
    LeafTick(Leaf(Success, 2, Failure), fuel);
    SequencePair(eat, fuel, Tick(eat.children[0], fuel).value, Ticked(Invalid, eat.children[1]));
  }

  /** Tick 1: isSafe fails, so the Invert succeeds and run keeps the "Run"
      Sequence, and the root, Running. */
  lemma TreeATick1(fuel: nat)
    ensures Runnable(TreeA0())
    ensures Tick(TreeA0(), fuel) == Done(Ticked(Running,
              Selector(Running, 0, [RunSeq(Running, Success, Leaf(Invalid, 3, Failure), Leaf(Running, 2, Running), 1),
                                    EatSeq(Failure, Leaf(Failure, 2, Success), Leaf(Failure, 2, Running), 0)], 0)))
  {
    var run := RunSeq(Failure, Failure, Leaf(Failure, 3, Failure), Leaf(Failure, 2, Running), 0);
    var eat := EatSeq(Failure, Leaf(Failure, 2, Success), Leaf(Failure, 2, Running), 0);
    RunSeqRunnable(Failure, Failure, Leaf(Failure, 3, Failure), Leaf(Failure, 2, Running), 0);
    EatSeqRunnable(Failure, Leaf(Failure, 2, Success), Leaf(Failure, 2, Running), 0);
    PairRunnable(TreeA0());
    RunTick1(fuel);
    SelectorPair(TreeA0(), fuel, Tick(run, fuel).value, Ticked(Invalid, eat));
  }

  /** Tick 2, with run now succeeding: both the root and "Run" resume at
      their running child, and everything succeeds. */
  lemma TreeATick2(fuel: nat)
    ensures Runnable(TreeA1Set())
    ensures Tick(TreeA1Set(), fuel) == Done(Ticked(Success,
              Selector(Success, 0, [RunSeq(Success, Success, Leaf(Invalid, 3, Failure), Leaf(Success, 2, Success), 2),
                                    EatSeq(Failure, Leaf(Failure, 2, Success), Leaf(Failure, 2, Running), 0)], 0)))
  {
    var run := RunSeq(Running, Success, Leaf(Invalid, 3, Failure), Leaf(Running, 2, Success), 1);
    var eat := EatSeq(Failure, Leaf(Failure, 2, Success), Leaf(Failure, 2, Running), 0);
    RunSeqRunnable(Running, Success, Leaf(Invalid, 3, Failure), Leaf(Running, 2, Success), 1);
    EatSeqRunnable(Failure, Leaf(Failure, 2, Success), Leaf(Failure, 2, Running), 0);
    PairRunnable(TreeA1Set());
    RunTick2(fuel);
    SelectorPair(TreeA1Set(), fuel, Tick(run, fuel).value, Ticked(Invalid, eat));
  }

  /** Tick 3, with isSafe now succeeding: the Invert fails "Run", and the
      root moves on to "Eat", where eat runs. */
  lemma TreeATick3(fuel: nat)
    ensures Runnable(TreeA2Set())
    ensures Tick(TreeA2Set(), fuel) == Done(Ticked(Running,
              Selector(Running, 0, [RunSeq(Failure, Failure, Leaf(Invalid, 3, Success), Leaf(Success, 2, Success), 0),
                                    EatSeq(Running, Leaf(Success, 2, Success), Leaf(Running, 2, Running), 1)], 1)))
  {
    var run := RunSeq(Success, Success, Leaf(Invalid, 3, Success), Leaf(Success, 2, Success), 2);
    var eat := EatSeq(Failure, Leaf(Failure, 2, Success), Leaf(Failure, 2, Running), 0);
    RunSeqRunnable(Success, Success, Leaf(Invalid, 3, Success), Leaf(Success, 2, Success), 2);
    EatSeqRunnable(Failure, Leaf(Failure, 2, Success), Leaf(Failure, 2, Running), 0);
    PairRunnable(TreeA2Set());
    RunTick3(fuel);
    EatTick3(fuel);
    SelectorPair(TreeA2Set(), fuel, Tick(run, fuel).value, Tick(eat, fuel).value);
  }

  /** Tick 4, with eat now succeeding: the root and "Eat" resume at their
      running child, and everything succeeds. */
  lemma TreeATick4(fuel: nat)
    ensures Runnable(TreeA3Set())
    ensures Tick(TreeA3Set(), fuel) == Done(Ticked(Success,
              Selector(Success, 0, [RunSeq(Failure, Failure, Leaf(Invalid, 3, Success), Leaf(Success, 2, Success), 0),
                                    EatSeq(Success, Leaf(Success, 2, Success), Leaf(Success, 2, Success), 2)], 1)))
  {
    var run := RunSeq(Failure, Failure, Leaf(Invalid, 3, Success), Leaf(Success, 2, Success), 0);
    var eat := EatSeq(Running, Leaf(Success, 2, Success), Leaf(Running, 2, Success), 1);
    RunSeqRunnable(Failure, Failure, Leaf(Invalid, 3, Success), Leaf(Success, 2, Success), 0);
    EatSeqRunnable(Running, Leaf(Success, 2, Success), Leaf(Running, 2, Success), 1);
    PairRunnable(TreeA3Set());
    EatTick4(fuel);
    SelectorPair(TreeA3Set(), fuel, Ticked(Invalid, run), Tick(eat, fuel).value);
  }

  /** Tick 5, with isFoodNearby now failing: "Run" fails on the Invert and
      "Eat" on isFoodNearby, so the root fails. */
  lemma TreeATick5(fuel: nat)
    ensures Runnable(TreeA4Set())
    ensures Tick(TreeA4Set(), fuel) == Done(Ticked(Failure,
              Selector(Failure, 0, [RunSeq(Failure, Failure, Leaf(Invalid, 3, Success), Leaf(Success, 2, Success), 0),
                                    EatSeq(Failure, Leaf(Failure, 2, Failure), Leaf(Success, 2, Success), 0)], 2)))
  {
    var run := RunSeq(Failure, Failure, Leaf(Invalid, 3, Success), Leaf(Success, 2, Success), 0);
    var eat := EatSeq(Success, Leaf(Success, 2, Failure), Leaf(Success, 2, Success), 2);
    RunSeqRunnable(Failure, Failure, Leaf(Invalid, 3, Success), Leaf(Success, 2, Success), 0);
    EatSeqRunnable(Success, Leaf(Success, 2, Failure), Leaf(Success, 2, Success), 2);
    PairRunnable(TreeA4Set());
    RunTick5(fuel);
    EatTick5(fuel);
    SelectorPair(TreeA4Set(), fuel, Tick(run, fuel).value, Tick(eat, fuel).value);
  }

  /** Changing the answer of a leaf two or three levels down. */
  lemma SetTwo(b: Node, i: nat, j: nat, a: Status)
    requires HasKid(b, i) && HasKid(Kid(b, i), j) && Kid(Kid(b, i), j).Leaf?
    ensures var l := Kid(Kid(b, i), j);
            SetAnswer(Tree(Some(b)), [i, j], a) == Tree(Some(SetKid(b, i, SetKid(Kid(b, i), j, Leaf(l.status, l.depth, a)))))
  {
    assert [i, j][1..] == [j];
    AtOne(Kid(b, i), j);
    var l := Kid(Kid(b, i), j);
    PutTwo(b, i, j, Leaf(l.status, l.depth, a));
  }

  lemma SetThree(b: Node, i: nat, j: nat, k: nat, a: Status)
    requires HasKid(b, i) && HasKid(Kid(b, i), j) && HasKid(Kid(Kid(b, i), j), k) && Kid(Kid(Kid(b, i), j), k).Leaf?
    ensures var c := Kid(b, i);
            var l := Kid(Kid(c, j), k);
            SetAnswer(Tree(Some(b)), [i, j, k], a)
              == Tree(Some(SetKid(b, i, SetKid(c, j, SetKid(Kid(c, j), k, Leaf(l.status, l.depth, a))))))
  {
    assert [i, j, k][1..] == [j, k] && [j, k][1..] == [k];
    var c := Kid(b, i);
    AtOne(Kid(c, j), k);
    assert At(c, [j, k]) == At(Kid(c, j), [k]);
    var l := Kid(Kid(c, j), k);
    PutTwo(c, j, k, Leaf(l.status, l.depth, a));
  }

  /** Replacing either element of a pair. */
  lemma PairUpdate<T>(x: T, y: T, z: T)
    ensures [x, y][0 := z] == [z, y] && [x, y][1 := z] == [x, z]
  {
  }

  /** The five ticks of TreeA, each with the mock change that follows it. */
  lemma TreeAStep1(fuel: nat)
    ensures var t := Tree(Some(TreeA0()));
            Status(t, fuel) == Done(Running) && SetAnswer(After(t, fuel), [0, 1], Success) == Tree(Some(TreeA1Set()))
  {
    var run := RunSeq(Running, Success, Leaf(Invalid, 3, Failure), Leaf(Running, 2, Running), 1);
    var eat := EatSeq(Failure, Leaf(Failure, 2, Success), Leaf(Failure, 2, Running), 0);
    var a := Selector(Running, 0, [run, eat], 0);
    TreeATick1(fuel);
    TreeTick(TreeA0(), fuel, Ticked(Running, a));
    SetTwo(a, 0, 1, Success);
    PairUpdate(Invert(Success, 2, Some(Leaf(Invalid, 3, Failure))), Leaf(Running, 2, Running), Leaf(Running, 2, Success));
    PairUpdate(run, eat, RunSeq(Running, Success, Leaf(Invalid, 3, Failure), Leaf(Running, 2, Success), 1));
  }

  lemma TreeAStep2(fuel: nat)
    ensures var t := Tree(Some(TreeA1Set()));
            Status(t, fuel) == Done(Success) && SetAnswer(After(t, fuel), [0, 0, 0], Success) == Tree(Some(TreeA2Set()))
  {
    var run := RunSeq(Success, Success, Leaf(Invalid, 3, Failure), Leaf(Success, 2, Success), 2);
    var eat := EatSeq(Failure, Leaf(Failure, 2, Success), Leaf(Failure, 2, Running), 0);
    var a := Selector(Success, 0, [run, eat], 0);
    TreeATick2(fuel);
    TreeTick(TreeA1Set(), fuel, Ticked(Success, a));
    SetThree(a, 0, 0, 0, Success);
    var inv' := Invert(Success, 2, Some(Leaf(Invalid, 3, Success)));
    PairUpdate(Invert(Success, 2, Some(Leaf(Invalid, 3, Failure))), Leaf(Success, 2, Success), inv');
    PairUpdate(run, eat, RunSeq(Success, Success, Leaf(Invalid, 3, Success), Leaf(Success, 2, Success), 2));
  }

  lemma TreeAStep3(fuel: nat)
    ensures var t := Tree(Some(TreeA2Set()));
            Status(t, fuel) == Done(Running) && SetAnswer(After(t, fuel), [1, 1], Success) == Tree(Some(TreeA3Set()))
  {
    var run := RunSeq(Failure, Failure, Leaf(Invalid, 3, Success), Leaf(Success, 2, Success), 0);
    var eat := EatSeq(Running, Leaf(Success, 2, Success), Leaf(Running, 2, Running), 1);
    var a := Selector(Running, 0, [run, eat], 1);
    TreeATick3(fuel);
    TreeTick(TreeA2Set(), fuel, Ticked(Running, a));
    SetTwo(a, 1, 1, Success);
    PairUpdate(Leaf(Success, 2, Success), Leaf(Running, 2, Running), Leaf(Running, 2, Success));
    PairUpdate(run, eat, EatSeq(Running, Leaf(Success, 2, Success), Leaf(Running, 2, Success), 1));
  }

  lemma TreeAStep4(fuel: nat)
    ensures var t := Tree(Some(TreeA3Set()));
            Status(t, fuel) == Done(Success) && SetAnswer(After(t, fuel), [1, 0], Failure) == Tree(Some(TreeA4Set()))
  {
    var run := RunSeq(Failure, Failure, Leaf(Invalid, 3, Success), Leaf(Success, 2, Success), 0);
    var eat := EatSeq(Success, Leaf(Success, 2, Success), Leaf(Success, 2, Success), 2);
    var a := Selector(Success, 0, [run, eat], 1);
    TreeATick4(fuel);
    TreeTick(TreeA3Set(), fuel, Ticked(Success, a));
    SetTwo(a, 1, 0, Failure);
    PairUpdate(Leaf(Success, 2, Success), Leaf(Success, 2, Success), Leaf(Success, 2, Failure));
    PairUpdate(run, eat, EatSeq(Success, Leaf(Success, 2, Failure), Leaf(Success, 2, Success), 2));
  }

  lemma TreeAStep5(fuel: nat)
    ensures Status(Tree(Some(TreeA4Set())), fuel) == Done(Failure)
  {
    TreeATick5(fuel);
    TreeTick(TreeA4Set(), fuel, Tick(TreeA4Set(), fuel).value);
  }

  /** TreeA: the statuses of its five ticks, with the mocks changed between
      them as the scenario does: Running, Success, Running, Success, Failure. */
  lemma TreeA(fuel: nat)
    ensures var t0 := Build(TreeABuilder());
            var t1 := SetAnswer(After(t0, fuel), [0, 1], Success);
            var t2 := SetAnswer(After(t1, fuel), [0, 0, 0], Success);
            var t3 := SetAnswer(After(t2, fuel), [1, 1], Success);
            var t4 := SetAnswer(After(t3, fuel), [1, 0], Failure);
            && Status(t0, fuel) == Done(Running)
            && Status(t1, fuel) == Done(Success)
            && Status(t2, fuel) == Done(Running)
            && Status(t3, fuel) == Done(Success)
            && Status(t4, fuel) == Done(Failure)
  {
    assert Build(TreeABuilder()) == Tree(Some(TreeA0()));
    TreeAStep1(fuel);
    TreeAStep2(fuel);
    TreeAStep3(fuel);
    TreeAStep4(fuel);
    TreeAStep5(fuel);
  }
}

=== FILE: binary_min_heap.dfy ===
/** The array-backed binary min-heap that serves as the A* frontier
    (Assets/Utilities/BinaryMinHeap.cs). Nodes are stored 0-indexed: the
    children of `i` are `2i+1` and `2i+2`, the parent of `i > 0` is `(i-1)/2`.
    Keys are C# floats, modelled as reals. */
module BinaryMinHeap {
  import opened Common


  datatype HeapNode<T> = HeapNode(key: real, data: T)

  function Parent(i: nat): nat
    requires i > 0
  {
    (i - 1) / 2
  }

  /** Heap order: no node's key is below its parent's. */
  ghost predicate IsHeap<T>(s: seq<HeapNode<T>>) {
    forall i :: 0 < i < |s| ==> s[Parent(i)].key <= s[i].key
  }

  /** Heap order everywhere except possibly between `k` and its parent, and the
      parent of `k` is still no larger than the children of `k`: the state while
      the node at `k` is being sifted up. */
  ghost predicate HeapExceptAbove<T>(s: seq<HeapNode<T>>, k: nat) {
    && k < |s|
    && (forall i :: 0 < i < |s| && i != k ==> s[Parent(i)].key <= s[i].key)
    && (k > 0 ==> forall i :: 0 < i < |s| && Parent(i) == k ==> s[Parent(k)].key <= s[i].key)
  }

  /** Heap order everywhere except possibly between `k` and its children, and the
      parent of `k` is no larger than those children: the state while the node
      at `k` is being sifted down. */
  ghost predicate HeapExceptBelow<T>(s: seq<HeapNode<T>>, k: nat) {
    && k < |s|
    && (forall i :: 0 < i < |s| && Parent(i) != k ==> s[Parent(i)].key <= s[i].key)
    && (k > 0 ==> forall i :: 0 < i < |s| && Parent(i) == k ==> s[Parent(k)].key <= s[i].key)
  }

  /** Exchanges two slots (Swap); returns the second index, where the moved node now sits. */
  function Swap<T>(s: seq<HeapNode<T>>, a: nat, b: nat): (r: seq<HeapNode<T>>)
    requires a < |s| && b < |s|
    ensures |r| == |s| && r[a] == s[b] && r[b] == s[a]
    ensures forall i :: 0 <= i < |s| && i != a && i != b ==> r[i] == s[i]
    ensures multiset(r) == multiset(s)
  {
    s[a := s[b]][b := s[a]]
  }

  /** Moves the node at `k` towards the root while its key is below its parent's. */
  method SiftUp<T>(s: seq<HeapNode<T>>, k: nat) returns (r: seq<HeapNode<T>>)
    requires HeapExceptAbove(s, k)
    ensures IsHeap(r)
    ensures multiset(r) == multiset(s) && |r| == |s|
  {
    r := s;
    var i := k;
    while i > 0 && r[i].key < r[Parent(i)].key
      invariant HeapExceptAbove(r, i)
      invariant multiset(r) == multiset(s) && |r| == |s|
      decreases i
    {
      SwapUp(r, i);
      r := Swap(r, i, Parent(i));
      i := Parent(i);
    }
    ParentInOrder(r, i);
  }

  /** Swapping a sifting-up node with its larger parent moves the exception one level up. */
  lemma SwapUp<T>(s: seq<HeapNode<T>>, k: nat)
    requires HeapExceptAbove(s, k) && k > 0 && s[k].key < s[Parent(k)].key
    ensures HeapExceptAbove(Swap(s, k, Parent(k)), Parent(k))
  {
    var p := Parent(k);
    var r := Swap(s, k, p);
    forall i | 0 < i < |r| && i != p
      ensures r[Parent(i)].key <= r[i].key
    {
      if i == k {
      } else if Parent(i) == k {
      } else if Parent(i) == p {
        assert s[p].key <= s[i].key;
      }
    }
    if p > 0 {
      forall i | 0 < i < |r| && Parent(i) == p
        ensures r[Parent(p)].key <= r[i].key
      {
        assert s[Parent(p)].key <= s[p].key;
      }
    }
  }

  /** When the parent is not larger, the exception is gone. */
  lemma ParentInOrder<T>(s: seq<HeapNode<T>>, k: nat)
    requires HeapExceptAbove(s, k)
    requires k > 0 ==> s[Parent(k)].key <= s[k].key
    ensures IsHeap(s)
  {
  }

  /** Moves the node at `k` towards the leaves, always swapping with the smaller
      child, until neither child has a smaller key. */
  method SiftDown<T>(s: seq<HeapNode<T>>, k: nat) returns (r: seq<HeapNode<T>>)
    requires HeapExceptBelow(s, k)
    ensures IsHeap(r)
    ensures multiset(r) == multiset(s) && |r| == |s|
  {
    r := s;
    var i: nat := k;
    while 2 * i + 1 < |r|
      invariant HeapExceptBelow(r, i)
      invariant multiset(r) == multiset(s) && |r| == |s|
      decreases |r| - i
    {
      var next := SmallerChild(r, i);
      if next.None? {
        ChildrenInOrder(r, i);
        break;
      }
      var child := next.value;
      SwapDown(r, i, child);
      r := Swap(r, i, child);
      i := child;
    }
  }

  /** The child to swap with: the right child when it exists and is smaller
      than the left, else the left, provided it is smaller than the parent;
      nothing when neither child is smaller. */
  function SmallerChild<T>(s: seq<HeapNode<T>>, k: nat): (c: Option<nat>)
    requires 2 * k + 1 < |s|
    ensures c.Some? ==> (c.value == 2 * k + 1 || c.value == 2 * k + 2) && c.value < |s| && s[c.value].key < s[k].key
    ensures c.Some? ==> forall o :: o < |s| && (o == 2 * k + 1 || o == 2 * k + 2) ==> s[c.value].key <= s[o].key
    ensures c.None? <==> s[k].key <= s[2 * k + 1].key && (2 * k + 2 < |s| ==> s[k].key <= s[2 * k + 2].key)
  {
    var left, right := 2 * k + 1, 2 * k + 2;
    if s[left].key < s[k].key then
      if right < |s| && s[right].key < s[left].key then Some(right) else Some(left)
    else if right < |s| && s[right].key < s[k].key then Some(right)
    else Option.None
  }

  /** Swapping a sifting-down node with its smaller child moves the exception one level down. */
  lemma SwapDown<T>(s: seq<HeapNode<T>>, k: nat, c: nat)
    requires HeapExceptBelow(s, k)
    requires c == 2 * k + 1 || c == 2 * k + 2
    requires c < |s| && s[c].key < s[k].key
    requires forall o :: o < |s| && (o == 2 * k + 1 || o == 2 * k + 2) ==> s[c].key <= s[o].key
    ensures HeapExceptBelow(Swap(s, k, c), c)
  {
    var r := Swap(s, k, c);
    forall i | 0 < i < |r| && Parent(i) != c
      ensures r[Parent(i)].key <= r[i].key
    {
      if i == c {
      } else if Parent(i) == k {
      } else if i == k {
      } else {
        assert Parent(i) != c;
      }
    }
    forall i | 0 < i < |r| && Parent(i) == c
      ensures r[Parent(c)].key <= r[i].key
    {
      assert Parent(c) == k;
    }
  }

  /** When neither child of `k` is smaller, the exception is gone. */
  lemma ChildrenInOrder<T>(s: seq<HeapNode<T>>, k: nat)
    requires HeapExceptBelow(s, k)
    requires 2 * k + 1 < |s| ==> s[k].key <= s[2 * k + 1].key
    requires 2 * k + 2 < |s| ==> s[k].key <= s[2 * k + 2].key
    ensures IsHeap(s)
  {
    forall i | 0 < i < |s|
      ensures s[Parent(i)].key <= s[i].key
    {
      if Parent(i) == k {
        assert i == 2 * k + 1 || i == 2 * k + 2;
      }
    }
  }

  /** Insert appends the node and sifts it up. */
  method Insert<T>(nodes: seq<HeapNode<T>>, node: HeapNode<T>) returns (r: seq<HeapNode<T>>)
    requires IsHeap(nodes)
    ensures IsHeap(r)
    ensures multiset(r) == multiset(nodes) + multiset{node}
    ensures |r| == |nodes| + 1
  {
    var grown := nodes + [node];
    assert HeapExceptAbove(grown, |nodes|);
    r := SiftUp(grown, |nodes|);
  }

  /** ExtractRoot swaps the root with the last node, removes it and sifts the
      moved node down. The returned node is the former root, a minimum-key node. */
  method ExtractRoot<T>(nodes: seq<HeapNode<T>>) returns (root: HeapNode<T>, r: seq<HeapNode<T>>)
    requires |nodes| > 0
    requires IsHeap(nodes)
    ensures root == nodes[0]
    ensures forall i :: 0 <= i < |nodes| ==> root.key <= nodes[i].key
    ensures multiset(r) + multiset{root} == multiset(nodes)
    ensures |r| == |nodes| - 1
    ensures IsHeap(r)
  {
    RootIsMinimum(nodes);
    var last := |nodes| - 1;
    var swapped := Swap(nodes, 0, last);
    root := swapped[last];
    var remaining := swapped[..last];
    assert swapped == remaining + [root];
    assert multiset(swapped) == multiset(remaining) + multiset{root};
    if |remaining| == 0 {
      r := remaining;
    } else {
      assert HeapExceptBelow(remaining, 0);
      r := SiftDown(remaining, 0);
    }
  }

  /** Every key in a heap is at least the root's key. */
  lemma {:induction false} RootIsMinimum<T>(s: seq<HeapNode<T>>)
    requires IsHeap(s) && |s| > 0
    ensures forall i :: 0 <= i < |s| ==> s[0].key <= s[i].key
  {
    forall i | 0 <= i < |s|
      ensures s[0].key <= s[i].key
    {
      AncestorBound(s, i);
    }
  }

  lemma {:induction false} AncestorBound<T>(s: seq<HeapNode<T>>, i: nat)
    requires IsHeap(s) && i < |s|
    ensures s[0].key <= s[i].key
    decreases i
  {
    if i > 0 {
      AncestorBound(s, Parent(i));
    }
  }

  /** `i` is the first slot holding `data`. */
  predicate IsFirstOf<T(==)>(nodes: seq<HeapNode<T>>, data: T, i: nat) {
    i < |nodes| && nodes[i].data == data && forall j :: 0 <= j < i ==> nodes[j].data != data
  }

  /** The index of the first node holding `data`, if any (the linear scan of ChangeKey). */
  method Find<T(==)>(nodes: seq<HeapNode<T>>, data: T) returns (found: bool, index: nat)
    ensures found ==> IsFirstOf(nodes, data, index)
    ensures !found ==> forall j :: 0 <= j < |nodes| ==> nodes[j].data != data
  {
    index := 0;
    while index < |nodes|
      invariant index <= |nodes|
      invariant forall j :: 0 <= j < index ==> nodes[j].data != data
    {
      if nodes[index].data == data {
        return true, index;
      }
      index := index + 1;
    }
    return false, 0;
  }

  /** ChangeKey gives the first node holding `data` the key `newKey`: a larger key
      sifts it down, a smaller one sifts it up, an equal one changes nothing. A
      payload that is not in the heap leaves the heap unchanged. */
  method ChangeKey<T(==)>(nodes: seq<HeapNode<T>>, data: T, newKey: real) returns (r: seq<HeapNode<T>>)
    requires IsHeap(nodes)
    ensures IsHeap(r)
    ensures |r| == |nodes|
    ensures (forall j :: 0 <= j < |nodes| ==> nodes[j].data != data) ==> r == nodes
    ensures forall i: nat :: IsFirstOf(nodes, data, i) ==>
              multiset(r) == multiset(nodes) - multiset{nodes[i]} + multiset{HeapNode(newKey, data)}
    ensures forall i: nat :: IsFirstOf(nodes, data, i) && nodes[i].key == newKey ==> r == nodes
  {
    var found, i := Find(nodes, data);
    if !found {
      return nodes;
    }
    FirstOfUnique(nodes, data, i);
    var oldKey := nodes[i].key;
    var updated := nodes[i := HeapNode(newKey, data)];
    ReplaceMultiset(nodes, i, HeapNode(newKey, data));
    if newKey > oldKey {
      RaisedKeyBelow(nodes, i, newKey);
      r := SiftDown(updated, i);
    } else if newKey < oldKey {
      LoweredKeyAbove(nodes, i, newKey);
      r := SiftUp(updated, i);
    } else {
      r := nodes;
      assert nodes[i] == HeapNode(newKey, data);
      assert updated == nodes;
    }
  }

  lemma FirstOfUnique<T>(nodes: seq<HeapNode<T>>, data: T, i: nat)
    requires IsFirstOf(nodes, data, i)
    ensures forall j: nat :: IsFirstOf(nodes, data, j) ==> j == i
  {
  }

  lemma ReplaceMultiset<T>(s: seq<HeapNode<T>>, i: nat, x: HeapNode<T>)
    requires i < |s|
    ensures multiset(s[i := x]) == multiset(s) - multiset{s[i]} + multiset{x}
  {
  }

  /** Raising one key in a heap leaves order broken only below that node. */
  lemma RaisedKeyBelow<T>(s: seq<HeapNode<T>>, k: nat, newKey: real)
    requires IsHeap(s) && k < |s| && newKey > s[k].key
    ensures HeapExceptBelow(s[k := HeapNode(newKey, s[k].data)], k)
  {
    var r := s[k := HeapNode(newKey, s[k].data)];
    forall i | 0 < i < |r| && Parent(i) == k && k > 0
      ensures r[Parent(k)].key <= r[i].key
    {
      assert s[Parent(k)].key <= s[k].key <= s[i].key;
    }
  }

  /** Lowering one key in a heap leaves order broken only above that node. */
  lemma LoweredKeyAbove<T>(s: seq<HeapNode<T>>, k: nat, newKey: real)
    requires IsHeap(s) && k < |s| && newKey < s[k].key
    ensures HeapExceptAbove(s[k := HeapNode(newKey, s[k].data)], k)
  {
    var r := s[k := HeapNode(newKey, s[k].data)];
    forall i | 0 < i < |r| && i != k
      ensures r[Parent(i)].key <= r[i].key
    {
      assert s[Parent(i)].key <= s[i].key;
    }
    forall i | 0 < i < |r| && Parent(i) == k && k > 0
      ensures r[Parent(k)].key <= r[i].key
    {
      assert s[Parent(k)].key <= s[k].key <= s[i].key;
    }
  }

  /** Clear empties the heap. */
  function Clear<T>(nodes: seq<HeapNode<T>>): (r: seq<HeapNode<T>>)
    ensures IsEmpty(r)
  {
    []
  }

  predicate IsEmpty<T>(nodes: seq<HeapNode<T>>)
    ensures IsEmpty(nodes) <==> multiset(nodes) == multiset{}
  {
    |nodes| == 0
  }

  /** The insertion sequence of the heap test scene: keys 6, 3, 5, 1, 7, 8 go in
      and the first extraction yields the node with key 1. Payloads are ids. */
  method InsertSixExtractOne() returns (extracted: HeapNode<int>, rest: seq<HeapNode<int>>)
    ensures extracted == HeapNode(1.0, 3)
    ensures multiset(rest) == multiset{HeapNode(6.0, 0), HeapNode(3.0, 1), HeapNode(5.0, 2),
                                       HeapNode(7.0, 4), HeapNode(8.0, 5)}
    ensures IsHeap(rest)
  {
    var h := InsertSix();
    assert HeapNode(1.0, 3) in multiset(h);
    extracted, rest := ExtractRoot(h);
    assert extracted in multiset(h);
    OnlyKeyOne(extracted, multiset(h));
  }

  method InsertSix() returns (h: seq<HeapNode<int>>)
    ensures IsHeap(h) && |h| == 6
    ensures multiset(h) == multiset{HeapNode(6.0, 0), HeapNode(3.0, 1), HeapNode(5.0, 2),
                                    HeapNode(1.0, 3), HeapNode(7.0, 4), HeapNode(8.0, 5)}
  {
    h := [];
    h := Insert(h, HeapNode(6.0, 0));
    h := Insert(h, HeapNode(3.0, 1));
    h := Insert(h, HeapNode(5.0, 2));
    h := Insert(h, HeapNode(1.0, 3));
    h := Insert(h, HeapNode(7.0, 4));
    h := Insert(h, HeapNode(8.0, 5));
    assert |multiset(h)| == 6;
  }

  lemma OnlyKeyOne(x: HeapNode<int>, m: multiset<HeapNode<int>>)
    requires m == multiset{HeapNode(6.0, 0), HeapNode(3.0, 1), HeapNode(5.0, 2),
                           HeapNode(1.0, 3), HeapNode(7.0, 4), HeapNode(8.0, 5)}
    requires x in m && x.key <= 1.0
    ensures x == HeapNode(1.0, 3)
  {
  }
}

=== FILE: carousel.dfy ===
// The menu carousel: a fixed list of option strings and the index of the
// one on display, stepped forwards and backwards with wrap-around. The text
// widget it writes to is replaced by returning the string it would show.

module Carousel {
  import opened Common

  datatype Carousel = Carousel(options: seq<string>, index: int)

  /** A carousel as it starts: the index is 0. */
  function Init(options: seq<string>): (c: Carousel)
    ensures Valid(c) && c.options == options
    ensures Shown(c).Some? <==> |options| > 0
    ensures |options| > 0 ==> Shown(c) == Some(options[0])
  {
    Carousel(options, 0)
  }

  /** The index is on an option, or the list is empty and it is still 0. */
  predicate Valid(c: Carousel) {
    if |c.options| == 0 then c.index == 0 else 0 <= c.index < |c.options|
  }

  /** The string on display; showing from an empty list, or from an index off
      the list, throws, which is None here. */
  function Shown(c: Carousel): (s: Option<string>)
    ensures s.Some? <==> 0 <= c.index < |c.options|
    ensures s.Some? ==> s.value == c.options[c.index]
  {
    if 0 <= c.index < |c.options| then Some(c.options[c.index]) else None
  }

  /** One step forwards: past the last option it wraps to the first; with no
      options nothing changes. */
  function Increment(c: Carousel): (c': Carousel)
    ensures c'.options == c.options
    ensures |c.options| == 0 ==> c' == c
    ensures 0 <= c.index < |c.options| ==> c'.index == (c.index + 1) % |c.options|
  {
    if |c.options| == 0 then c
    else if c.index == |c.options| - 1 then c.(index := 0)
    else c.(index := c.index + 1)
  }

  /** One step backwards: before the first option it wraps to the last; with
      no options nothing changes. */
  function Decrement(c: Carousel): (c': Carousel)
    ensures c'.options == c.options
    ensures |c.options| == 0 ==> c' == c
    ensures 0 <= c.index < |c.options| ==> c'.index == (c.index - 1) % |c.options|
  {
    if |c.options| == 0 then c
    else if c.index == 0 then c.(index := |c.options| - 1)
    else c.(index := c.index - 1)
  }

  /** The Next button: step forwards, then show the option. */
  function Next(c: Carousel): (r: (Carousel, Option<string>))
    ensures r.0 == Increment(c)
    ensures Valid(c) ==> (r.1.Some? <==> |c.options| > 0)
    ensures Valid(c) && |c.options| > 0 ==> r.1 == Some(c.options[(c.index + 1) % |c.options|])
  {
    var c' := Increment(c);
    (c', Shown(c'))
  }

  /** The Previous button: step backwards, then show the option. */
  function Previous(c: Carousel): (r: (Carousel, Option<string>))
    ensures r.0 == Decrement(c)
    ensures Valid(c) ==> (r.1.Some? <==> |c.options| > 0)
    ensures Valid(c) && |c.options| > 0 ==> r.1 == Some(c.options[(c.index - 1) % |c.options|])
  {
    var c' := Decrement(c);
    (c', Shown(c'))
  }

  /** A carousel starts valid and both steps keep it valid. */
  lemma StepsKeepValid(c: Carousel)
    ensures Valid(Init(c.options))
    ensures Valid(c) ==> Valid(Increment(c)) && Valid(Decrement(c))
  {
  }

  /** A step forwards and a step backwards undo each other. */
  lemma StepsUndo(c: Carousel)
    requires Valid(c)
    ensures Decrement(Increment(c)) == c
    ensures Increment(Decrement(c)) == c
  {
  }

  /** k steps forwards. */
  function Forwards(c: Carousel, k: nat): Carousel {
    if k == 0 then c else Increment(Forwards(c, k - 1))
  }

  /** k steps forwards land k options further on, counted round the list;
      in particular as many steps as there are options come back to the
      start. */
  lemma {:induction false} ForwardsWrap(c: Carousel, k: nat)
    requires Valid(c) && |c.options| > 0
    ensures Forwards(c, k).options == c.options
    ensures Forwards(c, k).index == (c.index + k) % |c.options|
    ensures k == |c.options| ==> Forwards(c, k) == c
  {
    var n := |c.options|;
    if k > 0 {
      var prev := Forwards(c, k - 1);
      ForwardsWrap(c, k - 1);
      var m := (c.index + k - 1) % n;
      assert prev.index == m && 0 <= m < n;
      assert Forwards(c, k).index == (m + 1) % n;
      ModSucc(c.index + k - 1, n);
      if k == n {
        ModUnique(c.index + n, n, 1, c.index);
      }
    }
  }

  /** Stepping a remainder on by one is the remainder of the next number. */
  lemma ModSucc(a: int, n: int)
    requires n > 0
    ensures (a % n + 1) % n == (a + 1) % n
  {
    var q, r := a / n, a % n;
    if r + 1 < n {
      ModUnique(a + 1, n, q, r + 1);
      ModUnique(r + 1, n, 0, r + 1);
    } else {
      ModUnique(a + 1, n, q + 1, 0);
      ModUnique(n, n, 1, 0);
    }
  }

  /** Quotient and remainder are the only ones with a remainder in range. */
  lemma ModUnique(a: int, n: int, q: int, r: int)
    requires n > 0 && a == q * n + r && 0 <= r < n
    ensures a % n == r && a / n == q
  {
    var q', r' := a / n, a % n;
    assert a == q' * n + r';
    assert (q - q') * n == q * n - q' * n;
    if q > q' {
      MulAtLeast(q - q', n);
    } else if q < q' {
      MulAtLeast(q' - q, n);
    }
  }

  lemma MulAtLeast(d: int, n: int)
    requires d >= 1 && n > 0
    ensures d * n >= n
    decreases d
  {
    if d > 1 {
      MulAtLeast(d - 1, n);
      assert d * n == (d - 1) * n + n;
    }
  }
}

=== FILE: cell_grid.dfy ===
/** The cell grid (Assets/LevelEditor/Scripts_LevelEditor/CellGrid.cs): a
    row-major array of Columns x Rows cells, the cell at (column, row) sitting at
    index column + row * Columns, linked to its neighbours in all eight
    directions. */
module CellGrid {
  import opened Common
  import opened Directions
  import opened Cells

  /** Index of the first cell of row `r` in a grid `C` columns wide, `r * C`,
      written as repeated addition so that proofs about it stay linear. */
  function RowStart(C: nat, r: int): int
    decreases if r < 0 then -r else r
  {
    if r == 0 then 0
    else if r > 0 then RowStart(C, r - 1) + C
    else RowStart(C, r + 1) - C
  }

  /** Row-major index of (column c, row r) in a grid `C` columns wide. */
  function Idx(C: nat, c: int, r: int): int {
    c + RowStart(C, r)
  }

  predicate InGrid(C: nat, R: nat, c: int, r: int) {
    0 <= c < C && 0 <= r < R
  }

  /** The index is the source's `column + row * Columns`. */
  lemma {:induction false} IdxIsRowMajor(C: nat, c: int, r: int)
    ensures Idx(C, c, r) == c + r * C
    decreases if r < 0 then -r else r
  {
    if r > 0 {
      IdxIsRowMajor(C, c, r - 1);
      assert (r - 1) * C + C == r * C;
    } else if r < 0 {
      IdxIsRowMajor(C, c, r + 1);
      assert (r + 1) * C - C == r * C;
    }
  }

  lemma NextRowStart(C: nat, r: int)
    ensures RowStart(C, r + 1) == RowStart(C, r) + C
  {
  }

  /** A later row starts at least one full row later. */
  lemma {:induction false} RowStartMono(C: nat, r1: int, r2: int)
    requires r1 < r2
    ensures RowStart(C, r1) + C <= RowStart(C, r2)
    decreases r2 - r1
  {
    NextRowStart(C, r1);
    if r1 + 1 < r2 {
      RowStartMono(C, r1 + 1, r2);
    }
  }

  /** A later row always has larger indices. */
  lemma RowGap(C: nat, c1: int, r1: int, c2: int, r2: int)
    requires 0 <= c1 < C && 0 <= c2 < C
    ensures r1 < r2 ==> Idx(C, c1, r1) < Idx(C, c2, r2)
  {
    if r1 < r2 {
      RowStartMono(C, r1, r2);
    }
  }

  /** Distinct cells have distinct indices. */
  lemma IdxInjective(C: nat, c1: int, r1: int, c2: int, r2: int)
    requires 0 <= c1 < C && 0 <= c2 < C && Idx(C, c1, r1) == Idx(C, c2, r2)
    ensures c1 == c2 && r1 == r2
  {
    RowGap(C, c1, r1, c2, r2);
    RowGap(C, c2, r2, c1, r1);
  }

  /** Every cell of the grid has an index inside the cell array. */
  lemma IdxBounds(C: nat, R: nat, c: int, r: int)
    requires InGrid(C, R, c, r)
    ensures 0 <= Idx(C, c, r) < R * C
    ensures Idx(C, c, r) < RowStart(C, R) == R * C
  {
    IdxIsRowMajor(C, 0, R);
    RowGap(C, c, r, 0, R);
    if r > 0 {
      RowStartMono(C, 0, r);
    }
  }

  /** Every index of the cell array is the index of some cell of the grid. */
  lemma IdxOnto(C: nat, R: nat, i: int)
    requires C > 0 && 0 <= i < R * C
    ensures InGrid(C, R, i % C, i / C) && Idx(C, i % C, i / C) == i
  {
    var q, m := i / C, i % C;
    DivMod(i, C);
    IdxIsRowMajor(C, m, q);
    if q >= R {
      MulMono(R, q, C);
    }
  }

  lemma DivMod(i: int, C: nat)
    requires C > 0
    ensures i == (i / C) * C + i % C && 0 <= i % C < C
  {
  }

  lemma MulMono(a: int, b: int, c: nat)
    requires a <= b
    ensures a * c <= b * c
  {
  }

  /** The index step for one move in direction `d`. */
  lemma IdxStep(C: nat, c: int, r: int, d: Direction)
    ensures Idx(C, c + Delta(d).dc, r + Delta(d).dr) == Idx(C, c, r) + Delta(d).dc + Delta(d).dr * C
  {
    NextRowStart(C, r);
    NextRowStart(C, r - 1);
  }

  /** The first `rows` rows of the array hold fresh cells with their own coordinates. */
  ghost predicate FreshRows(cells: seq<Cell>, C: nat, rows: nat) {
    forall c, r :: InGrid(C, rows, c, r) ==> 0 <= Idx(C, c, r) < |cells| && cells[Idx(C, c, r)] == NewCell(c, r)
  }

  /** CreateAllCells: rows outer, columns inner, one new cell per position in
      row-major order. */
  method CreateAllCells(C: nat, R: nat) returns (cells: seq<Cell>)
    ensures |cells| == R * C && AllValid(cells)
    ensures FreshRows(cells, C, R)
  {
    cells := [];
    var row := 0;
    while row < R
      invariant 0 <= row <= R
      invariant |cells| == RowStart(C, row) && AllValid(cells)
      invariant FreshRows(cells, C, row)
    {
      var column := 0;
      while column < C
        invariant 0 <= column <= C
        invariant |cells| == Idx(C, column, row) && AllValid(cells)
        invariant FreshRows(cells, C, row)
        invariant forall c :: 0 <= c < column ==> cells[Idx(C, c, row)] == NewCell(c, row)
      {
        cells := cells + [NewCell(column, row)];
        column := column + 1;
      }
      forall c, r | InGrid(C, row + 1, c, r)
        ensures 0 <= Idx(C, c, r) < |cells| && cells[Idx(C, c, r)] == NewCell(c, r)
      {
        IdxBounds(C, row + 1, c, r);
        if r < row {
          assert InGrid(C, row, c, r);
        }
      }
      row := row + 1;
    }
    IdxIsRowMajor(C, 0, R);
  }

  /** GetCell(column, row): the cell at the row-major index. The source does not
      check the coordinates; an index off the array throws
      IndexOutOfRangeException, which is None here. */
  function GetCell(C: nat, cells: seq<Cell>, column: int, row: int): (c: Option<Cell>)
    ensures c.Some? <==> 0 <= Idx(C, column, row) < |cells|
    ensures c.Some? ==> c.value in cells
  {
    var i := Idx(C, column, row);
    if 0 <= i < |cells| then Some(cells[i]) else Option.None
  }

  /** On a grid built by CreateAllCells, GetCell finds the cell with the
      requested coordinates. */
  lemma GetCellFindsCoordinates(C: nat, R: nat, column: int, row: int, cells: seq<Cell>)
    requires |cells| == R * C && FreshRows(cells, C, R)
    requires InGrid(C, R, column, row)
    ensures GetCell(C, cells, column, row).Some?
    ensures GetCell(C, cells, column, row).value.column == column
    ensures GetCell(C, cells, column, row).value.row == row
  {
  }

  /** Mathf.Clamp on integers: below `lo` gives `lo`, above `hi` gives `hi`. */
  function Clamp(v: int, lo: int, hi: int): (r: int)
    ensures lo <= hi ==> lo <= r <= hi
    ensures lo <= v <= hi ==> r == v
    ensures v < lo ==> r == lo
    ensures lo <= hi && v > hi ==> r == hi
  {
    if v < lo then lo else if v > hi then hi else v
  }

  /** FromPosition after rounding: the rounded coordinates `x` (column) and `z`
      (row) are clamped into the grid. */
  function FromPosition(C: nat, R: nat, x: int, z: int): (coords: (int, int))
    ensures C > 0 && R > 0 ==> InGrid(C, R, coords.0, coords.1)
    ensures InGrid(C, R, x, z) ==> coords == (x, z)
  {
    (Clamp(x, 0, C - 1), Clamp(z, 0, R - 1))
  }

  /** Clamping twice is clamping once: a clamped position maps to itself. */
  lemma FromPositionIdempotent(C: nat, R: nat, x: int, z: int)
    requires C > 0 && R > 0
    ensures var p := FromPosition(C, R, x, z); FromPosition(C, R, p.0, p.1) == p
  {
  }

  /** GetCell(position): every position lands on a cell of a non-empty grid. */
  lemma GetCellAtPositionInRange(C: nat, R: nat, x: int, z: int)
    requires C > 0 && R > 0
    ensures var p := FromPosition(C, R, x, z); 0 <= Idx(C, p.0, p.1) < R * C
  {
    var p := FromPosition(C, R, x, z);
    IdxBounds(C, R, p.0, p.1);
  }

  // ---------------------------------------------------------------------------
  // Neighbour linking.
  //
  // SetNeighbors links each cell to its W, S, SW and SE neighbours, in that
  // order; the opposite slot of the neighbour (E, N, NE, NW) is filled by the
  // same call. So every slot of every cell has exactly one "setter": the cell
  // and the downward direction whose SetNeighbor call fills it.

  predicate IsDownward(d: Direction) {
    d == W || d == S || d == SW || d == SE
  }

  /** The position of a downward direction in the order SetNeighbors tries them;
      4 for the other directions. */
  function Rank(d: Direction): nat {
    match d
    case W => 0 case S => 1 case SW => 2 case SE => 3
    case _ => 4
  }

  /** The downward direction of the call that fills slot `d`. */
  function Down(d: Direction): Direction {
    if IsDownward(d) then d else Opposite(d)
  }

  /** The column and row of the cell whose SetNeighbors fills slot `d` of (c, r). */
  function SetterColumn(c: int, d: Direction): int {
    if IsDownward(d) then c else c + Delta(d).dc
  }

  function SetterRow(r: int, d: Direction): int {
    if IsDownward(d) then r else r + Delta(d).dr
  }

  /** Whether slot `d` of (c, r) has been filled once SetNeighbors has finished
      every cell before (column, row) and the first `m` calls at (column, row). */
  predicate Done(c: int, r: int, d: Direction, column: int, row: int, m: nat) {
    var sc, sr := SetterColumn(c, d), SetterRow(r, d);
    sr < row || (sr == row && sc < column) || (sr == row && sc == column && Rank(Down(d)) < m)
  }

  /** The neighbour of (c, r) in direction `d` on a C x R grid, or nothing at a
      border; a cell is never its own neighbour in direction None. */
  function Expected(C: nat, R: nat, c: int, r: int, d: Direction): (n: Option<nat>)
    ensures n.Some? ==> d != NoDirection && InGrid(C, R, c + Delta(d).dc, r + Delta(d).dr)
    ensures n.Some? ==> n.value == Idx(C, c + Delta(d).dc, r + Delta(d).dr)
  {
    var c2, r2 := c + Delta(d).dc, r + Delta(d).dr;
    if d != NoDirection && InGrid(C, R, c2, r2) then
      IdxBounds(C, R, c2, r2);
      Some(Idx(C, c2, r2))
    else
      Option.None
  }

  /** The neighbour that GetCell(c, r) records in direction `d`, on a grid
      of the right size. */
  function NeighborAt(cells: seq<Cell>, C: nat, R: nat, c: int, r: int, d: Direction): Option<nat>
    requires |cells| == R * C && AllValid(cells) && InGrid(C, R, c, r)
  {
    IdxBounds(C, R, c, r);
    Recorded(cells[Idx(C, c, r)], d)
  }

  /** Every slot filled so far holds the geometric neighbour and every other slot is empty. */
  ghost predicate Linked(cells: seq<Cell>, C: nat, R: nat, column: int, row: int, m: nat)
    requires |cells| == R * C && AllValid(cells)
  {
    forall c, r, d :: InGrid(C, R, c, r) ==>
      NeighborAt(cells, C, R, c, r, d) == if Done(c, r, d, column, row, m) then Expected(C, R, c, r, d) else Option.None
  }

  ghost predicate SameCells(a: seq<Cell>, b: seq<Cell>) {
    |a| == |b| && forall i :: 0 <= i < |a| ==> a[i].(neighbors := []) == b[i].(neighbors := [])
  }

  /** The result of the `m`-th call of SetNeighbors at (column, row): link in
      direction `d` when the neighbour exists, else nothing. */
  function LinkIfPresent(cells: seq<Cell>, C: nat, R: nat, column: int, row: int, d: Direction): (r: seq<Cell>)
    requires |cells| == R * C && AllValid(cells) && InGrid(C, R, column, row) && IsDownward(d)
    ensures |r| == |cells| && AllValid(r)
  {
    var c2, r2 := column + Delta(d).dc, row + Delta(d).dr;
    if InGrid(C, R, c2, r2) then
      IdxBounds(C, R, column, row);
      IdxBounds(C, R, c2, r2);
      SetNeighbor(cells, Idx(C, column, row), d, Idx(C, c2, r2))
    else
      cells
  }

  /** Linking changes neighbour slots only. */
  lemma LinkKeepsCells(cells: seq<Cell>, C: nat, R: nat, column: int, row: int, d: Direction)
    requires |cells| == R * C && AllValid(cells) && InGrid(C, R, column, row) && IsDownward(d)
    ensures SameCells(LinkIfPresent(cells, C, R, column, row, d), cells)
  {
  }

  /** The call at (column, row) in downward direction `d` is the setter of
      exactly two slots: its own slot `d` and the neighbour's opposite slot. */
  lemma DoneStep(c: int, r: int, e: Direction, column: int, row: int, d: Direction)
    requires IsDownward(d)
    ensures Done(c, r, e, column, row, Rank(d) + 1) ==
              (Done(c, r, e, column, row, Rank(d))
               || (c == column && r == row && e == d)
               || (c == column + Delta(d).dc && r == row + Delta(d).dr && e == Opposite(d)))
  {
    OppositeInvolution(d);
    OppositeReversesOffset(d);
  }

  /** A present neighbour's link fills the caller's slot `d`... */
  lemma LinkAtOwn(cells: seq<Cell>, C: nat, R: nat, column: int, row: int, d: Direction)
    requires |cells| == R * C && AllValid(cells) && InGrid(C, R, column, row)
    requires IsDownward(d) && InGrid(C, R, column + Delta(d).dc, row + Delta(d).dr)
    ensures NeighborAt(LinkIfPresent(cells, C, R, column, row, d), C, R, column, row, d) ==
              Some(Idx(C, column + Delta(d).dc, row + Delta(d).dr))
  {
    IdxBounds(C, R, column, row);
    IdxBounds(C, R, column + Delta(d).dc, row + Delta(d).dr);
    SetNeighborRecords(cells, Idx(C, column, row), d, Idx(C, column + Delta(d).dc, row + Delta(d).dr));
  }

  /** ... and the neighbour's opposite slot ... */
  lemma LinkAtOpposite(cells: seq<Cell>, C: nat, R: nat, column: int, row: int, d: Direction)
    requires |cells| == R * C && AllValid(cells) && InGrid(C, R, column, row)
    requires IsDownward(d) && InGrid(C, R, column + Delta(d).dc, row + Delta(d).dr)
    ensures NeighborAt(LinkIfPresent(cells, C, R, column, row, d), C, R, column + Delta(d).dc, row + Delta(d).dr, Opposite(d)) ==
              Some(Idx(C, column, row))
  {
    IdxBounds(C, R, column, row);
    IdxBounds(C, R, column + Delta(d).dc, row + Delta(d).dr);
    SetNeighborRecords(cells, Idx(C, column, row), d, Idx(C, column + Delta(d).dc, row + Delta(d).dr));
  }

  /** ... and changes no other slot. */
  lemma LinkAtOther(cells: seq<Cell>, C: nat, R: nat, column: int, row: int, d: Direction, c: int, r: int, e: Direction)
    requires |cells| == R * C && AllValid(cells) && InGrid(C, R, column, row) && InGrid(C, R, c, r)
    requires IsDownward(d) && InGrid(C, R, column + Delta(d).dc, row + Delta(d).dr)
    requires !(c == column && r == row && e == d)
    requires !(c == column + Delta(d).dc && r == row + Delta(d).dr && e == Opposite(d))
    ensures NeighborAt(LinkIfPresent(cells, C, R, column, row, d), C, R, c, r, e) == NeighborAt(cells, C, R, c, r, e)
  {
    var c2, r2 := column + Delta(d).dc, row + Delta(d).dr;
    IdxBounds(C, R, column, row);
    IdxBounds(C, R, c2, r2);
    IdxBounds(C, R, c, r);
    SlotsApart(C, R, column, row, d, c, r, e);
    LinkRecordKept(cells, C, R, column, row, d, Idx(C, c, r), e);
  }

  /** LinkAtOther by index: a recorded neighbour at an index the link does not write. */
  lemma LinkRecordKept(cells: seq<Cell>, C: nat, R: nat, column: int, row: int, d: Direction, k: nat, e: Direction)
    requires |cells| == R * C && AllValid(cells) && InGrid(C, R, column, row) && k < |cells|
    requires IsDownward(d) && InGrid(C, R, column + Delta(d).dc, row + Delta(d).dr)
    requires !(k == Idx(C, column, row) && e == d)
    requires !(k == Idx(C, column + Delta(d).dc, row + Delta(d).dr) && e == Opposite(d))
    ensures Recorded(LinkIfPresent(cells, C, R, column, row, d)[k], e) == Recorded(cells[k], e)
  {
    LinkIsSet(cells, C, R, column, row, d);
    RecordKept(cells, Idx(C, column, row), d, Idx(C, column + Delta(d).dc, row + Delta(d).dr), k, e);
  }

  /** A link whose neighbour lies in the grid is one SetNeighbor call. */
  lemma LinkIsSet(cells: seq<Cell>, C: nat, R: nat, column: int, row: int, d: Direction)
    requires |cells| == R * C && AllValid(cells) && InGrid(C, R, column, row)
    requires IsDownward(d) && InGrid(C, R, column + Delta(d).dc, row + Delta(d).dr)
    ensures 0 <= Idx(C, column, row) < |cells| && 0 <= Idx(C, column + Delta(d).dc, row + Delta(d).dr) < |cells|
    ensures LinkIfPresent(cells, C, R, column, row, d) ==
              SetNeighbor(cells, Idx(C, column, row), d, Idx(C, column + Delta(d).dc, row + Delta(d).dr))
  {
    IdxBounds(C, R, column, row);
    IdxBounds(C, R, column + Delta(d).dc, row + Delta(d).dr);
  }

  /** Distinct slots of distinct positions live at distinct indices. */
  lemma SlotsApart(C: nat, R: nat, column: int, row: int, d: Direction, c: int, r: int, e: Direction)
    requires InGrid(C, R, column, row) && InGrid(C, R, c, r) && InGrid(C, R, column + Delta(d).dc, row + Delta(d).dr)
    requires !(c == column && r == row && e == d)
    requires !(c == column + Delta(d).dc && r == row + Delta(d).dr && e == Opposite(d))
    ensures !(Idx(C, c, r) == Idx(C, column, row) && e == d)
    ensures !(Idx(C, c, r) == Idx(C, column + Delta(d).dc, row + Delta(d).dr) && e == Opposite(d))
  {
    if Idx(C, c, r) == Idx(C, column, row) {
      IdxInjective(C, c, r, column, row);
    }
    if Idx(C, c, r) == Idx(C, column + Delta(d).dc, row + Delta(d).dr) {
      IdxInjective(C, c, r, column + Delta(d).dc, row + Delta(d).dr);
    }
  }

  /** One slot after one call of SetNeighbors. */
  lemma LinkSlot(cells: seq<Cell>, C: nat, R: nat, column: int, row: int, d: Direction, c: int, r: int, e: Direction)
    requires |cells| == R * C && AllValid(cells) && InGrid(C, R, column, row) && InGrid(C, R, c, r)
    requires IsDownward(d)
    requires NeighborAt(cells, C, R, c, r, e) ==
               if Done(c, r, e, column, row, Rank(d)) then Expected(C, R, c, r, e) else Option.None
    ensures NeighborAt(LinkIfPresent(cells, C, R, column, row, d), C, R, c, r, e) ==
               if Done(c, r, e, column, row, Rank(d) + 1) then Expected(C, R, c, r, e) else Option.None
  {
    var c2, r2 := column + Delta(d).dc, row + Delta(d).dr;
    if !InGrid(C, R, c2, r2) {
      LinkSlotAbsent(cells, C, R, column, row, d, c, r, e);
    } else {
      LinkSlotPresent(cells, C, R, column, row, d, c, r, e);
    }
  }

  /** With a neighbour in direction `d` the call fills its two slots. */
  lemma LinkSlotPresent(cells: seq<Cell>, C: nat, R: nat, column: int, row: int, d: Direction, c: int, r: int, e: Direction)
    requires |cells| == R * C && AllValid(cells) && InGrid(C, R, column, row) && InGrid(C, R, c, r)
    requires IsDownward(d) && InGrid(C, R, column + Delta(d).dc, row + Delta(d).dr)
    requires NeighborAt(cells, C, R, c, r, e) ==
               if Done(c, r, e, column, row, Rank(d)) then Expected(C, R, c, r, e) else Option.None
    ensures NeighborAt(LinkIfPresent(cells, C, R, column, row, d), C, R, c, r, e) ==
               if Done(c, r, e, column, row, Rank(d) + 1) then Expected(C, R, c, r, e) else Option.None
  {
    if c == column && r == row && e == d {
      LinkSlotOwn(cells, C, R, column, row, d, c, r, e);
    } else if c == column + Delta(d).dc && r == row + Delta(d).dr && e == Opposite(d) {
      LinkSlotOther(cells, C, R, column, row, d, c, r, e);
    } else {
      LinkSlotUntouched(cells, C, R, column, row, d, c, r, e);
    }
  }

  lemma LinkSlotOwn(cells: seq<Cell>, C: nat, R: nat, column: int, row: int, d: Direction, c: int, r: int, e: Direction)
    requires |cells| == R * C && AllValid(cells) && InGrid(C, R, column, row) && InGrid(C, R, c, r)
    requires c == column && r == row && e == d
    requires IsDownward(d) && InGrid(C, R, column + Delta(d).dc, row + Delta(d).dr)
    requires NeighborAt(cells, C, R, c, r, e) ==
               if Done(c, r, e, column, row, Rank(d)) then Expected(C, R, c, r, e) else Option.None
    ensures NeighborAt(LinkIfPresent(cells, C, R, column, row, d), C, R, c, r, e) ==
               if Done(c, r, e, column, row, Rank(d) + 1) then Expected(C, R, c, r, e) else Option.None
  {
    DoneStep(c, r, e, column, row, d);
    LinkAtOwn(cells, C, R, column, row, d);
  }

  lemma LinkSlotOther(cells: seq<Cell>, C: nat, R: nat, column: int, row: int, d: Direction, c: int, r: int, e: Direction)
    requires |cells| == R * C && AllValid(cells) && InGrid(C, R, column, row) && InGrid(C, R, c, r)
    requires c == column + Delta(d).dc && r == row + Delta(d).dr && e == Opposite(d)
    requires IsDownward(d) && InGrid(C, R, column + Delta(d).dc, row + Delta(d).dr)
    requires NeighborAt(cells, C, R, c, r, e) ==
               if Done(c, r, e, column, row, Rank(d)) then Expected(C, R, c, r, e) else Option.None
    ensures NeighborAt(LinkIfPresent(cells, C, R, column, row, d), C, R, c, r, e) ==
               if Done(c, r, e, column, row, Rank(d) + 1) then Expected(C, R, c, r, e) else Option.None
  {
    DoneStep(c, r, e, column, row, d);
    LinkAtOpposite(cells, C, R, column, row, d);
    LinkSlotOpposite(C, R, column, row, d);
  }

  lemma LinkSlotUntouched(cells: seq<Cell>, C: nat, R: nat, column: int, row: int, d: Direction, c: int, r: int, e: Direction)
    requires |cells| == R * C && AllValid(cells) && InGrid(C, R, column, row) && InGrid(C, R, c, r)
    requires !(c == column && r == row && e == d)
    requires !(c == column + Delta(d).dc && r == row + Delta(d).dr && e == Opposite(d))
    requires IsDownward(d) && InGrid(C, R, column + Delta(d).dc, row + Delta(d).dr)
    requires NeighborAt(cells, C, R, c, r, e) ==
               if Done(c, r, e, column, row, Rank(d)) then Expected(C, R, c, r, e) else Option.None
    ensures NeighborAt(LinkIfPresent(cells, C, R, column, row, d), C, R, c, r, e) ==
               if Done(c, r, e, column, row, Rank(d) + 1) then Expected(C, R, c, r, e) else Option.None
  {
    DoneStep(c, r, e, column, row, d);
    LinkAtOther(cells, C, R, column, row, d, c, r, e);
  }

  /** Without a neighbour in direction `d` the call changes nothing, and the
      slots it is the setter of stay empty. */
  lemma LinkSlotAbsent(cells: seq<Cell>, C: nat, R: nat, column: int, row: int, d: Direction, c: int, r: int, e: Direction)
    requires |cells| == R * C && AllValid(cells) && InGrid(C, R, column, row) && InGrid(C, R, c, r)
    requires IsDownward(d) && !InGrid(C, R, column + Delta(d).dc, row + Delta(d).dr)
    requires NeighborAt(cells, C, R, c, r, e) ==
               if Done(c, r, e, column, row, Rank(d)) then Expected(C, R, c, r, e) else Option.None
    ensures NeighborAt(LinkIfPresent(cells, C, R, column, row, d), C, R, c, r, e) ==
               if Done(c, r, e, column, row, Rank(d) + 1) then Expected(C, R, c, r, e) else Option.None
  {
    DoneStep(c, r, e, column, row, d);
  }

  /** The slot filled from the other side holds the setter's index. */
  lemma LinkSlotOpposite(C: nat, R: nat, column: int, row: int, d: Direction)
    requires InGrid(C, R, column, row) && IsDownward(d) && InGrid(C, R, column + Delta(d).dc, row + Delta(d).dr)
    ensures Expected(C, R, column + Delta(d).dc, row + Delta(d).dr, Opposite(d)) == Some(Idx(C, column, row))
  {
    OppositeInvolution(d);
    OppositeReversesOffset(d);
  }

  /** One call of SetNeighbors fills exactly the slots it is the setter of. */
  lemma LinkStep(cells: seq<Cell>, C: nat, R: nat, column: int, row: int, d: Direction)
    requires |cells| == R * C && AllValid(cells) && InGrid(C, R, column, row)
    requires IsDownward(d)
    requires Linked(cells, C, R, column, row, Rank(d))
    ensures Linked(LinkIfPresent(cells, C, R, column, row, d), C, R, column, row, Rank(d) + 1)
  {
    forall c, r, e | InGrid(C, R, c, r)
      ensures NeighborAt(LinkIfPresent(cells, C, R, column, row, d), C, R, c, r, e) ==
                if Done(c, r, e, column, row, Rank(d) + 1) then Expected(C, R, c, r, e) else Option.None
    {
      LinkSlot(cells, C, R, column, row, d, c, r, e);
    }
  }

  /** Finishing all four calls at a cell is the same as starting the next cell. */
  lemma NextColumn(cells: seq<Cell>, C: nat, R: nat, column: int, row: int)
    requires |cells| == R * C && AllValid(cells)
    requires Linked(cells, C, R, column, row, 4)
    ensures Linked(cells, C, R, column + 1, row, 0)
  {
    forall c, r, e | InGrid(C, R, c, r)
      ensures NeighborAt(cells, C, R, c, r, e) == if Done(c, r, e, column + 1, row, 0) then Expected(C, R, c, r, e) else Option.None
    {
      IdxBounds(C, R, c, r);
      if e == NoDirection {
        assert Expected(C, R, c, r, e) == Option.None;
      }
    }
  }

  /** Finishing the last column of a row is the same as starting the next row. */
  lemma NextRow(cells: seq<Cell>, C: nat, R: nat, row: int)
    requires |cells| == R * C && AllValid(cells)
    requires Linked(cells, C, R, C, row, 0)
    ensures Linked(cells, C, R, 0, row + 1, 0)
  {
    forall c, r, e | InGrid(C, R, c, r)
      ensures NeighborAt(cells, C, R, c, r, e) == if Done(c, r, e, 0, row + 1, 0) then Expected(C, R, c, r, e) else Option.None
    {
      IdxBounds(C, R, c, r);
      if Expected(C, R, c, r, e).Some? {
        OppositeReversesOffset(e);
        assert 0 <= SetterColumn(c, e) < C;
      }
    }
  }

  /** LinkIfPresent in the source's terms: the link is made exactly when the
      neighbour lies in the grid, to the index offset by the direction's step. */
  lemma LinkUnfold(cells: seq<Cell>, C: nat, R: nat, column: int, row: int, d: Direction, index: int)
    requires |cells| == R * C && AllValid(cells) && InGrid(C, R, column, row) && IsDownward(d)
    requires index == Idx(C, column, row)
    ensures InGrid(C, R, column + Delta(d).dc, row + Delta(d).dr) ==>
              0 <= index < |cells| && 0 <= index + Delta(d).dc + Delta(d).dr * C < |cells| &&
              LinkIfPresent(cells, C, R, column, row, d) == SetNeighbor(cells, index, d, index + Delta(d).dc + Delta(d).dr * C)
    ensures !InGrid(C, R, column + Delta(d).dc, row + Delta(d).dr) ==> LinkIfPresent(cells, C, R, column, row, d) == cells
  {
    IdxBounds(C, R, column, row);
    if InGrid(C, R, column + Delta(d).dc, row + Delta(d).dr) {
      StepIndex(C, R, column, row, d);
    }
  }

  /** LinkUnfold for a step known to stay on the grid, at the source's
      offset index `target`. */
  lemma LinkTo(cells: seq<Cell>, C: nat, R: nat, column: int, row: int, d: Direction, index: int, target: int)
    requires |cells| == R * C && AllValid(cells) && InGrid(C, R, column, row) && IsDownward(d)
    requires InGrid(C, R, column + Delta(d).dc, row + Delta(d).dr)
    requires index == Idx(C, column, row) && target == index + Delta(d).dc + Delta(d).dr * C
    ensures 0 <= index < |cells| && 0 <= target < |cells|
    ensures LinkIfPresent(cells, C, R, column, row, d) == SetNeighbor(cells, index, d, target)
  {
    LinkUnfold(cells, C, R, column, row, d, index);
  }

  /** The source's index arithmetic for a step that stays on the grid. */
  lemma StepIndex(C: nat, R: nat, column: int, row: int, d: Direction)
    requires InGrid(C, R, column, row) && InGrid(C, R, column + Delta(d).dc, row + Delta(d).dr)
    ensures Idx(C, column, row) + Delta(d).dc + Delta(d).dr * C == Idx(C, column + Delta(d).dc, row + Delta(d).dr)
    ensures 0 <= Idx(C, column + Delta(d).dc, row + Delta(d).dr) < R * C
  {
    IdxStep(C, column, row, d);
    IdxBounds(C, R, column + Delta(d).dc, row + Delta(d).dr);
  }

  /** The four calls at one cell, in the source's order W, S, SW, SE. */
  function LinkCell(cells: seq<Cell>, C: nat, R: nat, column: int, row: int): (r: seq<Cell>)
    requires |cells| == R * C && AllValid(cells) && InGrid(C, R, column, row)
    ensures |r| == |cells| && AllValid(r) && SameCells(r, cells)
  {
    var s1 := LinkIfPresent(cells, C, R, column, row, W);
    var s2 := LinkIfPresent(s1, C, R, column, row, S);
    var s3 := LinkIfPresent(s2, C, R, column, row, SW);
    var s4 := LinkIfPresent(s3, C, R, column, row, SE);
    LinkKeepsCells(cells, C, R, column, row, W);
    LinkKeepsCells(s1, C, R, column, row, S);
    LinkKeepsCells(s2, C, R, column, row, SW);
    LinkKeepsCells(s3, C, R, column, row, SE);
    s4
  }

  /** Linking one cell completes every slot whose setter it is. */
  lemma LinkCellStep(cells: seq<Cell>, C: nat, R: nat, column: int, row: int)
    requires |cells| == R * C && AllValid(cells) && InGrid(C, R, column, row)
    requires Linked(cells, C, R, column, row, 0)
    ensures Linked(LinkCell(cells, C, R, column, row), C, R, column + 1, row, 0)
  {
    var s1 := LinkIfPresent(cells, C, R, column, row, W);
    LinkStep(cells, C, R, column, row, W);
    var s2 := LinkIfPresent(s1, C, R, column, row, S);
    LinkStep(s1, C, R, column, row, S);
    var s3 := LinkIfPresent(s2, C, R, column, row, SW);
    LinkStep(s2, C, R, column, row, SW);
    var s4 := LinkIfPresent(s3, C, R, column, row, SE);
    LinkStep(s3, C, R, column, row, SE);
    NextColumn(s4, C, R, column, row);
  }

  /** SetNeighbors(row, column, index): the W, S, SW and SE links under the
      source's border guards. Every index the source computes is in range, and
      the result is the four links of the cell. */
  method SetNeighbors(cells: seq<Cell>, C: nat, R: nat, row: int, column: int, index: int) returns (r: seq<Cell>)
    requires |cells| == R * C && AllValid(cells) && InGrid(C, R, column, row)
    requires index == Idx(C, column, row)
    ensures r == LinkCell(cells, C, R, column, row)
  {
    r := SetWestNeighbor(cells, C, R, row, column, index);
    r := SetSouthernNeighbors(r, C, R, row, column, index);
  }

  /** The W link of SetNeighbors, made off the west border. */
  method SetWestNeighbor(cells: seq<Cell>, C: nat, R: nat, row: int, column: int, index: int) returns (r: seq<Cell>)
    requires |cells| == R * C && AllValid(cells) && InGrid(C, R, column, row)
    requires index == Idx(C, column, row)
    ensures r == LinkIfPresent(cells, C, R, column, row, W)
  {
    r := cells;
    if column > 0 {
      LinkTo(r, C, R, column, row, W, index, index - 1);
      r := SetNeighbor(r, index, W, index - 1);
    } else {
      LinkUnfold(r, C, R, column, row, W, index);
    }
  }

  /** The `row > 0` part of SetNeighbors: the S link, then SW and SE off the
      west and east borders. On the bottom row none of the three exists. */
  method SetSouthernNeighbors(cells: seq<Cell>, C: nat, R: nat, row: int, column: int, index: int) returns (r: seq<Cell>)
    requires |cells| == R * C && AllValid(cells) && InGrid(C, R, column, row)
    requires index == Idx(C, column, row)
    ensures r == LinkIfPresent(LinkIfPresent(LinkIfPresent(cells, C, R, column, row, S), C, R, column, row, SW), C, R, column, row, SE)
  {
    r := cells;
    if row > 0 {
      r := SetSouthNeighbor(r, C, R, row, column, index);
      r := SetSouthwestNeighbor(r, C, R, row, column, index);
      r := SetSoutheastNeighbor(r, C, R, row, column, index);
    }
  }

  /** The S link of SetNeighbors. */
  method SetSouthNeighbor(cells: seq<Cell>, C: nat, R: nat, row: int, column: int, index: int) returns (r: seq<Cell>)
    requires |cells| == R * C && AllValid(cells) && InGrid(C, R, column, row) && row > 0
    requires index == Idx(C, column, row)
    ensures r == LinkIfPresent(cells, C, R, column, row, S)
  {
    LinkTo(cells, C, R, column, row, S, index, index - C);
    r := SetNeighbor(cells, index, S, index - C);
  }

  /** The SW link of SetNeighbors, made off the west border. */
  method SetSouthwestNeighbor(cells: seq<Cell>, C: nat, R: nat, row: int, column: int, index: int) returns (r: seq<Cell>)
    requires |cells| == R * C && AllValid(cells) && InGrid(C, R, column, row) && row > 0
    requires index == Idx(C, column, row)
    ensures r == LinkIfPresent(cells, C, R, column, row, SW)
  {
    r := cells;
    if column > 0 {
      LinkTo(r, C, R, column, row, SW, index, index - (C + 1));
      r := SetNeighbor(r, index, SW, index - (C + 1));
    } else {
      LinkUnfold(r, C, R, column, row, SW, index);
    }
  }

  /** The SE link of SetNeighbors, made off the east border. */
  method SetSoutheastNeighbor(cells: seq<Cell>, C: nat, R: nat, row: int, column: int, index: int) returns (r: seq<Cell>)
    requires |cells| == R * C && AllValid(cells) && InGrid(C, R, column, row) && row > 0
    requires index == Idx(C, column, row)
    ensures r == LinkIfPresent(cells, C, R, column, row, SE)
  {
    r := cells;
    if column < C - 1 {
      LinkTo(r, C, R, column, row, SE, index, index - (C - 1));
      r := SetNeighbor(r, index, SE, index - (C - 1));
    } else {
      LinkUnfold(r, C, R, column, row, SE, index);
    }
  }

  /** SetAllNeighbors: after the row-major pass every cell records exactly
      its geometric neighbour in every direction (nothing at a border), and no
      other field of any cell changes. Through GetNeighbor, each direction
      but NW reads its own neighbour, and None reads the north-west one. */
  method SetAllNeighbors(cells: seq<Cell>, C: nat, R: nat) returns (r: seq<Cell>)
    requires |cells| == R * C && AllValid(cells)
    requires forall i, d :: 0 <= i < |cells| ==> Recorded(cells[i], d) == Option.None
    ensures |r| == |cells| && AllValid(r) && SameCells(r, cells)
    ensures forall c, rr, d :: InGrid(C, R, c, rr) ==> NeighborAt(r, C, R, c, rr, d) == Expected(C, R, c, rr, d)
    ensures forall c, rr, d :: InGrid(C, R, c, rr) && d != NoDirection && d != NW ==>
              0 <= Idx(C, c, rr) < |r| && GetNeighbor(r[Idx(C, c, rr)], d) == Expected(C, R, c, rr, d)
    ensures forall c, rr :: InGrid(C, R, c, rr) ==>
              0 <= Idx(C, c, rr) < |r| && GetNeighbor(r[Idx(C, c, rr)], NoDirection) == Expected(C, R, c, rr, NW)
  {
    r := cells;
    forall c, rr, e | InGrid(C, R, c, rr)
      ensures NeighborAt(r, C, R, c, rr, e) == if Done(c, rr, e, 0, 0, 0) then Expected(C, R, c, rr, e) else Option.None
    {
      IdxBounds(C, R, c, rr);
    }
    var i := 0;
    var row := 0;
    while row < R
      invariant 0 <= row <= R && i == RowStart(C, row)
      invariant |r| == |cells| && AllValid(r) && SameCells(r, cells)
      invariant Linked(r, C, R, 0, row, 0)
    {
      var column := 0;
      while column < C
        invariant 0 <= column <= C && i == Idx(C, column, row)
        invariant |r| == |cells| && AllValid(r) && SameCells(r, cells)
        invariant Linked(r, C, R, column, row, 0)
      {
        LinkCellStep(r, C, R, column, row);
        r := SetNeighbors(r, C, R, row, column, i);
        i := i + 1;
        column := column + 1;
      }
      NextRow(r, C, R, row);
      row := row + 1;
    }
    forall c, rr, e | InGrid(C, R, c, rr)
      ensures NeighborAt(r, C, R, c, rr, e) == Expected(C, R, c, rr, e)
    {
      IdxBounds(C, R, c, rr);
      if Expected(C, R, c, rr, e).Some? {
        OppositeReversesOffset(e);
      }
    }
    forall c, rr | InGrid(C, R, c, rr)
      ensures 0 <= Idx(C, c, rr) < |r|
    {
      IdxBounds(C, R, c, rr);
    }
  }

  /** Linking is symmetric: if (c, r) has `n` as neighbour in direction `d`, then
      `n` has (c, r) as neighbour in the opposite direction. */
  lemma ExpectedSymmetric(C: nat, R: nat, c: int, r: int, d: Direction)
    requires InGrid(C, R, c, r) && Expected(C, R, c, r, d).Some?
    ensures Expected(C, R, c + Delta(d).dc, r + Delta(d).dr, Opposite(d)) == Some(Idx(C, c, r))
  {
    OppositeReversesOffset(d);
  }

  // ---------------------------------------------------------------------------
  // GetRandomCell. Random.Range is replaced by the start index it would pick.

  /** How a scan for a cell of some elevation ends: at a matching index, by
      giving up, or not within the step budget. */
  datatype Scan = Found(index: nat) | GaveUp | OutOfFuel

  /** The search loop of GetRandomCell as written: test the current cell, step
      forward, give up on coming back to the start, and only then wrap past the
      last cell to 0. `fuel` bounds the number of loop iterations modelled. */
  function ScanAsWritten(cells: seq<Cell>, elevation: int, start: nat, index: nat, fuel: nat): (s: Scan)
    requires start < |cells| && index < |cells|
    ensures s.Found? ==> s.index < |cells| && cells[s.index].elevation == elevation
    decreases fuel
  {
    if fuel == 0 then OutOfFuel
    else if cells[index].elevation == elevation then Found(index)
    else
      var next := index + 1;
      if next == start then GaveUp
      else ScanAsWritten(cells, elevation, start, if next == |cells| then 0 else next, fuel - 1)
  }

  function GetRandomCellAsWritten(cells: seq<Cell>, elevation: int, start: nat, fuel: nat): (s: Scan)
    requires start < |cells|
    ensures s.Found? ==> s.index < |cells| && cells[s.index].elevation == elevation
  {
    ScanAsWritten(cells, elevation, start, start, fuel)
  }

  /** Started at index 0 on a grid with no cell of the requested elevation, the
      as-written loop never returns: whatever the step budget, it is used up. */
  lemma {:induction false} ScanFromZeroNeverEnds(cells: seq<Cell>, elevation: int, index: nat, fuel: nat)
    requires index < |cells|
    requires forall i :: 0 <= i < |cells| ==> cells[i].elevation != elevation
    ensures ScanAsWritten(cells, elevation, 0, index, fuel) == OutOfFuel
    decreases fuel
  {
    if fuel > 0 {
      var next := index + 1;
      ScanFromZeroNeverEnds(cells, elevation, if next == |cells| then 0 else next, fuel - 1);
    }
  }

  lemma GetRandomCellFromZeroNeverEnds(cells: seq<Cell>, elevation: int, fuel: nat)
    requires |cells| > 0
    requires forall i :: 0 <= i < |cells| ==> cells[i].elevation != elevation
    ensures GetRandomCellAsWritten(cells, elevation, 0, fuel) == OutOfFuel
  {
    ScanFromZeroNeverEnds(cells, elevation, 0, fuel);
  }

  /** Forward steps from `index` to `target` around the array of `n` cells. */
  function CyclicDistance(n: nat, index: nat, target: nat): nat
    requires index < n && target < n
  {
    if index <= target then target - index else n - index + target
  }

  /** The index `k` forward steps after `start`, wrapping past the last cell. */
  function Forward(n: nat, start: nat, k: nat): (i: nat)
    requires start < n && k < n
    ensures i < n
  {
    if start + k < n then start + k else start + k - n
  }

  /** Walking the cyclic distance from `start` lands on the target. */
  lemma ForwardDistance(n: nat, start: nat, i: nat)
    requires start < n && i < n
    ensures CyclicDistance(n, start, i) < n && Forward(n, start, CyclicDistance(n, start, i)) == i
  {
  }

  /** From any other start the as-written loop does give up after one lap. */
  lemma {:induction false} ScanGivesUp(cells: seq<Cell>, elevation: int, start: nat, index: nat, fuel: nat)
    requires 0 < start < |cells| && index < |cells| && index != start
    requires forall i :: 0 <= i < |cells| ==> cells[i].elevation != elevation
    requires fuel >= CyclicDistance(|cells|, index, start)
    ensures ScanAsWritten(cells, elevation, start, index, fuel) == GaveUp
    decreases fuel
  {
    var next := index + 1;
    if next != start {
      ScanGivesUp(cells, elevation, start, if next == |cells| then 0 else next, fuel - 1);
    }
  }

  /** GetRandomCell with the give-up test after the wrap-around: the scan visits
      every cell once, starting at `start`, and returns the first cell of the
      requested elevation in that cyclic order, or nothing if there is none. */
  method GetRandomCell(cells: seq<Cell>, elevation: int, start: nat) returns (r: Option<nat>)
    requires start < |cells|
    ensures r.Some? ==> r.value < |cells| && cells[r.value].elevation == elevation
    ensures r.Some? ==> forall k: nat :: k < CyclicDistance(|cells|, start, r.value) < |cells| ==>
                          cells[Forward(|cells|, start, k)].elevation != elevation
    ensures r.None? <==> forall i :: 0 <= i < |cells| ==> cells[i].elevation != elevation
  {
    var n := |cells|;
    var index: nat := start;
    while cells[index].elevation != elevation
      invariant index < n
      invariant forall k: nat :: k < CyclicDistance(n, start, index) < n ==> cells[Forward(n, start, k)].elevation != elevation
      decreases n - CyclicDistance(n, start, index)
    {
      ghost var steps := CyclicDistance(n, start, index);
      ForwardDistance(n, start, index);
      index := index + 1;
      if index == n {
        index := 0;
      }
      if index == start {
        forall i | 0 <= i < n
          ensures cells[i].elevation != elevation
        {
          ForwardDistance(n, start, i);
        }
        return Option.None;
      }
      assert CyclicDistance(n, start, index) == steps + 1;
    }
    r := Some(index);
    assert cells[index].elevation == elevation;
  }
}

=== FILE: cells.dfy ===
/** One grid cell (Assets/LevelEditor/Scripts_LevelEditor/Cell.cs): its terrain
    fields, its neighbour slots and its five-byte save format. Neighbours are
    referred to by their index in the grid's cell array. */
module Cells {
  import opened Common
  import opened Directions

  /** A value that fits in one byte, as BinaryWriter writes it. */
  type Byte = x: int | 0 <= x < 256

  /** Number of neighbour slots: the array has eight, indexed by direction
      ordinal, so None has slot 0 and NW (ordinal 8) has none. */
  const SlotCount: nat := 8

  /** Texture codes are the AtlasTexture enum values (Grass0 = 0, Dirt0 = 1, ...). */
  const Grass0: int := 0
  const Dirt0: int := 1

  datatype Cell = Cell(
    column: int,
    row: int,
    elevation: int,
    baseTexture: int,
    topTexture: int,
    topType: TopType,
    topDirection: Direction,
    regionId: int,
    neighbors: seq<Option<nat>>)
  {
    ghost predicate Valid() {
      |neighbors| == SlotCount
    }
  }

  /** A freshly initialised cell: field defaults, no region (id -1), no neighbours. */
  function NewCell(column: int, row: int): (c: Cell)
    ensures c.Valid()
    ensures c.column == column && c.row == row
    ensures c.regionId == -1
    ensures c.baseTexture == Dirt0 && c.topTexture == Grass0
    ensures c.topType == Flat && c.topDirection == NoDirection && c.elevation == 0
    ensures forall d :: d != NW ==> GetNeighbor(c, d) == Option.None
    ensures forall d :: Recorded(c, d) == Option.None
  {
    Cell(column, row, 0, Dirt0, Grass0, Flat, NoDirection, -1, seq(SlotCount, _ => Option.None))
  }

  /** The slot that holds the neighbour lying in direction `d`: the slot of
      d's ordinal, except that the north-west neighbour lands in slot 0, the
      None slot, because SetNeighbor fills the opposite of SE there. */
  function Home(d: Direction): (k: nat)
    requires d != NoDirection
    ensures k < SlotCount
    ensures d != NW ==> k == Ordinal(d)
    ensures d == NW ==> k == Ordinal(NoDirection)
  {
    if d == NW then 0 else Ordinal(d)
  }

  /** Every slot is the home of exactly one direction. */
  lemma HomeInjective(a: Direction, b: Direction)
    requires a != NoDirection && b != NoDirection && Home(a) == Home(b)
    ensures a == b
  {
    if a != NW && b != NW {
      OrdinalInjective(a, b);
    }
  }

  /** The slot SetNeighbor writes for the reverse link of `d` is the home of
      the geometric opposite of `d`. */
  lemma HomeOfOpposite(d: Direction)
    requires d != NoDirection && d != NW
    ensures Home(Opposite(d)) == Ordinal(OppositeAsWritten(d))
  {
    OppositeAgreesWithAsWritten(d);
  }

  /** The neighbour that lies in direction `d`, as the slots record it;
      nothing in direction None. */
  function Recorded(c: Cell, d: Direction): Option<nat>
    requires c.Valid()
  {
    if d == NoDirection then Option.None else c.neighbors[Home(d)]
  }

  /** GetNeighbor: the slot indexed by the direction's ordinal. Asked for
      None it gives the north-west neighbour; NW itself has no slot and the
      source's array access throws, so no caller may ask for it. */
  function GetNeighbor(c: Cell, d: Direction): (r: Option<nat>)
    requires c.Valid() && d != NW
    ensures d != NoDirection ==> r == Recorded(c, d)
    ensures d == NoDirection ==> r == Recorded(c, NW)
  {
    c.neighbors[Ordinal(d)]
  }

  function SetSlot(c: Cell, d: Direction, v: Option<nat>): (r: Cell)
    requires c.Valid() && d != NW
    ensures r.Valid() && GetNeighbor(r, d) == v
    ensures forall e :: e != d && e != NW ==> GetNeighbor(r, e) == GetNeighbor(c, e)
    ensures r.(neighbors := []) == c.(neighbors := [])
  {
    OrdinalRoundTrip(d);
    forall e | e != d ensures Ordinal(e) != Ordinal(d) { OrdinalInjective(e, d); }
    c.(neighbors := c.neighbors[Ordinal(d) := v])
  }

  ghost predicate AllValid(cells: seq<Cell>) {
    forall i :: 0 <= i < |cells| ==> cells[i].Valid()
  }

  /** SetNeighbor: cell `i` records `j` in the slot of `d`, and `j` records
      `i` in the slot of Opposite(d) as the source computes it. Nothing else
      changes. NW has no slot: the source's array access throws. */
  function SetNeighbor(cells: seq<Cell>, i: nat, d: Direction, j: nat): (r: seq<Cell>)
    requires i < |cells| && j < |cells| && AllValid(cells) && d != NW
    ensures |r| == |cells| && AllValid(r)
    ensures OppositeAsWritten(d) != NW
    ensures GetNeighbor(r[i], d) == Some(j)
    ensures GetNeighbor(r[j], OppositeAsWritten(d)) == Some(i)
    ensures forall k, e :: 0 <= k < |cells| && e != NW && !(k == i && e == d) && !(k == j && e == OppositeAsWritten(d)) ==>
              GetNeighbor(r[k], e) == GetNeighbor(cells[k], e)
    ensures forall k :: 0 <= k < |cells| ==> r[k].(neighbors := []) == cells[k].(neighbors := [])
  {
    var first := cells[i := SetSlot(cells[i], d, Some(j))];
    first[j := SetSlot(first[j], OppositeAsWritten(d), Some(i))]
  }

  /** What SetNeighbor means: read through Recorded, `j` lies in direction
      `d` from `i` and `i` lies in the geometric opposite from `j`, and every
      other recorded neighbour of every cell stays as it was. */
  lemma SetNeighborRecords(cells: seq<Cell>, i: nat, d: Direction, j: nat)
    requires i < |cells| && j < |cells| && AllValid(cells) && d != NoDirection && d != NW
    ensures var r := SetNeighbor(cells, i, d, j);
            && Recorded(r[i], d) == Some(j) && Recorded(r[j], Opposite(d)) == Some(i)
            && forall k, e :: 0 <= k < |cells| && !(k == i && e == d) && !(k == j && e == Opposite(d)) ==>
                 Recorded(r[k], e) == Recorded(cells[k], e)
  {
    HomeOfOpposite(d);
    OtherRecordsKept(cells, SetNeighbor(cells, i, d, j), i, d, j);
  }

  /** One recorded neighbour that a link does not write stays as it was. */
  lemma RecordKept(cells: seq<Cell>, i: nat, d: Direction, j: nat, k: nat, e: Direction)
    requires i < |cells| && j < |cells| && k < |cells| && AllValid(cells) && d != NoDirection && d != NW
    requires !(k == i && e == d) && !(k == j && e == Opposite(d))
    ensures Recorded(SetNeighbor(cells, i, d, j)[k], e) == Recorded(cells[k], e)
  {
    SetNeighborRecords(cells, i, d, j);
  }

  /** A link that leaves every other slot alone leaves every other recorded
      neighbour alone: the slot of `d` is the home of `d` only, and the slot
      of the as-written opposite is the home of the geometric opposite only. */
  lemma OtherRecordsKept(cells: seq<Cell>, r: seq<Cell>, i: nat, d: Direction, j: nat)
    requires AllValid(cells) && AllValid(r) && |r| == |cells| && d != NoDirection && d != NW
    requires OppositeAsWritten(d) != NW
    requires forall k, e :: 0 <= k < |cells| && e != NW && !(k == i && e == d) && !(k == j && e == OppositeAsWritten(d)) ==>
               GetNeighbor(r[k], e) == GetNeighbor(cells[k], e)
    ensures forall k, e :: 0 <= k < |cells| && !(k == i && e == d) && !(k == j && e == Opposite(d)) ==>
              Recorded(r[k], e) == Recorded(cells[k], e)
  {
    HomeOfOpposite(d);
    forall k, e | 0 <= k < |cells| && !(k == i && e == d) && !(k == j && e == Opposite(d))
      ensures Recorded(r[k], e) == Recorded(cells[k], e)
    {
      if e != NoDirection {
        var e' := if e == NW then NoDirection else e;
        assert Ordinal(e') == Home(e);
        if e' == OppositeAsWritten(d) {
          HomeInjective(e, Opposite(d));
        }
        assert GetNeighbor(r[k], e') == GetNeighbor(cells[k], e');
      }
    }
  }

  /** Save writes elevation, base texture, top texture, top type and top
      direction as one byte each, in that order; a byte cast keeps the value
      modulo 256. */
  function Save(c: Cell): (bytes: seq<Byte>)
    ensures |bytes| == 5
  {
    [c.elevation % 256, c.baseTexture % 256, c.topTexture % 256,
     TopTypeOrdinal(c.topType) % 256, Ordinal(c.topDirection) % 256]
  }

  /** Load reads the five bytes back into the cell's fields in the same order and
      returns the unread rest of the stream. It fails when fewer than five bytes
      remain or a byte names no top type or direction. */
  function Load(c: Cell, bytes: seq<Byte>): (r: Option<(Cell, seq<Byte>)>)
    ensures r.Some? <==> |bytes| >= 5 && TopTypeFromOrdinal(bytes[3]).Some? && FromOrdinal(bytes[4]).Some?
    ensures r.Some? ==> r.value.1 == bytes[5..]
    ensures r.Some? ==> r.value.0.elevation == bytes[0] && r.value.0.baseTexture == bytes[1]
                        && r.value.0.topTexture == bytes[2]
    ensures r.Some? ==> Some(r.value.0.topType) == TopTypeFromOrdinal(bytes[3])
                        && Some(r.value.0.topDirection) == FromOrdinal(bytes[4])
    ensures r.Some? ==> r.value.0.(elevation := c.elevation, baseTexture := c.baseTexture,
                                   topTexture := c.topTexture, topType := c.topType,
                                   topDirection := c.topDirection) == c
  {
    if |bytes| < 5 then Option.None
    else
      match (TopTypeFromOrdinal(bytes[3]), FromOrdinal(bytes[4]))
      case (Some(t), Some(d)) =>
        Some((c.(elevation := bytes[0], baseTexture := bytes[1], topTexture := bytes[2],
                 topType := t, topDirection := d), bytes[5..]))
      case _ => Option.None
  }

  /** The fields a save records all fit in a byte. */
  predicate FitsInBytes(c: Cell) {
    0 <= c.elevation < 256 && 0 <= c.baseTexture < 256 && 0 <= c.topTexture < 256
  }

  /** Loading what was saved restores the five saved fields, leaves the others
      of the receiving cell alone, and consumes exactly five bytes. */
  lemma SaveLoadRoundTrip(c: Cell, into: Cell, rest: seq<Byte>)
    requires FitsInBytes(c)
    ensures Load(into, Save(c) + rest) ==
              Some((into.(elevation := c.elevation, baseTexture := c.baseTexture,
                          topTexture := c.topTexture, topType := c.topType,
                          topDirection := c.topDirection), rest))
  {
    var s := Save(c) + rest;
    assert s[3] == TopTypeOrdinal(c.topType);
    assert s[4] == Ordinal(c.topDirection);
    OrdinalRoundTrip(c.topDirection);
    assert TopTypeFromOrdinal(TopTypeOrdinal(c.topType)) == Some(c.topType) by {
      match c.topType
      case Flat => case Slope => case Corner =>
    }
    assert s[5..] == rest;
  }

  /** Saving a loaded cell writes back exactly the bytes that were read. */
  lemma LoadSaveRoundTrip(c: Cell, bytes: seq<Byte>)
    requires Load(c, bytes).Some?
    ensures Save(Load(c, bytes).value.0) == bytes[..5]
  {
  }

  /** An elevation outside 0..255 does not survive a save: it comes back modulo 256. */
  lemma SaveTruncatesElevation(c: Cell, into: Cell)
    ensures Load(into, Save(c)).Some?
    ensures Load(into, Save(c)).value.0.elevation == c.elevation % 256
  {
    var t := c.topType;
    assert TopTypeFromOrdinal(TopTypeOrdinal(t)).Some? by {
      match t
      case Flat => case Slope => case Corner =>
    }
  }
}

=== FILE: common.dfy ===
/** Types shared by every part of the model: an option type for the source's
    nullable references, 3-vectors of reals for Unity's Vector3, and costs that
    may be infinite (Mathf.Infinity). */
module Common {

  /** A value or nothing; the model's stand-in for a C# reference that may be null. */
  datatype Option<+T> = None | Some(value: T)

  /** Unity's Vector3, with exact real arithmetic in place of 32-bit floats. */
  datatype Vec3 = Vec3(x: real, y: real, z: real)

  function Add(a: Vec3, b: Vec3): Vec3 {
    Vec3(a.x + b.x, a.y + b.y, a.z + b.z)
  }

  function Scale(a: Vec3, k: real): Vec3 {
    Vec3(a.x * k, a.y * k, a.z * k)
  }

  /** The midpoint of two positions, `(a + b) / 2`. */
  function Midpoint(a: Vec3, b: Vec3): (m: Vec3)
    ensures a == b ==> m == a
  {
    Vec3((a.x + b.x) / 2.0, (a.y + b.y) / 2.0, (a.z + b.z) / 2.0)
  }

  /** A distance function fit to stand in for Vector3.Distance: non-negative,
      symmetric and zero on equal arguments. */
  ghost predicate IsDistance(dist: (Vec3, Vec3) -> real) {
    && (forall a, b :: dist(a, b) >= 0.0)
    && (forall a, b :: dist(a, b) == dist(b, a))
    && (forall a :: dist(a, a) == 0.0)
  }

  /** A search cost: a finite real or Mathf.Infinity. */
  datatype Ext = Fin(v: real) | Inf {

    /** Strict comparison as for C# floats, with infinity above every finite value. */
    predicate Less(other: Ext) {
      match (this, other)
      case (Fin(a), Fin(b)) => a < b
      case (Fin(_), Inf) => true
      case (Inf, _) => false
    }
  }
}

=== FILE: directions.dfy ===
/** The simulation's shared enumerations: compass directions and their
    opposites, cell top types, search status and edge types. */
module Directions {
  import opened Common

  /** Compass directions in declaration order; the ordinal is the C# enum value. */
  datatype Direction = NoDirection | N | NE | E | SE | S | SW | W | NW

  function Ordinal(d: Direction): (k: nat)
    ensures k < 9
    ensures (d == NoDirection <==> k == 0) && (d == N <==> k == 1) && (d == NE <==> k == 2)
    ensures (d == E <==> k == 3) && (d == SE <==> k == 4) && (d == S <==> k == 5)
    ensures (d == SW <==> k == 6) && (d == W <==> k == 7) && (d == NW <==> k == 8)
  {
    match d
    case NoDirection => 0 case N => 1 case NE => 2 case E => 3 case SE => 4
    case S => 5 case SW => 6 case W => 7 case NW => 8
  }

  /** The direction with C# enum value `k`, or nothing for a value with no name. */
  function FromOrdinal(k: int): (d: Option<Direction>)
    ensures d.Some? <==> 0 <= k < 9
    ensures d.Some? ==> Ordinal(d.value) == k
  {
    if k == 0 then Some(NoDirection) else if k == 1 then Some(N) else if k == 2 then Some(NE)
    else if k == 3 then Some(E) else if k == 4 then Some(SE) else if k == 5 then Some(S)
    else if k == 6 then Some(SW) else if k == 7 then Some(W) else if k == 8 then Some(NW)
    else Option.None
  }

  lemma OrdinalRoundTrip(d: Direction)
    ensures FromOrdinal(Ordinal(d)) == Some(d)
  {
  }

  lemma OrdinalInjective(a: Direction, b: Direction)
    ensures Ordinal(a) == Ordinal(b) ==> a == b
  {
    OrdinalRoundTrip(a);
    OrdinalRoundTrip(b);
  }

  /** Grid offset (column, row) of one step in direction `d`; north is +row, east is +column. */
  datatype Offset = Offset(dc: int, dr: int)

  function Delta(d: Direction): Offset {
    match d
    case NoDirection => Offset(0, 0)
    case N => Offset(0, 1)   case NE => Offset(1, 1)   case E => Offset(1, 0)
    case SE => Offset(1, -1) case S => Offset(0, -1)   case SW => Offset(-1, -1)
    case W => Offset(-1, 0)  case NW => Offset(-1, 1)
  }

  /** Opposite exactly as the source computes it: add 4 to ordinals below 4,
      subtract 4 otherwise. Because None occupies ordinal 0, SE maps to None. */
  function OppositeAsWritten(d: Direction): (r: Direction)
    ensures Ordinal(d) < 4 ==> Ordinal(r) == Ordinal(d) + 4
    ensures Ordinal(d) >= 4 ==> Ordinal(r) == Ordinal(d) - 4
  {
    var k := Ordinal(d);
    var j := if k < 4 then k + 4 else k - 4;
    FromOrdinal(j).value
  }

  /** The as-written opposite sends SE to None and None to SE; every other
      direction goes to its geometric opposite. */
  lemma OppositeAsWrittenTable()
    ensures OppositeAsWritten(SE) == NoDirection && OppositeAsWritten(NoDirection) == SE
    ensures forall d :: d != SE && d != NoDirection ==>
      Delta(OppositeAsWritten(d)) == Offset(-Delta(d).dc, -Delta(d).dr)
  {
    forall d | d != SE && d != NoDirection
      ensures Delta(OppositeAsWritten(d)) == Offset(-Delta(d).dc, -Delta(d).dr)
    {
      OrdinalRoundTrip(d);
    }
  }

  /** The as-written opposite is not an involution: NW goes to SE and SE goes to None. */
  lemma OppositeAsWrittenNotInvolution()
    ensures OppositeAsWritten(OppositeAsWritten(NW)) == NoDirection
    ensures forall d :: d != NW ==> OppositeAsWritten(OppositeAsWritten(d)) == d
  {
  }

  /** The opposite the direction enum evidently intends: the geometric reverse,
      with SE and NW paired and None left alone. The model reads recorded
      neighbours and link symmetry with this one; where the source writes a
      slot or compares facings it uses OppositeAsWritten. */
  function Opposite(d: Direction): (r: Direction)
    ensures Delta(r) == Offset(-Delta(d).dc, -Delta(d).dr)
    ensures r == NoDirection <==> d == NoDirection
  {
    match d
    case NoDirection => NoDirection
    case N => S   case NE => SW  case E => W   case SE => NW
    case S => N   case SW => NE  case W => E   case NW => SE
  }

  /** Opposite reverses the grid offset of every direction. */
  lemma OppositeReversesOffset(d: Direction)
    ensures Delta(Opposite(d)) == Offset(-Delta(d).dc, -Delta(d).dr)
  {
  }

  lemma OppositeInvolution(d: Direction)
    ensures Opposite(Opposite(d)) == d
  {
  }

  /** The corrected and as-written opposites differ only on SE and None. */
  lemma OppositeAgreesWithAsWritten(d: Direction)
    ensures d != SE && d != NoDirection <==> OppositeAsWritten(d) == Opposite(d)
  {
  }

  /** Surface shape of a cell's top (TopType). */
  datatype TopType = Flat | Slope | Corner

  function TopTypeOrdinal(t: TopType): nat {
    match t case Flat => 0 case Slope => 1 case Corner => 2
  }

  function TopTypeFromOrdinal(k: int): (t: Option<TopType>)
    ensures t.Some? <==> 0 <= k < 3
    ensures t.Some? ==> TopTypeOrdinal(t.value) == k
  {
    if k == 0 then Some(Flat) else if k == 1 then Some(Slope) else if k == 2 then Some(Corner)
    else Option.None
  }

  /** Search bookkeeping tag of a node or region. */
  datatype SearchStatus = Unvisited | OpenList | ClosedList | OnPath

  /** Walkability class of an edge or portal (EdgeType in Edge.cs). */
  datatype EdgeType = FlatEdge | SlopeEdge | SlopeConnection | Elevated | Inaccessible | NoEdgeType
}

=== FILE: edges.dfy ===
/** A node-graph edge (Assets/Pathfinding/Edge.cs): its endpoints, the fixed
    cost of its creation direction, and the walkability class computed from the
    terrain of the two cells it joins and, for diagonals, of the two cells
    flanking it. Nodes are referred to by index. */
module Edges {
  import opened Common
  import opened Directions
  import opened Cells

  /** The part of a cell's terrain the classification reads. */
  datatype Surface = Surface(topType: TopType, facing: Direction, elevation: int)

  function SurfaceOf(c: Cell): Surface {
    Surface(c.topType, c.topDirection, c.elevation)
  }

  /** Everything RecalculateEdgeData looks at: the two end cells, the direction
      from the first to the second, and the flanking cells of a diagonal (the
      first cell's south neighbour and its west or east neighbour), if any. */
  datatype Scene = Scene(one: Surface, two: Surface, dir: Direction,
                         south: Option<Surface>, side: Option<Surface>)

  datatype Edge = Edge(nodeOne: nat, nodeTwo: nat, direction: Direction, cost: real, edgeType: EdgeType)

  /** Which flanking neighbour of the first cell a diagonal consults: west for
      SW, east otherwise. */
  function FlankDirection(dir: Direction): (f: Direction)
    ensures f == W || f == E
  {
    if dir == SW then W else E
  }

  /** The scenes in which the source dereferences the flanking neighbours: two
      flat tops on a diagonal, or a slope above a flat top on anything but S or W. */
  predicate NeedsFlanks(s: Scene) {
    || (s.one.topType == Flat && s.two.topType == Flat && (s.dir == SW || s.dir == SE))
    || (s.one.topType == Slope && s.two.topType == Flat && s.dir != S && s.dir != W)
  }

  /** The source has no null check on the flanks, so they must be present when read. */
  predicate FlanksGiven(s: Scene) {
    NeedsFlanks(s) ==> s.south.Some? && s.side.Some?
  }

  function Abs(x: int): (a: nat)
    ensures a == x || a == -x
  {
    if x < 0 then -x else x
  }

  /** Some elevation differs from the first one. */
  predicate Varied(es: seq<int>) {
    exists i :: 0 <= i < |es| && es[i] != es[0]
  }

  /** AreElevationsVaried: scans for an element that differs from the first. */
  method AreElevationsVaried(es: seq<int>) returns (varied: bool)
    ensures varied <==> exists i, j :: 0 <= i < |es| && 0 <= j < |es| && es[i] != es[j]
  {
    varied := false;
    var i := 0;
    while i < |es|
      invariant 0 <= i <= |es|
      invariant !varied
      invariant forall k :: 0 <= k < i ==> es[k] == es[0]
    {
      if es[0] != es[i] {
        varied := true;
        assert es[i] != es[0];
        return;
      }
      i := i + 1;
    }
  }

  /** Varied means "not all equal": no element is singled out by being first. */
  lemma {:induction false} VariedIffNotConstant(es: seq<int>)
    ensures Varied(es) <==> exists i, j :: 0 <= i < |es| && 0 <= j < |es| && es[i] != es[j]
  {
    if exists i, j :: 0 <= i < |es| && 0 <= j < |es| && es[i] != es[j] {
      var i, j :| 0 <= i < |es| && 0 <= j < |es| && es[i] != es[j];
      if es[i] != es[0] {
        assert Varied(es);
      } else {
        assert es[j] != es[0];
      }
    }
  }

  /** DetermineCost: the cost depends only on the direction the edge was created in. */
  function DetermineCost(dir: Direction): (c: real)
    ensures 1.0 <= c <= 1.41
    ensures c == 1.0 <==> dir != SE && dir != SW
    ensures dir == SE ==> c == 1.41
    ensures dir == SW ==> c == 1.4
  {
    match dir
    case SE => 1.41
    case S => 1.0
    case SW => 1.4
    case W => 1.0
    case _ => 1.0
  }

  /** The costs approximate the length of one grid step: the squared cost is
      within 0.04 of the squared step length exactly for the straight
      directions and the two diagonals an edge is built along (SE, SW); NE,
      NW and None cost 1 without being one step long. */
  lemma CostApproximatesStep(dir: Direction)
    ensures var c := DetermineCost(dir);
            var len2 := (Delta(dir).dc * Delta(dir).dc + Delta(dir).dr * Delta(dir).dr) as real;
            -0.04 <= c * c - len2 <= 0.04 <==> dir != NE && dir != NW && dir != NoDirection
  {
  }

  /** OtherNode: the endpoint that is not `n`, or nothing when `n` is not an endpoint. */
  function OtherNode(e: Edge, n: nat): (r: Option<nat>)
    ensures r.Some? <==> n == e.nodeOne || n == e.nodeTwo
    ensures r.Some? ==> multiset{n, r.value} == multiset{e.nodeOne, e.nodeTwo}
  {
    if n == e.nodeOne then Some(e.nodeTwo)
    else if n == e.nodeTwo then Some(e.nodeOne)
    else Option.None
  }

  /** Crossing an edge twice leads back where one started. */
  lemma OtherNodeInvolution(e: Edge, n: nat)
    requires OtherNode(e, n).Some?
    ensures OtherNode(e, OtherNode(e, n).value) == Some(n)
  {
  }

  /** RecalculateEdgeData, edge type only, with the source's Opposite, which
      sends SE to None and None to SE. `prev` is the type the edge already
      has: combinations for which the source has no branch keep it. */
  function Classify(s: Scene, prev: EdgeType): (r: EdgeType)
    requires FlanksGiven(s)
    ensures r == NoEdgeType ==> prev == NoEdgeType
  {
    ClassifyWith(OppositeAsWritten, s, prev)
  }

  /** The branches of RecalculateEdgeData for a given reading of Opposite:
      the source's is OppositeAsWritten, the geometric one is Opposite. */
  function ClassifyWith(opposite: Direction -> Direction, s: Scene, prev: EdgeType): (r: EdgeType)
    requires FlanksGiven(s)
    ensures r == NoEdgeType ==> prev == NoEdgeType
  {
    var one := s.one;
    var two := s.two;
    var dir := s.dir;
    var diff := Abs(one.elevation - two.elevation);
    if one.topType == Flat && two.topType == Flat then
      if dir == SW || dir == SE then
        var south := s.south.value;
        var side := s.side.value;
        if south.topType == Flat && side.topType == Flat then
          if Varied([one.elevation, two.elevation, south.elevation, side.elevation])
          then Elevated else FlatEdge
        else if side.topType == Slope || south.topType == Slope then Inaccessible
        else prev
      else if diff != 0 then Elevated else FlatEdge
    else if one.topType == Slope && two.topType == Slope then
      var collinear := one.facing == dir || one.facing == opposite(dir);
      if one.facing == two.facing then
        if collinear then
          if diff == 0 then Elevated else if diff == 1 then SlopeEdge else Elevated
        else if dir == S || dir == W then
          if diff == 0 then SlopeEdge else Elevated
        else if diff == 1 && one.elevation > two.elevation then SlopeEdge
        else Elevated
      else if one.facing == opposite(two.facing) then
        if collinear then
          if diff == 0 then SlopeConnection else Elevated
        else if dir == S || dir == W then Inaccessible
        else if diff == 0 then SlopeConnection else Elevated
      else prev
    else if one.topType == Slope && two.topType == Flat then
      if dir == S || dir == W then
        if one.facing == dir then
          if diff == 1 && one.elevation < two.elevation then SlopeConnection else Elevated
        else if one.facing == opposite(dir) then
          if diff == 0 then SlopeConnection else Elevated
        else Inaccessible
      else if s.south.value.topType == Flat && s.side.value.topType == Flat then Inaccessible
      else prev
    else if one.topType == Flat && two.topType == Slope then
      if dir == S || dir == W then
        if dir == opposite(two.facing) then
          if diff == 1 && one.elevation > two.elevation then SlopeConnection else Elevated
        else if dir == two.facing then
          if (diff == 1 && one.elevation < two.elevation) || diff == 0 then SlopeConnection
          else Elevated
        else Inaccessible
      else prev
    else prev
  }

  /** Recomputing the type of an edge a second time changes nothing. */
  lemma ClassifyIdempotent(s: Scene, prev: EdgeType)
    requires FlanksGiven(s)
    ensures Classify(s, Classify(s, prev)) == Classify(s, prev)
  {
  }

  /** The previous type matters only where it is kept: either the result does
      not depend on it, or the result is it. */
  lemma ClassifyPrevOnlyKept(s: Scene, p: EdgeType, q: EdgeType)
    requires FlanksGiven(s)
    ensures Classify(s, p) != Classify(s, q) ==> Classify(s, p) == p && Classify(s, q) == q
  {
  }

  /** Two flat tops joined along W or S: Elevated exactly when the elevations differ. */
  lemma FlatFlatCardinal(s: Scene, prev: EdgeType)
    requires s.one.topType == Flat && s.two.topType == Flat && s.dir != SW && s.dir != SE
    ensures Classify(s, prev) == Elevated <==> s.one.elevation != s.two.elevation
    ensures Classify(s, prev) == FlatEdge <==> s.one.elevation == s.two.elevation
  {
  }

  /** Two flat tops on a diagonal with flat flanks: Elevated exactly when the
      four elevations are not all equal, otherwise Flat. */
  lemma FlatFlatDiagonalFlatFlanks(s: Scene, prev: EdgeType)
    requires s.one.topType == Flat && s.two.topType == Flat && (s.dir == SW || s.dir == SE)
    requires s.south.Some? && s.side.Some?
    requires s.south.value.topType == Flat && s.side.value.topType == Flat
    ensures Classify(s, prev) == Elevated || Classify(s, prev) == FlatEdge
    ensures Classify(s, prev) == FlatEdge <==>
              s.one.elevation == s.two.elevation == s.south.value.elevation == s.side.value.elevation
  {
    var es := [s.one.elevation, s.two.elevation, s.south.value.elevation, s.side.value.elevation];
    if !Varied(es) {
      assert es[1] == es[0] && es[2] == es[0] && es[3] == es[0];
    } else {
      var i :| 0 <= i < |es| && es[i] != es[0];
    }
  }

  /** Two flat tops on a diagonal with a slope among the flanks: Inaccessible. */
  lemma FlatFlatDiagonalSlopeFlank(s: Scene, prev: EdgeType)
    requires s.one.topType == Flat && s.two.topType == Flat && (s.dir == SW || s.dir == SE)
    requires s.south.Some? && s.side.Some?
    requires s.south.value.topType == Slope || s.side.value.topType == Slope
    ensures Classify(s, prev) == Inaccessible
  {
  }

  /** Slopes facing the same way, one behind the other: a one-level step is a
      Slope, equal or far-apart elevations are Elevated. */
  lemma SameFacingCollinear(s: Scene, prev: EdgeType)
    requires s.one.topType == Slope && s.two.topType == Slope && s.one.facing == s.two.facing
    requires s.one.facing == s.dir || s.one.facing == OppositeAsWritten(s.dir)
    ensures Classify(s, prev) == SlopeEdge <==> Abs(s.one.elevation - s.two.elevation) == 1
    ensures Classify(s, prev) == Elevated <==> Abs(s.one.elevation - s.two.elevation) != 1
  {
  }

  /** Two slopes next to each other across the slope direction: the edge runs
      S or W and the first slope faces neither along nor against it. */
  predicate SideBySide(s: Scene) {
    (s.dir == S || s.dir == W) && s.one.facing != s.dir && s.one.facing != OppositeAsWritten(s.dir)
  }

  /** Slopes facing opposite ways: side by side (S or W) they are Inaccessible;
      collinear or diagonal they connect exactly at equal elevation. */
  lemma OppositeFacing(s: Scene, prev: EdgeType)
    requires s.one.topType == Slope && s.two.topType == Slope
    requires s.one.facing != s.two.facing && s.one.facing == OppositeAsWritten(s.two.facing)
    ensures SideBySide(s) ==> Classify(s, prev) == Inaccessible
    ensures !SideBySide(s) ==> (Classify(s, prev) == SlopeConnection <==> s.one.elevation == s.two.elevation)
    ensures !SideBySide(s) ==> (Classify(s, prev) == Elevated <==> s.one.elevation != s.two.elevation)
  {
  }

  /** The combinations the source has no branch for: a flat top next to a
      slope on a diagonal, any corner top, and slopes whose facings are neither
      equal nor opposite. */
  predicate NoBranch(s: Scene) {
    || (s.one.topType == Flat && s.two.topType == Slope && s.dir != S && s.dir != W)
    || s.one.topType == Corner || s.two.topType == Corner
    || (s.one.topType == Slope && s.two.topType == Slope
        && s.one.facing != s.two.facing && s.one.facing != OppositeAsWritten(s.two.facing))
  }

  /** Where the source has no branch, the edge keeps the type it had. */
  lemma Unchanged(s: Scene, prev: EdgeType)
    requires FlanksGiven(s) && NoBranch(s)
    ensures Classify(s, prev) == prev
  {
  }

  /** The classification never yields None; it can only keep a None it was given. */
  lemma ClassifyNeverNone(s: Scene, prev: EdgeType)
    requires FlanksGiven(s)
    ensures Classify(s, prev) == NoEdgeType ==> prev == NoEdgeType
  {
  }

  /** A facing the slope tool gives: N, E, S or W. */
  predicate Cardinal(t: Direction) {
    t == N || t == E || t == S || t == W
  }

  /** Where every slope faces N, E, S or W and the edge runs W, S, SW or SE,
      the source's classification is the one the geometric Opposite would
      give: the two readings differ only at SE and None. */
  lemma CardinalFacingsAgree(s: Scene, prev: EdgeType)
    requires FlanksGiven(s)
    requires s.one.topType == Slope ==> Cardinal(s.one.facing)
    requires s.two.topType == Slope ==> Cardinal(s.two.facing)
    requires s.dir == W || s.dir == S || s.dir == SW || s.dir == SE
    ensures Classify(s, prev) == ClassifyWith(Opposite, s, prev)
  {
    OppositeAgreesWithAsWritten(s.one.facing);
    OppositeAgreesWithAsWritten(s.two.facing);
    OppositeAgreesWithAsWritten(s.dir);
  }

  /** Where a slope faces None the two readings part: as written, a slope
      facing None beside one facing SE counts as facing the opposite way,
      and across an S edge the pair is Inaccessible, where the geometric
      Opposite would find no branch and keep the previous type. */
  lemma NoneFacingPairsWithSoutheast(s: Scene, prev: EdgeType)
    requires s.one.topType == Slope && s.two.topType == Slope && s.dir == S
    requires s.one.facing == NoDirection && s.two.facing == SE
    ensures Classify(s, prev) == Inaccessible
    ensures ClassifyWith(Opposite, s, prev) == prev
  {
    OppositeAsWrittenTable();
  }

  /** The edge constructor: cost from the direction, type classified from the
      default (Flat) that a fresh C# enum field holds. */
  function NewEdge(nodeOne: nat, nodeTwo: nat, s: Scene): (e: Edge)
    requires FlanksGiven(s)
    ensures e.nodeOne == nodeOne && e.nodeTwo == nodeTwo && e.direction == s.dir
    ensures e.cost == DetermineCost(s.dir)
    ensures e.edgeType == Classify(s, FlatEdge)
    ensures NoBranch(s) ==> e.edgeType == FlatEdge
    ensures e.edgeType != NoEdgeType
    ensures Classify(s, e.edgeType) == e.edgeType
  {
    ClassifyIdempotent(s, FlatEdge);
    ClassifyNeverNone(s, FlatEdge);
    Edge(nodeOne, nodeTwo, s.dir, DetermineCost(s.dir), Classify(s, FlatEdge))
  }

  /** RecalculateEdgeData: only the edge type is recomputed; endpoints,
      direction and cost stay. */
  function Recalculate(e: Edge, s: Scene): (r: Edge)
    requires FlanksGiven(s) && s.dir == e.direction
    ensures r.(edgeType := e.edgeType) == e
    ensures r.edgeType == Classify(s, e.edgeType)
    ensures NoBranch(s) ==> r == e
    ensures Classify(s, r.edgeType) == r.edgeType
  {
    ClassifyIdempotent(s, e.edgeType);
    e.(edgeType := Classify(s, e.edgeType))
  }
}

=== FILE: node_graph.dfy ===
/** The search graph over the cell grid (Assets/Pathfinding/NodeGraph.cs and
    Node.cs): one node per cell, and one edge per pair of adjacent cells, made
    from the later cell of the row-major order towards its W, S, SW and SE
    neighbours. Edges live in one array and nodes list the indices of the
    edges they touch. */
module NodeGraph {
  import opened Common
  import opened Directions
  import opened Cells
  import opened CellGrid
  import opened Edges

  /** A search node: its cell's index, its position, the indices of its edges
      and the bookkeeping of the last search. */
  datatype Node = Node(
    cell: nat,
    position: Vec3,
    edges: seq<nat>,
    status: SearchStatus,
    parent: Option<nat>,
    g: Ext,
    h: Ext,
    f: Ext,
    edgeOfParent: Option<nat>)

  /** The world position of a cell: one unit per column and row, its elevation as height. */
  function CellPosition(c: Cell): Vec3 {
    Vec3(c.column as real, c.elevation as real, c.row as real)
  }

  predicate IsReset(n: Node) {
    n.status == Unvisited && n.parent == Option.None && n.g == Inf && n.h == Inf && n.f == Inf
  }

  /** ResetSearchData: status None, no parent, infinite costs. The cell,
      position, edge list and the edge to the parent are left as they were. */
  function ResetSearchData(n: Node): (r: Node)
    ensures IsReset(r)
    ensures r.cell == n.cell && r.position == n.position && r.edges == n.edges
    ensures r.edgeOfParent == n.edgeOfParent
  {
    n.(status := Unvisited, parent := Option.None, g := Inf, h := Inf, f := Inf)
  }

  /** Resetting is idempotent and undoes any search bookkeeping: two nodes that
      differ only in their search data reset to the same node. */
  lemma ResetForgetsSearch(n: Node, m: Node)
    requires n.cell == m.cell && n.position == m.position && n.edges == m.edges
    requires n.edgeOfParent == m.edgeOfParent
    ensures ResetSearchData(n) == ResetSearchData(m)
    ensures ResetSearchData(ResetSearchData(n)) == ResetSearchData(n)
  {
  }

  /** The Node constructor: the cell's position, no edges, reset search data
      and (a fresh field) no edge to a parent. */
  function NewNode(cell: nat, c: Cell): (n: Node)
    ensures n.cell == cell && n.position == CellPosition(c)
    ensures n.edges == [] && IsReset(n) && n.edgeOfParent == Option.None
  {
    ResetSearchData(Node(cell, CellPosition(c), [], OnPath, Option.None, Fin(0.0), Fin(0.0), Fin(0.0), Option.None))
  }

  /** CreateAllNodes: node `i` is made for cell `i`, for every cell and in order. */
  method CreateAllNodes(cells: seq<Cell>) returns (nodes: seq<Node>)
    ensures |nodes| == |cells|
    ensures forall i :: 0 <= i < |cells| ==> nodes[i].cell == i && nodes[i].position == CellPosition(cells[i])
    ensures forall i :: 0 <= i < |cells| ==> nodes[i].edges == [] && IsReset(nodes[i])
  {
    nodes := [];
    var i := 0;
    while i < |cells|
      invariant 0 <= i <= |cells| && |nodes| == i
      invariant forall k :: 0 <= k < i ==> nodes[k] == NewNode(k, cells[k])
    {
      nodes := nodes + [NewNode(i, cells[i])];
      i := i + 1;
    }
  }

  /** ResetAllSearchData: every node is reset; nothing else changes. */
  method ResetAllSearchData(nodes: seq<Node>) returns (r: seq<Node>)
    ensures |r| == |nodes|
    ensures forall i :: 0 <= i < |r| ==> IsReset(r[i])
    ensures forall i :: 0 <= i < |r| ==> r[i].(status := nodes[i].status, parent := nodes[i].parent,
                                                 g := nodes[i].g, h := nodes[i].h, f := nodes[i].f) == nodes[i]
  {
    r := nodes;
    var i := 0;
    while i < |r|
      invariant 0 <= i <= |r| && |r| == |nodes|
      invariant forall k :: 0 <= k < i ==> r[k] == ResetSearchData(nodes[k])
      invariant forall k :: i <= k < |r| ==> r[k] == nodes[k]
    {
      r := r[i := ResetSearchData(r[i])];
      i := i + 1;
    }
  }

  // ---------------------------------------------------------------------------
  // Which edges exist.

  /** One edge to make: from (column, row) one step in direction `dir`. */
  datatype Link = Link(column: int, row: int, dir: Direction)

  function Target(l: Link): (int, int) {
    (l.column + Delta(l.dir).dc, l.row + Delta(l.dir).dr)
  }

  /** A link the source can make: a downward direction from a cell of the grid
      to a cell of the grid. */
  predicate ValidLink(C: nat, R: nat, l: Link) {
    && InGrid(C, R, l.column, l.row)
    && IsDownward(l.dir)
    && InGrid(C, R, Target(l).0, Target(l).1)
  }

  /** CreateNodeEdges: W off the west border, S off the south border, and off
      the south border also SW off the west border and SE off the east one. */
  function CellLinks(C: nat, R: nat, column: int, row: int): (ls: seq<Link>)
    requires InGrid(C, R, column, row)
    ensures forall k :: 0 <= k < |ls| ==> ValidLink(C, R, ls[k])
    ensures forall k :: 0 <= k < |ls| ==> ls[k].column == column && ls[k].row == row
    ensures forall k, j :: 0 <= k < j < |ls| ==> Rank(ls[k].dir) < Rank(ls[j].dir)
  {
    (if column > 0 then [Link(column, row, W)] else [])
    + (if row > 0 then [Link(column, row, S)] else [])
    + (if row > 0 && column > 0 then [Link(column, row, SW)] else [])
    + (if row > 0 && column < C - 1 then [Link(column, row, SE)] else [])
  }

  /** Every valid link out of a cell is made by that cell. */
  lemma CellLinksComplete(C: nat, R: nat, l: Link)
    requires ValidLink(C, R, l)
    ensures l in CellLinks(C, R, l.column, l.row)
  {
  }

  /** The links of the first `upto` cells of row `row`. */
  function RowLinks(C: nat, R: nat, row: int, upto: nat): (ls: seq<Link>)
    requires 0 <= row < R && upto <= C
    ensures forall k :: 0 <= k < |ls| ==> ValidLink(C, R, ls[k])
    ensures forall k :: 0 <= k < |ls| ==> ls[k].row == row && ls[k].column < upto
    decreases upto
  {
    if upto == 0 then [] else RowLinks(C, R, row, upto - 1) + CellLinks(C, R, upto - 1, row)
  }

  /** The links of the first `rows` rows. */
  function GridLinks(C: nat, R: nat, rows: nat): (ls: seq<Link>)
    requires rows <= R
    ensures forall k :: 0 <= k < |ls| ==> ValidLink(C, R, ls[k])
    ensures forall k :: 0 <= k < |ls| ==> ls[k].row < rows
    decreases rows
  {
    if rows == 0 then [] else GridLinks(C, R, rows - 1) + RowLinks(C, R, rows - 1, C)
  }

  /** The links CreateAllNodeEdges makes, in the order it makes them. */
  function Plan(C: nat, R: nat): (ls: seq<Link>)
    ensures forall k :: 0 <= k < |ls| ==> ValidLink(C, R, ls[k])
  {
    GridLinks(C, R, R)
  }

  /** Row-major order of links: by row, then column, then W, S, SW, SE. */
  predicate Before(a: Link, b: Link) {
    || a.row < b.row
    || (a.row == b.row && a.column < b.column)
    || (a.row == b.row && a.column == b.column && Rank(a.dir) < Rank(b.dir))
  }

  ghost predicate StrictlyOrdered(ls: seq<Link>) {
    forall k, j :: 0 <= k < j < |ls| ==> Before(ls[k], ls[j])
  }

  lemma {:induction false} RowLinksOrdered(C: nat, R: nat, row: int, upto: nat)
    requires 0 <= row < R && upto <= C
    ensures StrictlyOrdered(RowLinks(C, R, row, upto))
    decreases upto
  {
    if upto > 0 {
      RowLinksOrdered(C, R, row, upto - 1);
    }
  }

  lemma {:induction false} GridLinksOrdered(C: nat, R: nat, rows: nat)
    requires rows <= R
    ensures StrictlyOrdered(GridLinks(C, R, rows))
    decreases rows
  {
    if rows > 0 {
      GridLinksOrdered(C, R, rows - 1);
      RowLinksOrdered(C, R, rows - 1, C);
      OrderedConcat(GridLinks(C, R, rows - 1), RowLinks(C, R, rows - 1, C), rows - 1);
    }
  }

  /** Links of earlier rows followed by the ordered links of one row are ordered. */
  lemma OrderedConcat(a: seq<Link>, b: seq<Link>, row: int)
    requires StrictlyOrdered(a) && StrictlyOrdered(b)
    requires forall k :: 0 <= k < |a| ==> a[k].row < row
    requires forall k :: 0 <= k < |b| ==> b[k].row == row
    ensures StrictlyOrdered(a + b)
  {
    forall k, j | 0 <= k < j < |a + b|
      ensures Before((a + b)[k], (a + b)[j])
    {
      if j < |a| {
        assert (a + b)[k] == a[k] && (a + b)[j] == a[j];
      } else if k >= |a| {
        assert (a + b)[k] == b[k - |a|] && (a + b)[j] == b[j - |a|];
      } else {
        assert (a + b)[k] == a[k] && (a + b)[j] == b[j - |a|];
      }
    }
  }

  /** No link is made twice. */
  lemma PlanDistinct(C: nat, R: nat)
    ensures forall k, j :: 0 <= k < j < |Plan(C, R)| ==> Plan(C, R)[k] != Plan(C, R)[j]
  {
    GridLinksOrdered(C, R, R);
  }

  lemma {:induction false} RowLinksComplete(C: nat, R: nat, row: int, upto: nat, l: Link)
    requires 0 <= row < R && upto <= C
    requires ValidLink(C, R, l) && l.row == row && l.column < upto
    ensures l in RowLinks(C, R, row, upto)
    decreases upto
  {
    if l.column == upto - 1 {
      CellLinksComplete(C, R, l);
    } else {
      RowLinksComplete(C, R, row, upto - 1, l);
    }
  }

  lemma {:induction false} GridLinksComplete(C: nat, R: nat, rows: nat, l: Link)
    requires rows <= R
    requires ValidLink(C, R, l) && l.row < rows
    ensures l in GridLinks(C, R, rows)
    decreases rows
  {
    if l.row == rows - 1 {
      RowLinksComplete(C, R, rows - 1, C, l);
    } else {
      GridLinksComplete(C, R, rows - 1, l);
    }
  }

  /** Every valid link is made. */
  lemma PlanComplete(C: nat, R: nat, l: Link)
    requires ValidLink(C, R, l)
    ensures l in Plan(C, R)
  {
    GridLinksComplete(C, R, R, l);
  }

  /** Two adjacent cells are joined by exactly one valid link: the step from
      one to the other is downward in exactly one of the two orientations. */
  lemma OneLinkPerPair(C: nat, R: nat, column: int, row: int, d: Direction)
    requires d != NoDirection && InGrid(C, R, column, row)
    requires InGrid(C, R, column + Delta(d).dc, row + Delta(d).dr)
    ensures ValidLink(C, R, Link(column, row, d)) !=
            ValidLink(C, R, Link(column + Delta(d).dc, row + Delta(d).dr, Opposite(d)))
  {
    OppositeReversesOffset(d);
  }

  lemma {:induction false} RowLinksCount(C: nat, R: nat, row: int, upto: nat)
    requires 0 <= row < R && upto <= C
    ensures |RowLinks(C, R, row, upto)| ==
              if upto == 0 then 0
              else if row == 0 then upto - 1
              else 4 * upto - 2 - (if upto == C then 1 else 0)
    decreases upto
  {
    if upto > 0 {
      RowLinksCount(C, R, row, upto - 1);
    }
  }

  lemma {:induction false} GridLinksCount(C: nat, R: nat, rows: nat)
    requires 0 < rows <= R && C > 0
    ensures |GridLinks(C, R, rows)| == (C - 1) + (rows - 1) * (4 * C - 3)
    decreases rows
  {
    RowLinksCount(C, R, rows - 1, C);
    if rows > 1 {
      GridLinksCount(C, R, rows - 1);
      assert (rows - 2) * (4 * C - 3) + (4 * C - 3) == (rows - 1) * (4 * C - 3);
    }
  }

  /** The number of edges of a non-empty grid: R(C-1) west edges, (R-1)C south
      edges and (R-1)(C-1) of each diagonal. */
  lemma PlanCount(C: nat, R: nat)
    requires R > 0 && C > 0
    ensures |Plan(C, R)| == R * (C - 1) + (R - 1) * C + 2 * (R - 1) * (C - 1)
  {
    GridLinksCount(C, R, R);
    CountArithmetic(C - 1, R - 1);
  }

  lemma CountArithmetic(c: nat, x: nat)
    ensures c + x * (4 * c + 1) == (x + 1) * c + x * (c + 1) + 2 * x * c
  {
    assert x * (4 * c + 1) == 4 * (x * c) + x;
    assert (x + 1) * c == x * c + c;
    assert x * (c + 1) == x * c + x;
    assert 2 * x * c == 2 * (x * c);
  }

  // ---------------------------------------------------------------------------
  // Making the edges.

  /** The state SetAllNeighbors leaves the grid in: every slot holds the geometric neighbour. */
  ghost predicate LinkedGrid(cells: seq<Cell>, C: nat, R: nat) {
    && |cells| == R * C && AllValid(cells)
    && forall c, r, d :: InGrid(C, R, c, r) ==> NeighborAt(cells, C, R, c, r, d) == Expected(C, R, c, r, d)
  }

  /** The terrain of cell `i`'s neighbour in direction `d`, read through the neighbour slot. */
  function Flank(cells: seq<Cell>, i: nat, d: Direction): Option<Surface>
    requires i < |cells| && AllValid(cells) && d != NW
  {
    match GetNeighbor(cells[i], d)
    case Some(j) => if j < |cells| then Some(SurfaceOf(cells[j])) else Option.None
    case None => Option.None
  }

  /** What RecalculateEdgeData reads for an edge from node `a` to node `b` in direction `dir`. */
  function SceneOf(cells: seq<Cell>, a: nat, b: nat, dir: Direction): Scene
    requires a < |cells| && b < |cells| && AllValid(cells)
  {
    Scene(SurfaceOf(cells[a]), SurfaceOf(cells[b]), dir, Flank(cells, a, S), Flank(cells, a, FlankDirection(dir)))
  }

  /** On a linked grid the flanks of every edge the source makes are present. */
  lemma LinkedFlanks(cells: seq<Cell>, C: nat, R: nat, l: Link)
    requires LinkedGrid(cells, C, R) && ValidLink(C, R, l)
    ensures 0 <= Idx(C, l.column, l.row) < |cells|
    ensures 0 <= Idx(C, Target(l).0, Target(l).1) < |cells|
    ensures FlanksGiven(SceneOf(cells, Idx(C, l.column, l.row), Idx(C, Target(l).0, Target(l).1), l.dir))
  {
    IdxBounds(C, R, l.column, l.row);
    IdxBounds(C, R, Target(l).0, Target(l).1);
    if l.dir == SW || l.dir == SE {
      var e := FlankDirection(l.dir);
      assert NeighborAt(cells, C, R, l.column, l.row, S) == Expected(C, R, l.column, l.row, S);
      assert NeighborAt(cells, C, R, l.column, l.row, e) == Expected(C, R, l.column, l.row, e);
      IdxBounds(C, R, l.column, l.row - 1);
      IdxBounds(C, R, l.column + Delta(e).dc, l.row);
    }
  }

  /** A link never joins a cell to itself. */
  lemma EndpointsDiffer(C: nat, R: nat, l: Link)
    requires ValidLink(C, R, l)
    ensures Idx(C, l.column, l.row) != Idx(C, Target(l).0, Target(l).1)
  {
    if Idx(C, l.column, l.row) == Idx(C, Target(l).0, Target(l).1) {
      IdxInjective(C, l.column, l.row, Target(l).0, Target(l).1);
    }
  }

  /** The edge made for a link: node indices are cell indices. */
  function EdgeFor(cells: seq<Cell>, C: nat, R: nat, l: Link): (e: Edge)
    requires LinkedGrid(cells, C, R) && ValidLink(C, R, l)
    ensures e.nodeOne == Idx(C, l.column, l.row) && e.nodeTwo == Idx(C, Target(l).0, Target(l).1)
    ensures e.nodeOne < |cells| && e.nodeTwo < |cells| && e.nodeOne != e.nodeTwo
    ensures e.direction == l.dir && e.cost == DetermineCost(l.dir)
    ensures FlanksGiven(SceneOf(cells, e.nodeOne, e.nodeTwo, e.direction))
  {
    LinkedFlanks(cells, C, R, l);
    EndpointsDiffer(C, R, l);
    var a := Idx(C, l.column, l.row);
    var b := Idx(C, Target(l).0, Target(l).1);
    NewEdge(a, b, SceneOf(cells, a, b, l.dir))
  }

  /** The edge array holds, in order, the edges made for `links`. */
  ghost predicate Matches(cells: seq<Cell>, C: nat, R: nat, edges: seq<Edge>, links: seq<Link>)
    requires LinkedGrid(cells, C, R)
  {
    && |edges| == |links|
    && forall k :: 0 <= k < |links| ==> ValidLink(C, R, links[k]) && edges[k] == EdgeFor(cells, C, R, links[k])
  }

  /** The indices, in increasing order, of the first `n` edges that touch node `i`. */
  function Incident(edges: seq<Edge>, i: nat, n: nat): seq<nat>
    requires n <= |edges|
  {
    if n == 0 then []
    else Incident(edges, i, n - 1) + (if Touches(edges[n - 1], i) then [n - 1] else [])
  }

  predicate Touches(e: Edge, i: nat) {
    e.nodeOne == i || e.nodeTwo == i
  }

  /** Incident lists exactly the edges touching the node, each once, in creation order. */
  lemma IncidentMeaning(edges: seq<Edge>, i: nat, n: nat)
    requires n <= |edges|
    ensures forall k: nat :: k in Incident(edges, i, n) <==> k < n && Touches(edges[k], i)
    ensures forall a, b :: 0 <= a < b < |Incident(edges, i, n)| ==> Incident(edges, i, n)[a] < Incident(edges, i, n)[b]
  {
    IncidentMembers(edges, i, n);
    IncidentIncreasing(edges, i, n);
  }

  lemma {:induction false} IncidentMembers(edges: seq<Edge>, i: nat, n: nat)
    requires n <= |edges|
    ensures forall k: nat :: k in Incident(edges, i, n) <==> k < n && Touches(edges[k], i)
    decreases n
  {
    if n > 0 {
      IncidentMembers(edges, i, n - 1);
      var prev := Incident(edges, i, n - 1);
      var tail := if Touches(edges[n - 1], i) then [n - 1] else [];
      assert Incident(edges, i, n) == prev + tail;
      forall k: nat
        ensures k in prev + tail <==> k < n && Touches(edges[k], i)
      {
        assert k in prev + tail <==> k in prev || k in tail;
      }
    }
  }

  lemma {:induction false} IncidentIncreasing(edges: seq<Edge>, i: nat, n: nat)
    requires n <= |edges|
    ensures forall k :: k in Incident(edges, i, n) ==> k < n
    ensures forall a, b :: 0 <= a < b < |Incident(edges, i, n)| ==> Incident(edges, i, n)[a] < Incident(edges, i, n)[b]
    decreases n
  {
    if n > 0 {
      IncidentIncreasing(edges, i, n - 1);
      var prev := Incident(edges, i, n - 1);
      var tail := if Touches(edges[n - 1], i) then [n - 1] else [];
      var all := prev + tail;
      assert Incident(edges, i, n) == all;
      forall k | k in all
        ensures k < n
      {
        assert k in prev || k in tail;
      }
      forall a, b | 0 <= a < b < |all|
        ensures all[a] < all[b]
      {
        if b >= |prev| {
          assert all[a] == prev[a] && prev[a] in prev;
        }
      }
    }
  }

  /** Appending an edge does not change which earlier edges touch a node. */
  lemma {:induction false} IncidentPrefix(edges: seq<Edge>, e: Edge, i: nat, n: nat)
    requires n <= |edges|
    ensures Incident(edges + [e], i, n) == Incident(edges, i, n)
    decreases n
  {
    if n > 0 {
      IncidentPrefix(edges, e, i, n - 1);
      assert (edges + [e])[n - 1] == edges[n - 1];
    }
  }

  /** Each node's edge list is its initial list followed by the edges touching it. */
  ghost predicate Attached(nodes: seq<Node>, base: seq<Node>, edges: seq<Edge>) {
    && |nodes| == |base|
    && forall i :: 0 <= i < |nodes| ==> nodes[i] == base[i].(edges := base[i].edges + Incident(edges, i, |edges|))
  }

  /** CreateEdge: the new edge is appended to the edge array and to both endpoints' lists. */
  method CreateEdge(nodes: seq<Node>, edges: seq<Edge>, e: Edge) returns (nodes': seq<Node>, edges': seq<Edge>)
    requires e.nodeOne < |nodes| && e.nodeTwo < |nodes| && e.nodeOne != e.nodeTwo
    ensures edges' == edges + [e] && |nodes'| == |nodes|
    ensures nodes'[e.nodeOne].edges == nodes[e.nodeOne].edges + [|edges|]
    ensures nodes'[e.nodeTwo].edges == nodes[e.nodeTwo].edges + [|edges|]
    ensures forall i :: 0 <= i < |nodes| ==> nodes'[i].(edges := nodes[i].edges) == nodes[i]
    ensures forall i :: 0 <= i < |nodes| && i != e.nodeOne && i != e.nodeTwo ==> nodes'[i] == nodes[i]
  {
    var k := |edges|;
    edges' := edges + [e];
    nodes' := nodes[e.nodeOne := nodes[e.nodeOne].(edges := nodes[e.nodeOne].edges + [k])];
    nodes' := nodes'[e.nodeTwo := nodes'[e.nodeTwo].(edges := nodes'[e.nodeTwo].edges + [k])];
  }

  lemma AttachedStep(nodes: seq<Node>, nodes': seq<Node>, base: seq<Node>, edges: seq<Edge>, e: Edge)
    requires Attached(nodes, base, edges)
    requires e.nodeOne < |nodes| && e.nodeTwo < |nodes| && e.nodeOne != e.nodeTwo
    requires |nodes'| == |nodes|
    requires nodes'[e.nodeOne].edges == nodes[e.nodeOne].edges + [|edges|]
    requires nodes'[e.nodeTwo].edges == nodes[e.nodeTwo].edges + [|edges|]
    requires forall i :: 0 <= i < |nodes| ==> nodes'[i].(edges := nodes[i].edges) == nodes[i]
    requires forall i :: 0 <= i < |nodes| && i != e.nodeOne && i != e.nodeTwo ==> nodes'[i] == nodes[i]
    ensures Attached(nodes', base, edges + [e])
  {
    forall i | 0 <= i < |nodes|
      ensures nodes'[i] == base[i].(edges := base[i].edges + Incident(edges + [e], i, |edges| + 1))
    {
      IncidentPrefix(edges, e, i, |edges|);
      assert Incident(edges + [e], i, |edges| + 1) ==
        Incident(edges, i, |edges|) + (if Touches(e, i) then [|edges|] else []);
    }
  }

  /** Adds the edges for `links`, in order. */
  method AddLinkEdges(cells: seq<Cell>, C: nat, R: nat, nodes: seq<Node>, edges: seq<Edge>,
                      ghost base: seq<Node>, ghost done: seq<Link>, links: seq<Link>)
    returns (nodes': seq<Node>, edges': seq<Edge>)
    requires LinkedGrid(cells, C, R) && |nodes| == |cells|
    requires Attached(nodes, base, edges) && Matches(cells, C, R, edges, done)
    requires forall k :: 0 <= k < |links| ==> ValidLink(C, R, links[k])
    ensures Attached(nodes', base, edges') && Matches(cells, C, R, edges', done + links)
    ensures |nodes'| == |nodes|
  {
    nodes', edges' := nodes, edges;
    var j := 0;
    while j < |links|
      invariant 0 <= j <= |links|
      invariant |nodes'| == |nodes|
      invariant Attached(nodes', base, edges') && Matches(cells, C, R, edges', done + links[..j])
    {
      var n2, e2 := AddLinkEdge(cells, C, R, nodes', edges', base, done + links[..j], links[j]);
      assert done + links[..j + 1] == (done + links[..j]) + [links[j]];
      nodes', edges' := n2, e2;
      j := j + 1;
    }
    assert links[..j] == links;
  }

  /** Makes the edge of one link and attaches it to both endpoints. */
  method AddLinkEdge(cells: seq<Cell>, C: nat, R: nat, nodes: seq<Node>, edges: seq<Edge>,
                     ghost base: seq<Node>, ghost done: seq<Link>, l: Link)
    returns (nodes': seq<Node>, edges': seq<Edge>)
    requires LinkedGrid(cells, C, R) && |nodes| == |cells| && ValidLink(C, R, l)
    requires Attached(nodes, base, edges) && Matches(cells, C, R, edges, done)
    ensures Attached(nodes', base, edges') && Matches(cells, C, R, edges', done + [l])
    ensures |nodes'| == |nodes|
  {
    var e := EdgeFor(cells, C, R, l);
    nodes', edges' := CreateEdge(nodes, edges, e);
    AttachedStep(nodes, nodes', base, edges, e);
    MatchesStep(cells, C, R, edges, done, l);
  }

  lemma MatchesStep(cells: seq<Cell>, C: nat, R: nat, edges: seq<Edge>, done: seq<Link>, l: Link)
    requires LinkedGrid(cells, C, R) && ValidLink(C, R, l)
    requires Matches(cells, C, R, edges, done)
    ensures Matches(cells, C, R, edges + [EdgeFor(cells, C, R, l)], done + [l])
  {
  }

  /** CreateAllNodeEdges: rows outer, columns inner, the edges of each cell in
      turn. The edge array holds the edges of every valid link, each once, in
      row-major order, and each node lists exactly the edges touching it. */
  method CreateAllNodeEdges(cells: seq<Cell>, C: nat, R: nat, nodes: seq<Node>)
    returns (nodes': seq<Node>, edges: seq<Edge>)
    requires LinkedGrid(cells, C, R) && |nodes| == |cells|
    ensures Matches(cells, C, R, edges, Plan(C, R))
    ensures Attached(nodes', nodes, edges)
  {
    nodes', edges := nodes, [];
    assert Attached(nodes', nodes, edges) by {
      forall i | 0 <= i < |nodes| ensures nodes[i].edges + Incident(edges, i, 0) == nodes[i].edges { }
    }
    var row := 0;
    while row < R
      invariant 0 <= row <= R && |nodes'| == |nodes|
      invariant Attached(nodes', nodes, edges) && Matches(cells, C, R, edges, GridLinks(C, R, row))
    {
      nodes', edges := CreateRowEdges(cells, C, R, nodes', edges, nodes, row);
      row := row + 1;
    }
  }

  /** The inner loop of CreateAllNodeEdges: the edges of every cell of one row, west to east. */
  method CreateRowEdges(cells: seq<Cell>, C: nat, R: nat, nodes: seq<Node>, edges: seq<Edge>,
                        ghost base: seq<Node>, row: nat)
    returns (nodes': seq<Node>, edges': seq<Edge>)
    requires LinkedGrid(cells, C, R) && |nodes| == |cells| && row < R
    requires Attached(nodes, base, edges) && Matches(cells, C, R, edges, GridLinks(C, R, row))
    ensures Attached(nodes', base, edges') && Matches(cells, C, R, edges', GridLinks(C, R, row + 1))
    ensures |nodes'| == |nodes|
  {
    nodes', edges' := nodes, edges;
    var column := 0;
    while column < C
      invariant 0 <= column <= C && |nodes'| == |nodes|
      invariant Attached(nodes', base, edges')
      invariant Matches(cells, C, R, edges', GridLinks(C, R, row) + RowLinks(C, R, row, column))
    {
      nodes', edges' := CreateNodeEdges(cells, C, R, nodes', edges', base, row, column);
      column := column + 1;
    }
  }

  /** CreateNodeEdges for the cell at (column, row). */
  method CreateNodeEdges(cells: seq<Cell>, C: nat, R: nat, nodes: seq<Node>, edges: seq<Edge>,
                         ghost base: seq<Node>, row: nat, column: nat)
    returns (nodes': seq<Node>, edges': seq<Edge>)
    requires LinkedGrid(cells, C, R) && |nodes| == |cells| && row < R && column < C
    requires Attached(nodes, base, edges)
    requires Matches(cells, C, R, edges, GridLinks(C, R, row) + RowLinks(C, R, row, column))
    ensures Attached(nodes', base, edges')
    ensures Matches(cells, C, R, edges', GridLinks(C, R, row) + RowLinks(C, R, row, column + 1))
    ensures |nodes'| == |nodes|
  {
    ghost var done := GridLinks(C, R, row) + RowLinks(C, R, row, column);
    nodes', edges' := AddLinkEdges(cells, C, R, nodes, edges, base, done, CellLinks(C, R, column, row));
    RowLinksStep(C, R, row, column);
  }

  lemma RowLinksStep(C: nat, R: nat, row: nat, column: nat)
    requires row < R && column < C
    ensures GridLinks(C, R, row) + RowLinks(C, R, row, column) + CellLinks(C, R, column, row)
            == GridLinks(C, R, row) + RowLinks(C, R, row, column + 1)
  {
    assert RowLinks(C, R, row, column + 1) == RowLinks(C, R, row, column) + CellLinks(C, R, column, row);
  }

  /** The one valid orientation of the step from (column, row) in direction `d`. */
  function PairLink(C: nat, R: nat, column: int, row: int, d: Direction): Link {
    if ValidLink(C, R, Link(column, row, d)) then Link(column, row, d)
    else Link(column + Delta(d).dc, row + Delta(d).dr, Opposite(d))
  }

  /** NodeGraph.Initialize: a node per cell, then the edges. Each node lists
      exactly the edges that touch it, in creation order. */
  method Initialize(cells: seq<Cell>, C: nat, R: nat) returns (nodes: seq<Node>, edges: seq<Edge>)
    requires LinkedGrid(cells, C, R)
    ensures |nodes| == |cells| && Matches(cells, C, R, edges, Plan(C, R))
    ensures forall i :: 0 <= i < |nodes| ==> nodes[i].cell == i && IsReset(nodes[i])
    ensures forall i :: 0 <= i < |nodes| ==> nodes[i].edges == Incident(edges, i, |edges|)
  {
    var made := CreateAllNodes(cells);
    nodes, edges := CreateAllNodeEdges(cells, C, R, made);
  }

  /** Each pair of adjacent cells is joined by exactly one edge of the array. */
  lemma OneEdgePerPair(cells: seq<Cell>, C: nat, R: nat, edges: seq<Edge>, column: int, row: int, d: Direction)
    requires LinkedGrid(cells, C, R) && Matches(cells, C, R, edges, Plan(C, R))
    requires d != NoDirection && InGrid(C, R, column, row)
    requires InGrid(C, R, column + Delta(d).dc, row + Delta(d).dr)
    ensures exists k :: 0 <= k < |edges| && Joins(edges[k], Idx(C, column, row), Idx(C, column + Delta(d).dc, row + Delta(d).dr))
    ensures forall k, j :: 0 <= k < |edges| && 0 <= j < |edges|
              && Joins(edges[k], Idx(C, column, row), Idx(C, column + Delta(d).dc, row + Delta(d).dr))
              && Joins(edges[j], Idx(C, column, row), Idx(C, column + Delta(d).dc, row + Delta(d).dr))
              ==> k == j
  {
    PairEdgeExists(cells, C, R, edges, column, row, d);
    var a := Idx(C, column, row);
    var b := Idx(C, column + Delta(d).dc, row + Delta(d).dr);
    forall k1, j1 | 0 <= k1 < |edges| && 0 <= j1 < |edges| && Joins(edges[k1], a, b) && Joins(edges[j1], a, b)
      ensures k1 == j1
    {
      EdgeOfPair(cells, C, R, edges, k1, column, row, d);
      EdgeOfPair(cells, C, R, edges, j1, column, row, d);
      PlanDistinct(C, R);
    }
  }

  /** The edge made for the pair link joins the two cells. */
  lemma PairEdgeExists(cells: seq<Cell>, C: nat, R: nat, edges: seq<Edge>, column: int, row: int, d: Direction)
    requires LinkedGrid(cells, C, R) && Matches(cells, C, R, edges, Plan(C, R))
    requires d != NoDirection && InGrid(C, R, column, row)
    requires InGrid(C, R, column + Delta(d).dc, row + Delta(d).dr)
    ensures exists k :: 0 <= k < |edges| && Joins(edges[k], Idx(C, column, row), Idx(C, column + Delta(d).dc, row + Delta(d).dr))
  {
    var l := PairLink(C, R, column, row, d);
    PairLinkEnds(C, R, column, row, d);
    PlanComplete(C, R, l);
    var k :| 0 <= k < |Plan(C, R)| && Plan(C, R)[k] == l;
    assert edges[k] == EdgeFor(cells, C, R, l);
    assert Joins(edges[k], Idx(C, column, row), Idx(C, column + Delta(d).dc, row + Delta(d).dr));
  }

  /** The pair link is valid and runs between the two cells, in one orientation or the other. */
  lemma PairLinkEnds(C: nat, R: nat, column: int, row: int, d: Direction)
    requires d != NoDirection && InGrid(C, R, column, row)
    requires InGrid(C, R, column + Delta(d).dc, row + Delta(d).dr)
    ensures ValidLink(C, R, PairLink(C, R, column, row, d))
    ensures var l, a, b := PairLink(C, R, column, row, d), Idx(C, column, row), Idx(C, column + Delta(d).dc, row + Delta(d).dr);
            (Idx(C, l.column, l.row) == a && Idx(C, Target(l).0, Target(l).1) == b)
            || (Idx(C, l.column, l.row) == b && Idx(C, Target(l).0, Target(l).1) == a)
  {
    OneLinkPerPair(C, R, column, row, d);
    OppositeReversesOffset(d);
  }

  /** An edge of the array joining two adjacent cells was made for their pair link. */
  lemma EdgeOfPair(cells: seq<Cell>, C: nat, R: nat, edges: seq<Edge>, k: int, column: int, row: int, d: Direction)
    requires LinkedGrid(cells, C, R) && Matches(cells, C, R, edges, Plan(C, R))
    requires d != NoDirection && InGrid(C, R, column, row)
    requires InGrid(C, R, column + Delta(d).dc, row + Delta(d).dr)
    requires 0 <= k < |edges| && Joins(edges[k], Idx(C, column, row), Idx(C, column + Delta(d).dc, row + Delta(d).dr))
    ensures Plan(C, R)[k] == PairLink(C, R, column, row, d)
  {
    LinkOfPair(C, R, Plan(C, R)[k], column, row, d);
  }

  /** An edge joins `a` and `b`, in either orientation. */
  predicate Joins(e: Edge, a: int, b: int) {
    (e.nodeOne == a && e.nodeTwo == b) || (e.nodeOne == b && e.nodeTwo == a)
  }

  /** A valid link whose endpoints are two given adjacent cells is the one
      valid orientation of the step between them. */
  lemma LinkOfPair(C: nat, R: nat, l: Link, column: int, row: int, d: Direction)
    requires ValidLink(C, R, l) && d != NoDirection && InGrid(C, R, column, row)
    requires InGrid(C, R, column + Delta(d).dc, row + Delta(d).dr)
    requires var a, b := Idx(C, column, row), Idx(C, column + Delta(d).dc, row + Delta(d).dr);
             (Idx(C, l.column, l.row) == a && Idx(C, Target(l).0, Target(l).1) == b)
             || (Idx(C, l.column, l.row) == b && Idx(C, Target(l).0, Target(l).1) == a)
    ensures l == PairLink(C, R, column, row, d)
  {
    OneLinkPerPair(C, R, column, row, d);
    OppositeReversesOffset(d);
    var c2, r2 := column + Delta(d).dc, row + Delta(d).dr;
    if Idx(C, l.column, l.row) == Idx(C, column, row) {
      IdxInjective(C, l.column, l.row, column, row);
      IdxInjective(C, Target(l).0, Target(l).1, c2, r2);
      DeltaInjective(l.dir, d);
    } else {
      IdxInjective(C, l.column, l.row, c2, r2);
      IdxInjective(C, Target(l).0, Target(l).1, column, row);
      DeltaInjective(l.dir, Opposite(d));
    }
  }

  lemma DeltaInjective(a: Direction, b: Direction)
    requires Delta(a) == Delta(b)
    ensures a == b
  {
  }

  /** A built graph lists every edge at both of its endpoints. */
  lemma EveryEdgeListed(nodes: seq<Node>, base: seq<Node>, edges: seq<Edge>, k: nat)
    requires Attached(nodes, base, edges)
    requires k < |edges| && edges[k].nodeOne < |nodes| && edges[k].nodeTwo < |nodes|
    ensures k in nodes[edges[k].nodeOne].edges && k in nodes[edges[k].nodeTwo].edges
  {
    IncidentMeaning(edges, edges[k].nodeOne, |edges|);
    IncidentMeaning(edges, edges[k].nodeTwo, |edges|);
  }

  // ---------------------------------------------------------------------------
  // Recomputing edge types after the terrain changed.

  function SceneOfEdge(cells: seq<Cell>, e: Edge): Scene
    requires e.nodeOne < |cells| && e.nodeTwo < |cells| && AllValid(cells)
  {
    SceneOf(cells, e.nodeOne, e.nodeTwo, e.direction)
  }

  /** Every edge joins two cells of the array and has its flanks where the classification reads them. */
  ghost predicate EdgesFit(cells: seq<Cell>, edges: seq<Edge>) {
    && AllValid(cells)
    && forall k :: 0 <= k < |edges| ==>
         edges[k].nodeOne < |cells| && edges[k].nodeTwo < |cells| && FlanksGiven(SceneOfEdge(cells, edges[k]))
  }

  /** Edge.RecalculateEdgeData against the current terrain. */
  function Refresh(cells: seq<Cell>, e: Edge): (r: Edge)
    requires e.nodeOne < |cells| && e.nodeTwo < |cells| && AllValid(cells)
    requires FlanksGiven(SceneOfEdge(cells, e))
    ensures r.nodeOne == e.nodeOne && r.nodeTwo == e.nodeTwo && r.direction == e.direction && r.cost == e.cost
    ensures r.edgeType == Classify(SceneOfEdge(cells, e), e.edgeType)
    ensures NoBranch(SceneOfEdge(cells, e)) ==> r == e
    ensures Classify(SceneOfEdge(cells, r), r.edgeType) == r.edgeType
  {
    var r := Recalculate(e, SceneOfEdge(cells, e));
    assert SceneOfEdge(cells, r) == SceneOfEdge(cells, e);
    r
  }

  /** Node.RecalculateAllEdgeData: each listed edge is recomputed (twice
      listed is the same as once); the others are left alone. */
  method RecalculateAllEdgeData(cells: seq<Cell>, edges: seq<Edge>, list: seq<nat>) returns (r: seq<Edge>)
    requires EdgesFit(cells, edges)
    requires forall j :: 0 <= j < |list| ==> list[j] < |edges|
    ensures |r| == |edges| && EdgesFit(cells, r)
    ensures forall k :: 0 <= k < |edges| ==> r[k] == if k in list then Refresh(cells, edges[k]) else edges[k]
  {
    r := edges;
    var j := 0;
    while j < |list|
      invariant 0 <= j <= |list| && |r| == |edges| && EdgesFit(cells, r)
      invariant forall k :: 0 <= k < |edges| ==> r[k] == if k in list[..j] then Refresh(cells, edges[k]) else edges[k]
    {
      var k := list[j];
      r := r[k := Refresh(cells, r[k])];
      assert list[..j + 1] == list[..j] + [k];
      j := j + 1;
    }
    assert list[..j] == list;
  }

  ghost predicate Listed(nodes: seq<Node>, n: nat, k: nat)
    requires n <= |nodes|
  {
    exists i :: 0 <= i < n && k in nodes[i].edges
  }

  /** RecalculateAllNodeEdges: every edge some node lists is recomputed, once
      per listing node; on a built graph that is every edge. */
  method RecalculateAllNodeEdges(cells: seq<Cell>, nodes: seq<Node>, edges: seq<Edge>) returns (r: seq<Edge>)
    requires EdgesFit(cells, edges)
    requires forall i, j :: 0 <= i < |nodes| && 0 <= j < |nodes[i].edges| ==> nodes[i].edges[j] < |edges|
    ensures |r| == |edges| && EdgesFit(cells, r)
    ensures forall k: nat :: k < |edges| ==> r[k] == if Listed(nodes, |nodes|, k) then Refresh(cells, edges[k]) else edges[k]
  {
    r := edges;
    var i := 0;
    while i < |nodes|
      invariant 0 <= i <= |nodes| && |r| == |edges| && EdgesFit(cells, r)
      invariant forall k: nat :: k < |edges| ==> r[k] == if Listed(nodes, i, k) then Refresh(cells, edges[k]) else edges[k]
    {
      var before := r;
      r := RecalculateAllEdgeData(cells, r, nodes[i].edges);
      forall k: nat | k < |edges|
        ensures r[k] == if Listed(nodes, i + 1, k) then Refresh(cells, edges[k]) else edges[k]
      {
        if k in nodes[i].edges {
          assert Listed(nodes, i + 1, k);
        } else if Listed(nodes, i + 1, k) {
          var w :| 0 <= w < i + 1 && k in nodes[w].edges;
          assert Listed(nodes, i, k);
        }
      }
      i := i + 1;
    }
  }
}

=== FILE: object_pool.dfy ===
// A last-in-first-out pool of reusable objects. The pooled objects' own
// hooks (ResetForPool, OnPoolRemoval) and the factory delegate are code this
// model cannot see, so they are parameters: `reset` and `onRemoval` are what
// the hooks do to an object, `made` is what the factory returns.

module ObjectPool {

  /** Taking an object: the last one added, after its removal hook, or the
      factory's object when the pool is empty. The second component is the
      pool left behind. */
  function Get<T>(pool: seq<T>, onRemoval: T -> T, made: T): (r: (T, seq<T>))
    ensures |pool| == 0 ==> r == (made, pool)
    ensures |pool| > 0 ==> |r.1| == |pool| - 1 && r.1 + [pool[|pool| - 1]] == pool
    ensures |pool| > 0 ==> r.0 == onRemoval(pool[|pool| - 1])
  {
    if |pool| > 0 then
      var last := |pool| - 1;
      (onRemoval(pool[last]), pool[..last])
    else
      (made, pool)
  }

  /** Returning one object: it is reset and goes on top of the pool. */
  function Add<T>(pool: seq<T>, x: T, reset: T -> T): (pool': seq<T>)
    ensures |pool'| == |pool| + 1 && pool'[..|pool|] == pool && pool'[|pool|] == reset(x)
  {
    pool + [reset(x)]
  }

  /** Returning several objects, one at a time, first to last. */
  function AddEach<T>(pool: seq<T>, xs: seq<T>, reset: T -> T): (pool': seq<T>)
    ensures |pool'| == |pool| + |xs| && pool'[..|pool|] == pool
    ensures forall i :: 0 <= i < |xs| ==> pool'[|pool| + i] == reset(xs[i])
    decreases |xs|
  {
    if |xs| == 0 then pool
    else
      var p := AddEach(Add(pool, xs[0], reset), xs[1..], reset);
      assert forall j :: 0 <= j < |xs| - 1 ==> p[|pool| + 1 + j] == reset(xs[1..][j]);
      p
  }

  /** Returning an array of objects the way the pool does it: every object
      is reset in place, then the whole array is appended. The result is the
      same as adding the objects one by one. */
  method AddRange<T>(pool: seq<T>, xs: seq<T>, reset: T -> T) returns (pool': seq<T>)
    ensures pool' == AddEach(pool, xs, reset)
    ensures |pool'| == |pool| + |xs| && pool'[..|pool|] == pool
  {
    var ys := xs;
    for i := 0 to |xs|
      invariant |ys| == |xs|
      invariant forall j :: 0 <= j < i ==> ys[j] == reset(xs[j])
      invariant forall j :: i <= j < |xs| ==> ys[j] == xs[j]
    {
      ys := ys[i := reset(ys[i])];
    }
    pool' := pool + ys;
    ghost var expected := AddEach(pool, xs, reset);
    assert |pool'| == |expected|;
    assert forall k :: 0 <= k < |pool'| ==> pool'[k] == expected[k] by {
      forall k | 0 <= k < |pool'|
        ensures pool'[k] == expected[k]
      {
        if k < |pool| {
          assert expected[..|pool|][k] == expected[k];
        } else {
          assert pool'[k] == ys[k - |pool|];
          assert expected[|pool| + (k - |pool|)] == reset(xs[k - |pool|]);
        }
      }
    }
  }

  /** Emptying the pool by taking objects until none is left: the objects in
      the order they are handed out. */
  function Drain<T>(pool: seq<T>, onRemoval: T -> T): (out: seq<T>)
    ensures |out| == |pool|
    ensures forall i :: 0 <= i < |pool| ==> out[i] == onRemoval(pool[|pool| - 1 - i])
    decreases |pool|
  {
    if |pool| == 0 then []
    else
      var r := Get(pool, onRemoval, pool[0]);
      var rest := Drain(r.1, onRemoval);
      assert forall j :: 0 <= j < |rest| ==> rest[j] == onRemoval(pool[|pool| - 2 - j]) by {
        forall j | 0 <= j < |rest|
          ensures rest[j] == onRemoval(pool[|pool| - 2 - j])
        {
          assert r.1[|r.1| - 1 - j] == (r.1 + [pool[|pool| - 1]])[|pool| - 2 - j];
        }
      }
      [r.0] + rest
  }

  /** Taking right after returning gives back the object just returned, as
      reset and then removed, and the pool as it was. */
  lemma GetAfterAdd<T>(pool: seq<T>, x: T, reset: T -> T, onRemoval: T -> T, made: T)
    ensures Get(Add(pool, x, reset), onRemoval, made) == (onRemoval(reset(x)), pool)
  {
    var p := Add(pool, x, reset);
    assert p[..|pool|] == pool;
  }

  /** Last in, first out: objects returned into an empty pool come back out
      in the reverse order. */
  lemma {:induction false} LastInFirstOut<T>(xs: seq<T>, reset: T -> T, onRemoval: T -> T)
    ensures var out := Drain(AddEach([], xs, reset), onRemoval);
      |out| == |xs| && forall i :: 0 <= i < |xs| ==> out[i] == onRemoval(reset(xs[|xs| - 1 - i]))
  {
    var p := AddEach([], xs, reset);
    var out := Drain(p, onRemoval);
    forall i | 0 <= i < |xs|
      ensures out[i] == onRemoval(reset(xs[|xs| - 1 - i]))
    {
      assert out[i] == onRemoval(p[|p| - 1 - i]);
      assert p[0 + (|xs| - 1 - i)] == reset(xs[|xs| - 1 - i]);
    }
  }
}

=== FILE: pathfinder.dfy ===
/** The pathfinder (Assets/Pathfinding/Pathfinder.cs): the node search
    FindPath and the region search FindRegionPath, both instances of the
    search in module AStar, the hierarchical combination GetPath with its
    post-processing, and the heuristic-weight selection. */
module Pathfinder {
  import opened Common
  import opened Directions
  import opened Cells
  import opened Edges
  import opened NodeGraph
  import opened Regions
  import opened AStar
  import opened Paths

  // ---------------------------------------------------------------------------
  // Heuristic weight.

  /** The weights the heuristic can be switched between: 0%, 100% and 200%. */
  const HeuristicWeights: seq<real> := [0.0, 1.0, 2.0]

  /** The selected entry of HeuristicWeights and the weight searches use. */
  datatype Heuristic = Heuristic(index: int, weight: real)

  /** A new pathfinder: entry 1, weight 1. */
  const InitialHeuristic: Heuristic := Heuristic(1, 1.0)

  /** The index is an entry and the weight is that entry's. */
  predicate Consistent(h: Heuristic) {
    0 <= h.index < |HeuristicWeights| && h.weight == HeuristicWeights[h.index]
  }

  /** AdjustHeuristicWeight: Mathf.Clamp of the weight into [0, 2]. */
  function AdjustHeuristicWeight(h: Heuristic, weight: real): (r: Heuristic)
    ensures r.index == h.index && 0.0 <= r.weight <= 2.0
    ensures 0.0 <= weight <= 2.0 ==> r.weight == weight
    ensures weight < 0.0 ==> r.weight == 0.0
    ensures weight > 2.0 ==> r.weight == 2.0
  {
    h.(weight := if weight < 0.0 then 0.0 else if weight > 2.0 then 2.0 else weight)
  }

  /** NextHeuristicWeight: the following entry, the first after the last. */
  function NextHeuristicWeight(h: Heuristic): (r: Heuristic)
    requires h.index >= -1
    ensures Consistent(r)
    ensures 0 <= h.index < |HeuristicWeights| ==> r.index == (h.index + 1) % 3
  {
    var i := h.index + 1;
    var i' := if i >= |HeuristicWeights| then 0 else i;
    AdjustHeuristicWeight(h.(index := i'), HeuristicWeights[i'])
  }

  /** PreviousHeuristicWeight: the preceding entry, the last before the first. */
  function PreviousHeuristicWeight(h: Heuristic): (r: Heuristic)
    requires h.index <= |HeuristicWeights|
    ensures Consistent(r)
    ensures 0 <= h.index < |HeuristicWeights| ==> r.index == (h.index + 2) % 3
  {
    var i := h.index - 1;
    var i' := if i < 0 then |HeuristicWeights| - 1 else i;
    AdjustHeuristicWeight(h.(index := i'), HeuristicWeights[i'])
  }

  /** SelectHeuristicWeight: entry `index`, whose weight is `index` itself. An
      index off the array is an IndexOutOfRangeException in the source. */
  function SelectHeuristicWeight(h: Heuristic, index: int): (r: Heuristic)
    requires 0 <= index < |HeuristicWeights|
    ensures Consistent(r) && r.index == index && r.weight == index as real
  {
    AdjustHeuristicWeight(h.(index := index), HeuristicWeights[index])
  }

  /** Stepping forward and back (or back and forward) returns to the same
      setting, and three steps either way go round once. */
  lemma HeuristicCycle(h: Heuristic)
    requires Consistent(h)
    ensures PreviousHeuristicWeight(NextHeuristicWeight(h)) == h
    ensures NextHeuristicWeight(PreviousHeuristicWeight(h)) == h
    ensures NextHeuristicWeight(NextHeuristicWeight(NextHeuristicWeight(h))) == h
    ensures PreviousHeuristicWeight(PreviousHeuristicWeight(PreviousHeuristicWeight(h))) == h
  {
  }

  // ---------------------------------------------------------------------------
  // The node search as an instance of the search in AStar.

  /** The node graph is consistent: every edge joins two distinct nodes, every
      edge a node lists touches it, and every parent edge a node remembers is
      an edge. */
  ghost predicate GraphOk(nodes: seq<Node>, edges: seq<Edge>) {
    && (forall k :: 0 <= k < |edges| ==>
          edges[k].nodeOne < |nodes| && edges[k].nodeTwo < |nodes| && edges[k].nodeOne != edges[k].nodeTwo)
    && (forall v, i :: 0 <= v < |nodes| && 0 <= i < |nodes[v].edges| ==>
          nodes[v].edges[i] < |edges| && Touches(edges[nodes[v].edges[i]], v))
    && ParentEdgesKnown(nodes, edges)
  }

  ghost predicate ParentEdgesKnown(nodes: seq<Node>, edges: seq<Edge>) {
    forall v :: 0 <= v < |nodes| && nodes[v].edgeOfParent.Some? ==> nodes[v].edgeOfParent.value < |edges|
  }

  /** Every node's cell is on the grid and belongs to a region. */
  ghost predicate RegionsKnown(cells: seq<Cell>, nodes: seq<Node>, regions: seq<Region>) {
    forall w :: 0 <= w < |nodes| ==> nodes[w].cell < |cells| && 0 <= cells[nodes[w].cell].regionId < |regions|
  }

  /** The region of node `w`'s cell. */
  function RegionOf(cells: seq<Cell>, nodes: seq<Node>, regions: seq<Region>, w: nat): nat
    requires RegionsKnown(cells, nodes, regions) && w < |nodes|
  {
    cells[nodes[w].cell].regionId
  }

  /** Leaving node `v` along edge `k`. */
  function EdgeArc(edges: seq<Edge>, v: nat, k: nat): Arc
    requires k < |edges| && Touches(edges[k], v)
  {
    var e := edges[k];
    Arc(k, OtherNode(e, v).value, e.cost, e.edgeType == Elevated, e.direction)
  }

  /** The arcs out of node `v`: one per edge on its list, in list order, each
      to the edge's other node. */
  function NodeArcs(nodes: seq<Node>, edges: seq<Edge>, v: nat): (arcs: seq<Arc>)
    requires GraphOk(nodes, edges) && v < |nodes|
    ensures forall a :: a in arcs ==> && a.id in nodes[v].edges && a.id < |edges|
                                      && Some(a.to) == OtherNode(edges[a.id], v) && a.to < |nodes| && a.to != v
  {
    seq(|nodes[v].edges|, i requires 0 <= i < |nodes[v].edges| => NodeArc(nodes, edges, v, i))
  }

  function NodeArc(nodes: seq<Node>, edges: seq<Edge>, v: nat, i: nat): Arc
    requires GraphOk(nodes, edges) && v < |nodes| && i < |nodes[v].edges|
  {
    EdgeArc(edges, v, nodes[v].edges[i])
  }

  /** The hierarchical filter: a plain search may enter every node, a
      hierarchical one only the nodes whose region is marked OnPath. */
  function Gate(cells: seq<Cell>, nodes: seq<Node>, regions: seq<Region>, hierarchical: bool): seq<bool>
    requires hierarchical ==> RegionsKnown(cells, nodes, regions)
  {
    seq(|nodes|, w requires 0 <= w < |nodes| =>
      !hierarchical || regions[RegionOf(cells, nodes, regions, w)].status == OnPath)
  }

  /** What GetPath is asked for besides the two end nodes. */
  datatype Options = Options(hierarchical: bool, jumping: bool, penalize: bool, smooth: bool, prune: bool)

  /** What the pathfinder reads and never changes: the cells (for their
      region ids), the edges and portals, and the stand-ins for
      Vector3.Distance, Mathf.Approximately and the edges' positions. */
  datatype Terrain = Terrain(
    cells: seq<Cell>,
    edges: seq<Edge>,
    portals: seq<Portal>,
    dist: (Vec3, Vec3) -> real,
    approx: (real, real) -> bool,
    edgePos: nat -> Vec3)

  /** FindPath's search: over nodes, along edges, penalising deviations when
      asked, behind the hierarchical filter when asked. */
  function NodeCtx(t: Terrain, nodes: seq<Node>, regions: seq<Region>, weight: real, o: Options,
                   start: nat, goal: nat): (ctx: Ctx)
    requires GraphOk(nodes, t.edges) && start < |nodes| && goal < |nodes|
    requires o.hierarchical ==> RegionsKnown(t.cells, nodes, regions)
    ensures WellFormed(ctx) && |ctx.arcs| == |nodes|
    ensures forall v, a :: 0 <= v < |ctx.arcs| && a in ctx.arcs[v] ==> a.id in nodes[v].edges && a.id < |t.edges|
  {
    Ctx(seq(|nodes|, v requires 0 <= v < |nodes| => NodeArcs(nodes, t.edges, v)),
        seq(|nodes|, v requires 0 <= v < |nodes| => nodes[v].position),
        t.dist, weight, Gate(t.cells, nodes, regions, o.hierarchical),
        o.jumping, o.penalize, start, goal)
  }

  /** A node's remembered parent edge as the search reads it: only its
      direction matters, for the deviation penalty. */
  function StaleVia(edges: seq<Edge>, n: Node, w: nat): Option<Arc>
    requires n.edgeOfParent.Some? ==> n.edgeOfParent.value < |edges|
  {
    match n.edgeOfParent
    case None => Option.None
    case Some(k) => Some(Arc(k, w, edges[k].cost, edges[k].edgeType == Elevated, edges[k].direction))
  }

  /** The search data the nodes hold, as marks. */
  function NodeMarks(nodes: seq<Node>, edges: seq<Edge>): seq<Mark>
    requires ParentEdgesKnown(nodes, edges)
  {
    seq(|nodes|, w requires 0 <= w < |nodes| =>
      Mark(nodes[w].status, nodes[w].g, nodes[w].h, nodes[w].f, nodes[w].parent, StaleVia(edges, nodes[w], w)))
  }

  /** The search leaves its data in the nodes; a node that got no new parent
      edge keeps its old one. */
  function WriteBackNodes(nodes: seq<Node>, m: seq<Mark>): seq<Node>
    requires |m| == |nodes|
  {
    seq(|nodes|, w requires 0 <= w < |nodes| =>
      nodes[w].(status := m[w].status, parent := m[w].parent, g := m[w].g, h := m[w].h, f := m[w].f,
                edgeOfParent := if m[w].via.Some? then Some(m[w].via.value.id) else nodes[w].edgeOfParent))
  }

  /** `n'` differs from `n` in its search data at most. */
  predicate SameNode(n: Node, n': Node) {
    n'.cell == n.cell && n'.position == n.position && n'.edges == n.edges
  }

  // ---------------------------------------------------------------------------
  // Paths of found routes.

  function NodeStop(nodes: seq<Node>, v: nat): PathPoint
    requires v < |nodes|
  {
    PathPoint(NodePoint, Some(v), Option.None, nodes[v].position)
  }

  function EdgeStop(edges: seq<Edge>, edgePos: nat -> Vec3, k: nat): PathPoint
    requires k < |edges|
  {
    PathPoint(EdgePoint, Option.None, Some(edges[k]), edgePos(k))
  }

  /** The nodes of a point list's node points, in order. */
  function NodesOn(ps: seq<PathPoint>): seq<nat> {
    if ps == [] then []
    else
      var p := ps[|ps| - 1];
      NodesOn(ps[..|ps| - 1]) + (if p.kind == NodePoint && p.node.Some? then [p.node.value] else [])
  }

  /** The edges of a point list's edge points, in order. */
  function EdgesOn(ps: seq<PathPoint>): seq<Edge> {
    if ps == [] then []
    else
      var p := ps[|ps| - 1];
      EdgesOn(ps[..|ps| - 1]) + (if p.kind == EdgePoint && p.edge.Some? then [p.edge.value] else [])
  }

  /** The edges along `links` that a path keeps a point for. */
  function KeptEdges(edges: seq<Edge>, links: seq<Arc>): seq<Edge>
    requires forall i :: 0 <= i < |links| ==> links[i].id < |edges|
  {
    if links == [] then []
    else
      var e := edges[links[|links| - 1].id];
      KeptEdges(edges, links[..|links| - 1])
      + (if e.edgeType == SlopeConnection || e.edgeType == Elevated then [e] else [])
  }

  lemma OnSnoc(ps: seq<PathPoint>, p: PathPoint)
    ensures NodesOn(ps + [p]) == NodesOn(ps) + (if p.kind == NodePoint && p.node.Some? then [p.node.value] else [])
    ensures EdgesOn(ps + [p]) == EdgesOn(ps) + (if p.kind == EdgePoint && p.edge.Some? then [p.edge.value] else [])
  {
    assert (ps + [p])[..|ps|] == ps;
  }

  /** The first `i` nodes of the trail and the edges between them are on `path`. */
  ghost predicate PathUpTo(nodes: seq<Node>, edges: seq<Edge>, tr: Trail, path: seq<PathPoint>, i: nat)
    requires i <= |tr.links| && |tr.links| < |tr.nodes|
    requires forall j :: 0 <= j < |tr.nodes| ==> tr.nodes[j] < |nodes|
    requires forall j :: 0 <= j < |tr.links| ==> tr.links[j].id < |edges|
  {
    && NodesOn(path) == tr.nodes[..i]
    && EdgesOn(path) == KeptEdges(edges, tr.links[..i])
    && (i > 0 ==> |path| >= 1 && path[0] == NodeStop(nodes, tr.nodes[0]))
    && (i == 0 ==> path == [])
  }

  /** Path construction: from the goal back to the start, each node followed
      by the edge to its parent (kept or dropped by AddPoint), then the start. */
  method TrailToPath(nodes: seq<Node>, edges: seq<Edge>, edgePos: nat -> Vec3, tr: Trail) returns (path: Path)
    requires |tr.nodes| >= 1 && |tr.links| == |tr.nodes| - 1
    requires forall i :: 0 <= i < |tr.nodes| ==> tr.nodes[i] < |nodes|
    requires forall i :: 0 <= i < |tr.links| ==> tr.links[i].id < |edges|
    ensures NodesOn(path) == tr.nodes
    ensures EdgesOn(path) == KeptEdges(edges, tr.links)
    ensures |path| >= 1
    ensures path[0] == NodeStop(nodes, tr.nodes[0])
    ensures path[|path| - 1] == NodeStop(nodes, tr.nodes[|tr.nodes| - 1])
  {
    path := [];
    var i := 0;
    while i < |tr.links|
      invariant 0 <= i <= |tr.links|
      invariant PathUpTo(nodes, edges, tr, path, i)
    {
      path := AddLink(nodes, edges, edgePos, tr, path, i);
      i := i + 1;
    }
    var p := NodeStop(nodes, tr.nodes[i]);
    OnSnoc(path, p);
    assert tr.nodes == tr.nodes[..i] + [tr.nodes[i]];
    assert tr.links[..i] == tr.links;
    path := AddPoint(path, p);
  }

  /** One turn of the construction: node `i`, then the edge to its parent. */
  method AddLink(nodes: seq<Node>, edges: seq<Edge>, edgePos: nat -> Vec3, tr: Trail, path: Path, i: nat)
    returns (path': Path)
    requires i < |tr.links| && |tr.links| < |tr.nodes|
    requires forall j :: 0 <= j < |tr.nodes| ==> tr.nodes[j] < |nodes|
    requires forall j :: 0 <= j < |tr.links| ==> tr.links[j].id < |edges|
    requires PathUpTo(nodes, edges, tr, path, i)
    ensures PathUpTo(nodes, edges, tr, path', i + 1)
  {
    var p := NodeStop(nodes, tr.nodes[i]);
    var q := EdgeStop(edges, edgePos, tr.links[i].id);
    path' := AddPoint(AddPoint(path, p), q);
    LinkStep(nodes, edges, edgePos, tr, path, i);
    if !Kept(q) {
      assert path + [p] + [] == path + [p];
    }
  }

  lemma LinkStep(nodes: seq<Node>, edges: seq<Edge>, edgePos: nat -> Vec3, tr: Trail, path: seq<PathPoint>, i: nat)
    requires i < |tr.links| && |tr.links| < |tr.nodes|
    requires forall j :: 0 <= j < |tr.nodes| ==> tr.nodes[j] < |nodes|
    requires forall j :: 0 <= j < |tr.links| ==> tr.links[j].id < |edges|
    requires PathUpTo(nodes, edges, tr, path, i)
    ensures var q := EdgeStop(edges, edgePos, tr.links[i].id);
            PathUpTo(nodes, edges, tr, path + [NodeStop(nodes, tr.nodes[i])] + (if Kept(q) then [q] else []), i + 1)
  {
    var p := NodeStop(nodes, tr.nodes[i]);
    var q := EdgeStop(edges, edgePos, tr.links[i].id);
    var path1 := path + [p];
    OnSnoc(path, p);
    assert tr.nodes[..i + 1] == tr.nodes[..i] + [tr.nodes[i]];
    assert tr.links[..i + 1][..i] == tr.links[..i];
    if Kept(q) {
      OnSnoc(path1, q);
    } else {
      assert path1 + [] == path1;
    }
  }

  // ---------------------------------------------------------------------------
  // FindPath.

  /** `tr` is a simple route of the node search from the start to the goal
      (goal first) along usable edges, and `path` runs from the goal's node
      point to the start's, listing the route's nodes and the route's
      SlopeConnection and Elevated edges, in order. */
  ghost predicate RouteFound(t: Terrain, nodes: seq<Node>, regions: seq<Region>, weight: real, o: Options,
                             start: nat, goal: nat, tr: Trail, path: seq<PathPoint>)
    requires GraphOk(nodes, t.edges) && start < |nodes| && goal < |nodes|
    requires o.hierarchical ==> RegionsKnown(t.cells, nodes, regions)
  {
    && IsTrail(NodeCtx(t, nodes, regions, weight, o, start, goal), tr) && Simple(tr)
    && (forall i :: 0 <= i < |tr.links| ==> tr.links[i].id < |t.edges|)
    && NodesOn(path) == tr.nodes && EdgesOn(path) == KeptEdges(t.edges, tr.links)
    && |path| >= 1 && path[0] == NodeStop(nodes, goal) && path[|path| - 1] == NodeStop(nodes, start)
  }

  /** No walk of the node search from the start along usable edges reaches the goal. */
  ghost predicate Unreachable(t: Terrain, nodes: seq<Node>, regions: seq<Region>, weight: real, o: Options,
                              start: nat, goal: nat)
    requires GraphOk(nodes, t.edges) && start < |nodes| && goal < |nodes|
    requires o.hierarchical ==> RegionsKnown(t.cells, nodes, regions)
  {
    forall walk :: IsWalk(NodeCtx(t, nodes, regions, weight, o, start, goal), walk) ==> walk[|walk| - 1] != goal
  }

  /** FindPath: reset every node, search from `start` to `goal`, and on success
      build the path from the goal back to the start, leaving the route's
      parents and parent edges in its nodes; no path means the goal is
      unreachable. A hierarchical search never enters a node outside the
      regions marked OnPath. Nodes change only in their search data. */
  method FindPath(t: Terrain, nodes: seq<Node>, regions: seq<Region>, weight: real, o: Options,
                  start: nat, goal: nat)
    returns (path: Option<Path>, nodes': seq<Node>, ghost tr: Trail)
    requires GraphOk(nodes, t.edges) && start < |nodes| && goal < |nodes|
    requires o.hierarchical ==> RegionsKnown(t.cells, nodes, regions)
    ensures |nodes'| == |nodes| && forall w :: 0 <= w < |nodes| ==> SameNode(nodes[w], nodes'[w])
    ensures path.Some? ==> RouteFound(t, nodes, regions, weight, o, start, goal, tr, path.value)
    ensures path.Some? ==> forall i :: 0 <= i < |tr.links| ==>
              nodes'[tr.nodes[i]].parent == Some(tr.nodes[i + 1]) && nodes'[tr.nodes[i]].edgeOfParent == Some(tr.links[i].id)
    ensures path.None? ==> Unreachable(t, nodes, regions, weight, o, start, goal)
    ensures forall w :: 0 <= w < |nodes'| && w != start && !Gate(t.cells, nodes, regions, o.hierarchical)[w] ==>
              nodes'[w].status == Unvisited
  {
    var m0 := ResetNodes(nodes, t.edges);
    var ctx := NodeCtx(t, nodes, regions, weight, o, start, goal);
    var r, m := Search(ctx, m0);
    nodes' := WriteBackNodes(nodes, m);
    WrittenBack(nodes, m);
    if r.None? {
      return Option.None, nodes', Trail([], []);
    }
    tr := r.value;
    ParentsWritten(nodes, m, tr);
    var p := FoundPath(nodes, t.edges, t.edgePos, ctx, r.value);
    RouteFoundIntro(t, nodes, regions, weight, o, start, goal, tr, p);
    path := Some(p);
  }

  /** The path of a found route runs from the goal's node point to the start's. */
  method FoundPath(nodes: seq<Node>, edges: seq<Edge>, edgePos: nat -> Vec3, ctx: Ctx, tr: Trail) returns (p: Path)
    requires WellFormed(ctx) && |ctx.arcs| == |nodes| && IsTrail(ctx, tr)
    requires forall v, a :: 0 <= v < |ctx.arcs| && a in ctx.arcs[v] ==> a.id < |edges|
    ensures forall i :: 0 <= i < |tr.links| ==> tr.links[i].id < |edges|
    ensures NodesOn(p) == tr.nodes && EdgesOn(p) == KeptEdges(edges, tr.links)
    ensures |p| >= 1 && p[0] == NodeStop(nodes, ctx.goal) && p[|p| - 1] == NodeStop(nodes, ctx.start)
  {
    assert forall i :: 0 <= i < |tr.links| ==> tr.links[i] in ctx.arcs[tr.nodes[i + 1]];
    p := TrailToPath(nodes, edges, edgePos, tr);
  }

  lemma RouteFoundIntro(t: Terrain, nodes: seq<Node>, regions: seq<Region>, weight: real, o: Options,
                        start: nat, goal: nat, tr: Trail, p: seq<PathPoint>)
    requires GraphOk(nodes, t.edges) && start < |nodes| && goal < |nodes|
    requires o.hierarchical ==> RegionsKnown(t.cells, nodes, regions)
    requires IsTrail(NodeCtx(t, nodes, regions, weight, o, start, goal), tr) && Simple(tr)
    requires forall i :: 0 <= i < |tr.links| ==> tr.links[i].id < |t.edges|
    requires NodesOn(p) == tr.nodes && EdgesOn(p) == KeptEdges(t.edges, tr.links)
    requires |p| >= 1 && p[0] == NodeStop(nodes, goal) && p[|p| - 1] == NodeStop(nodes, start)
    ensures RouteFound(t, nodes, regions, weight, o, start, goal, tr, p)
  {
  }

  /** The route's parents and parent edges are left in its nodes. */
  lemma ParentsWritten(nodes: seq<Node>, m: seq<Mark>, tr: Trail)
    requires |m| == |nodes| && |tr.links| < |tr.nodes|
    requires forall i :: 0 <= i < |tr.nodes| ==> tr.nodes[i] < |nodes|
    requires forall i :: 0 <= i < |tr.links| ==>
               m[tr.nodes[i]].parent == Some(tr.nodes[i + 1]) && m[tr.nodes[i]].via == Some(tr.links[i])
    ensures var r := WriteBackNodes(nodes, m);
            forall i :: 0 <= i < |tr.links| ==>
              r[tr.nodes[i]].parent == Some(tr.nodes[i + 1]) && r[tr.nodes[i]].edgeOfParent == Some(tr.links[i].id)
  {
  }

  /** The Reset step: every node's search data reset, its parent edge kept. */
  method ResetNodes(nodes: seq<Node>, edges: seq<Edge>) returns (m0: seq<Mark>)
    requires ParentEdgesKnown(nodes, edges)
    ensures |m0| == |nodes|
    ensures forall w :: 0 <= w < |nodes| ==>
              m0[w] == Mark(Unvisited, Inf, Inf, Inf, Option.None, StaleVia(edges, nodes[w], w))
  {
    var reset := NodeGraph.ResetAllSearchData(nodes);
    assert forall w :: 0 <= w < |nodes| ==> reset[w].edgeOfParent == nodes[w].edgeOfParent;
    m0 := NodeMarks(reset, edges);
  }

  lemma WrittenBack(nodes: seq<Node>, m: seq<Mark>)
    requires |m| == |nodes|
    ensures var r := WriteBackNodes(nodes, m);
            && |r| == |nodes|
            && (forall w :: 0 <= w < |nodes| ==> SameNode(nodes[w], r[w]) && r[w].status == m[w].status)
            && (forall w :: 0 <= w < |nodes| && m[w].via.Some? ==> r[w].parent == m[w].parent && r[w].edgeOfParent == Some(m[w].via.value.id))
  {
  }

  // ---------------------------------------------------------------------------
  // FindRegionPath.

  /** Every portal joins two distinct regions, and every portal a region lists
      has that region as an end. */
  ghost predicate PortalsOk(regions: seq<Region>, portals: seq<Portal>) {
    && (forall i :: 0 <= i < |portals| ==>
          portals[i].one < |regions| && portals[i].two < |regions| && portals[i].one != portals[i].two)
    && (forall x, j :: 0 <= x < |regions| && 0 <= j < |regions[x].portals| ==>
          regions[x].portals[j] < |portals| && (portals[regions[x].portals[j]].one == x || portals[regions[x].portals[j]].two == x))
  }

  /** Leaving region `x` through its `j`-th portal. Region arcs carry no
      direction: the region search never penalises deviations. */
  function PortalArc(regions: seq<Region>, portals: seq<Portal>, x: nat, j: nat): Arc
    requires PortalsOk(regions, portals) && x < |regions| && j < |regions[x].portals|
  {
    var i := regions[x].portals[j];
    Arc(i, OtherRegion(portals[i], x).value, portals[i].cost, portals[i].edgeType == Elevated, NoDirection)
  }

  /** The arcs out of region `x`: one per portal on its list, in list order,
      each to the portal's other region. */
  function RegionArcs(regions: seq<Region>, portals: seq<Portal>, x: nat): (arcs: seq<Arc>)
    requires PortalsOk(regions, portals) && x < |regions|
    ensures forall a :: a in arcs ==> && a.id in regions[x].portals && a.id < |portals|
                                      && Some(a.to) == OtherRegion(portals[a.id], x) && a.to < |regions| && a.to != x
  {
    seq(|regions[x].portals|, j requires 0 <= j < |regions[x].portals| => PortalArc(regions, portals, x, j))
  }

  /** FindRegionPath's search: over regions, through portals, from centre to
      centre, with no filter and no deviation penalty. */
  function RegionCtx(regions: seq<Region>, portals: seq<Portal>, dist: (Vec3, Vec3) -> real, weight: real,
                     jumping: bool, start: nat, goal: nat): (ctx: Ctx)
    requires PortalsOk(regions, portals) && start < |regions| && goal < |regions|
    ensures WellFormed(ctx) && |ctx.arcs| == |regions|
    ensures forall x, a :: 0 <= x < |ctx.arcs| && a in ctx.arcs[x] ==> a.id < |portals|
  {
    Ctx(seq(|regions|, x requires 0 <= x < |regions| => RegionArcs(regions, portals, x)),
        seq(|regions|, x requires 0 <= x < |regions| => regions[x].center),
        dist, weight, seq(|regions|, _ => true), jumping, false, start, goal)
  }

  /** RegionManager.ResetAllSearchData: every region reset. */
  function ResetAllRegions(regions: seq<Region>): (r: seq<Region>)
    ensures |r| == |regions|
    ensures forall x :: 0 <= x < |r| ==> Regions.IsReset(r[x]) && SameRegion(regions[x], r[x])
    ensures forall x :: 0 <= x < |r| ==> r[x].portalOfParent == regions[x].portalOfParent
  {
    seq(|regions|, x requires 0 <= x < |regions| => Regions.ResetSearchData(regions[x]))
  }

  /** `r'` differs from `r` in its search data at most. */
  predicate SameRegion(r: Region, r': Region) {
    && r'.id == r.id && r'.qualifier == r.qualifier && r'.cells == r.cells && r'.bottomLeft == r.bottomLeft
    && r'.center == r.center && r'.top == r.top && r'.right == r.right && r'.portals == r.portals
  }

  function RegionMarks(regions: seq<Region>): seq<Mark> {
    seq(|regions|, x requires 0 <= x < |regions| =>
      Mark(regions[x].status, regions[x].g, regions[x].h, regions[x].f, regions[x].parent, Option.None))
  }

  /** The search data left in the regions, with the regions of the found
      route marked OnPath. */
  function WriteBackRegions(regions: seq<Region>, m: seq<Mark>, route: seq<nat>): seq<Region>
    requires |m| == |regions|
  {
    seq(|regions|, x requires 0 <= x < |regions| =>
      regions[x].(status := if x in route then OnPath else m[x].status,
                  parent := m[x].parent, g := m[x].g, h := m[x].h, f := m[x].f,
                  portalOfParent := if m[x].via.Some? then Some(m[x].via.value.id) else regions[x].portalOfParent))
  }

  /** FindRegionPath: reset every region and search from `start` to `goal`.
      A result is a simple route of usable portals; no result means no walk
      through usable portals reaches the goal. Afterwards a region is marked
      OnPath exactly when it is on the route. */
  method FindRegionPath(regions: seq<Region>, portals: seq<Portal>, dist: (Vec3, Vec3) -> real, weight: real,
                        jumping: bool, start: nat, goal: nat)
    returns (route: Option<Trail>, regions': seq<Region>)
    requires PortalsOk(regions, portals) && start < |regions| && goal < |regions|
    ensures |regions'| == |regions| && forall x :: 0 <= x < |regions| ==> SameRegion(regions[x], regions'[x])
    ensures route.Some? ==> IsTrail(RegionCtx(regions, portals, dist, weight, jumping, start, goal), route.value)
                            && Simple(route.value)
    ensures route.None? ==> forall walk :: IsWalk(RegionCtx(regions, portals, dist, weight, jumping, start, goal), walk) ==>
              walk[|walk| - 1] != goal
    ensures forall x :: 0 <= x < |regions'| ==> (regions'[x].status == OnPath <==> route.Some? && x in route.value.nodes)
    ensures route.Some? ==> forall i :: 0 <= i < |route.value.links| ==>
              && regions'[route.value.nodes[i]].parent == Some(route.value.nodes[i + 1])
              && regions'[route.value.nodes[i]].portalOfParent == Some(route.value.links[i].id)
  {
    var reset := ResetAllRegions(regions);
    var ctx := RegionCtx(regions, portals, dist, weight, jumping, start, goal);
    var m;
    route, m := Search(ctx, RegionMarks(reset));
    var onRoute := if route.Some? then route.value.nodes else [];
    regions' := WriteBackRegions(reset, m, onRoute);
    if route.Some? {
      RegionParentsWritten(reset, m, route.value);
    }
  }

  lemma RegionParentsWritten(regions: seq<Region>, m: seq<Mark>, tr: Trail)
    requires |m| == |regions| && |tr.links| < |tr.nodes|
    requires forall i :: 0 <= i < |tr.nodes| ==> tr.nodes[i] < |regions|
    requires forall i :: 0 <= i < |tr.links| ==>
               m[tr.nodes[i]].parent == Some(tr.nodes[i + 1]) && m[tr.nodes[i]].via == Some(tr.links[i])
    ensures var r := WriteBackRegions(regions, m, tr.nodes);
            forall i :: 0 <= i < |tr.links| ==>
              r[tr.nodes[i]].parent == Some(tr.nodes[i + 1]) && r[tr.nodes[i]].portalOfParent == Some(tr.links[i].id)
  {
  }

  // ---------------------------------------------------------------------------
  // GetPath.

  /** Smoothing and then collinear-point removal, each when asked. */
  ghost function PostProcessed(path: seq<PathPoint>, o: Options, dist: (Vec3, Vec3) -> real,
                               approx: (real, real) -> bool): seq<PathPoint> {
    var s := if o.smooth then Smoothed(path, PositionOf, CurveAt) else path;
    if o.prune then Reduced(s, PositionOf, dist, approx) else s
  }

  /** The post-processing of a found path: smoothing first, pruning second.
      Neither moves the path's two ends. */
  method PostProcess(path: Path, o: Options, dist: (Vec3, Vec3) -> real, approx: (real, real) -> bool)
    returns (r: Path)
    requires |path| >= 1
    ensures r == PostProcessed(path, o, dist, approx)
    ensures |r| >= 1 && r[0] == path[0] && r[|r| - 1] == path[|path| - 1]
  {
    r := path;
    if o.smooth {
      r := SmoothPath(r);
    }
    if o.prune {
      r := RemoveCollinearPath(r, dist, approx);
    }
  }

  /** A hierarchical search only enters nodes of regions on the region route. */
  lemma StaysOnRegionRoute(t: Terrain, nodes: seq<Node>, regions': seq<Region>, weight: real, o: Options,
                           start: nat, goal: nat, tr: Trail, route: Option<Trail>)
    requires GraphOk(nodes, t.edges) && start < |nodes| && goal < |nodes|
    requires o.hierarchical && RegionsKnown(t.cells, nodes, regions')
    requires IsTrail(NodeCtx(t, nodes, regions', weight, o, start, goal), tr)
    requires forall x :: 0 <= x < |regions'| ==> (regions'[x].status == OnPath <==> route.Some? && x in route.value.nodes)
    ensures forall i :: 0 <= i < |tr.nodes| - 1 ==>
              route.Some? && RegionOf(t.cells, nodes, regions', tr.nodes[i]) in route.value.nodes
  {
    var ctx := NodeCtx(t, nodes, regions', weight, o, start, goal);
    forall i | 0 <= i < |tr.nodes| - 1
      ensures route.Some? && RegionOf(t.cells, nodes, regions', tr.nodes[i]) in route.value.nodes
    {
      assert Usable(ctx, tr.links[i]);
    }
  }

  /** GetPath: a region search first when hierarchical (its route is not
      returned, only its OnPath marks are used), then the node search, then
      smoothing and pruning of a found path. The result runs from the goal's
      node point to the start's; without a hierarchical search the regions
      are left alone; with one, every node of the route but the start lies in
      a region of the region route. */
  method GetPath(t: Terrain, nodes: seq<Node>, regions: seq<Region>, weight: real, o: Options,
                 start: nat, goal: nat)
    returns (path: Option<Path>, nodes': seq<Node>, regions': seq<Region>,
             ghost raw: Option<Path>, ghost tr: Trail, ghost route: Option<Trail>)
    requires GraphOk(nodes, t.edges) && start < |nodes| && goal < |nodes|
    requires o.hierarchical ==> RegionsKnown(t.cells, nodes, regions) && PortalsOk(regions, t.portals)
    ensures !o.hierarchical ==> regions' == regions && route.None?
    ensures |regions'| == |regions| && forall x :: 0 <= x < |regions| ==> SameRegion(regions[x], regions'[x])
    ensures |nodes'| == |nodes| && forall w :: 0 <= w < |nodes| ==> SameNode(nodes[w], nodes'[w])
    ensures o.hierarchical ==> RegionsKnown(t.cells, nodes, regions')
    ensures path.Some? <==> raw.Some?
    ensures raw.Some? ==> RouteFound(t, nodes, regions', weight, o, start, goal, tr, raw.value)
    ensures raw.None? ==> Unreachable(t, nodes, regions', weight, o, start, goal)
    ensures path.Some? ==> path.value == PostProcessed(raw.value, o, t.dist, t.approx)
    ensures path.Some? ==> && |path.value| >= 1 && path.value[0] == NodeStop(nodes, goal)
                           && path.value[|path.value| - 1] == NodeStop(nodes, start)
    ensures o.hierarchical && raw.Some? ==> forall i :: 0 <= i < |tr.nodes| - 1 ==>
              route.Some? && RegionOf(t.cells, nodes, regions', tr.nodes[i]) in route.value.nodes
  {
    regions', route := RegionStage(t, nodes, regions, weight, o, start, goal);
    path, nodes', raw, tr := NodeStage(t, nodes, regions', weight, o, start, goal, route);
  }

  /** The region search of GetPath: only when hierarchical. Afterwards a
      region is marked OnPath exactly when it is on the region route. */
  method RegionStage(t: Terrain, nodes: seq<Node>, regions: seq<Region>, weight: real, o: Options,
                     start: nat, goal: nat)
    returns (regions': seq<Region>, ghost route: Option<Trail>)
    requires start < |nodes| && goal < |nodes|
    requires o.hierarchical ==> RegionsKnown(t.cells, nodes, regions) && PortalsOk(regions, t.portals)
    ensures !o.hierarchical ==> regions' == regions && route.None?
    ensures |regions'| == |regions| && forall x :: 0 <= x < |regions| ==> SameRegion(regions[x], regions'[x])
    ensures o.hierarchical ==> RegionsKnown(t.cells, nodes, regions')
    ensures o.hierarchical ==> forall x :: 0 <= x < |regions'| ==>
              (regions'[x].status == OnPath <==> route.Some? && x in route.value.nodes)
  {
    regions' := regions;
    route := Option.None;
    if o.hierarchical {
      var found;
      found, regions' := FindRegionPath(regions, t.portals, t.dist, weight, o.jumping,
                                        RegionOf(t.cells, nodes, regions, start), RegionOf(t.cells, nodes, regions, goal));
      route := found;
    }
  }

  /** The node search of GetPath and the post-processing of its result. */
  method NodeStage(t: Terrain, nodes: seq<Node>, regions': seq<Region>, weight: real, o: Options,
                   start: nat, goal: nat, ghost route: Option<Trail>)
    returns (path: Option<Path>, nodes': seq<Node>, ghost raw: Option<Path>, ghost tr: Trail)
    requires GraphOk(nodes, t.edges) && start < |nodes| && goal < |nodes|
    requires o.hierarchical ==> RegionsKnown(t.cells, nodes, regions')
    requires o.hierarchical ==> forall x :: 0 <= x < |regions'| ==>
               (regions'[x].status == OnPath <==> route.Some? && x in route.value.nodes)
    ensures |nodes'| == |nodes| && forall w :: 0 <= w < |nodes| ==> SameNode(nodes[w], nodes'[w])
    ensures path.Some? <==> raw.Some?
    ensures raw.Some? ==> RouteFound(t, nodes, regions', weight, o, start, goal, tr, raw.value)
    ensures raw.None? ==> Unreachable(t, nodes, regions', weight, o, start, goal)
    ensures path.Some? ==> path.value == PostProcessed(raw.value, o, t.dist, t.approx)
    ensures path.Some? ==> && |path.value| >= 1 && path.value[0] == NodeStop(nodes, goal)
                           && path.value[|path.value| - 1] == NodeStop(nodes, start)
    ensures o.hierarchical && raw.Some? ==> forall i :: 0 <= i < |tr.nodes| - 1 ==>
              route.Some? && RegionOf(t.cells, nodes, regions', tr.nodes[i]) in route.value.nodes
  {
    var p;
    p, nodes', tr := FindPath(t, nodes, regions', weight, o, start, goal);
    raw := p;
    if o.hierarchical && p.Some? {
      StaysOnRegionRoute(t, nodes, regions', weight, o, start, goal, tr, route);
    }
    path := Finish(p, o, t.dist, t.approx, NodeStop(nodes, goal), NodeStop(nodes, start));
  }

  /** Post-processing of FindPath's result, when there is one. */
  method Finish(p: Option<Path>, o: Options, dist: (Vec3, Vec3) -> real, approx: (real, real) -> bool,
                ghost first: PathPoint, ghost last: PathPoint)
    returns (path: Option<Path>)
    requires p.Some? ==> |p.value| >= 1 && p.value[0] == first && p.value[|p.value| - 1] == last
    ensures path.Some? <==> p.Some?
    ensures path.Some? ==> && path.value == PostProcessed(p.value, o, dist, approx)
                           && |path.value| >= 1 && path.value[0] == first && path.value[|path.value| - 1] == last
  {
    if p.Some? {
      var q := PostProcess(p.value, o, dist, approx);
      path := Some(q);
    } else {
      path := Option.None;
    }
  }
}

=== FILE: paths.dfy ===
/** Paths and their post-processing: the point list a search produces
    (Assets/Pathfinding/Path.cs), Catmull-Rom smoothing and collinear-point
    removal, both as the pathfinder applies them to paths
    (Assets/Pathfinding/Pathfinder.cs) and as the stand-alone utility applies
    them to chains of positions (Assets/Utilities/PolygonalChainPostProcessing.cs).
    The two copies of each algorithm are written out separately, as the
    sources do, and both are shown equal to one reference definition. */
module Paths {
  import opened Common
  import opened Directions
  import opened Edges

  // ---------------------------------------------------------------------------
  // Path points.

  datatype PointKind = NodePoint | EdgePoint | CurvePoint

  /** A point of a path: a node, the edge between two nodes, or a point the
      smoothing added. `node` and `edge` are the references the source keeps. */
  datatype PathPoint = PathPoint(kind: PointKind, node: Option<nat>, edge: Option<Edge>, position: Vec3)

  /** An edge point must carry its edge: AddPoint reads its type unguarded. */
  predicate Addable(p: PathPoint) {
    p.kind == EdgePoint ==> p.edge.Some?
  }

  /** The points AddPoint keeps: all node and curve points, and the edge
      points of SlopeConnection and Elevated edges. */
  predicate Kept(p: PathPoint) {
    p.kind != EdgePoint || (p.edge.Some? && (p.edge.value.edgeType == SlopeConnection || p.edge.value.edgeType == Elevated))
  }

  predicate Filtered(ps: seq<PathPoint>) {
    forall i :: 0 <= i < |ps| ==> Kept(ps[i])
  }

  /** A path is only ever grown by AddPoint, so every point on it passed the filter. */
  type Path = ps: seq<PathPoint> | Filtered(ps)

  /** AddPoint: appends the point unless it is an edge point of an edge that
      is neither a slope connection nor elevated. */
  function AddPoint(path: Path, p: PathPoint): (r: Path)
    requires Addable(p)
    ensures Kept(p) ==> r == path + [p]
    ensures !Kept(p) ==> r == path
  {
    if p.kind == EdgePoint then
      if p.edge.value.edgeType == SlopeConnection || p.edge.value.edgeType == Elevated then path + [p] else path
    else path + [p]
  }

  /** AddPoint never disturbs the points already on the path and grows it by
      at most one; a node or curve point is always added. */
  lemma AddPointAppendOnly(path: Path, p: PathPoint)
    requires Addable(p)
    ensures var r := AddPoint(path, p); |path| <= |r| <= |path| + 1 && r[..|path|] == path
    ensures p.kind != EdgePoint ==> AddPoint(path, p) == path + [p]
    ensures p.kind == EdgePoint && p.edge.value.edgeType !in {SlopeConnection, Elevated} ==> AddPoint(path, p) == path
  {
    var r := AddPoint(path, p);
    assert r[..|path|] == path;
  }

  function CurveAt(v: Vec3): PathPoint {
    PathPoint(CurvePoint, Option.None, Option.None, v)
  }

  function PositionOf(p: PathPoint): Vec3 {
    p.position
  }

  function Id(v: Vec3): Vec3 {
    v
  }

  // ---------------------------------------------------------------------------
  // Catmull-Rom smoothing: the reference definition.

  /** The blending weights at u = 0.25 and u = 0.5 (those at 0.75 are the
      ones at 0.25 reversed). */
  const v07: real := -0.0703125
  const v86: real := 0.8671875
  const v22: real := 0.2265625
  const v02: real := -0.0234375
  const v06: real := -0.0625
  const v56: real := 0.5625

  datatype Weights = Weights(a: real, b: real, c: real, d: real)

  const Quarter: Weights := Weights(v07, v86, v22, v02)
  const Half: Weights := Weights(v06, v56, v56, v06)
  const ThreeQuarters: Weights := Weights(v02, v22, v86, v07)

  /** The weights of the j-th curve point of a segment, j in 1..3. */
  function WeightsAt(j: int): Weights
    requires 1 <= j <= 3
  {
    if j == 1 then Quarter else if j == 2 then Half else ThreeQuarters
  }

  /** Every weight set sums to one, so a blend is an affine combination; the
      weights at 0.75 are those at 0.25 reversed, and those at 0.5 are symmetric. */
  lemma WeightsSumToOne(j: int)
    requires 1 <= j <= 3
    ensures WeightsAt(j).a + WeightsAt(j).b + WeightsAt(j).c + WeightsAt(j).d == 1.0
    ensures WeightsAt(4 - j) == Weights(WeightsAt(j).d, WeightsAt(j).c, WeightsAt(j).b, WeightsAt(j).a)
  {
  }

  /** `a * w.a + b * w.b + c * w.c + d * w.d`, summed left to right as C# does. */
  function Blend(a: Vec3, b: Vec3, c: Vec3, d: Vec3, w: Weights): Vec3 {
    Add(Add(Add(Scale(a, w.a), Scale(b, w.b)), Scale(c, w.c)), Scale(d, w.d))
  }

  datatype Quad = Quad(a: Vec3, b: Vec3, c: Vec3, d: Vec3)

  /** The four control points of segment k (from point k to point k + 1):
      its neighbours on either side, repeating an end point past the ends. */
  function Controls<T>(pts: seq<T>, pos: T -> Vec3, k: nat): Quad
    requires k + 1 < |pts|
  {
    Quad(pos(pts[if k == 0 then 0 else k - 1]), pos(pts[k]), pos(pts[k + 1]),
         pos(pts[if k + 2 < |pts| then k + 2 else |pts| - 1]))
  }

  function CurvePointOf<T>(pts: seq<T>, pos: T -> Vec3, k: nat, j: int): Vec3
    requires k + 1 < |pts| && 1 <= j <= 3
  {
    var q := Controls(pts, pos, k);
    Blend(q.a, q.b, q.c, q.d, WeightsAt(j))
  }

  /** The curve points of every segment, as one generator: `c(k, j)` is
      curve point j of segment k. */
  function Curves<T>(pts: seq<T>, pos: T -> Vec3, curve: Vec3 -> T): (nat, nat) -> T
    requires |pts| >= 1
  {
    (k: nat, j: nat) => if k + 1 < |pts| && 1 <= j <= 3 then curve(CurvePointOf(pts, pos, k, j)) else pts[0]
  }

  /** The first k segments, each point k followed by its three curve points. */
  function Interleave<T>(pts: seq<T>, c: (nat, nat) -> T, k: nat): (r: seq<T>)
    requires k <= |pts|
    ensures |r| == 4 * k
  {
    if k == 0 then [] else Interleave(pts, c, k - 1) + [pts[k - 1], c(k - 1, 1), c(k - 1, 2), c(k - 1, 3)]
  }

  /** The smoothed point list: every segment, then the last point. Fewer
      than three points are left as they are. */
  function Smoothed<T>(pts: seq<T>, pos: T -> Vec3, curve: Vec3 -> T): seq<T> {
    if |pts| < 3 then pts else Interleave(pts, Curves(pts, pos, curve), |pts| - 1) + [pts[|pts| - 1]]
  }

  lemma {:induction false} InterleaveAt<T>(pts: seq<T>, c: (nat, nat) -> T, k: nat, s: nat, j: nat)
    requires k <= |pts| && s < k && j < 4
    ensures Interleave(pts, c, k)[4 * s + j] == if j == 0 then pts[s] else c(s, j)
    decreases k
  {
    if s < k - 1 {
      InterleaveAt(pts, c, k - 1, s, j);
    }
  }

  /** The element of the smoothed list at any index: original point i at
      index 4i, and curve point j of segment k at index 4k + j. */
  lemma SmoothedAt<T>(pts: seq<T>, pos: T -> Vec3, curve: Vec3 -> T, i: nat)
    requires |pts| >= 3 && i < 4 * |pts| - 3
    ensures |Smoothed(pts, pos, curve)| == 4 * |pts| - 3
    ensures i % 4 == 0 ==> Smoothed(pts, pos, curve)[i] == pts[i / 4]
    ensures i % 4 != 0 ==> i / 4 + 1 < |pts| && Smoothed(pts, pos, curve)[i] == curve(CurvePointOf(pts, pos, i / 4, i % 4))
  {
    var n := |pts|;
    if i < 4 * (n - 1) {
      InterleaveAt(pts, Curves(pts, pos, curve), n - 1, i / 4, i % 4);
    }
  }

  /** The index structure of a smoothed list of n >= 3 points: 4n - 3 points,
      original point i at index 4i, and between points k and k + 1 the three
      curve points of segment k. */
  lemma SmoothedShape<T>(pts: seq<T>, pos: T -> Vec3, curve: Vec3 -> T)
    requires |pts| >= 3
    ensures |Smoothed(pts, pos, curve)| == 4 * |pts| - 3
    ensures forall i :: 0 <= i < |pts| ==> Smoothed(pts, pos, curve)[4 * i] == pts[i]
    ensures forall k, j :: 0 <= k < |pts| - 1 && 1 <= j <= 3 ==>
              Smoothed(pts, pos, curve)[4 * k + j] == curve(CurvePointOf(pts, pos, k, j))
  {
    SmoothedAt(pts, pos, curve, 0);
    SmoothedAnchors(pts, pos, curve);
    SmoothedCurves(pts, pos, curve);
  }

  lemma SmoothedAnchors<T>(pts: seq<T>, pos: T -> Vec3, curve: Vec3 -> T)
    requires |pts| >= 3
    ensures |Smoothed(pts, pos, curve)| == 4 * |pts| - 3
    ensures forall i :: 0 <= i < |pts| ==> Smoothed(pts, pos, curve)[4 * i] == pts[i]
  {
    SmoothedAt(pts, pos, curve, 0);
    forall i | 0 <= i < |pts|
      ensures Smoothed(pts, pos, curve)[4 * i] == pts[i]
    {
      SmoothedAt(pts, pos, curve, 4 * i);
    }
  }

  lemma SmoothedCurves<T>(pts: seq<T>, pos: T -> Vec3, curve: Vec3 -> T)
    requires |pts| >= 3
    ensures |Smoothed(pts, pos, curve)| == 4 * |pts| - 3
    ensures forall k, j :: 0 <= k < |pts| - 1 && 1 <= j <= 3 ==>
              Smoothed(pts, pos, curve)[4 * k + j] == curve(CurvePointOf(pts, pos, k, j))
  {
    SmoothedAt(pts, pos, curve, 0);
    forall k, j | 0 <= k < |pts| - 1 && 1 <= j <= 3
      ensures Smoothed(pts, pos, curve)[4 * k + j] == curve(CurvePointOf(pts, pos, k, j))
    {
      SmoothedCurveAt(pts, pos, curve, k, j);
    }
  }

  lemma SmoothedCurveAt<T>(pts: seq<T>, pos: T -> Vec3, curve: Vec3 -> T, k: nat, j: int)
    requires |pts| >= 3 && k < |pts| - 1 && 1 <= j <= 3
    ensures 4 * k + j < |Smoothed(pts, pos, curve)| && Smoothed(pts, pos, curve)[4 * k + j] == curve(CurvePointOf(pts, pos, k, j))
  {
    SmoothedAt(pts, pos, curve, 4 * k + j);
    assert (4 * k + j) / 4 == k && (4 * k + j) % 4 == j;
  }

  function Reverse<T>(s: seq<T>): (r: seq<T>)
    ensures |r| == |s|
  {
    seq(|s|, i requires 0 <= i < |s| => s[|s| - 1 - i])
  }

  /** Blending the control points in reverse order with the reversed weights
      gives the same point. */
  lemma BlendReversed(q: Quad, j: int)
    requires 1 <= j <= 3
    ensures Blend(q.a, q.b, q.c, q.d, WeightsAt(j)) == Blend(q.d, q.c, q.b, q.a, WeightsAt(4 - j))
  {
  }

  /** The curve point j of segment k, read from the reversed list, is the
      curve point 4 - j of the mirrored segment. */
  lemma CurvePointReversed<T>(pts: seq<T>, pos: T -> Vec3, k: nat, j: int)
    requires k + 1 < |pts| && 1 <= j <= 3
    ensures CurvePointOf(Reverse(pts), pos, k, j) == CurvePointOf(pts, pos, |pts| - 2 - k, 4 - j)
  {
    var q := Controls(pts, pos, |pts| - 2 - k);
    assert Controls(Reverse(pts), pos, k) == Quad(q.d, q.c, q.b, q.a);
    BlendReversed(q, 4 - j);
  }

  /** Smoothing does not depend on the direction of travel: smoothing the
      reversed list gives the smoothed list reversed. */
  lemma SmoothReversal<T>(pts: seq<T>, pos: T -> Vec3, curve: Vec3 -> T)
    ensures Smoothed(Reverse(pts), pos, curve) == Reverse(Smoothed(pts, pos, curve))
  {
    var n := |pts|;
    if n >= 3 {
      var s := Smoothed(pts, pos, curve);
      var r := Smoothed(Reverse(pts), pos, curve);
      SmoothedAt(pts, pos, curve, 0);
      SmoothedAt(Reverse(pts), pos, curve, 0);
      forall i | 0 <= i < |r|
        ensures r[i] == Reverse(s)[i]
      {
        ReversedAt(pts, pos, curve, i);
      }
    }
  }

  lemma ReversedAt<T>(pts: seq<T>, pos: T -> Vec3, curve: Vec3 -> T, i: nat)
    requires |pts| >= 3 && i < 4 * |pts| - 3
    ensures Smoothed(Reverse(pts), pos, curve)[i] == Smoothed(pts, pos, curve)[4 * |pts| - 4 - i]
  {
    var n := |pts|;
    var i' := 4 * n - 4 - i;
    SmoothedAt(Reverse(pts), pos, curve, i);
    SmoothedAt(pts, pos, curve, i');
    if i % 4 != 0 {
      assert i' / 4 == n - 2 - i / 4 && i' % 4 == 4 - i % 4;
      CurvePointReversed(pts, pos, i / 4, i % 4);
    } else {
      assert i' / 4 == n - 1 - i / 4 && i' % 4 == 0;
    }
  }

  function Shift(pts: seq<Vec3>, d: Vec3): (r: seq<Vec3>)
    ensures |r| == |pts|
  {
    seq(|pts|, i requires 0 <= i < |pts| => Add(pts[i], d))
  }

  /** A blend with weights summing to one moves with its control points. */
  lemma BlendShift(q: Quad, w: Weights, d: Vec3)
    requires w.a + w.b + w.c + w.d == 1.0
    ensures Blend(Add(q.a, d), Add(q.b, d), Add(q.c, d), Add(q.d, d), w) == Add(Blend(q.a, q.b, q.c, q.d, w), d)
  {
  }

  /** Smoothing commutes with translation: the curve depends only on the
      shape of the chain, not on where it lies. */
  lemma SmoothTranslation(pts: seq<Vec3>, d: Vec3)
    ensures Smoothed(Shift(pts, d), Id, Id) == Shift(Smoothed(pts, Id, Id), d)
  {
    if |pts| >= 3 {
      var s := Smoothed(pts, Id, Id);
      var r := Smoothed(Shift(pts, d), Id, Id);
      SmoothedAt(pts, Id, Id, 0);
      SmoothedAt(Shift(pts, d), Id, Id, 0);
      forall i | 0 <= i < |r|
        ensures r[i] == Shift(s, d)[i]
      {
        ShiftedAt(pts, d, i);
      }
    }
  }

  lemma ShiftedAt(pts: seq<Vec3>, d: Vec3, i: nat)
    requires |pts| >= 3 && i < 4 * |pts| - 3
    ensures Smoothed(Shift(pts, d), Id, Id)[i] == Add(Smoothed(pts, Id, Id)[i], d)
  {
    SmoothedAt(Shift(pts, d), Id, Id, i);
    SmoothedAt(pts, Id, Id, i);
    if i % 4 != 0 {
      ShiftedCurvePoint(pts, d, i / 4, i % 4);
    }
  }

  lemma ShiftedCurvePoint(pts: seq<Vec3>, d: Vec3, k: nat, j: int)
    requires k + 1 < |pts| && 1 <= j <= 3
    ensures CurvePointOf(Shift(pts, d), Id, k, j) == Add(CurvePointOf(pts, Id, k, j), d)
  {
    var q := Controls(pts, Id, k);
    assert Controls(Shift(pts, d), Id, k) == Quad(Add(q.a, d), Add(q.b, d), Add(q.c, d), Add(q.d, d));
    WeightsSumToOne(j);
    BlendShift(q, WeightsAt(j), d);
  }

  // ---------------------------------------------------------------------------
  // Smoothing as the sources write it.

  /** Appending segment k, given its control points, extends the first k
      segments to the first k + 1. */
  lemma SegmentStep<T>(pts: seq<T>, pos: T -> Vec3, curve: Vec3 -> T, k: nat, a: Vec3, b: Vec3, c: Vec3, d: Vec3)
    requires k + 1 < |pts| && Controls(pts, pos, k) == Quad(a, b, c, d)
    ensures Interleave(pts, Curves(pts, pos, curve), k + 1) ==
              Interleave(pts, Curves(pts, pos, curve), k) +
              [pts[k], curve(Blend(a, b, c, d, Quarter)), curve(Blend(a, b, c, d, Half)), curve(Blend(a, b, c, d, ThreeQuarters))]
  {
    var gen := Curves(pts, pos, curve);
    assert gen(k, 1) == curve(CurvePointOf(pts, pos, k, 1));
    assert gen(k, 2) == curve(CurvePointOf(pts, pos, k, 2));
    assert gen(k, 3) == curve(CurvePointOf(pts, pos, k, 3));
    assert CurvePointOf(pts, pos, k, 1) == Blend(a, b, c, d, Quarter);
    assert CurvePointOf(pts, pos, k, 2) == Blend(a, b, c, d, Half);
    assert CurvePointOf(pts, pos, k, 3) == Blend(a, b, c, d, ThreeQuarters);
  }

  /** SmoothChain: the first segment with the first point doubled, the middle
      segments, the last segment with the last point doubled, then the last point. */
  method SmoothChain(points: seq<Vec3>) returns (r: seq<Vec3>)
    ensures r == Smoothed(points, Id, Id)
    ensures |points| >= 3 ==> |r| == 4 * |points| - 3
    ensures forall i :: 0 <= i < |points| && |points| >= 3 ==> r[4 * i] == points[i]
  {
    var n := |points|;
    if n < 3 {
      return points;
    }
    var u025 := Blend(points[0], points[0], points[1], points[2], Quarter);
    var u050 := Blend(points[0], points[0], points[1], points[2], Half);
    var u075 := Blend(points[0], points[0], points[1], points[2], ThreeQuarters);
    SegmentStep(points, Id, Id, 0, points[0], points[0], points[1], points[2]);
    r := [points[0], u025, u050, u075];
    for i := 1 to n - 2
      invariant r == Interleave(points, Curves(points, Id, Id), i)
    {
      u025 := Blend(points[i - 1], points[i], points[i + 1], points[i + 2], Quarter);
      u050 := Blend(points[i - 1], points[i], points[i + 1], points[i + 2], Half);
      u075 := Blend(points[i - 1], points[i], points[i + 1], points[i + 2], ThreeQuarters);
      SegmentStep(points, Id, Id, i, points[i - 1], points[i], points[i + 1], points[i + 2]);
      r := r + [points[i], u025, u050, u075];
    }
    var last := n - 1;
    u025 := Blend(points[last - 2], points[last - 1], points[last], points[last], Quarter);
    u050 := Blend(points[last - 2], points[last - 1], points[last], points[last], Half);
    u075 := Blend(points[last - 2], points[last - 1], points[last], points[last], ThreeQuarters);
    SegmentStep(points, Id, Id, last - 1, points[last - 2], points[last - 1], points[last], points[last]);
    r := r + [points[last - 1], u025, u050, u075];
    r := r + [points[last]];
    SmoothedShape(points, Id, Id);
  }

  /** Four points added one after another through AddPoint: a path point,
      which passes the filter again, then three curve points. */
  function AddSegment(path: Path, p: PathPoint, u025: Vec3, u050: Vec3, u075: Vec3): (r: Path)
    requires Kept(p)
    ensures r == path + [p, CurveAt(u025), CurveAt(u050), CurveAt(u075)]
  {
    AddPoint(AddPoint(AddPoint(AddPoint(path, p), CurveAt(u025)), CurveAt(u050)), CurveAt(u075))
  }

  /** SmoothPath: the same construction over path points, each added through
      AddPoint; curve points carry no node or edge. */
  method SmoothPath(path: Path) returns (r: Path)
    ensures r == Smoothed(path, PositionOf, CurveAt)
    ensures |path| >= 3 ==> |r| == 4 * |path| - 3
    ensures forall i :: 0 <= i < |path| && |path| >= 3 ==> r[4 * i] == path[i]
    ensures forall i :: 0 <= i < |r| ==> r[i] in path || r[i].kind == CurvePoint
  {
    var n := |path|;
    if n < 3 {
      return path;
    }
    var p := path;
    var u025 := Blend(p[0].position, p[0].position, p[1].position, p[2].position, Quarter);
    var u050 := Blend(p[0].position, p[0].position, p[1].position, p[2].position, Half);
    var u075 := Blend(p[0].position, p[0].position, p[1].position, p[2].position, ThreeQuarters);
    SegmentStep(p, PositionOf, CurveAt, 0, p[0].position, p[0].position, p[1].position, p[2].position);
    r := AddSegment([], p[0], u025, u050, u075);
    for i := 1 to n - 2
      invariant r == Interleave(p, Curves(p, PositionOf, CurveAt), i)
    {
      u025 := Blend(p[i - 1].position, p[i].position, p[i + 1].position, p[i + 2].position, Quarter);
      u050 := Blend(p[i - 1].position, p[i].position, p[i + 1].position, p[i + 2].position, Half);
      u075 := Blend(p[i - 1].position, p[i].position, p[i + 1].position, p[i + 2].position, ThreeQuarters);
      SegmentStep(p, PositionOf, CurveAt, i, p[i - 1].position, p[i].position, p[i + 1].position, p[i + 2].position);
      r := AddSegment(r, p[i], u025, u050, u075);
    }
    var last := n - 1;
    u025 := Blend(p[last - 2].position, p[last - 1].position, p[last].position, p[last].position, Quarter);
    u050 := Blend(p[last - 2].position, p[last - 1].position, p[last].position, p[last].position, Half);
    u075 := Blend(p[last - 2].position, p[last - 1].position, p[last].position, p[last].position, ThreeQuarters);
    SegmentStep(p, PositionOf, CurveAt, last - 1, p[last - 2].position, p[last - 1].position, p[last].position, p[last].position);
    r := AddSegment(r, p[last - 1], u025, u050, u075);
    r := AddPoint(r, p[last]);
    SmoothedKeepsPoints(p);
  }

  /** Every point of a smoothed path is one of its points or a curve point. */
  lemma SmoothedKeepsPoints(path: Path)
    requires |path| >= 3
    ensures var r := Smoothed(path, PositionOf, CurveAt);
            && |r| == 4 * |path| - 3
            && (forall i :: 0 <= i < |path| ==> r[4 * i] == path[i])
            && (forall i :: 0 <= i < |r| ==> r[i] in path || r[i].kind == CurvePoint)
  {
    SmoothedShape(path, PositionOf, CurveAt);
    var r := Smoothed(path, PositionOf, CurveAt);
    forall i | 0 <= i < |r|
      ensures r[i] in path || r[i].kind == CurvePoint
    {
      SmoothedAt(path, PositionOf, CurveAt, i);
    }
  }

  // ---------------------------------------------------------------------------
  // Collinear-point removal: the reference definition.

  /** The source's collinearity test for anchor a, candidate b and next point
      c: `Mathf.Approximately(|ba| + |cb|, |ca|)`. The distance and the
      approximate comparison are parameters. */
  predicate Collinear(dist: (Vec3, Vec3) -> real, approx: (real, real) -> bool, a: Vec3, b: Vec3, c: Vec3) {
    approx(dist(b, a) + dist(c, b), dist(c, a))
  }

  /** Whether candidate x is collinear with anchor a and its own successor. */
  predicate CollinearAt<T>(pts: seq<T>, pos: T -> Vec3, dist: (Vec3, Vec3) -> real, approx: (real, real) -> bool, a: nat, x: nat)
    requires a < |pts| && x + 1 < |pts|
  {
    Collinear(dist, approx, pos(pts[a]), pos(pts[x]), pos(pts[x + 1]))
  }

  /** The kept indices from anchor a on, with b the next candidate: a
      candidate collinear with the anchor and its successor is dropped,
      any other is kept and becomes the anchor; the last point always ends
      the list. */
  function Chain<T>(pts: seq<T>, pos: T -> Vec3, dist: (Vec3, Vec3) -> real, approx: (real, real) -> bool, a: nat, b: nat): (L: seq<nat>)
    requires a < b <= |pts| - 1
    ensures |L| >= 2 && L[0] == a && L[|L| - 1] == |pts| - 1
    decreases |pts| - b
  {
    if b == |pts| - 1 then [a, b]
    else if CollinearAt(pts, pos, dist, approx, a, b) then Chain(pts, pos, dist, approx, a, b + 1)
    else [a] + Chain(pts, pos, dist, approx, b, b + 1)
  }

  function Pick<T>(pts: seq<T>, idx: seq<nat>): (r: seq<T>)
    requires forall k :: 0 <= k < |idx| ==> idx[k] < |pts|
    ensures |r| == |idx|
  {
    seq(|idx|, k requires 0 <= k < |idx| => pts[idx[k]])
  }

  /** The points collinear-point removal keeps. */
  function Reduced<T>(pts: seq<T>, pos: T -> Vec3, dist: (Vec3, Vec3) -> real, approx: (real, real) -> bool): seq<T> {
    if |pts| < 3 then pts
    else
      ChainClimbs(pts, pos, dist, approx, 0, 1);
      Pick(pts, Chain(pts, pos, dist, approx, 0, 1))
  }

  /** Strictly increasing indices into the list, ending at its last point. */
  ghost predicate Climbs(L: seq<nat>, n: nat) {
    && |L| >= 2 && L[|L| - 1] == n - 1
    && (forall j :: 0 <= j < |L| ==> L[j] < n)
    && (forall j :: 0 <= j < |L| - 1 ==> L[j] < L[j + 1])
  }

  /** Each kept interior point turns away from the line between the kept
      point before it and its own successor. */
  ghost predicate Turns<T>(pts: seq<T>, pos: T -> Vec3, dist: (Vec3, Vec3) -> real, approx: (real, real) -> bool, L: seq<nat>) {
    forall j :: 0 <= j < |L| - 1 && L[j] < |pts| && L[j + 1] < |pts| - 1 ==>
      !CollinearAt(pts, pos, dist, approx, L[j], L[j + 1])
  }

  /** Each dropped point is collinear with the kept point before it and its
      own successor. */
  ghost predicate Drops<T>(pts: seq<T>, pos: T -> Vec3, dist: (Vec3, Vec3) -> real, approx: (real, real) -> bool, L: seq<nat>) {
    forall j, x :: 0 <= j < |L| - 1 && L[j] < x < L[j + 1] && x < |pts| - 1 ==>
      CollinearAt(pts, pos, dist, approx, L[j], x)
  }

  /** Climbs, Turns and Drops together. */
  ghost predicate Pruned<T>(pts: seq<T>, pos: T -> Vec3, dist: (Vec3, Vec3) -> real, approx: (real, real) -> bool, L: seq<nat>) {
    Climbs(L, |pts|) && Turns(pts, pos, dist, approx, L) && Drops(pts, pos, dist, approx, L)
  }

  lemma ClimbsCons(a: nat, L: seq<nat>, n: nat)
    requires Climbs(L, n) && a < L[0]
    ensures Climbs([a] + L, n)
  {
    assert forall j :: 0 <= j < |L| ==> ([a] + L)[j + 1] == L[j];
  }

  lemma TurnsCons<T>(pts: seq<T>, pos: T -> Vec3, dist: (Vec3, Vec3) -> real, approx: (real, real) -> bool, a: nat, L: seq<nat>)
    requires Turns(pts, pos, dist, approx, L) && |L| >= 1 && a < |pts| && L[0] < |pts| - 1
    requires !CollinearAt(pts, pos, dist, approx, a, L[0])
    ensures Turns(pts, pos, dist, approx, [a] + L)
  {
    assert forall j :: 0 <= j < |L| ==> ([a] + L)[j + 1] == L[j];
  }

  lemma DropsCons<T>(pts: seq<T>, pos: T -> Vec3, dist: (Vec3, Vec3) -> real, approx: (real, real) -> bool, a: nat, L: seq<nat>)
    requires Drops(pts, pos, dist, approx, L) && |L| >= 1 && a < L[0] < |pts|
    requires forall x :: a < x < L[0] ==> CollinearAt(pts, pos, dist, approx, a, x)
    ensures Drops(pts, pos, dist, approx, [a] + L)
  {
    assert forall j :: 0 <= j < |L| ==> ([a] + L)[j + 1] == L[j];
  }

  lemma {:induction false} ChainClimbs<T>(pts: seq<T>, pos: T -> Vec3, dist: (Vec3, Vec3) -> real, approx: (real, real) -> bool, a: nat, b: nat)
    requires a < b <= |pts| - 1
    ensures Climbs(Chain(pts, pos, dist, approx, a, b), |pts|)
    ensures |Chain(pts, pos, dist, approx, a, b)| > 2 ==> Chain(pts, pos, dist, approx, a, b)[1] >= b
    decreases |pts| - b
  {
    if b < |pts| - 1 {
      if CollinearAt(pts, pos, dist, approx, a, b) {
        ChainClimbs(pts, pos, dist, approx, a, b + 1);
      } else {
        ChainClimbs(pts, pos, dist, approx, b, b + 1);
        ClimbsCons(a, Chain(pts, pos, dist, approx, b, b + 1), |pts|);
      }
    }
  }

  lemma {:induction false} ChainTurns<T>(pts: seq<T>, pos: T -> Vec3, dist: (Vec3, Vec3) -> real, approx: (real, real) -> bool, a: nat, b: nat)
    requires a < b <= |pts| - 1
    ensures Turns(pts, pos, dist, approx, Chain(pts, pos, dist, approx, a, b))
    decreases |pts| - b
  {
    if b < |pts| - 1 {
      if CollinearAt(pts, pos, dist, approx, a, b) {
        ChainTurns(pts, pos, dist, approx, a, b + 1);
      } else {
        ChainTurns(pts, pos, dist, approx, b, b + 1);
        TurnsCons(pts, pos, dist, approx, a, Chain(pts, pos, dist, approx, b, b + 1));
      }
    }
  }

  lemma {:induction false} ChainDrops<T>(pts: seq<T>, pos: T -> Vec3, dist: (Vec3, Vec3) -> real, approx: (real, real) -> bool, a: nat, b: nat)
    requires a < b <= |pts| - 1
    requires forall x :: a < x < b ==> CollinearAt(pts, pos, dist, approx, a, x)
    ensures Drops(pts, pos, dist, approx, Chain(pts, pos, dist, approx, a, b))
    decreases |pts| - b
  {
    if b == |pts| - 1 {
      DropsPair(pts, pos, dist, approx, a);
    } else {
      if CollinearAt(pts, pos, dist, approx, a, b) {
        assert forall x :: a < x < b + 1 ==> CollinearAt(pts, pos, dist, approx, a, x);
        ChainDrops(pts, pos, dist, approx, a, b + 1);
      } else {
        var rest := Chain(pts, pos, dist, approx, b, b + 1);
        ChainDrops(pts, pos, dist, approx, b, b + 1);
        DropsCons(pts, pos, dist, approx, a, rest);
        assert Chain(pts, pos, dist, approx, a, b) == [a] + rest;
      }
    }
  }

  lemma DropsPair<T>(pts: seq<T>, pos: T -> Vec3, dist: (Vec3, Vec3) -> real, approx: (real, real) -> bool, a: nat)
    requires a < |pts| - 1
    requires forall x :: a < x < |pts| - 1 ==> CollinearAt(pts, pos, dist, approx, a, x)
    ensures Drops(pts, pos, dist, approx, [a, |pts| - 1])
  {
  }

  /** Collinear removal keeps the first and last points, and the indices it
      keeps climb strictly and are characterised by Turns and Drops. */
  lemma ChainPruned<T>(pts: seq<T>, pos: T -> Vec3, dist: (Vec3, Vec3) -> real, approx: (real, real) -> bool)
    requires |pts| >= 3
    ensures Chain(pts, pos, dist, approx, 0, 1)[0] == 0
    ensures Pruned(pts, pos, dist, approx, Chain(pts, pos, dist, approx, 0, 1))
  {
    ChainClimbs(pts, pos, dist, approx, 0, 1);
    ChainTurns(pts, pos, dist, approx, 0, 1);
    ChainDrops(pts, pos, dist, approx, 0, 1);
  }

  /** Pruned pins the kept indices down: two index lists that both start at
      the same point and satisfy it are the same list. */
  lemma {:induction false} PrunedUnique<T>(pts: seq<T>, pos: T -> Vec3, dist: (Vec3, Vec3) -> real, approx: (real, real) -> bool,
                                           L: seq<nat>, M: seq<nat>)
    requires Pruned(pts, pos, dist, approx, L) && Pruned(pts, pos, dist, approx, M)
    requires L[0] == M[0]
    ensures L == M
    decreases |L|
  {
    SecondAgrees(pts, pos, dist, approx, L, M);
    ShortClimb(L, |pts|);
    ShortClimb(M, |pts|);
    if |L| > 2 {
      PrunedTail(pts, pos, dist, approx, L);
      PrunedTail(pts, pos, dist, approx, M);
      PrunedUnique(pts, pos, dist, approx, L[1..], M[1..]);
      assert L == [L[0]] + L[1..] && M == [M[0]] + M[1..];
    }
  }

  /** Two pruned lists from the same point keep the same next point: the
      nearer one's would be dropped by Drops of the other but kept by its own Turns. */
  lemma SecondAgrees<T>(pts: seq<T>, pos: T -> Vec3, dist: (Vec3, Vec3) -> real, approx: (real, real) -> bool,
                        L: seq<nat>, M: seq<nat>)
    requires Pruned(pts, pos, dist, approx, L) && Pruned(pts, pos, dist, approx, M)
    requires L[0] == M[0]
    ensures L[1] == M[1]
  {
    if L[1] < M[1] {
      NearerTurns(pts, pos, dist, approx, L, M);
    } else if M[1] < L[1] {
      NearerTurns(pts, pos, dist, approx, M, L);
    }
  }

  lemma NearerTurns<T>(pts: seq<T>, pos: T -> Vec3, dist: (Vec3, Vec3) -> real, approx: (real, real) -> bool,
                       L: seq<nat>, M: seq<nat>)
    requires Climbs(L, |pts|) && Climbs(M, |pts|) && L[0] == M[0] && L[1] < M[1]
    requires Drops(pts, pos, dist, approx, M)
    ensures L[1] < |pts| - 1 && CollinearAt(pts, pos, dist, approx, L[0], L[1])
  {
    assert M[1] < |pts|;
  }

  /** With two entries, a climbing list is its first entry and the last point;
      with more, its second entry is below the last point. */
  lemma ShortClimb(L: seq<nat>, n: nat)
    requires Climbs(L, n)
    ensures |L| == 2 <==> L[1] == n - 1
  {
    if |L| > 2 {
      assert L[1] < L[2] && L[2] < n;
    }
  }

  lemma PrunedTail<T>(pts: seq<T>, pos: T -> Vec3, dist: (Vec3, Vec3) -> real, approx: (real, real) -> bool, L: seq<nat>)
    requires Pruned(pts, pos, dist, approx, L) && |L| > 2
    ensures Pruned(pts, pos, dist, approx, L[1..])
  {
    assert forall j :: 0 <= j < |L| - 1 ==> L[1..][j] == L[j + 1];
  }

  function Upto(lo: nat, hi: nat): (r: seq<nat>)
    requires lo <= hi
    ensures |r| == hi - lo && forall k :: 0 <= k < hi - lo ==> r[k] == lo + k
  {
    seq(hi - lo, k requires 0 <= k < hi - lo => lo + k)
  }

  /** When no point is collinear with its predecessor and successor, every
      point is kept. */
  lemma {:induction false} NothingCollinearKeepsAll<T>(pts: seq<T>, pos: T -> Vec3, dist: (Vec3, Vec3) -> real, approx: (real, real) -> bool, b: nat)
    requires 0 < b <= |pts| - 1
    requires forall a: nat, x :: x == a + 1 && x < |pts| - 1 ==> !CollinearAt(pts, pos, dist, approx, a, x)
    ensures Chain(pts, pos, dist, approx, b - 1, b) == Upto(b - 1, |pts|)
    decreases |pts| - b
  {
    if b < |pts| - 1 {
      NothingCollinearKeepsAll(pts, pos, dist, approx, b + 1);
      assert Upto(b - 1, |pts|) == [b - 1] + Upto(b, |pts|);
    } else {
      assert Upto(b - 1, |pts|) == [b - 1, b];
    }
  }

  /** When every candidate is collinear with the first point and its own
      successor, only the two end points remain. */
  lemma {:induction false} AllCollinearKeepsEnds<T>(pts: seq<T>, pos: T -> Vec3, dist: (Vec3, Vec3) -> real, approx: (real, real) -> bool, b: nat)
    requires 0 < b <= |pts| - 1
    requires forall x :: 0 < x < |pts| - 1 ==> CollinearAt(pts, pos, dist, approx, 0, x)
    ensures Chain(pts, pos, dist, approx, 0, b) == [0, |pts| - 1]
    decreases |pts| - b
  {
    if b < |pts| - 1 {
      AllCollinearKeepsEnds(pts, pos, dist, approx, b + 1);
    }
  }

  // ---------------------------------------------------------------------------
  // Collinear-point removal as the sources write it.

  /** The scan's state before candidate b: `r` holds the points kept so far,
      ending with the anchor a, and what the scan will still keep completes
      the kept indices. */
  ghost predicate Scanning<T>(pts: seq<T>, pos: T -> Vec3, dist: (Vec3, Vec3) -> real, approx: (real, real) -> bool,
                              r: seq<T>, before: seq<nat>, a: nat, b: nat) {
    && a < b <= |pts| - 1
    && (forall k :: 0 <= k < |before| ==> before[k] < a)
    && before + Chain(pts, pos, dist, approx, a, b) == Chain(pts, pos, dist, approx, 0, 1)
    && r == Pick(pts, before + [a])
  }

  lemma ScanStart<T>(pts: seq<T>, pos: T -> Vec3, dist: (Vec3, Vec3) -> real, approx: (real, real) -> bool)
    requires |pts| >= 3
    ensures Scanning(pts, pos, dist, approx, [pts[0]], [], 0, 1)
  {
  }

  /** A collinear candidate is passed over. */
  lemma ScanSkip<T>(pts: seq<T>, pos: T -> Vec3, dist: (Vec3, Vec3) -> real, approx: (real, real) -> bool,
                    r: seq<T>, before: seq<nat>, a: nat, b: nat)
    requires Scanning(pts, pos, dist, approx, r, before, a, b) && b < |pts| - 1
    requires CollinearAt(pts, pos, dist, approx, a, b)
    ensures Scanning(pts, pos, dist, approx, r, before, a, b + 1)
  {
  }

  /** Any other candidate is kept and becomes the anchor. */
  lemma ScanKeep<T>(pts: seq<T>, pos: T -> Vec3, dist: (Vec3, Vec3) -> real, approx: (real, real) -> bool,
                    r: seq<T>, before: seq<nat>, a: nat, b: nat)
    requires Scanning(pts, pos, dist, approx, r, before, a, b) && b < |pts| - 1
    requires !CollinearAt(pts, pos, dist, approx, a, b)
    ensures Scanning(pts, pos, dist, approx, r + [pts[b]], before + [a], b, b + 1)
  {
    assert before + [a] + Chain(pts, pos, dist, approx, b, b + 1) == before + Chain(pts, pos, dist, approx, a, b);
    assert Pick(pts, before + [a] + [b]) == Pick(pts, before + [a]) + [pts[b]];
  }

  /** At the last point the scan has kept all but it; adding it completes the result. */
  lemma ScanEnd<T>(pts: seq<T>, pos: T -> Vec3, dist: (Vec3, Vec3) -> real, approx: (real, real) -> bool,
                   r: seq<T>, before: seq<nat>, a: nat)
    requires |pts| >= 3 && Scanning(pts, pos, dist, approx, r, before, a, |pts| - 1)
    ensures r + [pts[|pts| - 1]] == Reduced(pts, pos, dist, approx)
    ensures |r| >= 1 && r[0] == pts[0]
  {
    assert before + [a] + [|pts| - 1] == Chain(pts, pos, dist, approx, 0, 1);
    assert Pick(pts, before + [a] + [|pts| - 1]) == Pick(pts, before + [a]) + [pts[|pts| - 1]];
    if |before| > 0 {
      assert before[0] == Chain(pts, pos, dist, approx, 0, 1)[0];
    }
  }

  /** RemoveCollinearPoints over a chain of positions. */
  method RemoveCollinearChain(points: seq<Vec3>, dist: (Vec3, Vec3) -> real, approx: (real, real) -> bool) returns (r: seq<Vec3>)
    ensures r == Reduced(points, Id, dist, approx)
    ensures |points| >= 3 ==> |r| >= 2 && r[0] == points[0] && r[|r| - 1] == points[|points| - 1]
  {
    var n := |points|;
    if n < 3 {
      return points;
    }
    var a;
    ghost var before;
    r, before, a := ScanChain(points, dist, approx);
    ScanEnd(points, Id, dist, approx, r, before, a);
    r := r + [points[n - 1]];
  }

  /** The scan over the interior points of a chain. */
  method ScanChain(points: seq<Vec3>, dist: (Vec3, Vec3) -> real, approx: (real, real) -> bool)
    returns (r: seq<Vec3>, ghost before: seq<nat>, a: nat)
    requires |points| >= 3
    ensures Scanning(points, Id, dist, approx, r, before, a, |points| - 1)
  {
    r, a, before := [points[0]], 0, [];
    ScanStart(points, Id, dist, approx);
    for b := 1 to |points| - 1
      invariant Scanning(points, Id, dist, approx, r, before, a, b)
    {
      r, before, a := ScanChainStep(points, dist, approx, r, before, a, b);
    }
  }

  /** One candidate of the scan over a chain. */
  method ScanChainStep(points: seq<Vec3>, dist: (Vec3, Vec3) -> real, approx: (real, real) -> bool,
                       r: seq<Vec3>, ghost before: seq<nat>, a: nat, b: nat)
    returns (r': seq<Vec3>, ghost before': seq<nat>, a': nat)
    requires Scanning(points, Id, dist, approx, r, before, a, b) && b < |points| - 1
    ensures Scanning(points, Id, dist, approx, r', before', a', b + 1)
  {
    var collinear := Collinear(dist, approx, points[a], points[b], points[b + 1]);
    assert collinear == CollinearAt(points, Id, dist, approx, a, b);
    if collinear {
      ScanSkip(points, Id, dist, approx, r, before, a, b);
      return r, before, a;
    }
    ScanKeep(points, Id, dist, approx, r, before, a, b);
    r', before', a' := r + [points[b]], before + [a], b;
  }

  /** RemoveCollinearPoints over a path, each kept point added through AddPoint. */
  method RemoveCollinearPath(path: Path, dist: (Vec3, Vec3) -> real, approx: (real, real) -> bool) returns (r: Path)
    ensures r == Reduced(path, PositionOf, dist, approx)
    ensures |path| >= 3 ==> |r| >= 2 && r[0] == path[0] && r[|r| - 1] == path[|path| - 1]
  {
    var n := |path|;
    if n < 3 {
      return path;
    }
    var a;
    ghost var before;
    r, before, a := ScanPath(path, dist, approx);
    ScanEnd(path, PositionOf, dist, approx, r, before, a);
    assert Kept(path[n - 1]);
    r := AddPoint(r, path[n - 1]);
  }

  /** The scan over the interior points of a path. */
  method ScanPath(p: Path, dist: (Vec3, Vec3) -> real, approx: (real, real) -> bool)
    returns (r: Path, ghost before: seq<nat>, a: nat)
    requires |p| >= 3
    ensures Scanning(p, PositionOf, dist, approx, r, before, a, |p| - 1)
  {
    assert Kept(p[0]);
    r := AddPoint([], p[0]);
    a := 0;
    before := [];
    ScanStart(p, PositionOf, dist, approx);
    for b := 1 to |p| - 1
      invariant Scanning(p, PositionOf, dist, approx, r, before, a, b)
    {
      r, before, a := ScanPathStep(p, dist, approx, r, before, a, b);
    }
  }

  /** One candidate of the scan: passed over when collinear with the anchor
      and its successor, otherwise added and made the anchor. */
  method ScanPathStep(p: Path, dist: (Vec3, Vec3) -> real, approx: (real, real) -> bool,
                      r: Path, ghost before: seq<nat>, a: nat, b: nat)
    returns (r': Path, ghost before': seq<nat>, a': nat)
    requires Scanning(p, PositionOf, dist, approx, r, before, a, b) && b < |p| - 1
    ensures Scanning(p, PositionOf, dist, approx, r', before', a', b + 1)
  {
    var collinear := Collinear(dist, approx, p[a].position, p[b].position, p[b + 1].position);
    assert collinear == CollinearAt(p, PositionOf, dist, approx, a, b);
    if collinear {
      ScanSkip(p, PositionOf, dist, approx, r, before, a, b);
      return r, before, a;
    }
    ScanKeep(p, PositionOf, dist, approx, r, before, a, b);
    assert Kept(p[b]);
    r' := AddPoint(r, p[b]);
    before', a' := before + [a], b;
  }
}

=== FILE: priority_queue.dfy ===
/** The job queue over the binary min-heap (Assets/Utilities/PriorityQueue.cs):
    each job carries a priority and the lowest priority leaves first. */
module PriorityQueue {
  import opened BinaryMinHeap

  datatype Queue<T> = Queue(jobs: seq<HeapNode<T>>)

  ghost predicate Valid<T>(q: Queue<T>) {
    IsHeap(q.jobs)
  }

  /** The jobs in the queue with their priorities, forgetting heap layout. */
  ghost function Contents<T>(q: Queue<T>): multiset<HeapNode<T>> {
    multiset(q.jobs)
  }

  function Empty<T>(): (q: Queue<T>)
    ensures Valid(q) && Contents(q) == multiset{}
  {
    Queue([])
  }

  /** Enqueue adds one job with the given priority. */
  method Enqueue<T>(q: Queue<T>, dataClass: T, priority: real) returns (r: Queue<T>)
    requires Valid(q)
    ensures Valid(r)
    ensures Contents(r) == Contents(q) + multiset{HeapNode(priority, dataClass)}
  {
    var jobs := Insert(q.jobs, HeapNode(priority, dataClass));
    r := Queue(jobs);
  }

  /** Dequeue removes and returns a job of least priority; an empty queue has
      nothing to dequeue (the underlying list access fails). */
  method Dequeue<T>(q: Queue<T>) returns (dataClass: T, r: Queue<T>)
    requires Valid(q) && !IsEmpty(q)
    ensures Valid(r)
    ensures exists p :: HeapNode(p, dataClass) in Contents(q)
                        && (forall n :: n in Contents(q) ==> p <= n.key)
                        && Contents(r) == Contents(q) - multiset{HeapNode(p, dataClass)}
  {
    var root, jobs := ExtractRoot(q.jobs);
    dataClass := root.data;
    r := Queue(jobs);
    assert root == q.jobs[0];
    forall n | n in Contents(q)
      ensures root.key <= n.key
    {
      var k :| 0 <= k < |q.jobs| && q.jobs[k] == n;
    }
    assert HeapNode(root.key, dataClass) == root;
  }

  predicate IsEmpty<T>(q: Queue<T>)
    ensures IsEmpty(q) <==> Contents(q) == multiset{}
  {
    BinaryMinHeap.IsEmpty(q.jobs)
  }

  /** Clear drops every job. */
  function Clear<T>(q: Queue<T>): (r: Queue<T>)
    ensures Valid(r) && Contents(r) == multiset{} && IsEmpty(r)
  {
    Queue(BinaryMinHeap.Clear(q.jobs))
  }

  /** A queue is empty exactly when it holds no jobs. */
  lemma IsEmptyMeansNoJobs<T>(q: Queue<T>)
    ensures IsEmpty(q) <==> Contents(q) == multiset{}
  {
    assert |Contents(q)| == |q.jobs|;
  }

  /** A job enqueued on an empty queue is the one dequeued next. */
  method EnqueueThenDequeue<T>(dataClass: T, priority: real) returns (out: T, r: Queue<T>)
    ensures out == dataClass && IsEmpty(r)
  {
    var q := Enqueue(Empty(), dataClass, priority);
    assert |q.jobs| == 1 by {
      assert |multiset(q.jobs)| == 1;
    }
    out, r := Dequeue(q);
    assert HeapNode(priority, dataClass) in Contents(q);
    IsEmptyMeansNoJobs(r);
  }
}

=== FILE: region_distances.dfy ===
/** CalculateRegionDistances and GetPathDistance (Assets/Perception/InfluenceMapManager.cs):
    the road distance between every two regions, found by a region search
    without jumping and stored in a dictionary under an integer key that pairs
    the lower region id with the higher one. */
module RegionDistances {
  import opened Common
  import opened Regions
  import opened AStar
  import opened Pathfinder

  // ---------------------------------------------------------------------------
  // The key pairing.

  /** The key of the pair (`low`, `high`): `low · (upperBound + 1) + high`. */
  function Key(low: int, high: int, upperBound: int): int {
    low * (upperBound + 1) + high
  }

  /** The pair a key stands for: its quotient and remainder by `upperBound + 1`. */
  function Unpair(key: int, upperBound: nat): (pair: (int, int)) {
    (key / (upperBound + 1), key % (upperBound + 1))
  }

  lemma MulAtLeast(a: int, m: nat)
    requires a >= 1
    ensures a * m >= m
  {
  }

  /** Keys of pairs whose second member is at most `upperBound` decode to their
      pair, so two such pairs share a key only when they are the same pair. */
  lemma {:induction false} UnpairKey(low: int, high: int, upperBound: nat)
    requires 0 <= high <= upperBound
    ensures Unpair(Key(low, high, upperBound), upperBound) == (low, high)
  {
    var m := upperBound + 1;
    var k := Key(low, high, upperBound);
    var q, r := k / m, k % m;
    assert k == q * m + r && 0 <= r < m;
    if q < low {
      MulAtLeast(low - q, m);
    } else if low < q {
      MulAtLeast(q - low, m);
    }
  }

  lemma KeyInjective(s: int, g: int, s': int, g': int, upperBound: nat)
    requires 0 <= g <= upperBound && 0 <= g' <= upperBound
    ensures Key(s, g, upperBound) == Key(s', g', upperBound) <==> s == s' && g == g'
  {
    UnpairKey(s, g, upperBound);
    UnpairKey(s', g', upperBound);
  }

  /** With an upper bound below the largest second member, distinct pairs can
      share a key: (0, 3) and (1, 2) both pair to 3 under upper bound 0. */
  lemma SmallBoundCollides()
    ensures Key(0, 3, 0) == Key(1, 2, 0)
  {
  }

  // ---------------------------------------------------------------------------
  // The distance along a region route.

  /** The positions of the points FindRegionPath puts on a region path for a
      route: for each region from the goal back to, but not including, the
      start, its centre and then the position of the portal it was reached
      through; last, the start's centre. */
  function RoutePoints(regions: seq<Region>, portals: seq<Portal>, tr: Trail): (pts: seq<Vec3>)
    requires |tr.nodes| == |tr.links| + 1
    requires forall i :: 0 <= i < |tr.nodes| ==> tr.nodes[i] < |regions|
    requires forall i :: 0 <= i < |tr.links| ==> tr.links[i].id < |portals|
    ensures |pts| == 2 * |tr.links| + 1
    ensures forall i :: 0 <= i < |tr.links| ==>
              pts[2 * i] == regions[tr.nodes[i]].center && pts[2 * i + 1] == portals[tr.links[i].id].position
    ensures pts[2 * |tr.links|] == regions[tr.nodes[|tr.links|]].center
  {
    seq(2 * |tr.links| + 1, j requires 0 <= j <= 2 * |tr.links| =>
      if j % 2 == 0 then regions[tr.nodes[j / 2]].center else portals[tr.links[j / 2].id].position)
  }

  /** The sum of the distances between consecutive points, added from the first pair on. */
  function Length(dist: (Vec3, Vec3) -> real, pts: seq<Vec3>): real {
    if |pts| <= 1 then 0.0
    else Length(dist, pts[..|pts| - 1]) + dist(pts[|pts| - 2], pts[|pts| - 1])
  }

  /** Under a distance function the length is never negative, and it is zero
      for a single point. */
  lemma {:induction false} LengthNonNegative(dist: (Vec3, Vec3) -> real, pts: seq<Vec3>)
    requires IsDistance(dist)
    ensures Length(dist, pts) >= 0.0
    ensures |pts| <= 1 ==> Length(dist, pts) == 0.0
    decreases |pts|
  {
    if |pts| > 1 {
      LengthNonNegative(dist, pts[..|pts| - 1]);
    }
  }

  /** Read in the other direction, a path has the same length under a
      symmetric distance. */
  lemma {:induction false} LengthReversed(dist: (Vec3, Vec3) -> real, pts: seq<Vec3>)
    requires IsDistance(dist)
    ensures Length(dist, Reverse(pts)) == Length(dist, pts)
    decreases |pts|
  {
    if |pts| > 1 {
      var rest := pts[1..];
      LengthReversed(dist, rest);
      assert Reverse(pts)[..|pts| - 1] == Reverse(rest);
      LengthFirst(dist, pts);
    }
  }

  /** The length also splits off the first pair. */
  lemma {:induction false} LengthFirst(dist: (Vec3, Vec3) -> real, pts: seq<Vec3>)
    requires |pts| >= 2
    ensures Length(dist, pts) == dist(pts[0], pts[1]) + Length(dist, pts[1..])
    decreases |pts|
  {
    if |pts| > 2 {
      var n := |pts|;
      LengthFirst(dist, pts[..n - 1]);
      assert pts[..n - 1][1..] == pts[1..][..n - 2];
    }
  }

  function Reverse(s: seq<Vec3>): (r: seq<Vec3>)
    ensures |r| == |s| && forall i :: 0 <= i < |s| ==> r[i] == s[|s| - 1 - i]
  {
    if s == [] then [] else Reverse(s[1..]) + [s[0]]
  }

  /** The distance loop: the running sum over the points. */
  method SumDistances(dist: (Vec3, Vec3) -> real, pts: seq<Vec3>) returns (d: real)
    ensures d == Length(dist, pts)
  {
    d := 0.0;
    if |pts| == 0 {
      return;
    }
    var i := 0;
    while i < |pts| - 1
      invariant 0 <= i <= |pts| - 1
      invariant d == Length(dist, pts[..i + 1])
    {
      assert pts[..i + 2][..i + 1] == pts[..i + 1];
      d := d + dist(pts[i], pts[i + 1]);
      i := i + 1;
    }
    assert pts[..i + 1] == pts;
  }

  // ---------------------------------------------------------------------------
  // The table.

  /** `v` is the distance stored for the pair (`s`, `g`): infinity when no walk
      through portals without jumping leads from `s` to `g`, and otherwise the
      length of the region path of some simple route between them. */
  ghost predicate Measured(regions: seq<Region>, portals: seq<Portal>, dist: (Vec3, Vec3) -> real, weight: real,
                           s: nat, g: nat, v: Ext)
    requires PortalsOk(regions, portals) && s < |regions| && g < |regions|
  {
    var ctx := RegionCtx(regions, portals, dist, weight, false, s, g);
    match v
    case Inf => forall walk :: IsWalk(ctx, walk) ==> walk[|walk| - 1] != g
    case Fin(x) => exists tr :: && IsTrail(ctx, tr) && Simple(tr)
                                && (forall i :: 0 <= i < |tr.links| ==> tr.links[i].id < |portals|)
                                && x == Length(dist, RoutePoints(regions, portals, tr))
  }

  /** A search over regions that differ only in search data is the same search. */
  lemma SameSearch(regions: seq<Region>, regions': seq<Region>, portals: seq<Portal>, dist: (Vec3, Vec3) -> real,
                   weight: real, s: nat, g: nat)
    requires PortalsOk(regions, portals) && s < |regions| && g < |regions|
    requires |regions'| == |regions| && forall x :: 0 <= x < |regions| ==> SameRegion(regions[x], regions'[x])
    ensures PortalsOk(regions', portals)
    ensures RegionCtx(regions', portals, dist, weight, false, s, g) == RegionCtx(regions, portals, dist, weight, false, s, g)
  {
    assert forall x :: 0 <= x < |regions| ==> RegionArcs(regions', portals, x) == RegionArcs(regions, portals, x);
  }

  /** One entry: search from `s` to `g` over the current regions and measure
      the region path, or infinity when there is none. */
  method Measure(regions: seq<Region>, current: seq<Region>, portals: seq<Portal>, dist: (Vec3, Vec3) -> real,
                 weight: real, s: nat, g: nat)
    returns (v: Ext, current': seq<Region>)
    requires PortalsOk(regions, portals) && s < |regions| && g < |regions|
    requires |current| == |regions| && forall x :: 0 <= x < |regions| ==> SameRegion(regions[x], current[x])
    ensures Measured(regions, portals, dist, weight, s, g, v)
    ensures |current'| == |regions| && forall x :: 0 <= x < |regions| ==> SameRegion(regions[x], current'[x])
  {
    SameSearch(regions, current, portals, dist, weight, s, g);
    var route;
    route, current' := FindRegionPath(current, portals, dist, weight, false, s, g);
    if route.None? {
      v := Inf;
    } else {
      RouteIds(regions, portals, dist, weight, s, g, route.value);
      var x := SumDistances(dist, RoutePoints(regions, portals, route.value));
      v := Fin(x);
      MeasuredRoute(regions, portals, dist, weight, s, g, route.value, x);
    }
  }

  /** The portals of a route are known portals. */
  lemma RouteIds(regions: seq<Region>, portals: seq<Portal>, dist: (Vec3, Vec3) -> real, weight: real,
                 s: nat, g: nat, tr: Trail)
    requires PortalsOk(regions, portals) && s < |regions| && g < |regions|
    requires IsTrail(RegionCtx(regions, portals, dist, weight, false, s, g), tr)
    ensures forall i :: 0 <= i < |tr.links| ==> tr.links[i].id < |portals|
  {
    var ctx := RegionCtx(regions, portals, dist, weight, false, s, g);
    assert forall i :: 0 <= i < |tr.links| ==> tr.links[i] in ctx.arcs[tr.nodes[i + 1]];
  }

  lemma MeasuredRoute(regions: seq<Region>, portals: seq<Portal>, dist: (Vec3, Vec3) -> real, weight: real,
                      s: nat, g: nat, tr: Trail, x: real)
    requires PortalsOk(regions, portals) && s < |regions| && g < |regions|
    requires IsTrail(RegionCtx(regions, portals, dist, weight, false, s, g), tr) && Simple(tr)
    requires forall i :: 0 <= i < |tr.links| ==> tr.links[i].id < |portals|
    requires x == Length(dist, RoutePoints(regions, portals, tr))
    ensures Measured(regions, portals, dist, weight, s, g, Fin(x))
  {
  }

  /** (`s'`, `g'`) comes before (`s`, `g`) in the order the loops visit pairs. */
  predicate Before(s': int, g': int, s: int, g: int) {
    s' < s || (s' == s && g' < g)
  }

  /** The table after the loops have visited every pair before (`s`, `g`):
      each visited pair is stored under its key with its distance, and every
      key belongs to a visited pair, recorded in `owner`. */
  ghost predicate Filled(regions: seq<Region>, portals: seq<Portal>, dist: (Vec3, Vec3) -> real, weight: real,
                         upperBound: int, s: nat, g: nat, table: map<int, Ext>, owner: map<int, (nat, nat)>)
    requires PortalsOk(regions, portals)
  {
    && table.Keys == owner.Keys
    && Keyed(|regions|, upperBound, s, g, owner)
    && AllMeasured(regions, portals, dist, weight, table, owner)
  }

  /** `owner` records exactly the pairs visited before (`s`, `g`), each under its key. */
  ghost predicate Keyed(n: nat, upperBound: int, s: nat, g: nat, owner: map<int, (nat, nat)>) {
    && (forall s', g' :: 0 <= s' < g' < n && Before(s', g', s, g) ==>
          Key(s', g', upperBound) in owner && owner[Key(s', g', upperBound)] == (s', g'))
    && (forall k :: k in owner ==>
          && owner[k].0 < owner[k].1 < n && Before(owner[k].0, owner[k].1, s, g)
          && k == Key(owner[k].0, owner[k].1, upperBound))
  }

  /** Every entry holds the distance of the pair that owns its key. */
  ghost predicate AllMeasured(regions: seq<Region>, portals: seq<Portal>, dist: (Vec3, Vec3) -> real, weight: real,
                              table: map<int, Ext>, owner: map<int, (nat, nat)>)
    requires PortalsOk(regions, portals)
  {
    forall k :: k in owner && k in table && owner[k].0 < |regions| && owner[k].1 < |regions| ==>
      Measured(regions, portals, dist, weight, owner[k].0, owner[k].1, table[k])
  }

  /** CalculateRegionDistances over regions with at least one member:
      `upperBound` is the last region's id; for every pair of indices
      `s < g` the distance is stored under `s · (upperBound + 1) + g`, and no
      other key is stored. The result is None when a key is met twice (the
      dictionary's Add throws), which cannot happen when `upperBound` is at
      least the last index, as it is when ids are indices. */
  method CalculateRegionDistances(regions: seq<Region>, portals: seq<Portal>, dist: (Vec3, Vec3) -> real,
                                  weight: real)
    returns (table: Option<map<int, Ext>>, upperBound: nat, regions': seq<Region>)
    requires PortalsOk(regions, portals) && |regions| >= 1
    ensures upperBound == regions[|regions| - 1].id
    ensures upperBound >= |regions| - 1 ==> table.Some?
    ensures table.Some? ==> forall s, g :: 0 <= s < g < |regions| ==>
              Key(s, g, upperBound) in table.value
              && Measured(regions, portals, dist, weight, s, g, table.value[Key(s, g, upperBound)])
    ensures table.Some? ==> forall k :: k in table.value ==>
              exists s, g :: 0 <= s < g < |regions| && k == Key(s, g, upperBound)
    ensures |regions'| == |regions| && forall x :: 0 <= x < |regions| ==> SameRegion(regions[x], regions'[x])
  {
    var n := |regions|;
    upperBound := regions[n - 1].id;
    var d: map<int, Ext> := map[];
    ghost var owner: map<int, (nat, nat)> := map[];
    regions' := regions;
    var s := 0;
    while s < n
      invariant 0 <= s <= n
      invariant Filled(regions, portals, dist, weight, upperBound, s, s + 1, d, owner)
      invariant |regions'| == n && forall x :: 0 <= x < n ==> SameRegion(regions[x], regions'[x])
    {
      var g := s + 1;
      while g < n
        invariant s + 1 <= g <= n
        invariant Filled(regions, portals, dist, weight, upperBound, s, g, d, owner)
        invariant |regions'| == n && forall x :: 0 <= x < n ==> SameRegion(regions[x], regions'[x])
      {
        var ok;
        ok, d, owner, regions' := Visit(regions, portals, dist, weight, upperBound, s, g, d, owner, regions');
        if !ok {
          return None, upperBound, regions';
        }
        g := g + 1;
      }
      NextRow(regions, portals, dist, weight, upperBound, s, g, d, owner);
      s := s + 1;
    }
    table := Some(d);
    FilledKeys(regions, portals, dist, weight, upperBound, s, d, owner);
    FilledMeasured(regions, portals, dist, weight, upperBound, s, d, owner);
  }

  /** The inner loop's body: measure the pair (`s`, `g`) and store it under
      its key, failing when the key is already taken. */
  method Visit(regions: seq<Region>, portals: seq<Portal>, dist: (Vec3, Vec3) -> real, weight: real,
               upperBound: int, s: nat, g: nat, d: map<int, Ext>, ghost owner: map<int, (nat, nat)>,
               current: seq<Region>)
    returns (ok: bool, d': map<int, Ext>, ghost owner': map<int, (nat, nat)>, current': seq<Region>)
    requires PortalsOk(regions, portals) && s < g < |regions|
    requires Filled(regions, portals, dist, weight, upperBound, s, g, d, owner)
    requires |current| == |regions| && forall x :: 0 <= x < |regions| ==> SameRegion(regions[x], current[x])
    ensures ok ==> Filled(regions, portals, dist, weight, upperBound, s, g + 1, d', owner')
    ensures !ok ==> upperBound < |regions| - 1
    ensures |current'| == |regions| && forall x :: 0 <= x < |regions| ==> SameRegion(regions[x], current'[x])
  {
    var v;
    v, current' := Measure(regions, current, portals, dist, weight, s, g);
    var key := s * (upperBound + 1) + g;
    if key in d {
      if upperBound >= |regions| - 1 {
        var pair := owner[key];
        KeyInjective(pair.0, pair.1, s, g, upperBound);
        assert false;
      }
      return false, d, owner, current';
    }
    ok := true;
    d', owner' := Store(regions, portals, dist, weight, upperBound, s, g, d, owner, key, v);
  }

  /** Storing the entry of (`s`, `g`) under its fresh key. */
  method Store(regions: seq<Region>, portals: seq<Portal>, dist: (Vec3, Vec3) -> real, weight: real,
               upperBound: int, s: nat, g: nat, d: map<int, Ext>, ghost owner: map<int, (nat, nat)>,
               key: int, v: Ext)
    returns (d': map<int, Ext>, ghost owner': map<int, (nat, nat)>)
    requires PortalsOk(regions, portals) && s < g < |regions|
    requires Filled(regions, portals, dist, weight, upperBound, s, g, d, owner)
    requires key == Key(s, g, upperBound) && key !in d
    requires Measured(regions, portals, dist, weight, s, g, v)
    ensures d' == d[key := v]
    ensures Filled(regions, portals, dist, weight, upperBound, s, g + 1, d', owner')
  {
    d' := d[key := v];
    owner' := owner[key := (s, g)];
    StoreKeyed(|regions|, upperBound, s, g, owner, key);
    StoreMeasured(regions, portals, dist, weight, s, g, d, owner, key, v);
  }

  lemma StoreKeyed(n: nat, upperBound: int, s: nat, g: nat, owner: map<int, (nat, nat)>, key: int)
    requires s < g < n && Keyed(n, upperBound, s, g, owner) && key == Key(s, g, upperBound) && key !in owner
    ensures Keyed(n, upperBound, s, g + 1, owner[key := (s, g)])
  {
  }

  lemma StoreMeasured(regions: seq<Region>, portals: seq<Portal>, dist: (Vec3, Vec3) -> real, weight: real,
                      s: nat, g: nat, d: map<int, Ext>, owner: map<int, (nat, nat)>, key: int, v: Ext)
    requires PortalsOk(regions, portals) && s < |regions| && g < |regions|
    requires AllMeasured(regions, portals, dist, weight, d, owner)
    requires Measured(regions, portals, dist, weight, s, g, v)
    ensures AllMeasured(regions, portals, dist, weight, d[key := v], owner[key := (s, g)])
  {
    var d', owner' := d[key := v], owner[key := (s, g)];
    forall k | k in owner' && k in d' && owner'[k].0 < |regions| && owner'[k].1 < |regions|
      ensures Measured(regions, portals, dist, weight, owner'[k].0, owner'[k].1, d'[k])
    {
      if k != key {
        assert owner'[k] == owner[k] && d'[k] == d[k];
      }
    }
  }

  /** The end of a row: every pair starting at `s` has been visited. */
  lemma NextRow(regions: seq<Region>, portals: seq<Portal>, dist: (Vec3, Vec3) -> real, weight: real,
                upperBound: int, s: nat, g: nat, d: map<int, Ext>, owner: map<int, (nat, nat)>)
    requires PortalsOk(regions, portals) && g >= |regions|
    requires Filled(regions, portals, dist, weight, upperBound, s, g, d, owner)
    ensures Filled(regions, portals, dist, weight, upperBound, s + 1, s + 2, d, owner)
  {
    assert forall s', g' :: 0 <= s' < g' < |regions| && Before(s', g', s + 1, s + 2) ==> Before(s', g', s, g);
  }

  /** Every pair of the final table carries its distance. */
  lemma FilledMeasured(regions: seq<Region>, portals: seq<Portal>, dist: (Vec3, Vec3) -> real, weight: real,
                       upperBound: int, s: nat, d: map<int, Ext>, owner: map<int, (nat, nat)>)
    requires PortalsOk(regions, portals) && s >= |regions|
    requires Filled(regions, portals, dist, weight, upperBound, s, s + 1, d, owner)
    ensures forall s', g' :: 0 <= s' < g' < |regions| ==>
              Key(s', g', upperBound) in d && Measured(regions, portals, dist, weight, s', g', d[Key(s', g', upperBound)])
  {
    forall s', g' | 0 <= s' < g' < |regions|
      ensures Key(s', g', upperBound) in d && Measured(regions, portals, dist, weight, s', g', d[Key(s', g', upperBound)])
    {
      assert Before(s', g', s, s + 1);
      assert owner[Key(s', g', upperBound)] == (s', g');
    }
  }

  /** Every key of the final table belongs to a pair. */
  lemma FilledKeys(regions: seq<Region>, portals: seq<Portal>, dist: (Vec3, Vec3) -> real, weight: real,
                   upperBound: int, s: nat, d: map<int, Ext>, owner: map<int, (nat, nat)>)
    requires PortalsOk(regions, portals)
    requires Filled(regions, portals, dist, weight, upperBound, s, s + 1, d, owner)
    ensures forall k :: k in d ==> exists s, g :: 0 <= s < g < |regions| && k == Key(s, g, upperBound)
  {
    forall k | k in d
      ensures exists s, g :: 0 <= s < g < |regions| && k == Key(s, g, upperBound)
    {
      var pair := owner[k];
      assert 0 <= pair.0 < pair.1 < |regions| && k == Key(pair.0, pair.1, upperBound);
    }
  }

  // ---------------------------------------------------------------------------
  // Lookup.

  /** GetPathDistance: the entry under the key of the ids in ascending order.
      The dictionary lookup throws for a missing key, so the key must be there. */
  function GetPathDistance(table: map<int, Ext>, upperBound: int, id1: int, id2: int): (v: Ext)
    requires (if id1 < id2 then Key(id1, id2, upperBound) else Key(id2, id1, upperBound)) in table
    ensures id1 < id2 ==> v == table[Key(id1, id2, upperBound)]
    ensures id2 < id1 ==> v == table[Key(id2, id1, upperBound)]
  {
    var key := if id1 < id2 then id1 * (upperBound + 1) + id2 else id2 * (upperBound + 1) + id1;
    table[key]
  }

  /** The lookup does not depend on the order of the ids. */
  lemma GetPathDistanceSymmetric(table: map<int, Ext>, upperBound: int, id1: int, id2: int)
    requires (if id1 < id2 then Key(id1, id2, upperBound) else Key(id2, id1, upperBound)) in table
    ensures (if id2 < id1 then Key(id2, id1, upperBound) else Key(id1, id2, upperBound)) in table
    ensures GetPathDistance(table, upperBound, id1, id2) == GetPathDistance(table, upperBound, id2, id1)
  {
  }

  /** After a successful calculation every two distinct region indices can be
      looked up, in either order, and give the distance measured from the
      lower to the higher; the same index twice has no entry when ids are
      indices. */
  lemma LookupAfterCalculation(regions: seq<Region>, portals: seq<Portal>, dist: (Vec3, Vec3) -> real, weight: real,
                               table: map<int, Ext>, upperBound: nat, a: nat, b: nat)
    requires PortalsOk(regions, portals) && a < |regions| && b < |regions|
    requires forall s, g :: 0 <= s < g < |regions| ==>
               Key(s, g, upperBound) in table
               && Measured(regions, portals, dist, weight, s, g, table[Key(s, g, upperBound)])
    requires forall k :: k in table ==> exists s, g :: 0 <= s < g < |regions| && k == Key(s, g, upperBound)
    requires upperBound >= |regions| - 1
    ensures a != b ==> (if a < b then Key(a, b, upperBound) else Key(b, a, upperBound)) in table
    ensures a < b ==> Measured(regions, portals, dist, weight, a, b, GetPathDistance(table, upperBound, a, b))
    ensures b < a ==> Measured(regions, portals, dist, weight, b, a, GetPathDistance(table, upperBound, a, b))
    ensures Key(a, a, upperBound) !in table
  {
    if Key(a, a, upperBound) in table {
      var s, g :| 0 <= s < g < |regions| && Key(a, a, upperBound) == Key(s, g, upperBound);
      KeyInjective(a, a, s, g, upperBound);
    }
  }
}

=== FILE: region_portals.dfy ===
/** Portal calculation (Assets/Regions/RegionManager.cs, CalculateAllRegionPortals,
    CalculateRegionPortals and GetEdgeToNeighbor). Every region scans its right
    column towards the east and its top row towards the north; each maximal run
    of frontier cells whose neighbours lie in one region becomes one portal,
    placed between the edges of the run's first and last cells and listed by
    both regions it joins. */
module RegionPortals {
  import opened Common
  import opened Directions
  import opened Cells
  import opened Edges
  import opened NodeGraph
  import opened Regions
  import opened Runs
  import CellGrid

  /** What the calculation reads: the cells (neighbour slots, region ids), the
      search nodes (node i belongs to cell i), the edges and each edge's world
      position. */
  datatype Board = Board(cells: seq<Cell>, nodes: seq<Node>, edges: seq<Edge>, edgePos: seq<Vec3>)

  /** The board is internally consistent: one node per cell, neighbour slots and
      node edge lists point into range, and every edge has a position. */
  ghost predicate GridOk(b: Board) {
    && |b.nodes| == |b.cells| && |b.edgePos| == |b.edges|
    && (forall i :: 0 <= i < |b.cells| ==> b.cells[i].Valid())
    && (forall i, j :: 0 <= i < |b.cells| && 0 <= j < |b.cells[i].neighbors| && b.cells[i].neighbors[j].Some?
          ==> b.cells[i].neighbors[j].value < |b.cells|)
    && (forall i, j :: 0 <= i < |b.nodes| && 0 <= j < |b.nodes[i].edges| ==> b.nodes[i].edges[j] < |b.edges|)
  }

  /** Every cell belongs to one of the `count` regions (segmentation is done). */
  ghost predicate Labelled(b: Board, count: nat) {
    forall i :: 0 <= i < |b.cells| ==> 0 <= b.cells[i].regionId < count
  }

  ghost predicate Frontier(b: Board, indices: seq<int>) {
    forall i :: 0 <= i < |indices| ==> 0 <= indices[i] < |b.cells|
  }

  /** The edge leads from node `from` in direction `d`. */
  predicate Leads(e: Edge, d: Direction, from: nat) {
    e.direction == d && e.nodeOne == from
  }

  /** The position in `list`, from `k` on, of the first edge leading from `from`
      in direction `d`. */
  function FirstLeading(edges: seq<Edge>, list: seq<nat>, d: Direction, from: nat, k: nat): (r: Option<nat>)
    requires forall j :: 0 <= j < |list| ==> list[j] < |edges|
    requires k <= |list|
    ensures r.Some? ==> k <= r.value < |list| && Leads(edges[list[r.value]], d, from)
    ensures r.Some? ==> forall j :: k <= j < r.value ==> !Leads(edges[list[j]], d, from)
    ensures r.None? <==> forall j :: k <= j < |list| ==> !Leads(edges[list[j]], d, from)
    decreases |list| - k
  {
    if k == |list| then Option.None
    else if Leads(edges[list[k]], d, from) then Some(k)
    else FirstLeading(edges, list, d, from, k + 1)
  }

  /** GetEdgeToNeighbor: towards the east, the first edge of the cell's node
      made by the eastern neighbour towards the west; towards the north, the
      first one made by the northern neighbour towards the south; nothing in
      any other direction or when there is no such edge. */
  function GetEdgeToNeighbor(b: Board, cell: nat, neighbor: nat, dir: Direction): (r: Option<nat>)
    requires GridOk(b) && cell < |b.cells|
    ensures r.Some? ==> (dir == E || dir == N) && r.value in b.nodes[cell].edges
                        && r.value < |b.edges| && Leads(b.edges[r.value], Opposite(dir), neighbor)
    ensures r.None? <==> (dir != E && dir != N)
                         || forall e :: e in b.nodes[cell].edges ==> !Leads(b.edges[e], Opposite(dir), neighbor)
  {
    var list := b.nodes[cell].edges;
    if dir == E || dir == N then
      var k := FirstLeading(b.edges, list, Opposite(dir), neighbor, 0);
      if k.Some? then Some(list[k.value]) else Option.None
    else Option.None
  }

  /** The neighbour, towards `dir`, of the `i`-th frontier cell. */
  function NeighborAt(b: Board, indices: seq<int>, dir: Direction, i: nat): Option<nat>
    requires GridOk(b) && Frontier(b, indices) && i < |indices| && dir != NW
  {
    GetNeighbor(b.cells[indices[i]], dir)
  }

  /** How far the scan gets from position `i`: up to the first frontier cell
      without a neighbour towards `dir`, or to the end. */
  function Reach(b: Board, indices: seq<int>, dir: Direction, i: nat): (n: nat)
    requires GridOk(b) && Frontier(b, indices) && i <= |indices| && dir != NW
    ensures i <= n <= |indices|
    ensures forall j :: i <= j < n ==> NeighborAt(b, indices, dir, j).Some?
    ensures n < |indices| ==> NeighborAt(b, indices, dir, n).None?
    decreases |indices| - i
  {
    if i == |indices| || NeighborAt(b, indices, dir, i).None? then i
    else Reach(b, indices, dir, i + 1)
  }

  /** Every scanned frontier cell finds the edge to its neighbour. The source
      null-checks a run's first and last edge but dereferences them at the last
      frontier cell; BuiltBoardHasEdges shows this holds on every board
      NodeGraph builds. */
  ghost predicate EdgesPresent(b: Board, indices: seq<int>, dir: Direction)
    requires GridOk(b) && Frontier(b, indices) && dir != NW
  {
    forall j :: 0 <= j < Reach(b, indices, dir, 0) ==>
      var nb := NeighborAt(b, indices, dir, j).value;
      nb < |b.cells| && GetEdgeToNeighbor(b, indices[j], nb, dir).Some?
  }

  /** On a board NodeGraph built over a linked grid, a cell with a neighbour
      towards E or N always finds the edge back: the neighbour made it towards
      W or S, and it is listed by both ends. So EdgesPresent holds on every
      frontier of such a board. */
  lemma BuiltBoardHasEdges(b: Board, C: nat, R: nat, indices: seq<int>, dir: Direction)
    requires LinkedGrid(b.cells, C, R) && Matches(b.cells, C, R, b.edges, Plan(C, R))
    requires forall i :: 0 <= i < |b.nodes| ==> b.nodes[i].edges == Incident(b.edges, i, |b.edges|)
    requires GridOk(b) && Frontier(b, indices) && (dir == E || dir == N)
    ensures EdgesPresent(b, indices, dir)
  {
    forall j | 0 <= j < Reach(b, indices, dir, 0)
      ensures var nb := NeighborAt(b, indices, dir, j).value;
              nb < |b.cells| && GetEdgeToNeighbor(b, indices[j], nb, dir).Some?
    {
      assert NeighborAt(b, indices, dir, j).Some?;
      EdgeBack(b, C, R, indices[j], dir);
    }
  }

  /** One cell of BuiltBoardHasEdges: the edge its E or N neighbour made back to it. */
  lemma EdgeBack(b: Board, C: nat, R: nat, i: nat, dir: Direction)
    requires LinkedGrid(b.cells, C, R) && Matches(b.cells, C, R, b.edges, Plan(C, R))
    requires forall i :: 0 <= i < |b.nodes| ==> b.nodes[i].edges == Incident(b.edges, i, |b.edges|)
    requires GridOk(b) && i < |b.cells| && (dir == E || dir == N)
    requires GetNeighbor(b.cells[i], dir).Some?
    ensures var nb := GetNeighbor(b.cells[i], dir).value;
            nb < |b.cells| && GetEdgeToNeighbor(b, i, nb, dir).Some?
  {
    var c, r := i % C, i / C;
    CellGrid.IdxOnto(C, R, i);
    var d := Delta(dir);
    assert CellGrid.NeighborAt(b.cells, C, R, c, r, dir) == CellGrid.Expected(C, R, c, r, dir);
    var nb := GetNeighbor(b.cells[i], dir).value;
    assert CellGrid.InGrid(C, R, c + d.dc, r + d.dr) && nb == CellGrid.Idx(C, c + d.dc, r + d.dr);
    var l := Link(c + d.dc, r + d.dr, Opposite(dir));
    assert Target(l) == (c, r);
    assert ValidLink(C, R, l);
    PlanComplete(C, R, l);
    var k :| 0 <= k < |Plan(C, R)| && Plan(C, R)[k] == l;
    var e := b.edges[k];
    assert e == EdgeFor(b.cells, C, R, l);
    assert Leads(e, Opposite(dir), nb) && Touches(e, i);
    IncidentMeaning(b.edges, i, |b.edges|);
    assert k in b.nodes[i].edges;
  }

  /** One scan: the board, the distance function, the regions' centres, the
      scanning region, its frontier and the direction. */
  datatype Scan = Scan(b: Board, dist: (Vec3, Vec3) -> real, centers: seq<Vec3>, k: nat,
                       indices: seq<int>, dir: Direction)

  ghost predicate ScanOk(s: Scan) {
    && GridOk(s.b) && Labelled(s.b, |s.centers|) && s.k < |s.centers|
    && Frontier(s.b, s.indices) && s.dir != NW && EdgesPresent(s.b, s.indices, s.dir)
  }

  /** Number of frontier cells the scan visits. */
  function Extent(s: Scan): (n: nat)
    requires ScanOk(s)
    ensures n <= |s.indices|
  {
    Reach(s.b, s.indices, s.dir, 0)
  }

  /** The region of the neighbour of the `j`-th scanned frontier cell. */
  function IdAt(s: Scan, j: nat): (id: nat)
    requires ScanOk(s) && j < Extent(s)
    ensures id < |s.centers|
  {
    s.b.cells[NeighborAt(s.b, s.indices, s.dir, j).value].regionId
  }

  /** The neighbour regions of the scanned frontier cells, in scan order. */
  function Ids(s: Scan): (ids: seq<int>)
    requires ScanOk(s)
    ensures |ids| == Extent(s)
    ensures forall j :: 0 <= j < |ids| ==> ids[j] == IdAt(s, j)
  {
    seq(Extent(s), j requires 0 <= j < Extent(s) && ScanOk(s) => IdAt(s, j))
  }

  /** The edge between the `j`-th scanned frontier cell and its neighbour. */
  function EdgeAt(s: Scan, j: nat): (e: nat)
    requires ScanOk(s) && j < Extent(s)
    ensures e < |s.b.edges|
  {
    GetEdgeToNeighbor(s.b, s.indices[j], NeighborAt(s.b, s.indices, s.dir, j).value, s.dir).value
  }

  /** What a scan sees, cell by cell, up to where it stops: the neighbour's
      region and the edge to the neighbour. */
  datatype Trace = Trace(ids: seq<int>, edges: seq<nat>)

  /** The trace fits the board: every region id has a centre and every edge a
      position. */
  ghost predicate Fits(s: Scan, t: Trace) {
    && s.k < |s.centers| && |s.b.edgePos| == |s.b.edges| && |t.ids| == |t.edges|
    && (forall j :: 0 <= j < |t.ids| ==> 0 <= t.ids[j] < |s.centers|)
    && (forall j :: 0 <= j < |t.edges| ==> t.edges[j] < |s.b.edges|)
  }

  function TraceOf(s: Scan): (t: Trace)
    requires ScanOk(s)
    ensures Fits(s, t) && |t.ids| == Extent(s)
    ensures forall j :: 0 <= j < Extent(s) ==> t.ids[j] == IdAt(s, j) && t.edges[j] == EdgeAt(s, j)
  {
    Trace(Ids(s), seq(Extent(s), j requires 0 <= j < Extent(s) && ScanOk(s) => EdgeAt(s, j)))
  }

  /** Where the portal of a run goes: midway between the edges of its first and
      last cells, or at the edge of its only cell. */
  function RunPosition(s: Scan, t: Trace, u: Run): Vec3
    requires Fits(s, t) && u.start < u.end <= |t.ids|
  {
    if u.end - u.start > 1 then Midpoint(s.b.edgePos[t.edges[u.start]], s.b.edgePos[t.edges[u.end - 1]])
    else s.b.edgePos[t.edges[u.start]]
  }

  /** The portal of a run: from the scanning region to the run's neighbour
      region, with the type of the run's first edge. */
  function RunPortal(s: Scan, t: Trace, u: Run): (p: Portal)
    requires Fits(s, t) && u.start < u.end <= |t.ids|
  {
    NewPortal(s.dist, s.centers, RunPosition(s, t, u), s.k, t.ids[u.start], s.b.edges[t.edges[u.start]].edgeType)
  }

  function PortalsOf(s: Scan, t: Trace, runs: seq<Run>): (ps: seq<Portal>)
    requires Fits(s, t) && RunsWithin(runs, |t.ids|)
    ensures |ps| == |runs|
    ensures forall j :: 0 <= j < |runs| ==> ps[j] == RunPortal(s, t, runs[j])
  {
    seq(|runs|, j requires 0 <= j < |runs| && Fits(s, t) && RunsWithin(runs, |t.ids|) => RunPortal(s, t, runs[j]))
  }

  /** The portals one scan creates, in order. */
  function Emitted(s: Scan): seq<Portal>
    requires ScanOk(s)
  {
    var t := TraceOf(s);
    PortalsOf(s, t, ClosedRuns(t.ids, Extent(s) == |s.indices|))
  }

  /** What the loop remembers of the open run after `i` frontier cells: `prev`
      is its neighbour region, `first` the edge of its first cell and `last`
      that of its last cell when it is longer than one cell. */
  ghost predicate Tracking(t: Trace, i: nat, prev: int, first: Option<nat>, last: Option<nat>)
    requires 0 < i <= |t.ids| == |t.edges|
  {
    var u := Pending(t.ids, i);
    && prev == t.ids[i - 1] && prev == t.ids[u.start]
    && first == Some(t.edges[u.start])
    && (last.Some? <==> u.end - u.start > 1)
    && (last.Some? ==> last.value == t.edges[i - 1])
  }

  /** After `i` frontier cells, before the end-of-frontier check: the closed
      runs have their portals, listed by both regions. */
  ghost predicate Open(s: Scan, t: Trace, regions: seq<Region>, portals: seq<Portal>, i: nat, prev: int,
                       first: Option<nat>, last: Option<nat>, regions': seq<Region>, portals': seq<Portal>)
  {
    && Fits(s, t) && 0 < i <= |t.ids|
    && Tracking(t, i, prev, first, last)
    && ListsFrom(regions, regions', portals', |portals|)
    && portals' == portals + PortalsOf(s, t, Done(t.ids, i))
  }

  /** The state of the scan loop after `i` frontier cells; at the end of the
      frontier the open run has its portal too. */
  ghost predicate Scanning(s: Scan, t: Trace, regions: seq<Region>, portals: seq<Portal>, i: nat, prev: int,
                           first: Option<nat>, last: Option<nat>, regions': seq<Region>, portals': seq<Portal>)
  {
    && Fits(s, t) && i <= |t.ids|
    && ListsFrom(regions, regions', portals', |portals|)
    && (i == 0 ==> prev == -1 && first.None? && last.None? && portals' == portals)
    && (i > 0 ==>
          && Tracking(t, i, prev, first, last)
          && (i < |s.indices| ==> portals' == portals + PortalsOf(s, t, Done(t.ids, i)))
          && (i == |s.indices| ==> portals' == portals + PortalsOf(s, t, Done(t.ids, i)) + [RunPortal(s, t, Pending(t.ids, i))]))
  }

  lemma PortalsOfSnoc(s: Scan, t: Trace, runs: seq<Run>, u: Run)
    requires Fits(s, t) && RunsWithin(runs, |t.ids|) && u.start < u.end <= |t.ids|
    ensures RunsWithin(runs + [u], |t.ids|)
    ensures PortalsOf(s, t, runs + [u]) == PortalsOf(s, t, runs) + [RunPortal(s, t, u)]
  {
  }

  /** The portal the source builds from the loop's variables is the open run's. */
  lemma PendingPortal(s: Scan, t: Trace, i: nat, prev: int, first: Option<nat>, last: Option<nat>)
    requires Fits(s, t) && 0 < i <= |t.ids| && Tracking(t, i, prev, first, last)
    ensures first.Some? && 0 <= prev < |s.centers| && first.value < |s.b.edges| == |s.b.edgePos|
    ensures last.Some? ==> last.value < |s.b.edges|
    ensures RunPortal(s, t, Pending(t.ids, i))
         == NewPortal(s.dist, s.centers,
                      if last.Some? then Midpoint(s.b.edgePos[first.value], s.b.edgePos[last.value])
                      else s.b.edgePos[first.value],
                      s.k, prev, s.b.edges[first.value].edgeType)
  {
  }

  /** The scan stops at the end of the frontier or at its first cell without a
      neighbour: either way after Extent cells. */
  lemma ScanStops(s: Scan, i: nat)
    requires ScanOk(s) && i <= Extent(s)
    requires i == |s.indices| || NeighborAt(s.b, s.indices, s.dir, i).None?
    ensures i == Extent(s)
  {
  }

  /** The portals of the closed runs of a whole trace, in terms of the loop's
      open run. */
  lemma ClosedAtEnd(s: Scan, t: Trace, complete: bool)
    requires Fits(s, t) && |t.ids| > 0
    ensures complete ==> (PortalsOf(s, t, ClosedRuns(t.ids, complete))
                          == PortalsOf(s, t, Done(t.ids, |t.ids|)) + [RunPortal(s, t, Pending(t.ids, |t.ids|))])
    ensures !complete ==> ClosedRuns(t.ids, complete) == Done(t.ids, |t.ids|)
  {
    var ids := t.ids;
    assert ids[..|ids|] == ids;
    var all := RunsOf(ids);
    assert all == all[..|all| - 1] + [all[|all| - 1]];
    PortalsOfSnoc(s, t, Done(ids, |ids|), Pending(ids, |ids|));
  }

  /** The end of the scan: the portals made are those of the closed runs. */
  lemma ScanDone(s: Scan, t: Trace, regions: seq<Region>, portals: seq<Portal>, i: nat, prev: int,
                 first: Option<nat>, last: Option<nat>, regions': seq<Region>, portals': seq<Portal>)
    requires Fits(s, t) && i == |t.ids| <= |s.indices|
    requires Scanning(s, t, regions, portals, i, prev, first, last, regions', portals')
    ensures portals' == portals + PortalsOf(s, t, ClosedRuns(t.ids, i == |s.indices|))
    ensures ListsFrom(regions, regions', portals', |portals|)
  {
    if i == 0 {
      assert RunsOf(t.ids) == [];
      assert PortalsOf(s, t, ClosedRuns(t.ids, i == |s.indices|)) == [];
      assert portals + [] == portals;
    } else if i == |s.indices| {
      ClosedAtEnd(s, t, true);
    } else {
      ClosedAtEnd(s, t, false);
      assert ClosedRuns(t.ids, i == |s.indices|) == Done(t.ids, i);
    }
  }

  /** CalculateRegionPortals: scans the frontier `indices` of region `k`
      towards `dir`; each maximal run of frontier cells whose neighbours lie in
      one region becomes a portal to that region, listed by both regions. A
      frontier cell without a neighbour ends the scan and drops the open run. */
  method CalculateRegionPortals(s: Scan, regions: seq<Region>, portals: seq<Portal>)
    returns (regions': seq<Region>, portals': seq<Portal>)
    requires ScanOk(s) && |regions| == |s.centers|
    ensures portals' == portals + Emitted(s)
    ensures ListsFrom(regions, regions', portals', |portals|)
  {
    ghost var t := TraceOf(s);
    var prev: int := -1;
    var first: Option<nat> := Option.None;
    var last: Option<nat> := Option.None;
    regions', portals' := regions, portals;
    var i := 0;
    while i < |s.indices|
      invariant i <= Extent(s)
      invariant Scanning(s, t, regions, portals, i, prev, first, last, regions', portals')
      decreases |s.indices| - i
    {
      var nb := GetNeighbor(s.b.cells[s.indices[i]], s.dir);
      if nb.None? {
        break;
      }
      prev, first, last, regions', portals' := ScanCell(s, t, regions, portals, i, prev, first, last, regions', portals');
      i := i + 1;
    }
    ScanEnd(s, t, regions, portals, i, prev, first, last, regions', portals');
  }

  /** Whichever way the loop ends, it has made the portals of the closed runs. */
  lemma ScanEnd(s: Scan, t: Trace, regions: seq<Region>, portals: seq<Portal>, i: nat, prev: int,
                first: Option<nat>, last: Option<nat>, regions': seq<Region>, portals': seq<Portal>)
    requires ScanOk(s) && t == TraceOf(s) && i <= Extent(s)
    requires i == |s.indices| || NeighborAt(s.b, s.indices, s.dir, i).None?
    requires Scanning(s, t, regions, portals, i, prev, first, last, regions', portals')
    ensures portals' == portals + Emitted(s)
    ensures ListsFrom(regions, regions', portals', |portals|)
  {
    ScanStops(s, i);
    ScanDone(s, t, regions, portals, i, prev, first, last, regions', portals');
  }

  /** One frontier cell that has a neighbour; at the last frontier cell the open
      run gets its portal. */
  method ScanCell(s: Scan, ghost t: Trace, regions: seq<Region>, portals: seq<Portal>, i: nat, prev: int,
                  first: Option<nat>, last: Option<nat>, regions': seq<Region>, portals': seq<Portal>)
    returns (prev2: int, first2: Option<nat>, last2: Option<nat>, regions2: seq<Region>, portals2: seq<Portal>)
    requires ScanOk(s) && t == TraceOf(s) && |regions| == |s.centers|
    requires Scanning(s, t, regions, portals, i, prev, first, last, regions', portals')
    requires i < |s.indices| && NeighborAt(s.b, s.indices, s.dir, i).Some? && i <= Extent(s)
    ensures i + 1 <= Extent(s)
    ensures Scanning(s, t, regions, portals, i + 1, prev2, first2, last2, regions2, portals2)
  {
    Observed(s, i);
    var nb := GetNeighbor(s.b.cells[s.indices[i]], s.dir);
    var id := s.b.cells[nb.value].regionId;
    var edge := GetEdgeToNeighbor(s.b, s.indices[i], nb.value, s.dir);
    prev2, first2, last2, regions2, portals2 := Advance(s, t, regions, portals, i, prev, first, last, regions', portals', id, edge);
  }

  /** What the code reads at a frontier cell with a neighbour is what the trace
      records there. */
  lemma Observed(s: Scan, i: nat)
    requires ScanOk(s) && i < |s.indices| && i <= Extent(s) && NeighborAt(s.b, s.indices, s.dir, i).Some?
    ensures i < Extent(s)
    ensures var nb := GetNeighbor(s.b.cells[s.indices[i]], s.dir).value;
            && nb < |s.b.cells|
            && TraceOf(s).ids[i] == s.b.cells[nb].regionId
            && GetEdgeToNeighbor(s.b, s.indices[i], nb, s.dir) == Some(TraceOf(s).edges[i])
  {
  }

  /** The loop body once the neighbour's region and the edge to it are known. */
  method Advance(s: Scan, ghost t: Trace, regions: seq<Region>, portals: seq<Portal>, i: nat, prev: int,
                 first: Option<nat>, last: Option<nat>, regions': seq<Region>, portals': seq<Portal>,
                 id: int, edge: Option<nat>)
    returns (prev2: int, first2: Option<nat>, last2: Option<nat>, regions2: seq<Region>, portals2: seq<Portal>)
    requires |regions| == |s.centers|
    requires Scanning(s, t, regions, portals, i, prev, first, last, regions', portals')
    requires i < |s.indices| && i < |t.ids| && id == t.ids[i] && edge == Some(t.edges[i])
    ensures Scanning(s, t, regions, portals, i + 1, prev2, first2, last2, regions2, portals2)
  {
    prev2, first2, last2, regions2, portals2 := Absorb(s, t, regions, portals, i, prev, first, last, regions', portals', id, edge);
    regions2, portals2 := Settle(s, t, regions, portals, i + 1, prev2, first2, last2, regions2, portals2);
  }

  /** After `i` cells: at the end of the frontier the open run gets its portal. */
  method Settle(s: Scan, ghost t: Trace, regions: seq<Region>, portals: seq<Portal>, i: nat, prev: int,
                first: Option<nat>, last: Option<nat>, regions': seq<Region>, portals': seq<Portal>)
    returns (regions2: seq<Region>, portals2: seq<Portal>)
    requires |regions| == |s.centers| && i <= |s.indices|
    requires Open(s, t, regions, portals, i, prev, first, last, regions', portals')
    ensures Scanning(s, t, regions, portals, i, prev, first, last, regions2, portals2)
  {
    if i == |s.indices| {
      regions2, portals2 := CloseLast(s, t, regions, portals, i, prev, first, last, regions', portals');
    } else {
      regions2, portals2 := regions', portals';
      OpenIsScanning(s, t, regions, portals, i, prev, first, last, regions', portals');
    }
  }

  /** The cell joins the open run or opens a new one. */
  method Absorb(s: Scan, ghost t: Trace, regions: seq<Region>, portals: seq<Portal>, i: nat, prev: int,
                first: Option<nat>, last: Option<nat>, regions': seq<Region>, portals': seq<Portal>,
                id: int, edge: Option<nat>)
    returns (prev2: int, first2: Option<nat>, last2: Option<nat>, regions2: seq<Region>, portals2: seq<Portal>)
    requires |regions| == |s.centers|
    requires Scanning(s, t, regions, portals, i, prev, first, last, regions', portals')
    requires i < |s.indices| && i < |t.ids| && id == t.ids[i] && edge == Some(t.edges[i])
    ensures Open(s, t, regions, portals, i + 1, prev2, first2, last2, regions2, portals2)
  {
    if id != prev {
      prev2, first2, last2, regions2, portals2 := NewNeighbor(s, t, regions, portals, i, prev, first, last, regions', portals', id, edge);
    } else {
      prev2, first2, last2, regions2, portals2 := SameNeighbor(s, t, regions, portals, i, prev, first, last, regions', portals', edge);
    }
  }

  /** Before the end of the frontier, the state after a cell is a loop state. */
  lemma OpenIsScanning(s: Scan, t: Trace, regions: seq<Region>, portals: seq<Portal>, i: nat, prev: int,
                       first: Option<nat>, last: Option<nat>, regions': seq<Region>, portals': seq<Portal>)
    requires i < |s.indices| && Open(s, t, regions, portals, i, prev, first, last, regions', portals')
    ensures Scanning(s, t, regions, portals, i, prev, first, last, regions', portals')
  {
  }

  /** Makes the open run's portal from the loop's variables and adds it. */
  method EmitPending(s: Scan, ghost t: Trace, regions: seq<Region>, portals: seq<Portal>, i: nat, prev: int,
                     first: Option<nat>, last: Option<nat>, regions': seq<Region>, portals': seq<Portal>)
    returns (regions2: seq<Region>, portals2: seq<Portal>)
    requires Fits(s, t) && |regions| == |s.centers| && 0 < i <= |t.ids|
    requires Tracking(t, i, prev, first, last) && ListsFrom(regions, regions', portals', |portals|)
    ensures ListsFrom(regions, regions2, portals2, |portals|)
    ensures portals2 == portals' + [RunPortal(s, t, Pending(t.ids, i))]
  {
    PendingPortal(s, t, i, prev, first, last);
    var position := if last.Some? then Midpoint(s.b.edgePos[first.value], s.b.edgePos[last.value])
                    else s.b.edgePos[first.value];
    var portal := NewPortal(s.dist, s.centers, position, s.k, prev, s.b.edges[first.value].edgeType);
    ListsFromStep(regions, regions', portals', |portals|, portal);
    var res := AddPortal(regions', portals', portal);
    regions2, portals2 := res.0, res.1;
  }

  /** At the last frontier cell: the open run's portal is made. */
  method CloseLast(s: Scan, ghost t: Trace, regions: seq<Region>, portals: seq<Portal>, i: nat, prev: int,
                   first: Option<nat>, last: Option<nat>, regions': seq<Region>, portals': seq<Portal>)
    returns (regions2: seq<Region>, portals2: seq<Portal>)
    requires |regions| == |s.centers| && i == |s.indices|
    requires Open(s, t, regions, portals, i, prev, first, last, regions', portals')
    ensures Scanning(s, t, regions, portals, i, prev, first, last, regions2, portals2)
  {
    regions2, portals2 := EmitPending(s, t, regions, portals, i, prev, first, last, regions', portals');
  }

  /** The loop state once a new run has opened at cell `i`. */
  lemma OpenedRun(s: Scan, t: Trace, regions: seq<Region>, portals: seq<Portal>, i: nat,
                  regions2: seq<Region>, portals2: seq<Portal>)
    requires Fits(s, t) && i < |t.ids| && (i == 0 || t.ids[i] != t.ids[i - 1])
    requires ListsFrom(regions, regions2, portals2, |portals|)
    requires portals2 == portals + PortalsOf(s, t, Done(t.ids, i + 1))
    ensures Open(s, t, regions, portals, i + 1, t.ids[i], Some(t.edges[i]), Option.None, regions2, portals2)
  {
    PendingCloses(t.ids, i);
  }

  /** Closing the open run at cell `i` yields the portals of the runs done
      after cell `i`. */
  lemma ClosedRun(s: Scan, t: Trace, portals: seq<Portal>, i: nat, portals': seq<Portal>)
    requires Fits(s, t) && 0 < i < |t.ids| && t.ids[i] != t.ids[i - 1]
    requires portals' == portals + PortalsOf(s, t, Done(t.ids, i))
    ensures portals' + [RunPortal(s, t, Pending(t.ids, i))] == portals + PortalsOf(s, t, Done(t.ids, i + 1))
  {
    PendingCloses(t.ids, i);
    PortalsOfSnoc(s, t, Done(t.ids, i), Pending(t.ids, i));
  }

  /** A neighbour in another region than the open run's: the open run's portal
      is made and a new run opens at this cell. */
  method NewNeighbor(s: Scan, ghost t: Trace, regions: seq<Region>, portals: seq<Portal>, i: nat, prev: int,
                     first: Option<nat>, last: Option<nat>, regions': seq<Region>, portals': seq<Portal>,
                     id: int, edge: Option<nat>)
    returns (prev2: int, first2: Option<nat>, last2: Option<nat>, regions2: seq<Region>, portals2: seq<Portal>)
    requires |regions| == |s.centers|
    requires Scanning(s, t, regions, portals, i, prev, first, last, regions', portals')
    requires i < |s.indices| && i < |t.ids| && id == t.ids[i] && edge == Some(t.edges[i]) && id != prev
    ensures Open(s, t, regions, portals, i + 1, prev2, first2, last2, regions2, portals2)
  {
    regions2, portals2 := regions', portals';
    if first.Some? {
      regions2, portals2 := EmitPending(s, t, regions, portals, i, prev, first, last, regions', portals');
      ClosedRun(s, t, portals, i, portals');
    } else {
      assert i == 0 && Done(t.ids, 1) == [] by { PendingCloses(t.ids, i); }
    }
    last2 := Option.None;
    first2 := edge;
    prev2 := id;
    OpenedRun(s, t, regions, portals, i, regions2, portals2);
  }

  /** A neighbour in the open run's region: the run grows by this cell. */
  method SameNeighbor(s: Scan, ghost t: Trace, regions: seq<Region>, portals: seq<Portal>, i: nat, prev: int,
                      first: Option<nat>, last: Option<nat>, regions': seq<Region>, portals': seq<Portal>,
                      edge: Option<nat>)
    returns (prev2: int, first2: Option<nat>, last2: Option<nat>, regions2: seq<Region>, portals2: seq<Portal>)
    requires Scanning(s, t, regions, portals, i, prev, first, last, regions', portals')
    requires i < |s.indices| && i < |t.ids| && t.ids[i] == prev && edge == Some(t.edges[i])
    ensures Open(s, t, regions, portals, i + 1, prev2, first2, last2, regions2, portals2)
  {
    PendingExtends(t.ids, i);
    regions2, portals2 := regions', portals';
    first2 := first;
    last2 := edge;
    prev2 := prev;
  }

  /** Every portal of a scan joins the scanning region to a region, and two
      portals made one after the other lead to different regions: each one
      stands for a maximal run. */
  lemma EmittedJoins(s: Scan)
    requires ScanOk(s)
    ensures forall j :: 0 <= j < |Emitted(s)| ==> Emitted(s)[j].one == s.k && Emitted(s)[j].two < |s.centers|
    ensures forall j :: 0 < j < |Emitted(s)| ==> Emitted(s)[j - 1].two != Emitted(s)[j].two
  {
    var t := TraceOf(s);
    var runs := ClosedRuns(t.ids, Extent(s) == |s.indices|);
    ClosedRunsDiffer(t.ids, Extent(s) == |s.indices|);
    PortalsJoin(s, t, runs);
  }

  lemma ClosedRunsDiffer(ids: seq<int>, complete: bool)
    ensures var runs := ClosedRuns(ids, complete);
            forall j :: 0 < j < |runs| ==> ids[runs[j - 1].start] != ids[runs[j].start]
  {
    var all := RunsOf(ids);
    var runs := ClosedRuns(ids, complete);
    RunsOfSplits(ids);
    assert forall j :: 0 <= j < |runs| ==> runs[j] == all[j];
  }

  lemma PortalsJoin(s: Scan, t: Trace, runs: seq<Run>)
    requires Fits(s, t) && RunsWithin(runs, |t.ids|)
    requires forall j :: 0 < j < |runs| ==> t.ids[runs[j - 1].start] != t.ids[runs[j].start]
    ensures forall j :: 0 <= j < |runs| ==> PortalsOf(s, t, runs)[j].one == s.k && PortalsOf(s, t, runs)[j].two < |s.centers|
    ensures forall j :: 0 < j < |runs| ==> PortalsOf(s, t, runs)[j - 1].two != PortalsOf(s, t, runs)[j].two
  {
  }
}

=== FILE: regions.dfy ===
/** Regions and portals (Assets/Regions/Region.cs and Portal.cs): a region is a
    rectangle of cells of one elevation, a portal joins two neighbouring
    regions. Regions are referred to by their id, which is also their index in
    the region list; portals by their index in one portal list. */
module Regions {
  import opened Common
  import opened Directions
  import opened Runs

  datatype RegionQualifier = NoQualifier | Elevation

  /** A region: its id and qualifier, its cell indices (bottom-left first), its
      top row and right column of cell indices, its centre, the indices of its
      portals and the bookkeeping of the last region search. */
  datatype Region = Region(
    id: nat,
    qualifier: RegionQualifier,
    cells: seq<int>,
    bottomLeft: int,
    center: Vec3,
    top: seq<int>,
    right: seq<int>,
    portals: seq<nat>,
    status: SearchStatus,
    parent: Option<nat>,
    g: Ext,
    h: Ext,
    f: Ext,
    portalOfParent: Option<nat>)

  /** The Region constructor: the first cell is the only cell and the
      bottom-left one. Fields the constructor leaves at their C# defaults are a
      zero centre, empty lists, status None, no parent and zero costs. */
  function NewRegion(id: nat, qualifier: RegionQualifier, first: int): (r: Region)
    ensures r.id == id && r.qualifier == qualifier
    ensures r.cells == [first] && r.bottomLeft == first
    ensures r.top == [] && r.right == [] && r.portals == []
    ensures r.status == Unvisited && r.parent == Option.None && r.portalOfParent == Option.None
  {
    Region(id, qualifier, [first], first, Vec3(0.0, 0.0, 0.0), [], [], [], Unvisited, Option.None,
           Fin(0.0), Fin(0.0), Fin(0.0), Option.None)
  }

  /** FinishSettingRegion: stores the centre and the two frontiers and starts an
      empty portal list. The UI set-up it also does is not modelled. */
  function FinishSettingRegion(r: Region, center: Vec3, top: seq<int>, right: seq<int>): (s: Region)
    ensures s.center == center && s.top == top && s.right == right && s.portals == []
    ensures s.id == r.id && s.qualifier == r.qualifier
    ensures s.cells == r.cells && s.bottomLeft == r.bottomLeft
  {
    r.(center := center, top := top, right := right, portals := [])
  }

  predicate IsReset(r: Region) {
    r.status == Unvisited && r.parent == Option.None && r.g == Inf && r.h == Inf && r.f == Inf
  }

  /** ResetSearchData: status None, no parent, infinite costs. Everything else,
      the portal of the parent included, is left as it was. */
  function ResetSearchData(r: Region): (s: Region)
    ensures IsReset(s)
    ensures s.id == r.id && s.qualifier == r.qualifier
    ensures s.cells == r.cells && s.bottomLeft == r.bottomLeft && s.center == r.center
    ensures s.top == r.top && s.right == r.right && s.portals == r.portals
    ensures s.portalOfParent == r.portalOfParent
  {
    r.(status := Unvisited, parent := Option.None, g := Inf, h := Inf, f := Inf)
  }

  /** Resetting forgets the whole search state except the portal of the parent:
      two regions that differ only in search data reset to the same region, and
      resetting twice is resetting once. */
  lemma ResetForgetsSearch(r: Region, s: Region)
    requires r.(status := Unvisited, parent := Option.None, g := Inf, h := Inf, f := Inf)
          == s.(status := Unvisited, parent := Option.None, g := Inf, h := Inf, f := Inf)
    ensures ResetSearchData(r) == ResetSearchData(s)
    ensures ResetSearchData(ResetSearchData(r)) == ResetSearchData(r)
  {
  }

  /** No step of a region's life changes its id or qualifier (both readonly). */
  lemma IdentityFixed(id: nat, q: RegionQualifier, first: int, center: Vec3, top: seq<int>, right: seq<int>)
    ensures var r := ResetSearchData(FinishSettingRegion(NewRegion(id, q, first), center, top, right));
            r.id == id && r.qualifier == q && r.cells == [first]
  {
  }

  /** A portal: its position, the ids of the two regions it joins, the type of
      the edge it was made from and its cost. */
  datatype Portal = Portal(position: Vec3, one: nat, two: nat, edgeType: EdgeType, cost: real)

  /** DetermineCost: the distance from the position to the first region's
      centre plus the distance from the second region's centre to the position. */
  function PortalCost(dist: (Vec3, Vec3) -> real, position: Vec3, centerOne: Vec3, centerTwo: Vec3): (c: real)
    ensures IsDistance(dist) ==> c >= 0.0
    ensures IsDistance(dist) ==> c == dist(centerOne, position) + dist(position, centerTwo)
  {
    dist(position, centerOne) + dist(centerTwo, position)
  }

  /** The Portal constructor; `centers` holds the regions' centres, by id. */
  function NewPortal(dist: (Vec3, Vec3) -> real, centers: seq<Vec3>, position: Vec3, one: nat, two: nat,
                     edgeType: EdgeType): (p: Portal)
    requires one < |centers| && two < |centers|
    ensures p.position == position && p.one == one && p.two == two && p.edgeType == edgeType
    ensures IsDistance(dist) ==> p.cost >= 0.0
  {
    Portal(position, one, two, edgeType, PortalCost(dist, position, centers[one], centers[two]))
  }

  /** The cost does not depend on which of the two regions is the first one. */
  lemma PortalCostSymmetric(dist: (Vec3, Vec3) -> real, centers: seq<Vec3>, position: Vec3, one: nat, two: nat,
                            edgeType: EdgeType)
    requires IsDistance(dist) && one < |centers| && two < |centers|
    ensures NewPortal(dist, centers, position, one, two, edgeType).cost
         == NewPortal(dist, centers, position, two, one, edgeType).cost
  {
    assert dist(position, centers[one]) == dist(centers[one], position);
    assert dist(centers[two], position) == dist(position, centers[two]);
  }

  /** OtherRegion: the region at the far side of the portal, or nothing when
      `r` is not one of its two regions. */
  function OtherRegion(p: Portal, r: nat): (o: Option<nat>)
    ensures o.Some? <==> r == p.one || r == p.two
    ensures o.Some? ==> multiset{r, o.value} == multiset{p.one, p.two}
  {
    if r == p.one then Some(p.two)
    else if r == p.two then Some(p.one)
    else Option.None
  }

  /** Crossing a portal twice leads back to the region one started in. */
  lemma OtherRegionInvolution(p: Portal, r: nat)
    requires OtherRegion(p, r).Some?
    ensures OtherRegion(p, OtherRegion(p, r).value) == Some(r)
  {
  }

  /** How many ends of portal `p` are region `x`. */
  function Multiplicity(p: Portal, x: nat): nat {
    (if p.one == x then 1 else 0) + (if p.two == x then 1 else 0)
  }

  /** The entries a region lists for portal `p` at index `i`: the index once
      per end of the portal that is this region. */
  function Ends(p: Portal, x: nat, i: nat): seq<nat> {
    seq(Multiplicity(p, x), _ => i)
  }

  function Counts(ps: seq<Portal>, x: nat): nat -> nat {
    (i: nat) => if i < |ps| then Multiplicity(ps[i], x) else 0
  }

  /** The indices in [lo, hi) of the portals that touch region `x`, in order,
      each once per end of the portal that is `x`. */
  function Touching(ps: seq<Portal>, x: nat, lo: nat, hi: nat): seq<nat>
    requires lo <= hi <= |ps|
  {
    Listing(Counts(ps, x), lo, hi)
  }

  /** A region lists exactly the portals it is an end of. */
  lemma TouchingMembers(ps: seq<Portal>, x: nat, lo: nat, hi: nat, i: nat)
    requires lo <= hi <= |ps|
    ensures i in Touching(ps, x, lo, hi) <==> lo <= i < hi && (ps[i].one == x || ps[i].two == x)
  {
    ListingMembers(Counts(ps, x), lo, hi, i);
  }

  /** Listing one more portal appends its entries. */
  lemma TouchingSnoc(ps: seq<Portal>, p: Portal, x: nat, lo: nat)
    requires lo <= |ps|
    ensures Touching(ps + [p], x, lo, |ps| + 1) == Touching(ps, x, lo, |ps|) + Ends(p, x, |ps|)
  {
    var f := Counts(ps + [p], x);
    forall i | lo <= i < |ps| ensures f(i) == Counts(ps, x)(i) {
      assert (ps + [p])[i] == ps[i];
    }
    ListingAgree(f, Counts(ps, x), lo, |ps|);
    assert f(|ps|) == Multiplicity(p, x);
  }

  /** Adding a portal: it goes at the end of the portal list, and its index at
      the end of the first region's list, then of the second's. */
  function AddPortal(regions: seq<Region>, portals: seq<Portal>, p: Portal): (res: (seq<Region>, seq<Portal>))
    requires p.one < |regions| && p.two < |regions|
    ensures res.1 == portals + [p] && |res.0| == |regions|
    ensures forall x :: 0 <= x < |regions| ==>
              res.0[x] == regions[x].(portals := regions[x].portals + Ends(p, x, |portals|))
  {
    var i := |portals|;
    var once := regions[p.one := regions[p.one].(portals := regions[p.one].portals + [i])];
    (once[p.two := once[p.two].(portals := once[p.two].portals + [i])], portals + [p])
  }

  /** Every region lists, after what it listed before, the portals from index
      `from` on that touch it. */
  ghost predicate ListsFrom(regions: seq<Region>, regions': seq<Region>, portals: seq<Portal>, from: nat) {
    && from <= |portals| && |regions'| == |regions|
    && forall x :: 0 <= x < |regions| ==>
         regions'[x] == regions[x].(portals := regions[x].portals + Touching(portals, x, from, |portals|))
  }

  lemma ListsFromStep(regions: seq<Region>, regions': seq<Region>, portals: seq<Portal>, from: nat, p: Portal)
    requires ListsFrom(regions, regions', portals, from)
    requires p.one < |regions| && p.two < |regions|
    ensures ListsFrom(regions, AddPortal(regions', portals, p).0, portals + [p], from)
  {
    var res := AddPortal(regions', portals, p);
    forall x | 0 <= x < |regions|
      ensures res.0[x] == regions[x].(portals := regions[x].portals + Touching(portals + [p], x, from, |portals| + 1))
    {
      TouchingSnoc(portals, p, x, from);
    }
  }

  /** Two rounds of listing make one: listing the portals from `from` up to
      `|ps|`, then those of the longer list `qs` from `|ps|` on, is listing the
      portals of `qs` from `from` on. */
  lemma ListsFromTrans(a: seq<Region>, b: seq<Region>, c: seq<Region>, ps: seq<Portal>, qs: seq<Portal>, from: nat)
    requires ListsFrom(a, b, ps, from) && ListsFrom(b, c, qs, |ps|)
    requires |ps| <= |qs| && qs[..|ps|] == ps
    ensures ListsFrom(a, c, qs, from)
  {
    forall x | 0 <= x < |a|
      ensures c[x] == a[x].(portals := a[x].portals + Touching(qs, x, from, |qs|))
    {
      forall i | from <= i < |ps| ensures Counts(ps, x)(i) == Counts(qs, x)(i) {
        assert qs[i] == qs[..|ps|][i];
      }
      ListingAgree(Counts(ps, x), Counts(qs, x), from, |ps|);
      ListingSplit(Counts(qs, x), from, |ps|, |qs|);
      assert a[x].portals + Touching(ps, x, from, |ps|) + Touching(qs, x, |ps|, |qs|)
          == a[x].portals + Touching(qs, x, from, |qs|);
    }
  }

  /** Regions that started with no portals list, after the calculation, exactly
      the portals they are an end of: each portal is listed by both its regions
      and by no other. */
  lemma ListsExactly(regions: seq<Region>, regions': seq<Region>, portals: seq<Portal>, x: nat, i: nat)
    requires ListsFrom(regions, regions', portals, 0)
    requires x < |regions| && regions[x].portals == []
    ensures i in regions'[x].portals <==> i < |portals| && (portals[i].one == x || portals[i].two == x)
  {
    TouchingMembers(portals, x, 0, |portals|, i);
    assert regions'[x].portals == [] + Touching(portals, x, 0, |portals|);
  }

  /** Before any portal is made, every region lists what it listed before. */
  lemma ListsFromStart(regions: seq<Region>)
    ensures ListsFrom(regions, regions, [], 0)
  {
    forall x | 0 <= x < |regions| ensures Touching([], x, 0, 0) == [] {
    }
  }
}

=== FILE: runs.dfy ===
/** Maximal runs of equal values in a sequence: how a region's frontier is cut
    into portals (Assets/Regions/RegionManager.cs, CalculateRegionPortals). */
module Runs {
  /** A run of positions [start, end). */
  datatype Run = Run(start: nat, end: nat)

  /** The runs of equal neighbouring values of `ids`, built left to right: a
      value equal to its predecessor extends the last run, any other value
      starts a new one. */
  function RunsOf(ids: seq<int>): (runs: seq<Run>)
    ensures |runs| == 0 <==> |ids| == 0
    ensures |runs| > 0 ==> runs[|runs| - 1].end == |ids|
    ensures forall j :: 0 <= j < |runs| ==> runs[j].start < runs[j].end <= |ids|
    decreases |ids|
  {
    if |ids| == 0 then []
    else
      var prev := RunsOf(ids[..|ids| - 1]);
      if |ids| > 1 && ids[|ids| - 2] == ids[|ids| - 1] then
        prev[..|prev| - 1] + [Run(prev[|prev| - 1].start, |ids|)]
      else prev + [Run(|ids| - 1, |ids|)]
  }

  /** `runs` splits `ids` into maximal runs of one value: the runs tile the
      positions in order, each holds one value, and neighbouring runs hold
      different values. */
  ghost predicate IsRunSplit(ids: seq<int>, runs: seq<Run>) {
    && (|runs| == 0 <==> |ids| == 0)
    && (|runs| > 0 ==> runs[0].start == 0 && runs[|runs| - 1].end == |ids|)
    && (forall j :: 0 <= j < |runs| ==> runs[j].start < runs[j].end <= |ids|)
    && (forall j :: 0 < j < |runs| ==> runs[j - 1].end == runs[j].start)
    && (forall j, x :: 0 <= j < |runs| && runs[j].start <= x < runs[j].end ==> ids[x] == ids[runs[j].start])
    && (forall j :: 0 < j < |runs| ==> ids[runs[j - 1].start] != ids[runs[j].start])
  }

  /** RunsOf really produces the maximal runs. */
  lemma {:induction false} RunsOfSplits(ids: seq<int>)
    ensures IsRunSplit(ids, RunsOf(ids))
    decreases |ids|
  {
    if |ids| > 0 {
      var init := ids[..|ids| - 1];
      RunsOfSplits(init);
      if |ids| > 1 && ids[|ids| - 2] == ids[|ids| - 1] {
        SplitExtends(ids, RunsOf(init));
      } else {
        SplitStarts(ids, RunsOf(init));
      }
    }
  }

  /** A last value equal to the one before it extends the last run. */
  lemma SplitExtends(ids: seq<int>, prev: seq<Run>)
    requires |ids| > 1 && ids[|ids| - 2] == ids[|ids| - 1]
    requires IsRunSplit(ids[..|ids| - 1], prev)
    ensures IsRunSplit(ids, prev[..|prev| - 1] + [Run(prev[|prev| - 1].start, |ids|)])
  {
    var init := ids[..|ids| - 1];
    var u := prev[|prev| - 1];
    var runs := prev[..|prev| - 1] + [Run(u.start, |ids|)];
    forall j, x | 0 <= j < |runs| && runs[j].start <= x < runs[j].end
      ensures ids[x] == ids[runs[j].start]
    {
      if j < |runs| - 1 {
        assert runs[j] == prev[j] && init[x] == ids[x] && init[prev[j].start] == ids[prev[j].start];
      } else if x < |ids| - 1 {
        assert init[x] == init[u.start];
      } else {
        assert init[|ids| - 2] == init[u.start];
      }
    }
    forall j | 0 < j < |runs| ensures ids[runs[j - 1].start] != ids[runs[j].start] {
      assert runs[j - 1] == prev[j - 1] && runs[j].start == prev[j].start;
      assert init[prev[j - 1].start] != init[prev[j].start];
    }
  }

  /** A last value different from the one before it starts a new run. */
  lemma SplitStarts(ids: seq<int>, prev: seq<Run>)
    requires |ids| > 0 && (|ids| == 1 || ids[|ids| - 2] != ids[|ids| - 1])
    requires IsRunSplit(ids[..|ids| - 1], prev)
    ensures IsRunSplit(ids, prev + [Run(|ids| - 1, |ids|)])
  {
    StartsUniform(ids, prev);
    StartsDiffer(ids, prev);
  }

  lemma StartsUniform(ids: seq<int>, prev: seq<Run>)
    requires |ids| > 0
    requires IsRunSplit(ids[..|ids| - 1], prev)
    ensures var runs := prev + [Run(|ids| - 1, |ids|)];
            forall j, x :: 0 <= j < |runs| && runs[j].start <= x < runs[j].end ==> ids[x] == ids[runs[j].start]
  {
    var init := ids[..|ids| - 1];
    var runs := prev + [Run(|ids| - 1, |ids|)];
    forall j, x | 0 <= j < |runs| && runs[j].start <= x < runs[j].end
      ensures ids[x] == ids[runs[j].start]
    {
      if j < |runs| - 1 {
        assert runs[j] == prev[j] && init[x] == ids[x] && init[prev[j].start] == ids[prev[j].start];
      }
    }
  }

  lemma StartsDiffer(ids: seq<int>, prev: seq<Run>)
    requires |ids| > 0 && (|ids| == 1 || ids[|ids| - 2] != ids[|ids| - 1])
    requires IsRunSplit(ids[..|ids| - 1], prev)
    ensures var runs := prev + [Run(|ids| - 1, |ids|)];
            forall j :: 0 < j < |runs| ==> ids[runs[j - 1].start] != ids[runs[j].start]
  {
    var init := ids[..|ids| - 1];
    var runs := prev + [Run(|ids| - 1, |ids|)];
    forall j | 0 < j < |runs| ensures ids[runs[j - 1].start] != ids[runs[j].start] {
      if j < |runs| - 1 {
        assert runs[j - 1] == prev[j - 1] && runs[j] == prev[j];
        assert init[prev[j - 1].start] != init[prev[j].start];
      } else {
        var v := prev[|prev| - 1];
        assert runs[j - 1] == v && v.end == |ids| - 1;
        assert init[|ids| - 2] == init[v.start];
      }
    }
  }

  ghost predicate RunsWithin(runs: seq<Run>, n: nat) {
    forall j :: 0 <= j < |runs| ==> runs[j].start < runs[j].end <= n
  }


  /** The runs a scan turns into portals: all of them when it reaches the end of
      the frontier; all but the open last one when it stops early at a frontier
      cell without a neighbour. */
  function ClosedRuns(ids: seq<int>, complete: bool): (runs: seq<Run>)
    ensures RunsWithin(runs, |ids|)
  {
    var all := RunsOf(ids);
    if complete || |all| == 0 then all else all[..|all| - 1]
  }

  /** The runs of the first `i` ids but the last. */
  function Done(ids: seq<int>, i: nat): (runs: seq<Run>)
    requires 0 < i <= |ids|
    ensures RunsWithin(runs, |ids|)
  {
    var all := RunsOf(ids[..i]);
    all[..|all| - 1]
  }

  /** The last run of the first `i` ids: the one still open. */
  function Pending(ids: seq<int>, i: nat): (u: Run)
    requires 0 < i <= |ids|
    ensures u.start < u.end == i
  {
    var all := RunsOf(ids[..i]);
    all[|all| - 1]
  }

  lemma RunsOfPrefix(ids: seq<int>, i: nat)
    requires i < |ids|
    ensures RunsOf(ids[..i + 1]) == if i > 0 && ids[i] == ids[i - 1]
                                     then RunsOf(ids[..i])[..|RunsOf(ids[..i])| - 1] + [Run(RunsOf(ids[..i])[|RunsOf(ids[..i])| - 1].start, i + 1)]
                                     else RunsOf(ids[..i]) + [Run(i, i + 1)]
  {
    assert ids[..i + 1][..i] == ids[..i];
  }

  /** A neighbour in the open run's region extends the open run. */
  lemma PendingExtends(ids: seq<int>, i: nat)
    requires 0 < i < |ids| && ids[i] == ids[i - 1]
    ensures Pending(ids, i + 1) == Run(Pending(ids, i).start, i + 1)
    ensures Done(ids, i + 1) == Done(ids, i)
  {
    RunsOfPrefix(ids, i);
  }

  /** A neighbour in another region closes the open run and opens a new one. */
  lemma PendingCloses(ids: seq<int>, i: nat)
    requires i < |ids| && (i == 0 || ids[i] != ids[i - 1])
    ensures Pending(ids, i + 1) == Run(i, i + 1)
    ensures i == 0 ==> Done(ids, i + 1) == []
    ensures i > 0 ==> Done(ids, i + 1) == Done(ids, i) + [Pending(ids, i)]
  {
    RunsOfPrefix(ids, i);
    assert i == 0 ==> ids[..i] == [];
  }


  /** Each index in [lo, hi), `count(i)` times, in increasing order. */
  function Listing(count: nat -> nat, lo: nat, hi: nat): seq<nat>
    requires lo <= hi
    decreases hi - lo
  {
    if lo == hi then [] else Listing(count, lo, hi - 1) + seq(count(hi - 1), _ => hi - 1)
  }

  /** An index is listed exactly when it is in range and counted. */
  lemma {:induction false} ListingMembers(count: nat -> nat, lo: nat, hi: nat, i: nat)
    requires lo <= hi
    ensures i in Listing(count, lo, hi) <==> lo <= i < hi && count(i) > 0
    decreases hi - lo
  {
    if lo < hi {
      ListingMembers(count, lo, hi - 1, i);
      var a := Listing(count, lo, hi - 1);
      var e := seq(count(hi - 1), _ => hi - 1);
      assert Listing(count, lo, hi) == a + e;
      assert i in a + e <==> i in a || i in e;
      assert i in e <==> i == hi - 1 && count(hi - 1) > 0 by {
        if count(hi - 1) > 0 {
          assert e[0] == hi - 1;
        }
      }
    }
  }

  /** The listing depends only on the counts of the indices in range. */
  lemma {:induction false} ListingAgree(f: nat -> nat, g: nat -> nat, lo: nat, hi: nat)
    requires lo <= hi && forall i :: lo <= i < hi ==> f(i) == g(i)
    ensures Listing(f, lo, hi) == Listing(g, lo, hi)
    decreases hi - lo
  {
    if lo < hi {
      ListingAgree(f, g, lo, hi - 1);
    }
  }

  /** Listing [lo, hi) is listing [lo, mid) and then [mid, hi). */
  lemma {:induction false} ListingSplit(count: nat -> nat, lo: nat, mid: nat, hi: nat)
    requires lo <= mid <= hi
    ensures Listing(count, lo, mid) + Listing(count, mid, hi) == Listing(count, lo, hi)
    decreases hi - mid
  {
    if mid < hi {
      ListingSplit(count, lo, mid, hi - 1);
      var e := seq(count(hi - 1), _ => hi - 1);
      calc {
        Listing(count, lo, mid) + Listing(count, mid, hi);
        Listing(count, lo, mid) + (Listing(count, mid, hi - 1) + e);
        (Listing(count, lo, mid) + Listing(count, mid, hi - 1)) + e;
        Listing(count, lo, hi);
      }
    } else {
      assert Listing(count, mid, hi) == [];
    }
  }
}

=== FILE: segmentation.dfy ===
/** Region segmentation (SegmentGridByElevation, CanExpandNorth and
    CanExpandEast in Assets/Regions/RegionManager.cs): the grid is scanned in
    row-major order and every cell that has no region yet seeds a new region,
    which greedily grows north, then east, over unassigned cells of the seed's
    elevation. Each region is a rectangle of the grid. */
module Segmentation {
  import opened Common
  import opened Directions
  import opened Cells
  import opened CellGrid
  import opened Regions

  /** The rectangle of columns c0 .. c0+w-1 and rows r0 .. r0+h-1. */
  datatype Rect = Rect(c0: int, r0: int, w: nat, h: nat)

  const NoRect := Rect(0, 0, 0, 0)

  predicate InRect(q: Rect, c: int, r: int) {
    q.c0 <= c < q.c0 + q.w && q.r0 <= r < q.r0 + q.h
  }

  /** The row just above the rectangle and the column just east of it. */
  function Above(q: Rect): int {
    q.r0 + q.h
  }

  function Beyond(q: Rect): int {
    q.c0 + q.w
  }

  /** A non-empty rectangle inside a `C` x `R` grid. */
  predicate Fits(C: nat, R: nat, q: Rect) {
    0 <= q.c0 && 0 <= q.r0 && 1 <= q.w && 1 <= q.h && q.c0 + q.w <= C && q.r0 + q.h <= R
  }

  /** Indices of `n` cells of row `r`, from column `c0` eastwards. */
  function Row(C: nat, c0: int, r: int, n: nat): (s: seq<int>)
    ensures |s| == n && forall k :: 0 <= k < n ==> s[k] == Idx(C, c0 + k, r)
  {
    seq(n, k => Idx(C, c0 + k, r))
  }

  /** Indices of `n` cells of column `c`, from row `r0` northwards. */
  function Col(C: nat, c: int, r0: int, n: nat): (s: seq<int>)
    ensures |s| == n && forall k :: 0 <= k < n ==> s[k] == Idx(C, c, r0 + k)
  {
    seq(n, k => Idx(C, c, r0 + k))
  }

  /** The top row of a rectangle, west to east: the source's topIndices. */
  function TopRow(C: nat, q: Rect): seq<int> {
    Row(C, q.c0, q.r0 + q.h - 1, q.w)
  }

  /** The right column of a rectangle, south to north: the source's rightIndices. */
  function RightColumn(C: nat, q: Rect): seq<int> {
    Col(C, q.c0 + q.w - 1, q.r0, q.h)
  }

  lemma RowSnoc(C: nat, c0: int, r: int, n: nat)
    ensures Row(C, c0, r, n) + [Idx(C, c0 + n, r)] == Row(C, c0, r, n + 1)
  {
  }

  lemma ColSnoc(C: nat, c: int, r0: int, n: nat)
    ensures Col(C, c, r0, n) + [Idx(C, c, r0 + n)] == Col(C, c, r0, n + 1)
  {
  }

  /** The cell array of a `C` x `R` grid whose cells know their own coordinates,
      as CreateAllCells made them. */
  ghost predicate Laid(cells: seq<Cell>, C: nat, R: nat) {
    && |cells| == R * C
    && forall c, r :: InGrid(C, R, c, r) ==>
         0 <= Idx(C, c, r) < |cells| && cells[Idx(C, c, r)].column == c && cells[Idx(C, c, r)].row == r
  }

  ghost function Label(cells: seq<Cell>, C: nat, R: nat, c: int, r: int): int
    requires Laid(cells, C, R) && InGrid(C, R, c, r)
  {
    cells[Idx(C, c, r)].regionId
  }

  ghost function Elev(cells: seq<Cell>, C: nat, R: nat, c: int, r: int): int
    requires Laid(cells, C, R) && InGrid(C, R, c, r)
  {
    cells[Idx(C, c, r)].elevation
  }

  /** The two arrays hold the same cells up to their region ids. */
  ghost predicate SameTerrain(a: seq<Cell>, b: seq<Cell>) {
    |a| == |b| && forall i :: 0 <= i < |a| ==> a[i].(regionId := -1) == b[i].(regionId := -1)
  }

  lemma SameTerrainTrans(a: seq<Cell>, b: seq<Cell>, c: seq<Cell>)
    requires SameTerrain(a, b) && SameTerrain(b, c)
    ensures SameTerrain(a, c)
  {
  }

  /** Assigns cell `i` to region `id`. */
  function SetRegion(cells: seq<Cell>, i: int, id: int): (r: seq<Cell>)
    requires 0 <= i < |cells|
    ensures SameTerrain(cells, r) && r[i].regionId == id
    ensures forall j :: 0 <= j < |cells| && j != i ==> r[j] == cells[j]
  {
    cells[i := cells[i].(regionId := id)]
  }

  /** Every region id in the grid is below `id` (-1 meaning no region). */
  ghost predicate LabelsBelow(cells: seq<Cell>, C: nat, R: nat, id: int)
    requires Laid(cells, C, R)
  {
    forall c, r :: InGrid(C, R, c, r) ==> Label(cells, C, R, c, r) < id
  }

  /** A cell a region of elevation `e` may take: no region yet, elevation `e`. */
  ghost predicate Joinable(cells: seq<Cell>, C: nat, R: nat, c: int, r: int, e: int)
    requires Laid(cells, C, R) && InGrid(C, R, c, r)
  {
    Label(cells, C, R, c, r) == -1 && Elev(cells, C, R, c, r) == e
  }

  /** The rectangle can take the whole row above it. */
  ghost predicate NorthOpen(cells: seq<Cell>, C: nat, R: nat, q: Rect, e: int)
    requires Laid(cells, C, R) && Fits(C, R, q)
  {
    Above(q) < R && forall c :: q.c0 <= c < Beyond(q) ==> Joinable(cells, C, R, c, Above(q), e)
  }

  /** The rectangle can take the whole column east of it. */
  ghost predicate EastOpen(cells: seq<Cell>, C: nat, R: nat, q: Rect, e: int)
    requires Laid(cells, C, R) && Fits(C, R, q)
  {
    Beyond(q) < C && forall r :: q.r0 <= r < Above(q) ==> Joinable(cells, C, R, Beyond(q), r, e)
  }

  /** CanExpandNorth over the top row's cell indices: not on the north border
      (judged by the first top cell's row) and every cell one row up is free
      and of elevation `e`. */
  function CanExpandNorth(cells: seq<Cell>, C: nat, R: nat, top: seq<int>, e: int): bool
    requires 0 < |top| && 0 <= top[0] < |cells|
    requires cells[top[0]].row < R - 1 ==> forall i :: 0 <= i < |top| ==> 0 <= top[i] + C < |cells|
  {
    && cells[top[0]].row < R - 1
    && forall i :: 0 <= i < |top| ==> cells[top[i] + C].regionId == -1 && cells[top[i] + C].elevation == e
  }

  /** CanExpandEast over the right column's cell indices: not on the east
      border (judged by the first right cell's column) and every cell one
      column east is free and of elevation `e`. */
  function CanExpandEast(cells: seq<Cell>, C: nat, R: nat, right: seq<int>, e: int): bool
    requires 0 < |right| && 0 <= right[0] < |cells|
    requires cells[right[0]].column < C - 1 ==> forall i :: 0 <= i < |right| ==> 0 <= right[i] + 1 < |cells|
  {
    && cells[right[0]].column < C - 1
    && forall i :: 0 <= i < |right| ==> cells[right[i] + 1].regionId == -1 && cells[right[i] + 1].elevation == e
  }

  /** On a rectangle's top row, CanExpandNorth reads only cells of the grid and
      holds exactly when the rectangle can take the row above it. */
  lemma CanExpandNorthIff(cells: seq<Cell>, C: nat, R: nat, q: Rect, e: int)
    requires Laid(cells, C, R) && Fits(C, R, q)
    ensures 0 <= TopRow(C, q)[0] < |cells|
    ensures cells[TopRow(C, q)[0]].row < R - 1 ==>
              forall i :: 0 <= i < q.w ==> 0 <= TopRow(C, q)[i] + C < |cells|
    ensures CanExpandNorth(cells, C, R, TopRow(C, q), e) <==> NorthOpen(cells, C, R, q, e)
  {
    var r := q.r0 + q.h - 1;
    var above := Above(q);
    assert InGrid(C, R, q.c0, r);
    NextRowStart(C, r);
    assert forall k :: 0 <= k < q.w ==> TopRow(C, q)[k] + C == Idx(C, q.c0 + k, above);
    if NorthOpen(cells, C, R, q, e) {
      forall i | 0 <= i < q.w
        ensures cells[TopRow(C, q)[i] + C].regionId == -1 && cells[TopRow(C, q)[i] + C].elevation == e
      {
        assert Joinable(cells, C, R, q.c0 + i, above, e);
      }
    }
    if CanExpandNorth(cells, C, R, TopRow(C, q), e) {
      forall c | q.c0 <= c < Beyond(q)
        ensures Joinable(cells, C, R, c, above, e)
      {
        assert TopRow(C, q)[c - q.c0] + C == Idx(C, c, above);
      }
    }
  }

  /** On a rectangle's right column, CanExpandEast reads only cells of the
      grid and holds exactly when the rectangle can take the column east of it. */
  lemma CanExpandEastIff(cells: seq<Cell>, C: nat, R: nat, q: Rect, e: int)
    requires Laid(cells, C, R) && Fits(C, R, q)
    ensures 0 <= RightColumn(C, q)[0] < |cells|
    ensures cells[RightColumn(C, q)[0]].column < C - 1 ==>
              forall i :: 0 <= i < q.h ==> 0 <= RightColumn(C, q)[i] + 1 < |cells|
    ensures CanExpandEast(cells, C, R, RightColumn(C, q), e) <==> EastOpen(cells, C, R, q, e)
  {
    var c := q.c0 + q.w - 1;
    var beyond := Beyond(q);
    assert InGrid(C, R, c, q.r0);
    assert forall k :: 0 <= k < q.h ==> RightColumn(C, q)[k] + 1 == Idx(C, beyond, q.r0 + k);
    if EastOpen(cells, C, R, q, e) {
      forall i | 0 <= i < q.h
        ensures cells[RightColumn(C, q)[i] + 1].regionId == -1 && cells[RightColumn(C, q)[i] + 1].elevation == e
      {
        assert Joinable(cells, C, R, beyond, q.r0 + i, e);
      }
    }
    if CanExpandEast(cells, C, R, RightColumn(C, q), e) {
      forall r | q.r0 <= r < Above(q)
        ensures Joinable(cells, C, R, beyond, r, e)
      {
        assert RightColumn(C, q)[r - q.r0] + 1 == Idx(C, beyond, r);
      }
    }
  }

  /** A cell of the rectangle `q` or of the strip `s` that is being added to it. */
  predicate Covered(q: Rect, s: Rect, c: int, r: int) {
    InRect(q, c, r) || InRect(s, c, r)
  }

  /** The covered cells carry region `id`; every other cell keeps its id in `cells0`. */
  ghost predicate Painted(cells: seq<Cell>, cells0: seq<Cell>, C: nat, R: nat, q: Rect, s: Rect, id: int)
    requires Laid(cells, C, R) && Laid(cells0, C, R)
  {
    forall c, r :: InGrid(C, R, c, r) ==>
      Label(cells, C, R, c, r) == (if Covered(q, s, c, r) then id else Label(cells0, C, R, c, r))
  }

  /** `members` lists every covered cell, each once, and only cells of region `id`. */
  ghost predicate Listed(cells: seq<Cell>, C: nat, R: nat, members: seq<int>, q: Rect, s: Rect, id: int)
    requires Laid(cells, C, R)
  {
    && (forall k :: 0 <= k < |members| ==> 0 <= members[k] < |cells| && cells[members[k]].regionId == id)
    && (forall c, r :: InGrid(C, R, c, r) && Covered(q, s, c, r) ==> Idx(C, c, r) in members)
    && (forall j, k :: 0 <= j < k < |members| ==> members[j] != members[k])
  }

  /** Before the region grew, every covered cell was a free cell of elevation `e`. */
  ghost predicate Fresh(cells0: seq<Cell>, C: nat, R: nat, q: Rect, s: Rect, e: int)
    requires Laid(cells0, C, R)
  {
    forall c, r :: Covered(q, s, c, r) ==> InGrid(C, R, c, r) && Joinable(cells0, C, R, c, r, e)
  }

  /** The state of a region `id` of elevation `e` part-way through growing
      from the grid `cells0`. */
  ghost predicate Partial(cells: seq<Cell>, cells0: seq<Cell>, C: nat, R: nat, q: Rect, s: Rect,
                          members: seq<int>, id: nat, e: int)
  {
    && Laid(cells, C, R) && Laid(cells0, C, R) && SameTerrain(cells0, cells)
    && LabelsBelow(cells0, C, R, id)
    && Painted(cells, cells0, C, R, q, s, id)
    && Listed(cells, C, R, members, q, s, id)
    && Fresh(cells0, C, R, q, s, e)
  }

  lemma LaidKept(a: seq<Cell>, b: seq<Cell>, C: nat, R: nat)
    requires Laid(a, C, R) && SameTerrain(a, b)
    ensures Laid(b, C, R)
    ensures forall c, r :: InGrid(C, R, c, r) ==> Elev(b, C, R, c, r) == Elev(a, C, R, c, r)
  {
    forall c, r | InGrid(C, R, c, r)
      ensures 0 <= Idx(C, c, r) < |b| && b[Idx(C, c, r)].column == c && b[Idx(C, c, r)].row == r
      ensures b[Idx(C, c, r)].elevation == a[Idx(C, c, r)].elevation
    {
      var i := Idx(C, c, r);
      assert a[i].(regionId := -1) == b[i].(regionId := -1);
    }
  }

  /** Taking one more free cell of elevation `e` into the strip. */
  lemma PaintStep(cells: seq<Cell>, cells0: seq<Cell>, C: nat, R: nat, q: Rect, s: Rect, s': Rect,
                  members: seq<int>, id: nat, e: int, c1: int, r1: int)
    requires Partial(cells, cells0, C, R, q, s, members, id, e)
    requires InGrid(C, R, c1, r1) && Joinable(cells, C, R, c1, r1, e)
    requires forall c, r :: Covered(q, s', c, r) <==> Covered(q, s, c, r) || (c == c1 && r == r1)
    ensures 0 <= Idx(C, c1, r1) < |cells|
    ensures Partial(SetRegion(cells, Idx(C, c1, r1), id), cells0, C, R, q, s', members + [Idx(C, c1, r1)], id, e)
    ensures forall c, r :: InGrid(C, R, c, r) && (c != c1 || r != r1) ==>
              Joinable(SetRegion(cells, Idx(C, c1, r1), id), C, R, c, r, e) == Joinable(cells, C, R, c, r, e)
  {
    var x := Idx(C, c1, r1);
    var out := SetRegion(cells, x, id);
    LaidKept(cells, out, C, R);
    LaidKept(cells0, cells, C, R);
    SameTerrainTrans(cells0, cells, out);
    forall c, r | InGrid(C, R, c, r) && (c != c1 || r != r1)
      ensures Idx(C, c, r) != x
    {
      if Idx(C, c, r) == x {
        IdxInjective(C, c, r, c1, r1);
      }
    }
    assert !Covered(q, s, c1, r1);
    assert x !in members;
    var members' := members + [x];
    forall c, r | InGrid(C, R, c, r) && Covered(q, s', c, r)
      ensures Idx(C, c, r) in members'
    {
      if c != c1 || r != r1 {
        assert Idx(C, c, r) in members;
      }
    }
  }

  /** The same cells, described by another rectangle and strip. */
  lemma Reshape(cells: seq<Cell>, cells0: seq<Cell>, C: nat, R: nat, q: Rect, s: Rect, q': Rect, s': Rect,
                members: seq<int>, id: nat, e: int)
    requires Partial(cells, cells0, C, R, q, s, members, id, e)
    requires forall c, r :: Covered(q', s', c, r) <==> Covered(q, s, c, r)
    ensures Partial(cells, cells0, C, R, q', s', members, id, e)
  {
  }

  /** A region part-way through SegmentGridByElevation's growth loop: the
      rectangle `q`, its top row and right column, its member list. */
  ghost predicate Growing(cells: seq<Cell>, cells0: seq<Cell>, C: nat, R: nat, q: Rect,
                          top: seq<int>, right: seq<int>, members: seq<int>, id: nat, e: int)
  {
    && Partial(cells, cells0, C, R, q, NoRect, members, id, e)
    && Fits(C, R, q) && top == TopRow(C, q) && right == RightColumn(C, q)
  }

  /** Part-way through a northward step: the first `i` cells of the row above
      have joined, `temp` lists them, and the rest of that row is still free. */
  ghost predicate TakingRow(cells: seq<Cell>, cells0: seq<Cell>, C: nat, R: nat, q: Rect, i: nat,
                            temp: seq<int>, members: seq<int>, id: nat, e: int)
  {
    && Fits(C, R, q) && Above(q) < R && i <= q.w
    && Partial(cells, cells0, C, R, q, Rect(q.c0, Above(q), i, 1), members, id, e)
    && temp == Row(C, q.c0, Above(q), i)
    && forall c :: q.c0 + i <= c < Beyond(q) ==> Joinable(cells, C, R, c, Above(q), e)
  }

  /** One pass of the northward loop: the northern neighbour of top cell `i` joins. */
  method TakeNorth(cells: seq<Cell>, C: nat, R: nat, ghost cells0: seq<Cell>, ghost q: Rect, top: seq<int>,
                   i: nat, temp: seq<int>, members: seq<int>, id: nat, ghost e: int)
    returns (out: seq<Cell>, temp': seq<int>, members': seq<int>)
    requires TakingRow(cells, cells0, C, R, q, i, temp, members, id, e) && i < q.w && top == TopRow(C, q)
    ensures TakingRow(out, cells0, C, R, q, i + 1, temp', members', id, e)
    ensures |members'| == |members| + 1 && members <= members'
  {
    var above := Above(q);
    NextRowStart(C, above - 1);
    var x := top[i] + C;
    assert x == Idx(C, q.c0 + i, above);
    PaintStep(cells, cells0, C, R, q, Rect(q.c0, above, i, 1), Rect(q.c0, above, i + 1, 1),
              members, id, e, q.c0 + i, above);
    out := SetRegion(cells, x, id);
    members' := members + [x];
    RowSnoc(C, q.c0, above, i);
    temp' := temp + [x];
  }

  /** One northward step: every top cell's northern neighbour joins the
      region, becomes the new top row, and its last cell extends the right column. */
  method ExpandNorth(cells: seq<Cell>, C: nat, R: nat, ghost cells0: seq<Cell>, ghost q: Rect,
                     top: seq<int>, right: seq<int>, members: seq<int>, id: nat, ghost e: int)
    returns (out: seq<Cell>, top': seq<int>, right': seq<int>, members': seq<int>)
    requires Growing(cells, cells0, C, R, q, top, right, members, id, e)
    requires NorthOpen(cells, C, R, q, e)
    ensures Growing(out, cells0, C, R, q.(h := q.h + 1), top', right', members', id, e)
    ensures |members'| == |members| + q.w && members <= members'
  {
    NorthStart(cells, cells0, C, R, q, top, right, members, id, e);
    out, members' := cells, members;
    var temp: seq<int> := [];
    var i := 0;
    while i < |top|
      invariant TakingRow(out, cells0, C, R, q, i, temp, members', id, e)
      invariant |members'| == |members| + i && members <= members'
    {
      out, temp, members' := TakeNorth(out, C, R, cells0, q, top, i, temp, members', id, e);
      i := i + 1;
    }
    top' := temp;
    right' := right + [top'[|top'| - 1]];
    NorthDone(out, cells0, C, R, q, top', right, members', id, e);
  }

  lemma NorthStart(cells: seq<Cell>, cells0: seq<Cell>, C: nat, R: nat, q: Rect,
                   top: seq<int>, right: seq<int>, members: seq<int>, id: nat, e: int)
    requires Growing(cells, cells0, C, R, q, top, right, members, id, e)
    requires NorthOpen(cells, C, R, q, e)
    ensures TakingRow(cells, cells0, C, R, q, 0, [], members, id, e)
  {
    Reshape(cells, cells0, C, R, q, NoRect, q, Rect(q.c0, Above(q), 0, 1), members, id, e);
  }

  lemma NorthDone(cells: seq<Cell>, cells0: seq<Cell>, C: nat, R: nat, q: Rect,
                  top: seq<int>, right: seq<int>, members: seq<int>, id: nat, e: int)
    requires TakingRow(cells, cells0, C, R, q, q.w, top, members, id, e) && right == RightColumn(C, q)
    ensures Growing(cells, cells0, C, R, q.(h := q.h + 1), top, right + [top[|top| - 1]], members, id, e)
  {
    ColSnoc(C, q.c0 + q.w - 1, q.r0, q.h);
    Reshape(cells, cells0, C, R, q, Rect(q.c0, Above(q), q.w, 1), q.(h := q.h + 1), NoRect, members, id, e);
  }

  /** Part-way through an eastward step: the first `i` cells of the column east
      of the rectangle have joined, `temp` lists them, the rest is still free. */
  ghost predicate TakingColumn(cells: seq<Cell>, cells0: seq<Cell>, C: nat, R: nat, q: Rect, i: nat,
                               temp: seq<int>, members: seq<int>, id: nat, e: int)
  {
    && Fits(C, R, q) && Beyond(q) < C && i <= q.h
    && Partial(cells, cells0, C, R, q, Rect(Beyond(q), q.r0, 1, i), members, id, e)
    && temp == Col(C, Beyond(q), q.r0, i)
    && forall r :: q.r0 + i <= r < Above(q) ==> Joinable(cells, C, R, Beyond(q), r, e)
  }

  /** One pass of the eastward loop: the eastern neighbour of right cell `i` joins. */
  method TakeEast(cells: seq<Cell>, C: nat, R: nat, ghost cells0: seq<Cell>, ghost q: Rect, right: seq<int>,
                  i: nat, temp: seq<int>, members: seq<int>, id: nat, ghost e: int)
    returns (out: seq<Cell>, temp': seq<int>, members': seq<int>)
    requires TakingColumn(cells, cells0, C, R, q, i, temp, members, id, e) && i < q.h && right == RightColumn(C, q)
    ensures TakingColumn(out, cells0, C, R, q, i + 1, temp', members', id, e)
    ensures |members'| == |members| + 1 && members <= members'
  {
    var beyond := Beyond(q);
    var x := right[i] + 1;
    assert x == Idx(C, beyond, q.r0 + i);
    PaintStep(cells, cells0, C, R, q, Rect(beyond, q.r0, 1, i), Rect(beyond, q.r0, 1, i + 1),
              members, id, e, beyond, q.r0 + i);
    out := SetRegion(cells, x, id);
    members' := members + [x];
    ColSnoc(C, beyond, q.r0, i);
    temp' := temp + [x];
  }

  /** One eastward step: every right cell's eastern neighbour joins the
      region, becomes the new right column, and its last cell extends the top row. */
  method ExpandEast(cells: seq<Cell>, C: nat, R: nat, ghost cells0: seq<Cell>, ghost q: Rect,
                    top: seq<int>, right: seq<int>, members: seq<int>, id: nat, ghost e: int)
    returns (out: seq<Cell>, top': seq<int>, right': seq<int>, members': seq<int>)
    requires Growing(cells, cells0, C, R, q, top, right, members, id, e)
    requires EastOpen(cells, C, R, q, e)
    ensures Growing(out, cells0, C, R, q.(w := q.w + 1), top', right', members', id, e)
    ensures |members'| == |members| + q.h && members <= members'
  {
    EastStart(cells, cells0, C, R, q, top, right, members, id, e);
    out, members' := cells, members;
    var temp: seq<int> := [];
    var i := 0;
    while i < |right|
      invariant TakingColumn(out, cells0, C, R, q, i, temp, members', id, e)
      invariant |members'| == |members| + i && members <= members'
    {
      out, temp, members' := TakeEast(out, C, R, cells0, q, right, i, temp, members', id, e);
      i := i + 1;
    }
    right' := temp;
    top' := top + [right'[|right'| - 1]];
    EastDone(out, cells0, C, R, q, top, right', members', id, e);
  }

  lemma EastStart(cells: seq<Cell>, cells0: seq<Cell>, C: nat, R: nat, q: Rect,
                  top: seq<int>, right: seq<int>, members: seq<int>, id: nat, e: int)
    requires Growing(cells, cells0, C, R, q, top, right, members, id, e)
    requires EastOpen(cells, C, R, q, e)
    ensures TakingColumn(cells, cells0, C, R, q, 0, [], members, id, e)
  {
    Reshape(cells, cells0, C, R, q, NoRect, q, Rect(Beyond(q), q.r0, 1, 0), members, id, e);
  }

  lemma EastDone(cells: seq<Cell>, cells0: seq<Cell>, C: nat, R: nat, q: Rect,
                 top: seq<int>, right: seq<int>, members: seq<int>, id: nat, e: int)
    requires TakingColumn(cells, cells0, C, R, q, q.h, right, members, id, e) && top == TopRow(C, q)
    ensures Growing(cells, cells0, C, R, q.(w := q.w + 1), top + [right[|right| - 1]], right, members, id, e)
  {
    RowSnoc(C, q.c0, q.r0 + q.h - 1, q.w);
    Reshape(cells, cells0, C, R, q, Rect(Beyond(q), q.r0, 1, q.h), q.(w := q.w + 1), NoRect, members, id, e);
  }

  /** The top-right cell of a rectangle. */
  function Corner(C: nat, q: Rect): int {
    Idx(C, q.c0 + q.w - 1, q.r0 + q.h - 1)
  }

  /** The top row and the right column both end at the top-right cell. */
  lemma CornerEnds(C: nat, q: Rect)
    requires 1 <= q.w && 1 <= q.h
    ensures TopRow(C, q)[q.w - 1] == Corner(C, q) && RightColumn(C, q)[q.h - 1] == Corner(C, q)
  {
  }

  /** The seed alone: a one-cell region. */
  lemma SeedStart(cells: seq<Cell>, C: nat, R: nat, c0: int, r0: int, id: nat)
    requires Laid(cells, C, R) && InGrid(C, R, c0, r0) && Label(cells, C, R, c0, r0) == -1
    requires LabelsBelow(cells, C, R, id)
    ensures 0 <= Idx(C, c0, r0) < |cells|
    ensures var ci := Idx(C, c0, r0);
            Growing(SetRegion(cells, ci, id), cells, C, R, Rect(c0, r0, 1, 1), [ci], [ci], [ci], id, cells[ci].elevation)
  {
    var e := Elev(cells, C, R, c0, r0);
    assert Partial(cells, cells, C, R, NoRect, NoRect, [], id, e);
    PaintStep(cells, cells, C, R, NoRect, NoRect, Rect(c0, r0, 1, 1), [], id, e, c0, r0);
    Reshape(SetRegion(cells, Idx(C, c0, r0), id), cells, C, R, NoRect, Rect(c0, r0, 1, 1), Rect(c0, r0, 1, 1), NoRect,
            [Idx(C, c0, r0)], id, e);
  }

  /** The invariant of the growth loop: a growing rectangle anchored at the
      seed (c0, r0), the two flags as the source computes them, the seed first
      in the member list and `topRight` the top-right cell once the region has
      more than one cell. */
  ghost predicate GrowState(out: seq<Cell>, cells: seq<Cell>, C: nat, R: nat, q: Rect, top: seq<int>,
                            right: seq<int>, members: seq<int>, topRight: int, canNorth: bool, canEast: bool,
                            id: nat, e: int, ci: int, c0: int, r0: int)
  {
    && Growing(out, cells, C, R, q, top, right, members, id, e)
    && q.c0 == c0 && q.r0 == r0
    && canNorth == NorthOpen(out, C, R, q, e)
    && canEast == (!canNorth && EastOpen(out, C, R, q, e))
    && 0 < |members| && members[0] == ci
    && (|members| > 1 ==> topRight == Corner(C, q))
    && (|members| == 1 ==> q == Rect(c0, r0, 1, 1))
  }

  /** The two flags, north first and east only when north is blocked. */
  method ExpansionFlags(out: seq<Cell>, C: nat, R: nat, ghost q: Rect, top: seq<int>, right: seq<int>, e: int)
    returns (canNorth: bool, canEast: bool)
    requires Laid(out, C, R) && Fits(C, R, q) && top == TopRow(C, q) && right == RightColumn(C, q)
    ensures canNorth == NorthOpen(out, C, R, q, e)
    ensures canEast == (!canNorth && EastOpen(out, C, R, q, e))
  {
    CanExpandNorthIff(out, C, R, q, e);
    canNorth := CanExpandNorth(out, C, R, top, e);
    canEast := false;
    if !canNorth {
      CanExpandEastIff(out, C, R, q, e);
      canEast := CanExpandEast(out, C, R, right, e);
    }
  }

  /** The north half of a pass: a north step, then the east flag afresh. */
  method NorthPhase(out: seq<Cell>, ghost cells: seq<Cell>, C: nat, R: nat, ghost q: Rect, top: seq<int>,
                    right: seq<int>, members: seq<int>, id: nat, e: int)
    returns (out': seq<Cell>, ghost q': Rect, top': seq<int>, right': seq<int>, members': seq<int>,
             topRight': int, canEast': bool)
    requires Growing(out, cells, C, R, q, top, right, members, id, e) && NorthOpen(out, C, R, q, e)
    ensures Growing(out', cells, C, R, q', top', right', members', id, e)
    ensures q' == q.(h := q.h + 1) && members <= members' && |members'| > |members|
    ensures topRight' == Corner(C, q') && canEast' == EastOpen(out', C, R, q', e)
  {
    out', top', right', members' := ExpandNorth(out, C, R, cells, q, top, right, members, id, e);
    q' := q.(h := q.h + 1);
    topRight' := top'[|top'| - 1];
    CornerEnds(C, q');
    CanExpandEastIff(out', C, R, q', e);
    canEast' := CanExpandEast(out', C, R, right', e);
  }

  /** The east half of a pass: an east step. */
  method EastPhase(out: seq<Cell>, ghost cells: seq<Cell>, C: nat, R: nat, ghost q: Rect, top: seq<int>,
                   right: seq<int>, members: seq<int>, id: nat, e: int)
    returns (out': seq<Cell>, ghost q': Rect, top': seq<int>, right': seq<int>, members': seq<int>, topRight': int)
    requires Growing(out, cells, C, R, q, top, right, members, id, e) && EastOpen(out, C, R, q, e)
    ensures Growing(out', cells, C, R, q', top', right', members', id, e)
    ensures q' == q.(w := q.w + 1) && members <= members' && |members'| > |members|
    ensures topRight' == Corner(C, q')
  {
    out', top', right', members' := ExpandEast(out, C, R, cells, q, top, right, members, id, e);
    q' := q.(w := q.w + 1);
    topRight' := right'[|right'| - 1];
    CornerEnds(C, q');
  }

  /** One pass of the growth loop: a north step if possible, then an east step
      if possible after it, then both flags afresh. */
  method GrowStep(out: seq<Cell>, ghost cells: seq<Cell>, C: nat, R: nat, ghost q: Rect, top: seq<int>,
                  right: seq<int>, members: seq<int>, topRight: int, canNorth: bool, canEast: bool,
                  id: nat, e: int, ghost ci: int, ghost c0: int, ghost r0: int)
    returns (out': seq<Cell>, ghost q': Rect, top': seq<int>, right': seq<int>, members': seq<int>,
             topRight': int, canNorth': bool, canEast': bool)
    requires GrowState(out, cells, C, R, q, top, right, members, topRight, canNorth, canEast, id, e, ci, c0, r0)
    requires canNorth || canEast
    ensures GrowState(out', cells, C, R, q', top', right', members', topRight', canNorth', canEast', id, e, ci, c0, r0)
    ensures (R - Above(q')) + (C - Beyond(q')) < (R - Above(q)) + (C - Beyond(q))
  {
    out', q', top', right', members', topRight', canEast' := out, q, top, right, members, topRight, canEast;
    if canNorth {
      out', q', top', right', members', topRight', canEast' := NorthPhase(out, cells, C, R, q, top, right, members, id, e);
    }
    if canEast' {
      out', q', top', right', members', topRight' := EastPhase(out', cells, C, R, q', top', right', members', id, e);
    }
    canNorth', canEast' := ExpansionFlags(out', C, R, q', top', right', e);
  }

  /** The growth loop of SegmentGridByElevation for the region `id` seeded at
      the free cell (c0, r0): north while it can, east when north is blocked
      or right after a north step. The result is a rectangle that can take
      neither the row above nor the column east of it. */
  method GrowRegion(cells: seq<Cell>, C: nat, R: nat, ci: int, ghost c0: int, ghost r0: int, id: nat)
    returns (out: seq<Cell>, top: seq<int>, right: seq<int>, members: seq<int>, topRight: int, ghost q: Rect)
    requires Laid(cells, C, R) && InGrid(C, R, c0, r0) && ci == Idx(C, c0, r0)
    requires Label(cells, C, R, c0, r0) == -1 && LabelsBelow(cells, C, R, id)
    ensures 0 <= ci < |cells|
    ensures Growing(out, cells, C, R, q, top, right, members, id, cells[ci].elevation)
    ensures q.c0 == c0 && q.r0 == r0
    ensures !NorthOpen(out, C, R, q, cells[ci].elevation) && !EastOpen(out, C, R, q, cells[ci].elevation)
    ensures 0 < |members| && members[0] == ci
    ensures |members| > 1 ==> topRight == Corner(C, q)
    ensures |members| == 1 ==> q == Rect(c0, r0, 1, 1)
  {
    SeedStart(cells, C, R, c0, r0, id);
    var e := cells[ci].elevation;
    out := SetRegion(cells, ci, id);
    top, right, members, topRight := [ci], [ci], [ci], 0;
    q := Rect(c0, r0, 1, 1);
    var canNorth, canEast := ExpansionFlags(out, C, R, q, top, right, e);
    while canNorth || canEast
      invariant GrowState(out, cells, C, R, q, top, right, members, topRight, canNorth, canEast, id, e, ci, c0, r0)
      decreases (R - Above(q)) + (C - Beyond(q))
    {
      out, q, top, right, members, topRight, canNorth, canEast :=
        GrowStep(out, cells, C, R, q, top, right, members, topRight, canNorth, canEast, id, e, ci, c0, r0);
    }
  }

  /** (c, r) comes before (column, row) in the row-major scan. */
  predicate Precedes(c: int, r: int, column: int, row: int) {
    r < row || (r == row && c < column)
  }

  /** Every cell the scan has passed has a region. */
  ghost predicate Scanned(cells: seq<Cell>, C: nat, R: nat, column: int, row: int)
    requires Laid(cells, C, R)
  {
    forall c, r :: InGrid(C, R, c, r) && Precedes(c, r, column, row) ==> Label(cells, C, R, c, r) != -1
  }

  /** The rectangle a region describes: from its bottom-left cell, as wide as
      its top row and as high as its right column. */
  function RectOf(cells: seq<Cell>, region: Region): Rect
    requires 0 <= region.bottomLeft < |cells|
  {
    Rect(cells[region.bottomLeft].column, cells[region.bottomLeft].row, |region.top|, |region.right|)
  }

  /** A cell that region `k` of elevation `e` could not grow over: it belonged
      to an earlier region or has another elevation. */
  ghost predicate Blocks(cells: seq<Cell>, C: nat, R: nat, c: int, r: int, k: nat, e: int)
    requires Laid(cells, C, R) && InGrid(C, R, c, r)
  {
    0 <= Label(cells, C, R, c, r) < k || Elev(cells, C, R, c, r) != e
  }

  /** Region `k` stopped growing north: at the border, or a blocking cell above it. */
  ghost predicate NorthShut(cells: seq<Cell>, C: nat, R: nat, q: Rect, k: nat, e: int)
    requires Laid(cells, C, R) && Fits(C, R, q)
  {
    Above(q) < R ==> exists c :: q.c0 <= c < Beyond(q) && Blocks(cells, C, R, c, Above(q), k, e)
  }

  /** Region `k` stopped growing east: at the border, or a blocking cell east of it. */
  ghost predicate EastShut(cells: seq<Cell>, C: nat, R: nat, q: Rect, k: nat, e: int)
    requires Laid(cells, C, R) && Fits(C, R, q)
  {
    Beyond(q) < C ==> exists r :: q.r0 <= r < Above(q) && Blocks(cells, C, R, Beyond(q), r, k, e)
  }

  /** The fields of region `k`: a rectangle of the grid given by its
      bottom-left cell, top row and right column, centred midway between its
      bottom-left and top-right cells, with no portals and no search data yet. */
  ghost predicate RegionShape(cells: seq<Cell>, C: nat, R: nat, pos: seq<Vec3>, region: Region, k: nat)
    requires Laid(cells, C, R) && |pos| == |cells|
  {
    && 0 <= region.bottomLeft < |cells|
    && var q := RectOf(cells, region);
    && Fits(C, R, q)
    && region.id == k && region.qualifier == Elevation
    && region.bottomLeft == Idx(C, q.c0, q.r0)
    && region.top == TopRow(C, q) && region.right == RightColumn(C, q)
    && 0 <= Corner(C, q) < |cells|
    && region.center == Midpoint(pos[region.bottomLeft], pos[Corner(C, q)])
    && region.portals == [] && region.status == Unvisited
    && region.parent == Option.None && region.portalOfParent == Option.None
  }

  /** The cells of region `k`: exactly the cells of its rectangle carry id `k`,
      and its cell list holds each of them once, the bottom-left one first. */
  ghost predicate RegionCells(cells: seq<Cell>, C: nat, R: nat, region: Region, q: Rect, k: nat)
    requires Laid(cells, C, R)
  {
    && (forall c, r :: InGrid(C, R, c, r) ==> (Label(cells, C, R, c, r) == k <==> InRect(q, c, r)))
    && (forall c, r :: InGrid(C, R, c, r) ==> (Idx(C, c, r) in region.cells <==> InRect(q, c, r)))
    && (forall i :: 0 <= i < |region.cells| ==> 0 <= region.cells[i] < |cells|)
    && (forall i, j :: 0 <= i < j < |region.cells| ==> region.cells[i] != region.cells[j])
    && 0 < |region.cells| && region.cells[0] == region.bottomLeft
  }

  /** How region `k` was grown: all its cells share the seed's elevation, the
      seed was the first cell of the scan without a region, and the rectangle
      could grow neither north nor east any further. */
  ghost predicate RegionGrowth(cells: seq<Cell>, C: nat, R: nat, q: Rect, k: nat)
    requires Laid(cells, C, R) && Fits(C, R, q)
  {
    var e := Elev(cells, C, R, q.c0, q.r0);
    && (forall c, r :: InRect(q, c, r) ==> Elev(cells, C, R, c, r) == e)
    && (forall c, r :: InGrid(C, R, c, r) && Precedes(c, r, q.c0, q.r0) ==> 0 <= Label(cells, C, R, c, r) < k)
    && NorthShut(cells, C, R, q, k, e) && EastShut(cells, C, R, q, k, e)
  }

  ghost predicate IsRegion(cells: seq<Cell>, C: nat, R: nat, pos: seq<Vec3>, region: Region, k: nat)
    requires Laid(cells, C, R) && |pos| == |cells|
  {
    && RegionShape(cells, C, R, pos, region, k)
    && RegionCells(cells, C, R, region, RectOf(cells, region), k)
    && RegionGrowth(cells, C, R, RectOf(cells, region), k)
  }

  /** The scan's invariant: the grid is `cells0` up to region ids, every id is
      -1 or the id of a region made so far, and each region made so far is as
      IsRegion describes. */
  ghost predicate Segmented(cells0: seq<Cell>, cells: seq<Cell>, C: nat, R: nat, pos: seq<Vec3>, regions: seq<Region>)
  {
    && Laid(cells, C, R) && SameTerrain(cells0, cells) && |pos| == |cells|
    && (forall c, r :: InGrid(C, R, c, r) ==> -1 <= Label(cells, C, R, c, r) < |regions|)
    && (forall k :: 0 <= k < |regions| ==> IsRegion(cells, C, R, pos, regions[k], k))
  }

  /** What the scan body leaves for a new region `id` seeded at (c0, r0): the
      grown rectangle `q` of the seed's elevation that can grow no further, and
      the region's fields describing it. */
  ghost predicate Seeded(cells: seq<Cell>, out: seq<Cell>, C: nat, R: nat, pos: seq<Vec3>, region: Region,
                         q: Rect, id: nat, c0: int, r0: int)
  {
    && Laid(cells, C, R) && |pos| == |cells| && InGrid(C, R, c0, r0)
    && var ci := Idx(C, c0, r0);
    && 0 <= ci < |cells|
    && var e := cells[ci].elevation;
    && Growing(out, cells, C, R, q, region.top, region.right, region.cells, id, e)
    && q.c0 == c0 && q.r0 == r0
    && !NorthOpen(out, C, R, q, e) && !EastOpen(out, C, R, q, e)
    && 0 < |region.cells| && region.cells[0] == ci && region.bottomLeft == ci
    && region.id == id && region.qualifier == Elevation
    && 0 <= Corner(C, q) < |cells| && region.center == Midpoint(pos[ci], pos[Corner(C, q)])
    && region.portals == [] && region.status == Unvisited
    && region.parent == Option.None && region.portalOfParent == Option.None
  }

  /** The body of the scan for a cell without a region: a new region `id`
      seeded there is grown, and gets its centre and frontiers. The centre is
      midway between the bottom-left and top-right cells' positions `pos`, or
      the single cell's position. */
  method NewRegionAt(cells: seq<Cell>, C: nat, R: nat, pos: seq<Vec3>, ci: int, ghost c0: int, ghost r0: int, id: nat)
    returns (out: seq<Cell>, region: Region, ghost q: Rect)
    requires Laid(cells, C, R) && |pos| == |cells| && InGrid(C, R, c0, r0) && ci == Idx(C, c0, r0)
    requires Label(cells, C, R, c0, r0) == -1 && LabelsBelow(cells, C, R, id)
    ensures Seeded(cells, out, C, R, pos, region, q, id, c0, r0)
  {
    var top, right, members, topRight;
    out, top, right, members, topRight, q := GrowRegion(cells, C, R, ci, c0, r0, id);
    assert InGrid(C, R, q.c0 + q.w - 1, q.r0 + q.h - 1);
    var center;
    if |members| > 1 {
      center := Midpoint(pos[ci], pos[topRight]);
    } else {
      center := pos[members[0]];
    }
    region := NewRegion(id, Elevation, ci);
    region := FinishSettingRegion(region.(cells := members), center, top, right);
  }

  /** Painting region `id` only turned cells without a region into cells of `id`. */
  ghost predicate Overwrites(cells: seq<Cell>, out: seq<Cell>, C: nat, R: nat, id: nat)
  {
    && Laid(cells, C, R) && Laid(out, C, R) && SameTerrain(cells, out)
    && forall c, r :: InGrid(C, R, c, r) ==>
         Label(out, C, R, c, r) == Label(cells, C, R, c, r) || (Label(cells, C, R, c, r) == -1 && Label(out, C, R, c, r) == id)
  }

  lemma GrowingOverwrites(out: seq<Cell>, cells: seq<Cell>, C: nat, R: nat, q: Rect, top: seq<int>,
                          right: seq<int>, members: seq<int>, id: nat, e: int)
    requires Growing(out, cells, C, R, q, top, right, members, id, e)
    ensures Overwrites(cells, out, C, R, id)
    ensures forall c, r :: InGrid(C, R, c, r) ==> Elev(out, C, R, c, r) == Elev(cells, C, R, c, r)
  {
    LaidKept(cells, out, C, R);
  }

  /** A region made earlier is unaffected by painting a later one. */
  lemma OldRegionKept(cells: seq<Cell>, out: seq<Cell>, C: nat, R: nat, pos: seq<Vec3>, region: Region, k: nat, id: nat)
    requires Overwrites(cells, out, C, R, id) && |pos| == |cells| && k < id
    requires IsRegion(cells, C, R, pos, region, k)
    ensures IsRegion(out, C, R, pos, region, k)
  {
    LaidKept(cells, out, C, R);
    var bl := region.bottomLeft;
    assert cells[bl].(regionId := -1) == out[bl].(regionId := -1);
    var q := RectOf(cells, region);
    assert RectOf(out, region) == q;
    var e := Elev(cells, C, R, q.c0, q.r0);
    if Above(q) < R {
      var c :| q.c0 <= c < Beyond(q) && Blocks(cells, C, R, c, Above(q), k, e);
      assert Blocks(out, C, R, c, Above(q), k, e);
    }
    if Beyond(q) < C {
      var r :| q.r0 <= r < Above(q) && Blocks(cells, C, R, Beyond(q), r, k, e);
      assert Blocks(out, C, R, Beyond(q), r, k, e);
    }
  }

  /** A new region satisfies IsRegion once grown: the scan reached its seed
      with every earlier cell assigned and every id below `id`. */
  lemma NewRegionIs(cells: seq<Cell>, out: seq<Cell>, C: nat, R: nat, pos: seq<Vec3>, region: Region, q: Rect,
                    id: nat, c0: int, r0: int)
    requires Seeded(cells, out, C, R, pos, region, q, id, c0, r0)
    requires Scanned(cells, C, R, c0, r0)
    requires forall c, r :: InGrid(C, R, c, r) ==> -1 <= Label(cells, C, R, c, r) < id
    ensures IsRegion(out, C, R, pos, region, id)
  {
    LaidKept(cells, out, C, R);
    assert RectOf(out, region) == q;
    NewRegionCells(cells, out, C, R, pos, region, q, id, c0, r0);
    NewRegionGrowth(cells, out, C, R, pos, region, q, id, c0, r0);
  }

  lemma NewRegionCells(cells: seq<Cell>, out: seq<Cell>, C: nat, R: nat, pos: seq<Vec3>, region: Region, q: Rect,
                       id: nat, c0: int, r0: int)
    requires Seeded(cells, out, C, R, pos, region, q, id, c0, r0)
    requires forall c, r :: InGrid(C, R, c, r) ==> -1 <= Label(cells, C, R, c, r) < id
    ensures RegionCells(out, C, R, region, q, id)
  {
    forall c, r | InGrid(C, R, c, r) && Idx(C, c, r) in region.cells
      ensures InRect(q, c, r)
    {
      var i :| 0 <= i < |region.cells| && region.cells[i] == Idx(C, c, r);
      assert Label(out, C, R, c, r) == id;
    }
  }

  lemma NewRegionGrowth(cells: seq<Cell>, out: seq<Cell>, C: nat, R: nat, pos: seq<Vec3>, region: Region, q: Rect,
                        id: nat, c0: int, r0: int)
    requires Seeded(cells, out, C, R, pos, region, q, id, c0, r0)
    requires Scanned(cells, C, R, c0, r0)
    requires forall c, r :: InGrid(C, R, c, r) ==> -1 <= Label(cells, C, R, c, r) < id
    ensures RegionGrowth(out, C, R, q, id)
  {
    LaidKept(cells, out, C, R);
    var e := Elev(cells, C, R, c0, r0);
    assert e == Elev(out, C, R, q.c0, q.r0);
    forall c, r | InGrid(C, R, c, r) && Precedes(c, r, q.c0, q.r0)
      ensures 0 <= Label(out, C, R, c, r) < id
    {
      assert Label(cells, C, R, c, r) != -1;
    }
    if Above(q) < R {
      var c :| q.c0 <= c < Beyond(q) && !Joinable(out, C, R, c, Above(q), e);
      assert Blocks(out, C, R, c, Above(q), id, e);
    }
    if Beyond(q) < C {
      var r :| q.r0 <= r < Above(q) && !Joinable(out, C, R, Beyond(q), r, e);
      assert Blocks(out, C, R, Beyond(q), r, id, e);
    }
  }

  /** The body of the scan for one cell: skipped when it already has a region,
      otherwise the seed of region number |regions|. */
  method ScanCell(cells: seq<Cell>, C: nat, R: nat, pos: seq<Vec3>, regions: seq<Region>, ci: int,
                  ghost column: int, ghost row: int, ghost cells0: seq<Cell>)
    returns (out: seq<Cell>, regions': seq<Region>)
    requires Segmented(cells0, cells, C, R, pos, regions) && Scanned(cells, C, R, column, row)
    requires InGrid(C, R, column, row) && ci == Idx(C, column, row)
    ensures Segmented(cells0, out, C, R, pos, regions') && Scanned(out, C, R, column + 1, row)
  {
    if cells[ci].regionId != -1 {
      out, regions' := cells, regions;
      return;
    }
    var region: Region;
    ghost var q: Rect;
    out, region, q := NewRegionAt(cells, C, R, pos, ci, column, row, |regions|);
    regions' := regions + [region];
    NewRegionIs(cells, out, C, R, pos, region, q, |regions|, column, row);
    GrowingOverwrites(out, cells, C, R, q, region.top, region.right, region.cells, |regions|, cells[ci].elevation);
    forall k | 0 <= k < |regions|
      ensures IsRegion(out, C, R, pos, regions'[k], k)
    {
      OldRegionKept(cells, out, C, R, pos, regions[k], k, |regions|);
    }
    SameTerrainTrans(cells0, cells, out);
    assert InRect(q, column, row);
  }

  /** SegmentGridByElevation over a grid whose cells have no region yet. Every
      cell ends up in exactly one region, region `k` has id `k` and is the
      rectangle IsRegion describes; nothing but the region ids changes. */
  method SegmentGrid(cells: seq<Cell>, C: nat, R: nat, pos: seq<Vec3>) returns (out: seq<Cell>, regions: seq<Region>)
    requires Laid(cells, C, R) && |pos| == |cells|
    requires forall i :: 0 <= i < |cells| ==> cells[i].regionId == -1
    ensures Laid(out, C, R) && SameTerrain(cells, out)
    ensures forall i :: 0 <= i < |out| ==> 0 <= out[i].regionId < |regions|
    ensures forall k :: 0 <= k < |regions| ==> IsRegion(out, C, R, pos, regions[k], k)
  {
    out, regions := cells, [];
    var ci := 0;
    var row := 0;
    while row < R
      invariant 0 <= row <= R && ci == Idx(C, 0, row)
      invariant Segmented(cells, out, C, R, pos, regions) && Scanned(out, C, R, 0, row)
    {
      var column := 0;
      while column < C
        invariant 0 <= column <= C && ci == Idx(C, column, row)
        invariant Segmented(cells, out, C, R, pos, regions) && Scanned(out, C, R, column, row)
      {
        out, regions := ScanCell(out, C, R, pos, regions, ci, column, row, cells);
        ci := ci + 1;
        column := column + 1;
      }
      NextRowStart(C, row);
      row := row + 1;
    }
    forall i | 0 <= i < |out|
      ensures 0 <= out[i].regionId < |regions|
    {
      assert C == 0 ==> R * C == 0;
      IdxOnto(C, R, i);
      assert Label(out, C, R, i % C, i / C) != -1;
    }
  }
}
